=== FILE: README.md ===
# Speech trainer: the game and scoring core in Dafny

This project models the rule-based heart of an AI speech trainer. A user practises a talk in
front of a camera and microphone; the backend analyses each video frame and audio chunk, scores
the performance, keeps a combo counter with multipliers and achievements, coaches through a
language model, and tracks challenges and a leaderboard; the web client guards its pages, rates
passwords and shows live challenge progress.

Every piece modelled here is a pure function over immutable data. A stateful class becomes a
record plus transition functions. The modules follow the source files:

- `Difficulty` models `backend/app/core/difficulty.py`: the level table, its fallback lookup, the capped score multiplier and the penalty calculator.
- `Scoring` models `backend/app/core/scoring_system.py`: the four component scorers, the weighted total, grade, strengths and weaknesses, feedback priority and session summary.
- `ComboEngine` models `backend/app/agents/realtime/realtime_feedback_agent.py`: combo hysteresis, multiplier tiers, feedback messages and achievements.
- `VoiceQuality` models `backend/app/core/voice_quality_analyzer.py`: filler words, rating bands, recommendations, overall score and the short-chunk guard.
- `VoiceAgent` models `backend/app/agents/realtime/realtime_voice_agent.py`: rolling windows, the filler check, pace flags, voice score and session statistics.
- `FacialAgent` models `backend/app/agents/realtime/realtime_facial_agent.py`: the landmark formulas, emotion rules, the 30-frame history and its averages.
- `EmotionDetector` models `backend/app/core/emotion_detector.py`: per-frame aggregation of classifier outputs, the emotion timeline and trend smoothing.
- `CoachEngine` models `backend/app/core/gemini_coach_engine.py`: snapshot, strength and weakness picker, rate limit and feedback history.
- `CoachSession` models `backend/app/core/ai_coach_session.py`: the session that ties the analysers, the coach and the scoring system together.
- `ChallengeTracker` models `backend/app/core/challenge_tracker.py`: per-challenge progress rules and the user summary.
- `GameApi` models `backend/app/api/game.py`: difficulty endpoints, active challenges, claims, the progress listing, the leaderboard and user ranks.
- `RouteGuard` models `frontend-next/src/middleware.ts`.
- `PasswordStrength` models `frontend-next/src/components/auth/PasswordStrength.tsx`.
- `ClientChallenges` models the `updateChallengeProgress` mapping in `frontend-next/src/hooks/useActiveSessionChallenges.ts`.

Shared helpers:

- `Wrappers` provides `Option` and `Result`.
- `Text` models Python's `split`, `lower`, `strip` and substring test on ASCII whitespace and ASCII letters.
- `Stats` provides sums, means, extremes, clamping, counts and Python's round-half-to-even.
- `Sorting` provides a stable descending sort, take, bounded windows and occurrence counts.

Scores are `real`, which is exact rather than IEEE arithmetic. Python's `int()` of a non-negative
value is floor. A dictionary whose key is absent reads as the `.get` default. Where two modules
exchange dictionaries under different key names, the dictionaries are maps, so the mismatch
survives. Collections in the database are sequences in insertion order or maps keyed as the
queries key them. An HTTP error is an `Err` carrying its status code. Clocks, decoders, signal
measurements, classifiers and the language model are parameters.

## Model

| member | source | states |
|---|---|---|
| Sorting.SortDescStable | backend/app/core/emotion_detector.py:145-147 | Sorting by a key, highest first, keeps the relative order of entries with equal keys, as Python's sort does. |
| Sorting.SortDescAllTied | backend/app/core/emotion_detector.py:232-236 | Sorting entries whose keys all tie leaves them in their original order. |
| Sorting.PushBounded | backend/app/agents/realtime/realtime_voice_agent.py:22-26 | Appending to a bounded window keeps at most its capacity, puts the new item last and drops only the oldest items. |
| Sorting.MostFrequent | backend/app/agents/realtime/realtime_facial_agent.py:405-406 | The most frequent candidate is one of the candidates and occurs at least as often as every other. |
| Text.Words | backend/app/agents/realtime/realtime_voice_agent.py:80 | Whitespace splitting yields only non-empty words without whitespace, and no words exactly for a blank string. |
| Text.StripSpace | backend/app/core/gemini_coach_engine.py:135 | The result is a contiguous slice of the input, every character dropped before or after it is whitespace, and it neither starts nor ends with whitespace. |
| Text.StripSpaceIdempotent | backend/app/core/gemini_coach_engine.py:135 | Stripping an already stripped string changes nothing. |
| Text.StripSpaceEmpty | backend/app/core/gemini_coach_engine.py:135 | A string strips to nothing exactly when it is all whitespace. |
| Difficulty.ParseLevel | backend/app/core/difficulty.py:5-57 | A name denotes a level exactly when it is one of the three keys of the configuration table, and then the level with that name. |
| Difficulty.ConfigsTighten | backend/app/core/difficulty.py:5-57 | Each harder level raises the target score, lowers the filler-word tolerance, narrows the pace range on both sides, and raises the base multiplier, the XP multiplier and the unlock level. |
| Difficulty.GetDifficultyConfig | backend/app/core/difficulty.py:70-72 | The configuration of the named level, or intermediate's for any other name; every configuration has a non-empty pace range and a base multiplier in [1, 2]. |
| Difficulty.UnknownFallsBack | backend/app/core/difficulty.py:70-72 | A name that is not a level gets intermediate's configuration. |
| Difficulty.KnownIsFound | backend/app/core/difficulty.py:70-72 | Each level's own name finds that level's configuration. |
| Difficulty.BreakdownOf | backend/app/core/difficulty.py:86-108 | The breakdown always holds the level's base; the combo bonus 0.1 per full 5 appears exactly when the combo exceeds 5; the streak bonus 0.05 per day exactly when the streak exceeds 3; the perfect bonus 0.5 exactly when every category score exceeds 90 (so also for none); the entries sum to at least 1. |
| Difficulty.MultiplierOf | backend/app/core/difficulty.py:111 | The capped multiplier lies in [1, 5], is 5 exactly when the breakdown sums to 5 or more, and below 5 equals that sum. |
| Difficulty.Scale | backend/app/core/difficulty.py:113 | With a multiplier of at least 1, a non-negative base score is never lowered. |
| Difficulty.CalculateScoreWithMultiplier | backend/app/core/difficulty.py:74-120 | The result echoes the base score, reports the level's breakdown and the multiplier capped from it, and its final score is the base scaled by that multiplier. |
| Difficulty.MultiplierMonotoneInCombo | backend/app/core/difficulty.py:90-111 | A longer combo never lowers the multiplier. |
| Difficulty.PenaltyRule | backend/app/core/difficulty.py:59-68 | Every amount in the penalty table is negative. |
| Difficulty.PenaltyList | backend/app/core/difficulty.py:133-197 | The penalties list holds an entry for a check exactly when that check fires, each entry is the one that check writes, no check appears twice, and the entries come in check order: filler words, too fast, too slow, monotone voice, eye contact, engagement (`InCheckOrder`). |
| Difficulty.CollectOrdered | backend/app/core/difficulty.py:139-197 | Checks run in check order append their entries in check order. |
| Difficulty.PenaltiesNegative | backend/app/core/difficulty.py:139-197 | Every listed amount is negative, the total is never positive, and it is negative as soon as one penalty applies. |
| Difficulty.PenaltyTriggers | backend/app/core/difficulty.py:137-197 | Filler words are penalised above the level's tolerance, too fast above the pace maximum, too slow only for a positive rate below the minimum (never together with too fast), monotone below 20, eye contact below 60, engagement below 50; low volume and incomplete session are never applied. |
| Difficulty.PenaltyAmounts | backend/app/core/difficulty.py:139-197 | The filler-word entry carries the excess count and −10 per excess word; every other entry carries no count and its table amount. |
| Difficulty.ApplyPenalties | backend/app/core/difficulty.py:122-207 | As written: the report lists the penalties and their non-positive total, and the adjusted score is never negative and never below the base score; any penalty strictly raises a non-negative base. |
| Difficulty.ApplyPenaltiesIntended | backend/app/core/difficulty.py:199-200 | Corrected: the adjusted score is never negative and never above a non-negative base, strictly below a positive base once a penalty applies, and the base itself (floored at 0) when none does. |
| Difficulty.DefaultsIncurNothing | backend/app/core/difficulty.py:137-200 | With every metric at its `.get` default, no penalty applies and the adjusted score is 0. |
| Difficulty.PenaltyRaisesScore | backend/app/core/difficulty.py:139-200 | Twenty filler words at beginner level turn a base score of 50 into 100 as written, and into 0 when the penalty is deducted. |
| Scoring.WeightsConvex | backend/app/core/scoring_system.py:24-46 | Each level's four weights are positive and sum to 1, and its good-frame threshold is 50, 65 or 80. |
| Scoring.VoiceScore | backend/app/core/scoring_system.py:126-160 | The voice score lies in [0, 100] and is 50 without metrics. |
| Scoring.FacialScore | backend/app/core/scoring_system.py:162-196 | The facial score lies in [0, 100] and is 50 without metrics. |
| Scoring.DensityPoints | backend/app/core/scoring_system.py:210-217 | Words per second earn 100 exactly inside [1.5, 3.5] and 50 exactly for a positive rate below 1 or any rate above 4.5. |
| Scoring.ContentScore | backend/app/core/scoring_system.py:198-231 | The content score lies in [0, 100] and is 50 without metrics. |
| Scoring.FrequencyPoints | backend/app/core/scoring_system.py:244-249 | A pause frequency earns 100 exactly inside [0.2, 0.6] and 60 exactly below 0.1 or above 0.7. |
| Scoring.PauseLengthPoints | backend/app/core/scoring_system.py:251-255 | An average pause earns 100 exactly inside [0.5, 1.5] and 60 exactly below 0.3 or above 2.0. |
| Scoring.PacingScore | backend/app/core/scoring_system.py:233-265 | The pacing score lies in [0, 100] and is 50 without metrics. |
| Scoring.VoiceMonotoneInClarity | backend/app/core/scoring_system.py:134-160 | A clearer voice never scores lower. |
| Scoring.VoiceUnknownLabels | backend/app/core/scoring_system.py:136-149 | An unknown pitch label scores like "adequate"; an unknown speech-rate label scores between "too_fast" and "optimal". |
| Scoring.SadnessScoresAsNeutral | backend/app/core/scoring_system.py:175-187 | The label "sadness" is not in the emotion table and scores like "neutral", never below "sad". |
| Scoring.DefaultScores | backend/app/core/scoring_system.py:134-263 | A metrics dict holding only defaults scores 70 for voice, 82.5 for content and 91 for pacing. |
| Scoring.GradeOf | backend/app/core/scoring_system.py:267-284 | The grade's position counts exactly the bounds 60, 65, …, 90 the score reaches. |
| Scoring.GradeMonotone | backend/app/core/scoring_system.py:267-284 | A higher score never gets a lower grade. |
| Scoring.SortedScores | backend/app/core/scoring_system.py:294-301 | The four component scores sorted non-increasingly, as a permutation of the source order. |
| Scoring.PerformanceAreasByRank | backend/app/core/scoring_system.py:286-306 | At most two strengths and two weaknesses. A strength scores at least 70 with fewer than two components above it, a weakness below 75 with fewer than two below it; a component at least 70 with two below it is a strength, one below 75 with two above it a weakness. |
| Scoring.TiesKeepSourceOrder | backend/app/core/scoring_system.py:301-304 | With four equal scores the stable sort keeps voice, facial, content, pacing: voice and facial are the strengths, content and pacing the weaknesses. |
| Scoring.SortedTopThree | backend/app/core/scoring_system.py:301 | The first three sorted components are distinct, in non-increasing order, and the fourth scores no more than the third. |
| Scoring.FeedbackPriority | backend/app/core/scoring_system.py:308-333 | The priority list names three components. |
| Scoring.PriorityByImportance | backend/app/core/scoring_system.py:323-333 | The three are distinct, ordered by weight × (100 − score), and the one left out is no more important than the third. |
| Scoring.NewScoringSystem | backend/app/core/scoring_system.py:19-50 | Construction succeeds exactly for the three level names, with an empty history, and fails with KeyError otherwise. |
| Scoring.WeightedSumBetween | backend/app/core/scoring_system.py:84-91 | The weighted total lies between the smallest and the largest component score. |
| Scoring.CalculateScore | backend/app/core/scoring_system.py:52-124 | The result is appended to the history and nothing else changes; the components are the four scorers' results, the total is their weighted sum under the level's weights (the clamp to [0, 100] never applies, since the weights are convex) and so lies between their minimum and maximum, the areas and priority are those of the components, and the grade and good-frame flag agree with the total. |
| Scoring.GoodFrames | backend/app/core/scoring_system.py:387 | The good-frame count never exceeds the number of frames. |
| Scoring.TrendOf | backend/app/core/scoring_system.py:365-376 | The trend is "insufficient data" exactly for one to five scores. |
| Scoring.GetSessionSummary | backend/app/core/scoring_system.py:335-388 | Without history the summary is all zeros and "stable". Otherwise the minimum, average and maximum are ordered, bound every total and are attained; the good-frame count and the best and worst component are present, and the average is the component average of the total. |
| Scoring.BestAndWorstAreas | backend/app/core/scoring_system.py:354-363 | The best component has the largest average, the first such in dict order; the worst has the smallest, the first such. |
| Scoring.AveragesInRange | backend/app/core/scoring_system.py:354-360 | Over well-formed results every component average lies in [0, 100]. |
| Scoring.GoodFramesAppend | backend/app/core/scoring_system.py:123-387 | Appending a result raises the good-frame count by one exactly when the result is a good frame. |
| Scoring.SummaryAfterAppend | backend/app/core/scoring_system.py:123-387 | After one more result the summary counts one more frame, and one more good frame exactly when that result is good. |
| Scoring.ConstantIsStable | backend/app/core/scoring_system.py:366-374 | More than five equal scores give "stable". |
| Scoring.RisingIsImproving | backend/app/core/scoring_system.py:366-370 | When every second-half score exceeds 1.05 times every first-half score, the trend is "improving". |
| Scoring.FallingIsDeclining | backend/app/core/scoring_system.py:366-372 | When every second-half score falls below 0.95 times every first-half score, the trend is "declining". |
| ComboEngine.ThresholdsOf | backend/app/agents/realtime/realtime_feedback_agent.py:15-19 | Every level's combo increment is at least 1. |
| ComboEngine.StatusOf | backend/app/agents/realtime/realtime_feedback_agent.py:179-190 | The status by combo is never COMBO_BROKEN or KEEP_TRYING, and is START exactly at combo 0. |
| ComboEngine.MultiplierOf | backend/app/agents/realtime/realtime_feedback_agent.py:192-201 | The multiplier lies in [1, 3]. |
| ComboEngine.TiersAgree | backend/app/agents/realtime/realtime_feedback_agent.py:179-201 | The multiplier is the one of the combo's status tier, and never falls as the combo grows. |
| ComboEngine.UpdateCombo | backend/app/agents/realtime/realtime_feedback_agent.py:136-177 | A good score counts one more good frame and raises the combo on every increment-th one; a score more than 20 below the threshold resets both counters, reporting COMBO_BROKEN only if a combo was lost; a score in the 20-point band keeps everything. The maximum follows only an increment, and the multiplier is that of the new combo. |
| ComboEngine.UpdatePreservesInvariant | backend/app/agents/realtime/realtime_feedback_agent.py:146-168 | The combo stays the number of completed increments of the good-frame run and never exceeds the maximum, which never falls. |
| ComboEngine.GoodRun | backend/app/agents/realtime/realtime_feedback_agent.py:146-153 | After a run of good frames the good-frame count grew by the run's length and the combo is that count divided by the increment. |
| ComboEngine.KindOf | backend/app/agents/realtime/realtime_feedback_agent.py:212-250 | The first four rules are positive tips, the middle four warnings, the last four errors. |
| ComboEngine.FiredRules | backend/app/agents/realtime/realtime_feedback_agent.py:210-250 | A rule is listed exactly when it fires, and only rules of the given list are listed. |
| ComboEngine.FiredRulesOrdered | backend/app/agents/realtime/realtime_feedback_agent.py:210-250 | The fired rules keep the order of the rule list. |
| ComboEngine.RuleOrderIncreases | backend/app/agents/realtime/realtime_feedback_agent.py:212-250 | The rules are checked in the order of the twelve `if` statements. |
| ComboEngine.GenerateFeedback | backend/app/agents/realtime/realtime_feedback_agent.py:253 | At most three messages. |
| ComboEngine.FeedbackFiresInOrder | backend/app/agents/realtime/realtime_feedback_agent.py:203-253 | Each message belongs to a rule that fired and is that rule's message, and messages appear in rule order. |
| ComboEngine.FeedbackSkipsOnlyWhenFull | backend/app/agents/realtime/realtime_feedback_agent.py:252-253 | A rule that fires but is not shown was cut off: three messages were shown, all from earlier rules. |
| ComboEngine.NewlyUnlocked | backend/app/agents/realtime/realtime_feedback_agent.py:264-277 | An achievement is unlocked now exactly when it is defined, not yet unlocked and its condition holds; none twice. |
| ComboEngine.CheckAchievements | backend/app/agents/realtime/realtime_feedback_agent.py:255-279 | The unlocked list grows by exactly the new achievements, which are those not yet unlocked whose condition holds, each once. |
| ComboEngine.CatalogueComplete | backend/app/agents/realtime/realtime_feedback_agent.py:34-74 | The achievement catalogue, in definition order, lists every achievement, each once. |
| ComboEngine.RunningAverage | backend/app/agents/realtime/realtime_feedback_agent.py:128 | Over at least one frame, the average times the frame count is the total score. |
| ComboEngine.CheckKeepsDistinct | backend/app/agents/realtime/realtime_feedback_agent.py:264-271 | No achievement is ever unlocked twice. |
| ComboEngine.CheckIdempotent | backend/app/agents/realtime/realtime_feedback_agent.py:264-271 | Checking the same state again unlocks nothing more. |
| ComboEngine.TotalXpAppend | backend/app/agents/realtime/realtime_feedback_agent.py:289-292 | The XP of two lists of achievements adds up. |
| ComboEngine.NewAgent | backend/app/agents/realtime/realtime_feedback_agent.py:11-33 | A new agent satisfies the invariant and starts with no frames, no score, no history and no achievements. |
| ComboEngine.Reset | backend/app/agents/realtime/realtime_feedback_agent.py:295-303 | Reset gives back exactly a new agent of the same difficulty. |
| ComboEngine.CheckStateOf | backend/app/agents/realtime/realtime_feedback_agent.py:108-113 | The achievement state: the combo, good frames only at a base of 90 or more, all frames while no filler word is flagged, all frames while eye contact is at least 0.9. |
| ComboEngine.Step | backend/app/agents/realtime/realtime_feedback_agent.py:87-134 | One more frame; base score 0.6 × engagement + 0.4 × voice; combo, best combo, consecutive count and status are those `UpdateCombo` gives for the base score, and the new achievements are those `CheckAchievements` unlocks for the frame's counters; the final score is the truncated product with the combo multiplier and is added to the total; the average times the frame count is the total; the feedback is the message list; the unlocked list grows by the new achievements; the response joins a history of at most 100. |
| ComboEngine.AnalyzePerformance | backend/app/agents/realtime/realtime_feedback_agent.py:76-144 | The frame is counted first. For an unknown difficulty the threshold lookup fails with KeyError and nothing else changes; otherwise the response is the newest history entry and has at most three messages. |
| ComboEngine.AnalyzeKeepsValid | backend/app/agents/realtime/realtime_feedback_agent.py:76-134 | Analysis keeps the agent's invariant, never lowers the maximum combo, and a combo of 10 or more has unlocked "first_combo". |
| ComboEngine.GetSessionSummary | backend/app/agents/realtime/realtime_feedback_agent.py:281-293 | Frames, total score and maximum combo as held, the number of achievements, the average over at least one frame, and the XP of the unlocked achievements. |
| ComboEngine.XpGrowsByNewAchievements | backend/app/agents/realtime/realtime_feedback_agent.py:108-292 | After a frame the summary's XP grew by exactly the XP of the achievements that frame unlocked. |
| VoiceQuality.FillerTokens | backend/app/core/voice_quality_analyzer.py:336-339 | Only words of the vocabulary are collected, each the cleaned form of some token; every token that cleans to a vocabulary word is collected, and each word occurs exactly as often as there are tokens cleaning to it, so the list is the cleaned fillers of the transcript up to order. |
| VoiceQuality.FillerTokensSpaceFree | backend/app/core/voice_quality_analyzer.py:336-339 | Tokens without spaces give collected words without spaces. |
| VoiceQuality.Percent | backend/app/core/voice_quality_analyzer.py:341-346 | A share in percent lies in [0, 100], is 0 of nothing and 100 of all. |
| VoiceQuality.DetectFillerWords | backend/app/core/voice_quality_analyzer.py:331-347 | The detected words are exactly the distinct fillers among the cleaned tokens, `set(detected_fillers)`; the count is the number of lower-cased tokens that clean to a filler, at most the number of words, zero exactly when no word is detected, and zero with density 0 for a blank transcript; the density lies in [0, 100]. |
| VoiceQuality.PhrasesNeverDetected | backend/app/core/voice_quality_analyzer.py:26-338 | Splitting on whitespace means the multi-word fillers ("you know", "kind of", …) are never detected. |
| VoiceQuality.DensityIsShare | backend/app/core/voice_quality_analyzer.py:341 | The density is the filler count as a percentage of the word count. |
| VoiceQuality.RateSpeechRate | backend/app/core/voice_quality_analyzer.py:349-356 | The rating is never "normal"; it is too slow exactly below 100 WPM and too fast exactly above 160. |
| VoiceQuality.RatePitchVariation | backend/app/core/voice_quality_analyzer.py:358-365 | Monotone exactly below 2 semitones, expressive exactly from 8. |
| VoiceQuality.PitchRatingMonotone | backend/app/core/voice_quality_analyzer.py:358-365 | More variation never gets a worse rating. |
| VoiceQuality.CalculateSpeechRate | backend/app/core/voice_quality_analyzer.py:317-329 | The rate is never negative, is 0 exactly for a duration below 0.1 s or a blank transcript, and otherwise times the duration gives 60 times the word count. |
| VoiceQuality.Keep | backend/app/core/voice_quality_analyzer.py:367-393 | A recommendation is kept exactly when its metric calls for it. |
| VoiceQuality.GenerateRecommendations | backend/app/core/voice_quality_analyzer.py:367-393 | At most six recommendations, each one a candidate whose metric calls for it. |
| VoiceQuality.RecommendationsFollowMetrics | backend/app/core/voice_quality_analyzer.py:371-391 | "Slow down" exactly when too fast, "speed up" exactly when too slow (never both), pitch advice exactly when monotone, filler advice exactly above 5% carrying that density, volume advice below 0.6 consistency, articulation advice below 0.6 clarity. |
| VoiceQuality.RecommendationsOrdered | backend/app/core/voice_quality_analyzer.py:371-391 | Recommendations appear in the order of the checks. |
| VoiceQuality.FillerPoints | backend/app/core/voice_quality_analyzer.py:428 | The filler sub-score lies in [0, 1] for a non-negative density, is 0 from 10% on, and is otherwise 1 − density/10. |
| VoiceQuality.OverallScore | backend/app/core/voice_quality_analyzer.py:395-440 | The overall score lies in [0, 100] and is the weighted sum times 100 whenever that sum lies in [0, 1]. |
| VoiceQuality.OverallUnclipped | backend/app/core/voice_quality_analyzer.py:400-440 | With inputs in [0, 1] the weighted sum lies in [0, 1], so the clip never applies. |
| VoiceQuality.PerfectVoice | backend/app/core/voice_quality_analyzer.py:400-440 | Perfect clarity, consistency and stability, no fillers, expressive pitch and optimal pace score 100. |
| VoiceQuality.OverallMonotoneInClarity | backend/app/core/voice_quality_analyzer.py:410-440 | More clarity never lowers the overall score. |
| VoiceQuality.Complete | backend/app/core/voice_quality_analyzer.py:76-120 | A full analysis rates its pace and pitch, derives the recommendations and the overall score from the finished metrics, and keeps the score in [0, 100]. |
| VoiceQuality.AnalyzeAudioChunk | backend/app/core/voice_quality_analyzer.py:41-125 | As written: a chunk under half a second returns the defaults; any longer chunk carries the signal measurements through, takes its fillers from a non-empty transcript, rates a speech rate of 0 as too slow, rates the pitch variation, recommends from the metrics and scores them in [0, 100]. |
| VoiceQuality.RateAlwaysTooSlow | backend/app/core/voice_quality_analyzer.py:54-110 | As written, every analysed chunk is rated too slow and told to speed up. |
| VoiceQuality.AnalyzeAudioChunkIntended | backend/app/core/voice_quality_analyzer.py:108-329 | Corrected: a chunk of at least half a second is analysed the same way, except that its speech rate is computed from the transcript over the chunk's duration before it is rated, and is 0 exactly for a blank transcript. |
| VoiceQuality.IntendedRatesThePace | backend/app/core/voice_quality_analyzer.py:108-356 | Corrected: a chunk spoken at 100 to 160 WPM is rated optimal and gets no pace advice. |
| VoiceAgent.FirstContained | backend/app/agents/realtime/realtime_voice_agent.py:158-162 | The first phrase (in iteration order) contained in the text is returned; None exactly when no phrase is contained. |
| VoiceAgent.DetectFiller | backend/app/agents/realtime/realtime_voice_agent.py:151-162 | A detected filler is one of the eleven listed phrases and occurs as a substring of the lower-cased transcript; nothing is detected exactly when no listed phrase occurs. |
| VoiceAgent.SubstringFalsePositive | backend/app/agents/realtime/realtime_voice_agent.py:156-160 | Substring matching flags "also" as containing a filler ("so"). |
| VoiceAgent.Squares | backend/app/agents/realtime/realtime_voice_agent.py:143 | The element-wise square of the samples keeps their length and squares each one. |
| VoiceAgent.CalculateVolume | backend/app/agents/realtime/realtime_voice_agent.py:137-149 | A non-positive mean square gives the -100 dB floor; otherwise the decibel conversion of the mean square rounded to 2 digits, which is under -40 exactly when the unrounded value is under -40.005. |
| VoiceAgent.RoundedVolumeThreshold | backend/app/agents/realtime/realtime_voice_agent.py:148-192 | A volume rounded to 2 digits falls under the -40 dB quiet line exactly when it was under -40.005. |
| VoiceAgent.SumOfZeros | backend/app/agents/realtime/realtime_voice_agent.py:143 | Silent samples sum to zero. |
| VoiceAgent.SilenceIsMinus100 | backend/app/agents/realtime/realtime_voice_agent.py:146-149 | An all-zero chunk reads as -100 dB whatever the decibel conversion is. |
| VoiceAgent.CalculateVoiceScore | backend/app/agents/realtime/realtime_voice_agent.py:164-195 | The voice score is clamped into [0, 100] and, because the penalties total at most 60, is never below 40. |
| VoiceAgent.ScoreIgnoresScoreField | backend/app/agents/realtime/realtime_voice_agent.py:164-195 | The score does not depend on the score field of the analysis it is computed from. |
| VoiceAgent.NoFaultsScoresFull | backend/app/agents/realtime/realtime_voice_agent.py:169-195 | Without a filler, a pace flag, a flat pitch, an unsteady or quiet volume the score is 100. |
| VoiceAgent.FillerNeverHelps | backend/app/agents/realtime/realtime_voice_agent.py:171-173 | Detecting a filler never raises the score. |
| VoiceAgent.NewAgent | backend/app/agents/realtime/realtime_voice_agent.py:13-31 | A new agent starts with empty windows of at most 50 entries and zero counters. |
| VoiceAgent.PaceOf | backend/app/agents/realtime/realtime_voice_agent.py:80-91 | The pace is the word count times 60; too fast above 180, too slow below 100 with at least one word, never both. |
| VoiceAgent.PaceFlagsByWordCount | backend/app/agents/realtime/realtime_voice_agent.py:80-91 | Because the rate is a multiple of 60, four or more words are too fast and exactly one word is too slow. |
| VoiceAgent.TranscriptStep | backend/app/agents/realtime/realtime_voice_agent.py:73-91 | A missing or empty transcript changes nothing; otherwise the filler is detected and counted, the word total grows by the word count, the rate joins the bounded window and the pace flags are set. Pitch and volume are untouched. |
| VoiceAgent.AnalyzeAudioChunk | backend/app/agents/realtime/realtime_voice_agent.py:33-113 | An empty chunk returns the default analysis and leaves the agent alone; otherwise pitch and volume join their windows, the transcript step runs, the pitch variation (the window's deviation rounded to 2 digits) and the volume consistency (rounded to 1 digit) come from the windows only when they hold two or more readings, and the score is the voice score of the result. The windows stay within 50. |
| VoiceAgent.RoundedThresholds | backend/app/agents/realtime/realtime_voice_agent.py:93-190 | Python's round-half-to-even moves the score's thresholds on the raw values: pitch deviation under 4.995 is monotone and over 20.005 lively; consistency over 80.05 is steady and under 49.95 unsteady. |
| VoiceAgent.ScoreSeesRoundedDeviations | backend/app/agents/realtime/realtime_voice_agent.py:93-190 | On a chunk with two or more readings in each window, the pitch and consistency adjustments of the score apply exactly when the raw window deviations cross the shifted thresholds. |
| VoiceAgent.WindowsSlide | backend/app/agents/realtime/realtime_voice_agent.py:22-26 | Each window grows by one until it holds 50 readings, then drops its oldest; the newest reading is last and the older ones keep their order. |
| VoiceAgent.TranscriptEffects | backend/app/agents/realtime/realtime_voice_agent.py:73-91 | For a non-empty transcript the chunk result reports its filler and pace, and the agent's counters grow by the filler and word counts. |
| VoiceAgent.WindowMean | backend/app/agents/realtime/realtime_voice_agent.py:202-204 | The mean is the window's average: 0 for an empty window, otherwise the value that times the number of readings is their sum, lying between the smallest and largest reading (`Averages`). |
| VoiceAgent.GetSessionStats | backend/app/agents/realtime/realtime_voice_agent.py:197-208 | Each average is 0 for an empty window and otherwise the window's mean: times the number of readings it is their sum, and it lies between the window's extremes (`Averages`); the totals are the counters; the filler percentage times the word count (at least 1) is 100 times the filler count. |
| VoiceAgent.Reset | backend/app/agents/realtime/realtime_voice_agent.py:210-217 | Reset empties all windows and zeroes both counters. |
| VoiceAgent.ResetStatsZero | backend/app/agents/realtime/realtime_voice_agent.py:197-217 | Statistics taken right after a reset are all zero. |
| FacialAgent.EyeContact | backend/app/agents/realtime/realtime_facial_agent.py:326-345 | The eye-contact score lies in [0, 1] for any landmarks and is 1 exactly when the eyes are level and the nose is centred. |
| FacialAgent.SmileScore | backend/app/agents/realtime/realtime_facial_agent.py:347-369 | The smile score lies in [0, 1]; a mouth of zero width scores 0; otherwise it is 0 exactly when the mouth is at least half as tall as wide and 1 exactly when it is at most a sixth as tall as wide. |
| FacialAgent.RatioFacts | backend/app/agents/realtime/realtime_facial_agent.py:363-366 | The aspect-ratio thresholds of the smile formula restated without division. |
| FacialAgent.EstimateEmotion | backend/app/agents/realtime/realtime_facial_agent.py:371-384 | Happy exactly above smile 0.6, confident for a smile in (0.3, 0.6], nervous for a small smile with eye contact below 0.3, neutral otherwise; the confidence lies in [0.5, 0.8]. |
| FacialAgent.ConfidenceRisesWithSmile | backend/app/agents/realtime/realtime_facial_agent.py:377-384 | At fixed eye contact a larger smile never lowers the estimate's confidence. |
| FacialAgent.FromLandmarks | backend/app/agents/realtime/realtime_facial_agent.py:164-183 | A face found by the mesh gets the landmark eye-contact and smile scores, the rule-based emotion and confidence, and an engagement of 100 times the weighted sum capped at 100, which can never exceed 96. |
| FacialAgent.FromCascades | backend/app/agents/realtime/realtime_facial_agent.py:191-215 | A face found by the cascades gets eye contact 0.8, 0.4 or 0 for two, one or no eyes, smile 0.9 with "happy" and confidence 0.8 when a smile is found, otherwise "neutral" with 0.6, and an engagement between 10 and 76. |
| FacialAgent.Analyse | backend/app/agents/realtime/realtime_facial_agent.py:94-115 | A frame in which the emotion detector found a face raises before it is recorded (the engagement classifier it calls is not defined), as does the cascade path without a cascade file; no face leaves the default analysis; a mesh or cascade face gives the corresponding analysis. |
| FacialAgent.NewAgent | backend/app/agents/realtime/realtime_facial_agent.py:71-73 | A new agent has an empty history. |
| FacialAgent.UpdateHistory | backend/app/agents/realtime/realtime_facial_agent.py:415-419 | The history grows by one until it holds 30 analyses, then drops its oldest; the new analysis is last and the older ones keep their order. |
| FacialAgent.UpdateKeepsValid | backend/app/agents/realtime/realtime_facial_agent.py:415-419 | Recording an analysis whose scores are in range keeps the history within 30 entries with scores in range. |
| FacialAgent.AnalyzeFrame | backend/app/agents/realtime/realtime_facial_agent.py:75-129 | The returned analysis is the analyser's result with the processing time; a frame that raised leaves the history as it was, any other frame is recorded. |
| FacialAgent.AnalyzeKeepsValid | backend/app/agents/realtime/realtime_facial_agent.py:75-129 | Every frame analysis keeps the history valid: at most 30 entries, each with eye contact and smile in [0, 1] and engagement in [0, 100]. |
| FacialAgent.DetectedFaceNeverRecorded | backend/app/agents/realtime/realtime_facial_agent.py:96-105 | With the emotion detector, a frame in which it found a face is reported with its emotion and a "low" engagement level but never reaches the history. |
| FacialAgent.GetAverageMetrics | backend/app/agents/realtime/realtime_facial_agent.py:386-413 | An empty history gives zeros and "neutral"; otherwise eye contact and smile are the history means times 100, engagement is the plain mean, and the dominant emotion is one that occurs in the history at least as often as any other. |
| FacialAgent.AveragesArePercentages | backend/app/agents/realtime/realtime_facial_agent.py:386-413 | For a valid history all three averages lie in [0, 100]. |
| FacialAgent.Reset | backend/app/agents/realtime/realtime_facial_agent.py:421-423 | Reset empties the history, after which the dominant emotion is "neutral". |
| EmotionDetector.Label | backend/app/core/emotion_detector.py:24-33 | Every class index maps to one of the seven reported emotion names. |
| EmotionDetector.NeverReportsSad | backend/app/core/emotion_detector.py:24-33 | The detector never reports "sad"; the sad class is reported as "sadness". |
| EmotionDetector.Classify | backend/app/core/emotion_detector.py:132-135 | A face's entry is the name and score of a class whose score is the highest of the seven. |
| EmotionDetector.Entries | backend/app/core/emotion_detector.py:123-141 | At most one entry per face, each named with a reported emotion name. |
| EmotionDetector.PrimaryIndex | backend/app/core/emotion_detector.py:143-149 | The primary entry has the highest confidence, and no earlier entry ties with it (the sort is stable). |
| EmotionDetector.DetectEmotion | backend/app/core/emotion_detector.py:90-163 | A missing or unreadable frame gives the empty result; otherwise the face count and per-face entries are reported, no entries give "neutral" with zeros, and otherwise the primary is the first most confident entry and the engagement is the happiness and surprise confidence over the entry count, capped at 1. |
| EmotionDetector.PrimaryIsSortedHead | backend/app/core/emotion_detector.py:145-147 | The head of the stable descending sort by confidence is the primary entry. |
| EmotionDetector.EngagementIsProbability | backend/app/core/emotion_detector.py:151-158 | With non-negative class scores the engagement lies in [0, 1]. |
| EmotionDetector.AddCount | backend/app/core/emotion_detector.py:214-216 | Counting one more emotion adds one to that emotion's count only, adds its key if new and keeps the keys distinct. |
| EmotionDetector.Tallies | backend/app/core/emotion_detector.py:201-216 | The emotion counts have distinct keys and add up to the number of emotions counted. |
| EmotionDetector.TalliesCount | backend/app/core/emotion_detector.py:214-216 | Each emotion's count is its number of occurrences. |
| EmotionDetector.Distribution | backend/app/core/emotion_detector.py:221-225 | One share per counted emotion, in the same order. |
| EmotionDetector.ShareSumScaled | backend/app/core/emotion_detector.py:221-225 | The shares times the total add up to 100 times the sum of the counts. |
| EmotionDetector.SmoothTrend | backend/app/core/emotion_detector.py:240-249 | Smoothing keeps the length of the trend, and entry i is the mean of the values from i − 2 to i + 2 that exist. |
| EmotionDetector.SmoothWithin | backend/app/core/emotion_detector.py:240-249 | Every smoothed value lies within any bounds that hold for all the raw values. |
| EmotionDetector.SmoothConstant | backend/app/core/emotion_detector.py:240-249 | Smoothing leaves a constant trend unchanged. |
| EmotionDetector.Detections | backend/app/core/emotion_detector.py:204-205 | Each frame is analysed independently, in order. |
| EmotionDetector.Notable | backend/app/core/emotion_detector.py:207-212 | The recorded moments are exactly the frames whose primary emotion is not neutral, in frame order, with that frame's emotion and confidence. |
| EmotionDetector.NotableEngagement | backend/app/core/emotion_detector.py:218-219 | The engagement trend holds the engagement of each recorded moment's frame. |
| EmotionDetector.Dominant | backend/app/core/emotion_detector.py:231-236 | The dominant emotions are the first three (or fewer) of the counts sorted by count, highest first. |
| EmotionDetector.Percentages | backend/app/core/emotion_detector.py:221-225 | One percentage per counted emotion, in the same order; an empty count divides by 1. |
| EmotionDetector.GetEmotionTimeline | backend/app/core/emotion_detector.py:188-238 | One moment per frame whose primary emotion is not neutral, in frame order, each naming its frame and that frame's emotion and confidence; the distribution gives each counted emotion its frequency among the moments in percent and sums to 100 once a moment exists (`CountsOf`); the trend is the width-5 window mean of the moments' engagement scores, each in [0, 1] when scores are non-negative; the dominant emotions are the first three of the stable count-descending sort, distinct, each carrying its number of occurrences, the first counted at least as often as any other. |
| EmotionDetector.TalliesCounts | backend/app/core/emotion_detector.py:214-236 | The distribution and dominant list built from the tallies meet `CountsOf`: frequencies in percent summing to 100, at most three distinct dominant emotions in falling count with their occurrence counts. |
| EmotionDetector.PercentagesAreFrequencies | backend/app/core/emotion_detector.py:221-225 | Each share is the emotion's number of occurrences over the number of recorded emotions, times 100. |
| EmotionDetector.DominantCounts | backend/app/core/emotion_detector.py:214-215 | Each dominant entry's count is its emotion's number of occurrences. |
| EmotionDetector.DominantDistinct | backend/app/core/emotion_detector.py:231-236 | No emotion appears twice among the dominant ones, because the dict's keys are distinct and the sort only reorders them. |
| EmotionDetector.PercentagesSumTo100 | backend/app/core/emotion_detector.py:221-225 | When anything was counted the percentages add up to 100. |
| EmotionDetector.DominantHeadIsMost | backend/app/core/emotion_detector.py:232-236 | The first of the emotions sorted by count has a count at least that of every tallied emotion. |
| EmotionDetector.CountedShares | backend/app/core/emotion_detector.py:214-236 | Tallying a non-empty list of emotions gives shares summing to 100 and a first dominant emotion counted most. |
| EmotionDetector.NotableMoments | backend/app/core/emotion_detector.py:204-212 | Every recorded moment names a frame in range whose primary emotion is not neutral, and carries that emotion and its confidence. |
| EmotionDetector.ShareIsFrequency | backend/app/core/emotion_detector.py:214-225 | Each emotion's percentage is its number of occurrences among the moments over the number of moments, times 100. |
| CoachEngine.Get | backend/app/core/gemini_coach_engine.py:191-206 | A present key gives its value, a missing key the default. |
| CoachEngine.WordCount | backend/app/core/gemini_coach_engine.py:210 | The word count is the number of whitespace-separated words; an empty or blank transcript counts 0. |
| CoachEngine.BuildSnapshot | backend/app/core/gemini_coach_engine.py:181-213 | The snapshot reads each of the nine numeric metrics, the two quality labels, the filler words and the emotion under its key with the source's default, keeps the transcript and counts its words, including the pitch variation under "pitch_variation_semitones" and the voice score under "overall_voice_score"; the prompt step fails (None) exactly when a value it formats as a number is not numeric, or the filler list is a truthy number. |
| CoachEngine.SessionKeysIgnored | backend/app/core/gemini_coach_engine.py:193-202 | A voice dictionary without "pitch_variation_semitones" and a facial one without "primary_emotion" give pitch variation 0 and emotion "neutral", whatever else they hold. |
| CoachEngine.Pick | backend/app/core/gemini_coach_engine.py:264-293 | The picked names are those whose condition holds, and every name whose condition holds is picked. |
| CoachEngine.PickHead | backend/app/core/gemini_coach_engine.py:264-293 | The first name picked is the first one whose condition holds. |
| CoachEngine.PerformanceAreas | backend/app/core/gemini_coach_engine.py:256-295 | At most two strengths and two weaknesses are kept, the first ones in the source's order among those whose conditions hold. |
| CoachEngine.NeverFastAndSlow | backend/app/core/gemini_coach_engine.py:277-280 | The weaknesses never name both a fast and a slow pace. |
| CoachEngine.StrongVoiceLeads | backend/app/core/gemini_coach_engine.py:265-266 | A voice score above 75 always makes "Strong voice quality" the first strength. |
| CoachEngine.PromptFor | backend/app/core/gemini_coach_engine.py:215-254 | The prompt carries the snapshot, the context and the strengths and weaknesses picked from the snapshot. |
| CoachEngine.NewEngine | backend/app/core/gemini_coach_engine.py:34-48 | A new engine has an empty history and has never given feedback. |
| CoachEngine.UpdateFeedbackHistory | backend/app/core/gemini_coach_engine.py:297-318 | The history keeps the last ten entries with the new one last, the averages are the means over the kept entries, and the clock is untouched. |
| CoachEngine.GenerateRealTimeFeedback | backend/app/core/gemini_coach_engine.py:89-139 | Less than three seconds after the last feedback nothing is returned and nothing changes; otherwise a successful model call records the feedback, moves the clock to now and returns the trimmed text; any failure returns "" with the engine unchanged. |
| CoachEngine.RateLimitSkipsModel | backend/app/core/gemini_coach_engine.py:109-112 | Inside the three-second window the result does not depend on the model at all. |
| CoachEngine.GenerateFeedbackSync | backend/app/core/gemini_coach_engine.py:141-171 | The synchronous path has no rate limit: a successful call records the feedback and moves the clock to now, a failure changes nothing. |
| CoachEngine.SyncIgnoresInterval | backend/app/core/gemini_coach_engine.py:89-171 | Outside the window both paths agree, and the synchronous one moves the clock on success even inside it. |
| CoachEngine.GenerateKeepsValid | backend/app/core/gemini_coach_engine.py:297-318 | Both paths keep the history within ten entries and the averages equal to its means. |
| CoachEngine.TimeMovesOnlyOnSuccess | backend/app/core/gemini_coach_engine.py:131-133 | The clock either stays or moves to now, and when it moves the newest history entry is the model's feedback. |
| CoachSession.NewSession | backend/app/core/ai_coach_session.py:27-50 | A session starts exactly when the scoring system accepts the difficulty (a KeyError otherwise), with empty histories, no frames, an empty transcript and no last analyses. |
| CoachSession.NewSessionValid | backend/app/core/ai_coach_session.py:27-50 | A new session satisfies the session invariant. |
| CoachSession.ProcessVideoFrame | backend/app/core/ai_coach_session.py:54-90 | An undecodable frame is rejected and changes nothing; otherwise the facial agent analyses it, the analysis becomes the latest one, the frame count grows by one and is reported, and nothing else changes. |
| CoachSession.VideoKeepsValid | backend/app/core/ai_coach_session.py:54-90 | Processing a frame keeps the session invariant. |
| CoachSession.ProcessAudioChunk | backend/app/core/ai_coach_session.py:92-133 | An undecodable chunk is an error and changes nothing; otherwise the voice-quality analysis becomes the latest one, the transcript's words are appended to the buffer (an empty transcript leaves it as it was), and nothing else changes. |
| CoachSession.AudioKeepsValid | backend/app/core/ai_coach_session.py:92-133 | Processing audio keeps the session invariant. |
| CoachSession.Listed | backend/app/core/ai_coach_session.py:125 | The filler list holds exactly the detected fillers, in a fixed order. |
| CoachSession.ListedFillers | backend/app/core/ai_coach_session.py:125 | For any set of detected filler words, a word is in the list exactly when it was detected. |
| CoachSession.Segment | backend/app/core/ai_coach_session.py:143-145 | The transcript segment is the last 20 words of the buffer, re-joined; an empty buffer gives an empty segment. |
| CoachSession.GenerateRealTimeFeedback | backend/app/core/ai_coach_session.py:135-192 | Without both latest analyses the reply is "insufficient data" and nothing changes; otherwise the coach's synchronous path runs on the rebuilt metric dictionaries, the last-20-words segment and the difficulty context, its text is returned with high confidence exactly when non-empty, and one entry is appended to the feedback history even when the text is empty. |
| CoachSession.FeedbackKeepsValid | backend/app/core/ai_coach_session.py:135-192 | Generating feedback keeps the session invariant. |
| CoachSession.SessionKeysMissed | backend/app/core/ai_coach_session.py:148-175 | The dictionaries the session hands to the coach carry the pitch variation under "pitch_variation" and the emotion under "emotion", keys the coach never reads: its prompt always shows pitch variation 0 and emotion "neutral" at 0 confidence. |
| CoachSession.IntendedKeysReachPrompt | backend/app/core/ai_coach_session.py:148-175 | Under the coach's own keys the prompt shows the analysed pitch variation, emotion and confidence. |
| CoachSession.CalculateFrameScore | backend/app/core/ai_coach_session.py:194-267 | Without both latest analyses nothing is scored; otherwise one well-formed score built from the latest analyses, with content 82.5 and pacing 91 from the fixed content and pacing metrics, is appended to both histories and becomes the last score, and nothing else changes. |
| CoachSession.ScoreIgnoresTranscript | backend/app/core/ai_coach_session.py:222-228 | The transcript buffer never affects the frame score. |
| CoachSession.EmotionNeverScored | backend/app/core/ai_coach_session.py:214-220 | Frames recorded by the facial agent carry no emotion confidence, so the scorer always sees 0. |
| CoachSession.EngagementSaturates | backend/app/core/ai_coach_session.py:214-216 | The facial agent reports engagement on a 0-100 scale while the scorer multiplies it by 100 again: any engagement of 3 or more gives a facial score of 100. |
| CoachSession.BlankCascadeFaceScoresFull | backend/app/core/ai_coach_session.py:214-220 | A face with no eyes and no smile found still gets a facial score of 100. |
| CoachSession.IntendedFacialUnclamped | backend/app/core/ai_coach_session.py:214-220 | With engagement rescaled to [0, 1] the facial score is never clamped, stays below 99.25, and the blank face scores 3.5. |
| CoachSession.GoodPercentage | backend/app/core/ai_coach_session.py:290-293 | The good-frame percentage is 0 without video frames, otherwise the good scores over the video frames times 100. |
| CoachSession.GetSessionSummary | backend/app/core/ai_coach_session.py:269-301 | The summary copies the scoring summary's statistics, counts video frames and feedback, computes the good-frame percentage against the video-frame count, lists the last five feedback entries (all of them when fewer) and returns the last score. |
| CoachSession.PercentageCanPass100 | backend/app/core/ai_coach_session.py:290-293 | When more frames were scored good than video frames arrived, the good-frame percentage exceeds 100. |
| CoachSession.CountsDriftApart | backend/app/core/ai_coach_session.py:194-313 | Scoring never advances the video-frame count, and a reset zeroes that count but keeps the scoring history. |
| CoachSession.IntendedGoodPercentage | backend/app/core/ai_coach_session.py:290-293 | Counting good frames among the scored frames gives a percentage in [0, 100]: 0 without scores, 100 when all are good. |
| CoachSession.Reset | backend/app/core/ai_coach_session.py:303-313 | Reset clears the agents, histories, counters, transcript and last analyses, and keeps the scoring system, the coach and the difficulty. |
| CoachSession.ResetIdempotent | backend/app/core/ai_coach_session.py:303-313 | Resetting twice is the same as resetting once. |
| CoachSession.ResetKeepsValid | backend/app/core/ai_coach_session.py:303-313 | A reset session satisfies the invariant exactly when its coach does. |
| CoachSession.ScoreKeepsValid | backend/app/core/ai_coach_session.py:194-267 | Scoring a frame keeps the session invariant. |
| ChallengeTracker.Checks | backend/app/core/challenge_tracker.py:75-255 | A challenge is checked in thirteen steps, one per requirement kind, in the source's order. |
| ChallengeTracker.Complete | backend/app/core/challenge_tracker.py:78-82 | A met requirement completes the record at progress 100 and leaves its claimed flag alone. |
| ChallengeTracker.Distance | backend/app/core/challenge_tracker.py:169 | The distance to a range is never negative and is positive outside a non-empty range. |
| ChallengeTracker.BandCredit | backend/app/core/challenge_tracker.py:167-175 | Partial credit for a reading outside a range lies in [0, 100) and is below 100 outside a non-empty range. |
| ChallengeTracker.ApplyCheck | backend/app/core/challenge_tracker.py:75-255 | One check keeps the claimed flag, never un-completes a record or clears the updated flag, changes nothing when it does not apply, and can fail only with the KeyError or ZeroDivisionError the source would raise. |
| ChallengeTracker.ApplyChecks | backend/app/core/challenge_tracker.py:75-255 | The whole sequence of checks keeps the same three guarantees. |
| ChallengeTracker.AccumulateReachesGoal | backend/app/core/challenge_tracker.py:84-94 | A duration goal adds the session's duration to the stored value; progress is 100 exactly when the goal is reached, and the record is then completed. |
| ChallengeTracker.RatioFullIffMet | backend/app/core/challenge_tracker.py:136-151 | A minimum-percentage challenge records the reading, gives progress 100 exactly when the minimum is met, and completes the record only then. |
| ChallengeTracker.BandCredit100OnlyInside | backend/app/core/challenge_tracker.py:153-175 | A range challenge records the reading and the range text; a reading inside completes it at 100, a reading outside gives partial progress below 100 and never completes it. |
| ChallengeTracker.SessionCountAddsOne | backend/app/core/challenge_tracker.py:246-255 | A session-count challenge adds one to the stored count. |
| ChallengeTracker.ThresholdDecides | backend/app/core/challenge_tracker.py:75-132 | A threshold challenge completes at 100 exactly when its metric passes; otherwise the record is untouched. |
| ChallengeTracker.UpdateOne | backend/app/core/challenge_tracker.py:53-255 | A completed record is skipped; a written record keeps its claimed flag, which is false for a new record. |
| ChallengeTracker.NoRequirementsNoWrite | backend/app/core/challenge_tracker.py:68-94 | A challenge without requirements is never written. |
| ChallengeTracker.Unclaimed | backend/app/core/challenge_tracker.py:277-282 | The newly completed list holds exactly the updated challenges that are completed and not claimed. |
| ChallengeTracker.RunAll | backend/app/core/challenge_tracker.py:49-282 | The records are threaded through the loop: a challenge listed twice continues from its stored record as the first pass left it. Written ids are exactly the reported ids; the last report for an id copies the record written; a completed record, or an id without requirements, is never written; each write keeps the stored claimed flag; newly completed are exactly the completed, unclaimed reports. |
| ChallengeTracker.Trace | backend/app/core/challenge_tracker.py:49-74 | The reference trace of the loop: at most one outcome per challenge, the first being that challenge's pass over the stored or fresh record; only the last can be an exception, and a trace shorter than the listing ends in one. |
| ChallengeTracker.Reported | backend/app/core/challenge_tracker.py:257-275 | The entries a trace reports: every pass that wrote has its entry among them, and every entry is the one of some pass that wrote, carrying that challenge's id and title and the written record's progress, completed and claimed flags. |
| ChallengeTracker.FollowsCons | backend/app/core/challenge_tracker.py:49-282 | A pass that does not raise, reported in front of a run that follows the later trace, gives a run that follows the whole trace. |
| ChallengeTracker.RunAllFollowsTrace | backend/app/core/challenge_tracker.py:49-282 | The run reports exactly the passes of its trace that wrote, in order, fresh records included; it ends with an exception exactly when a pass raised, and with the very exception that pass raised. |
| ChallengeTracker.DuplicateContinues | backend/app/core/challenge_tracker.py:54-255 | A session-count challenge listed twice for a stored record counts the session twice, reporting the progress after one and then after two sessions. |
| ChallengeTracker.UnrequiredPrefix | backend/app/core/challenge_tracker.py:35-94 | An id whose every listing lacks requirements still lacks them among the first 100 listings. |
| ChallengeTracker.Ids | backend/app/core/challenge_tracker.py:261-268 | The written ids are exactly the ids of the updated challenges. |
| ChallengeTracker.ToMap | backend/app/core/challenge_tracker.py:38-44 | The progress map has a key for every stored record, and a later record with the same id wins. |
| ChallengeTracker.UpdateChallengeProgress | backend/app/core/challenge_tracker.py:13-288 | Over the first 100 challenges and records: the total is the number of reports, at most 100; newly completed are exactly the completed, unclaimed reports; writes go to exactly the reported ids with the last report for each copying its record; a stored completed record, or an id without requirements, is never written; each write keeps the stored claimed flag. The result is the report exactly when no pass raised, and otherwise the exception the last pass of the trace raised; the report lists one entry per pass that wrote, for that pass's challenge and record, in order (`ResultFollows`). |
| ChallengeTracker.NeverReopens | backend/app/core/challenge_tracker.py:68-70 | A completed record is always skipped, so completion is never undone. |
| ChallengeTracker.CountTrueAll | backend/app/core/challenge_tracker.py:306-307 | A count of flags is at most their number and equals it exactly when all are set. |
| ChallengeTracker.GetUserChallengeSummary | backend/app/core/challenge_tracker.py:291-316 | Over the first 1000 records: completed and claimed are the numbers of those records carrying the flag, in progress is total minus completed, and the completion rate is `Rate(completed, total)`: completed over total in percent, so it lies in [0, 100], is 0 without records and is 100 exactly when every record is completed. |
| ChallengeTracker.Rate | backend/app/core/challenge_tracker.py:315 | A share in percent: the rate times the whole is 100 times the part; it lies in [0, 100], is 0 of nothing and 100 exactly of all. |
| GameApi.GetDifficultyDetail | backend/app/api/game.py:36-42 | The detail endpoint always answers: the named level's configuration, or the intermediate one for an unknown name, so the 404 is never raised. |
| GameApi.GetDifficultyConfigs | backend/app/api/game.py:28-34 | The table has an entry for exactly the three level names, each that level's configuration, and the default names the intermediate level. |
| GameApi.DetailMatchesTable | backend/app/api/game.py:28-42 | The detail of a listed level is its table entry; any other name gets the default level's entry. |
| GameApi.LiveChallenges | backend/app/api/game.py:53-59 | A challenge is listed exactly when it is active and has no expiry or expires after now. |
| GameApi.GetActiveChallenges | backend/app/api/game.py:47-86 | The listing holds the first 100 live challenges in order, with its count; with a non-empty user id each carries the user's progress (zero when there is no record), otherwise none. |
| GameApi.ClaimShowsInListing | backend/app/api/game.py:64-130 | After a successful claim the user's listing shows that challenge completed and claimed. |
| GameApi.Matching | backend/app/api/game.py:193-201 | The query finds exactly the entries of the category, no older than the cutoff, of the difficulty unless "all". |
| GameApi.WithRanks | backend/app/api/game.py:205-207 | Ranks are positions plus one, and the entries keep their order. |
| GameApi.LeaderboardQuery | backend/app/api/game.py:182-198 | Daily queries look back one day, weekly ones one week, all-time ones have no cutoff; the category and difficulty pass through. |
| GameApi.Top | backend/app/api/game.py:200-207 | The board holds the first min(limit, found) entries, so none for a limit of 0, ranked 1, 2, ..., sorted by score highest first, drawn from the found entries, and every entry left off scores no more than the last one shown. |
| GameApi.TopFacts | backend/app/api/game.py:200-203 | The first k sorted entries are sorted, drawn from the found ones, and no left-off entry outscores the last kept one. |
| GameApi.TopOfSorted | backend/app/api/game.py:200-203 | A prefix of a sorted sequence is sorted, is part of it, and bounds what it leaves off. |
| GameApi.GetLeaderboard | backend/app/api/game.py:174-210 | An unknown category is a 400 exactly; otherwise every entry matches the query, the board is the top of the matching entries, at most the limit long, and empty for a limit of 0. |
| GameApi.SubmitLeaderboardEntry | backend/app/api/game.py:217-246 | A submission appends three entries, one per category in order, with the given fields and the current time, and keeps every existing entry. |
| GameApi.FirstOf | backend/app/api/game.py:267-271 | The user's first position, if any: None exactly when absent, and no earlier entry is theirs. |
| GameApi.Percentile | backend/app/api/game.py:284 | The percentile times the board size is 100 times the number of entries ranked below the user, that is (1 − rank/total) · 100; it lies in [0, 100) and is 0 for the last rank. |
| GameApi.GetUserRank | backend/app/api/game.py:249-285 | Over the first 10000 matching entries sorted by score, with no time cutoff: unranked exactly when the user is absent; otherwise the rank is one plus the user's first position, the score is that entry's, fewer than rank entries outscore it, and the percentile is `Percentile(rank, total)`, the share of the board ranked below the user in percent. |
| GameApi.SubmitThenRanked | backend/app/api/game.py:217-285 | After a submission the user is ranked in each of the three categories, for their difficulty or "all". |
| GameApi.RankedWhenPresent | backend/app/api/game.py:249-285 | A user with an entry among the first 10000 of the sorted, matching board is ranked. |
| GameApi.ClaimChallengeReward | backend/app/api/game.py:89-130 | A missing record is a 404, an incomplete or already claimed one a 400, a missing challenge a 404, checked in that order; otherwise exactly that record becomes claimed, all others are unchanged, and the reward's XP (0 when unset) is returned. |
| GameApi.ClaimAtMostOnce | backend/app/api/game.py:105-106 | A reward is paid at most once: claiming again is refused with 400. |
| GameApi.Known | backend/app/api/game.py:147-162 | Every record whose challenge still exists is listed with its progress, completed and claimed fields, every listed entry is such a record, and the listing's length is the number of such records. |
| GameApi.KnownAppend | backend/app/api/game.py:151-162 | The listing keeps record order: the listing of two runs of records is the first run's listing followed by the second's. |
| GameApi.KnownSingle | backend/app/api/game.py:153-162 | A single record is listed, joined with its challenge, exactly when its challenge is known. |
| GameApi.CompletedCount | backend/app/api/game.py:164-165 | The completed count is the number of listed entries flagged completed. |
| GameApi.ClaimedCount | backend/app/api/game.py:164-166 | The claimed count is the number of listed entries flagged claimed. |
| GameApi.GetChallengeProgress | backend/app/api/game.py:133-169 | Among the first 100 records, exactly those whose challenge exists are listed with their own fields; the total is the listing's length and the completed and claimed counts are the numbers of listed entries carrying each flag. |
| GameApi.ClaimedNeedsCompletedCounts | backend/app/api/game.py:164-169 | When only completed records are claimed, the claimed count never exceeds the completed count. |
| RouteGuard.Middleware | frontend-next/src/middleware.ts:10-36 | A protected path without a non-empty session cookie redirects to the login page carrying the original path; the login or signup page with one redirects to the studio; every other request passes. |
| RouteGuard.Route | frontend-next/src/middleware.ts:38-50 | Skipping the excluded paths never changes the outcome: every request meets what the guard would decide. |
| RouteGuard.CharAt | frontend-next/src/middleware.ts:14 | A path that starts with a prefix holds each of its characters. |
| RouteGuard.AuthPagesUnprotected | frontend-next/src/middleware.ts:8-14 | The login and signup pages are not protected. |
| RouteGuard.RedirectsExclusive | frontend-next/src/middleware.ts:20-33 | The two redirects never apply to the same request. |
| RouteGuard.SkippedPassAnyway | frontend-next/src/middleware.ts:8-48 | None of the excluded paths is protected or an auth page, so the guard would pass them anyway. |
| RouteGuard.TokenValueIrrelevant | frontend-next/src/middleware.ts:18-29 | Only whether the cookie is set and non-empty matters; an empty cookie is the same as none. |
| RouteGuard.NoRedirectLoop | frontend-next/src/middleware.ts:20-33 | Following either redirect with the same cookie reaches a page the guard passes. |
| RouteGuard.PublicRoutesOpen | frontend-next/src/middleware.ts:5-35 | The public pages never redirect a visitor without a cookie, and the home page never redirects anyone. |
| PasswordStrength.Requirements | frontend-next/src/components/auth/PasswordStrength.tsx:16-21 | The checklist has four entries: at least six characters, an upper-case letter, a lower-case letter, a digit, each true exactly when the password meets it. |
| PasswordStrength.CountMet | frontend-next/src/components/auth/PasswordStrength.tsx:23 | The number met is at most the number of requirements, 0 exactly when none is met and all exactly when every one is. |
| PasswordStrength.Strength | frontend-next/src/components/auth/PasswordStrength.tsx:23-24 | The strength is 25 points per requirement met, so one of 0, 25, 50, 75, 100; 100 exactly when all four are met and 0 exactly when none is. |
| PasswordStrength.Render | frontend-next/src/components/auth/PasswordStrength.tsx:15-80 | Nothing is shown exactly for an empty password; otherwise the meter shows the strength, a caption that is "", WEAK, FAIR, GOOD or STRONG for 0 to 4 requirements met, the bar colour that goes with the caption, a label colour that is red below two requirements, yellow at two and green from three, as the strength thresholds 50 and 75 give, and the checklist. |
| PasswordStrength.LabelCountsRequirements | frontend-next/src/components/auth/PasswordStrength.tsx:23-40 | The label names the number of requirements met: empty, WEAK, FAIR, GOOD, STRONG for 0 to 4. |
| PasswordStrength.LabelMonotone | frontend-next/src/components/auth/PasswordStrength.tsx:34-40 | A higher strength never gets a lower label. |
| PasswordStrength.LabelAndBarAgree | frontend-next/src/components/auth/PasswordStrength.tsx:26-40 | The bar colour and the label use the same thresholds. |
| PasswordStrength.LabelTextGreenFromGood | frontend-next/src/components/auth/PasswordStrength.tsx:26-50 | The label text is green exactly from GOOD upwards, while the bar at GOOD is still yellow. |
| PasswordStrength.HasAppend | frontend-next/src/components/auth/PasswordStrength.tsx:18-20 | A character that meets a requirement keeps meeting it in a longer password. |
| PasswordStrength.CountMetMonotone | frontend-next/src/components/auth/PasswordStrength.tsx:23 | A pointwise weaker checklist meets no more requirements. |
| PasswordStrength.TypingNeverWeakens | frontend-next/src/components/auth/PasswordStrength.tsx:16-24 | Typing more characters never lowers the strength. |
| ClientChallenges.RatioCredit | frontend-next/src/hooks/useActiveSessionChallenges.ts:96-99 | Credit never exceeds 100; it is 100 exactly when the reading reaches a positive target (or falls to a negative one); below 100 it is the reading as a percentage of the target; a non-negative reading of a positive target gets non-negative credit. |
| ClientChallenges.MidpointCredit | frontend-next/src/hooks/useActiveSessionChallenges.ts:102-111 | Credit lies in [0, 100] and is 100 inside the inclusive range and below 100 outside a non-empty one; outside, 100 minus the credit is the distance to the middle as a percentage of the tolerance, and no credit means at least one tolerance away. |
| ClientChallenges.Ratio | frontend-next/src/hooks/useActiveSessionChallenges.ts:96-141 | A check with an unset (zero or missing) target or no metric changes nothing; otherwise it records the metric, caps the progress at 100, gives 100 exactly when a positive target is reached and otherwise the metric as a percentage of the target. |
| ClientChallenges.Range | frontend-next/src/hooks/useActiveSessionChallenges.ts:102-135 | A check without both bounds set or without the metric changes nothing; otherwise it records the metric, keeps progress in [0, 100], gives 100 exactly inside a non-empty range, and outside loses one point per percent of the tolerance the metric lies from the middle. |
| ClientChallenges.Apply | frontend-next/src/hooks/useActiveSessionChallenges.ts:95-141 | A check that applies (requirement set and non-zero, metric sent) overwrites the reading with its verdict, the metric and its credit; any other check leaves the reading as it was. |
| ClientChallenges.HookChecks | frontend-next/src/hooks/useActiveSessionChallenges.ts:95-141 | The hook runs six checks, and each range check has a positive tolerance (50 for pace, 20 for volume). |
| ClientChallenges.LastDecides | frontend-next/src/hooks/useActiveSessionChallenges.ts:92-141 | Running checks in order leaves the reading when none applies, and otherwise ends with the verdict of the last check that applies. |
| ClientChallenges.Rescore | frontend-next/src/hooks/useActiveSessionChallenges.ts:92-141 | With none of the six checks applying, progress and current value stay as they were; otherwise the last applying check, in the order eye contact, pace, facial confidence, clarity, volume, engagement, decides both, whatever the earlier checks read. |
| ClientChallenges.FindRequirements | frontend-next/src/hooks/useActiveSessionChallenges.ts:89 | The requirements are those of the first listed challenge with that id, and none when no challenge has it. |
| ClientChallenges.UpdateOne | frontend-next/src/hooks/useActiveSessionChallenges.ts:88-149 | A challenge without requirements is unchanged; otherwise identity fields are kept, completion is recomputed as progress of at least 100, and a sent engagement metric with its requirement set decides the result because it is checked last. Otherwise its progress and current value are exactly what `Rescore` reads from the stored ones. |
| ClientChallenges.UpdateChallengeProgress | frontend-next/src/hooks/useActiveSessionChallenges.ts:80-151 | Every tracked challenge is updated independently, in order. |
| ClientChallenges.KeepsOrder | frontend-next/src/hooks/useActiveSessionChallenges.ts:88-149 | The updated list keeps every challenge's id and title in place. |
| ClientChallenges.NoMetricsNoChange | frontend-next/src/hooks/useActiveSessionChallenges.ts:92-141 | An update without any metric leaves progress and current value as they were. |
| ClientChallenges.CompletionCanRevert | frontend-next/src/hooks/useActiveSessionChallenges.ts:143-148 | A challenge the client shows completed is reopened when a later reading falls short, which the backend never does. |
| ClientChallenges.MidpointFartherThanBound | backend/app/core/challenge_tracker.py:167-175 | Outside a range, the distance to its middle is the distance to the nearer bound plus half the range's width. |
| ClientChallenges.MidpointNeverMoreGenerous | backend/app/core/challenge_tracker.py:153-175 | Outside a range the client never credits more than the backend, and strictly less wherever the range has width and the backend gives partial credit. |
| ClientChallenges.CreditMonotone | frontend-next/src/hooks/useActiveSessionChallenges.ts:109 | Partial credit never rises with distance and falls strictly while positive. |
| ClientChallenges.PaceExample | frontend-next/src/hooks/useActiveSessionChallenges.ts:102-111 | A pace of 170 against 120-160 gets 80 from the backend and 40 from the client. |

## Left out

- ChallengeTracker.RunAll: a newly completed entry does not carry the challenge's rewards, and the KeyError that a challenge document without a "rewards" field raises when it completes is not modelled; the model treats every challenge as carrying one.
- Image and audio decoding (base64, `cv2.imdecode`, int16 samples) is left out: a frame arrives decoded or as `None`, and an audio chunk as its sample count or as `Undecodable`, when decoding fails.
- Signal processing and machine-learning libraries are left out: pitch tracking, RMS-to-decibel conversion, standard deviation, MediaPipe landmarks, Haar cascades and the emotion classifier become inputs or function parameters, because their numerics are outside the rules modelled here.
- The language model calls (prompt text, the network call and the session summary prompt) are left out. The model is a function parameter that may fail, and the prompt is reduced to the data it carries.
- Persistence is left out. MongoDB collections are sequences or maps, and each endpoint is one atomic step with no concurrency or `await` interleaving.
- Authentication, WebSocket transport, server wiring and React rendering beyond the values the meter and hook compute are left out, because they hold no scoring rules.
- Display rounding (`round(x, 1)`, `round(x, 2)`, `toFixed`) of reported values is left out: they are the exact values before rounding. The voice agent's pitch variation, volume consistency and volume are rounded, because its score compares the rounded values. Rounding is on exact reals, not on binary doubles.
- Timestamps, `processing_time_ms` and session durations are left out, except where a time decides behaviour (the coach's three-second gate, leaderboard cutoffs, challenge expiry), which takes the clock as a parameter.
- Log messages and message texts of HTTP errors are left out; errors carry status codes or exception names.
- Python set iteration order is left out. The voice agent picks one matching filler deterministically, and its contract states only that some matching filler is reported.
- Mongo's order among equal scores is left out. The leaderboard and rank use a stable sort, one of the orders Mongo may return.
- VoiceAgent.CalculateVolume: takes the decibel conversion as a parameter, so only the silent case has a fixed value.
- Text.Words: splits on the ASCII whitespace characters only; Python's `str.split()` also splits on Unicode spaces such as U+00A0 and U+2028.
- Text.StripSpace: strips the same ASCII whitespace only, where Python's `str.strip()` also strips Unicode spaces.
- Text.Lower: lower-cases the ASCII letters A-Z only; Python's `str.lower()` also maps non-ASCII capitals such as "É".
- FacialAgent.Analyse: the `_enhance_with_mediapipe` step after the detector path is never reached, because the undefined `_classify_engagement` raises first, so it is not modelled.
- EmotionDetector.DetectEmotion: the bounding boxes of detected faces are not kept, because nothing downstream reads them.
- CoachSession.ProcessAudioChunk: the reply's rounded and rescaled display copies of the metrics are not modelled; the reply carries the analysis itself.
- CoachSession.GetSessionSummary: the session id, user id and wall-clock duration are not part of the report.
- CoachEngine.BuildSnapshot: the snapshot's timestamp and its "recommendations" entry are not kept, because the clock is not modelled and the prompt never reads the recommendations.
- CoachEngine.PromptFor: the prompt's wording and its 100-character transcript excerpt are not modelled; the prompt carries the snapshot, context, strengths and weaknesses.
- GameApi.GetLeaderboard: a negative `limit` is not modelled, because the limit is a natural number.
- GameApi.GetActiveChallenges: reads the user's records as a map keyed by user and challenge, so the 100-record cap on those records and the override among duplicate records are not modelled.
- GameApi.ClaimChallengeReward: the `claimed_at` time is not stored, and the reply carries only the XP rather than the whole rewards object.
- PasswordStrength.Requirements: the length is counted in characters, whereas JavaScript counts UTF-16 code units; they differ only outside the Basic Multilingual Plane.
- ClientChallenges.UpdateChallengeProgress: fetching the challenge list and the polling interval are left out; the challenge list is an input.

## Findings

| source | as written | input that shows it | evidently intended | confidence | as-written member | corrected member |
|---|---|---|---|---|---|---|
| backend/app/core/difficulty.py:199-200 | The penalties are stored as negative amounts and then subtracted again, so every penalty raises the adjusted score. | Beginner level, 20 filler words, base score 50: the adjusted score is 100. | Deduct the penalties: `max(0, base + total_penalty)`, giving 0 for that input. | high, not executed | Difficulty.ApplyPenalties | Difficulty.ApplyPenaltiesIntended |
| backend/app/core/voice_quality_analyzer.py:54-110 | `speech_rate_wpm` stays at its initial 0.0 when the rate is rated, so every analysed chunk is rated too slow and told to speed up. | Any chunk of at least half a second, for example one second with "hello there everyone" spoken. | Compute the rate from the transcript and chunk duration before rating it. | high, not executed | VoiceQuality.RateAlwaysTooSlow | VoiceQuality.IntendedRatesThePace |
| backend/app/core/ai_coach_session.py:148-175 | The session hands the coach `pitch_variation` and `emotion`, but the coach reads `pitch_variation_semitones` and `primary_emotion`, so its prompt always shows pitch variation 0 and a neutral emotion. | Any feedback request after a frame whose emotion is "happy". | Use the coach's key names. | high, not executed | CoachSession.SessionKeysMissed | CoachSession.IntendedKeysReachPrompt |
| backend/app/core/ai_coach_session.py:214-220 | The facial agent reports engagement on a 0-100 scale and the scorer multiplies it by 100 again, so the facial score saturates at 100. | A face with no eyes and no smile found by the cascades: engagement 10 gives a facial score of 100. | Pass engagement on the 0-1 scale the scorer expects, which gives 3.5 for that face. | medium, not executed | CoachSession.BlankCascadeFaceScoresFull | CoachSession.IntendedFacialUnclamped |
| backend/app/core/ai_coach_session.py:290-293 | The good-frame percentage divides scored good frames by received video frames, which are counted independently, so it can exceed 100. | A session that received one video frame and scored two good frames reports 200%. | Divide by the number of scored frames. | medium, not executed | CoachSession.PercentageCanPass100 | CoachSession.IntendedGoodPercentage |

The operations keep the source's behaviour as written. The corrected definitions stand beside
them with their intended properties proved.

=== FILE: challenges.dfy ===
/**
 * Challenge progress after a practice session (backend/app/core/challenge_tracker.py). Each active
 * challenge's requirements are checked in a fixed order against the session's metrics, and each
 * check may rewrite the user's record for that challenge. The database is a map from challenge id
 * to record; an exception the source would raise stops the run, with the records written so far kept.
 */
module ChallengeTracker {
  import opened Wrappers
  import opened Stats
  import opened Sorting

  // ---------------------------------------------------------------- records

  /** An inclusive band of values. */
  datatype Range = Range(lo: real, hi: real)

  /** A record's target: a number, or the "lo-hi" text written by the band checks. */
  datatype Target = Value(t: real) | Between(r: Range)

  datatype Record = Record(progress: real, currentValue: real, targetValue: Target, completed: bool, claimed: bool)

  /** The record created for a challenge the user has not started. */
  const Fresh := Record(0.0, 0.0, Value(0.0), false, false)

  /** The requirement keys a challenge may carry; a band needs both of its keys. */
  datatype Requirements = Requirements(
    minScore: Option<real>, minDuration: Option<real>, count: Option<real>, maxFillerWords: Option<real>,
    minCombo: Option<real>, minFacialScore: Option<real>, minEyeContact: Option<real>, wpm: Option<Range>,
    minFacialConfidence: Option<real>, minContentClarity: Option<real>, volume: Option<Range>,
    minEngagement: Option<real>, targetSessionCount: Option<real>)

  const NoRequirements := Requirements(None, None, None, None, None, None, None, None, None, None, None, None, None)

  /** The session metrics the checks read; a key the caller left out is None. */
  datatype SessionMetrics = SessionMetrics(
    averageScore: Option<real>, duration: Option<real>, fillerCount: Option<real>, combo: Option<real>,
    facialScore: Option<real>, eyeContactAvg: Option<real>, eyeContactScore: Option<real>,
    speechRateWpm: Option<real>, facialConfidence: Option<real>, contentClarity: Option<real>,
    contentScore: Option<real>, volumeDb: Option<real>, volumeAvg: Option<real>, engagementScore: Option<real>)

  // ---------------------------------------------------------------- the checks

  /**
   * The four shapes of check: a pass/fail threshold (`value >= req`, or `<=` for the filler cap),
   * a running total that grows by `increment`, a ratio towards a minimum, and a band with a
   * tolerance for partial credit.
   */
  datatype Check =
    | Threshold(req: Option<real>, value: Option<real>, default: real, atLeast: bool)
    | Accumulate(goal: Option<real>, increment: real)
    | Ratio(minimum: Option<real>, reading: real)
    | Band(band: Option<Range>, level: real, tolerance: real)

  /** The checks in the order the source runs them, with the metric fallbacks it uses. */
  function Checks(q: Requirements, m: SessionMetrics): (cs: seq<Check>)
    ensures |cs| == 13
  {
    [ Threshold(q.minScore, m.averageScore, 0.0, true),
      Accumulate(q.minDuration, m.duration.GetOr(0.0)),
      Accumulate(q.count, 1.0),
      Threshold(q.maxFillerWords, m.fillerCount, 999.0, false),
      Threshold(q.minCombo, m.combo, 0.0, true),
      Threshold(q.minFacialScore, m.facialScore, 0.0, true),
      Ratio(q.minEyeContact, m.eyeContactAvg.GetOr(m.eyeContactScore.GetOr(0.0))),
      Band(q.wpm, m.speechRateWpm.GetOr(0.0), 50.0),
      Ratio(q.minFacialConfidence, m.facialConfidence.GetOr(m.facialScore.GetOr(0.0))),
      Ratio(q.minContentClarity, m.contentClarity.GetOr(m.contentScore.GetOr(0.0))),
      Band(q.volume, m.volumeDb.GetOr(m.volumeAvg.GetOr(0.0)), 20.0),
      Ratio(q.minEngagement, m.engagementScore.GetOr(0.0)),
      Accumulate(q.targetSessionCount, 1.0) ]
  }

  /** The record being built and whether any check wrote to it. */
  datatype Step = Step(rec: Record, updated: bool)

  /** A passed check: the value and target recorded, progress 100, completed. */
  function Complete(r: Record, v: real, target: Target): (out: Record)
    ensures out.completed && out.progress == 100.0 && out.claimed == r.claimed
  {
    r.(currentValue := v, targetValue := target, progress := 100.0, completed := true)
  }

  /** Whether a threshold check passes on the value `.get` returns. */
  predicate Passes(req: real, v: real, atLeast: bool) {
    if atLeast then v >= req else v <= req
  }

  /** Distance to the nearer end of the band. */
  function Distance(v: real, r: Range): (d: real)
    ensures d >= 0.0
    ensures r.lo <= r.hi && !(r.lo <= v <= r.hi) ==> d > 0.0
  {
    Min(Abs(v - r.lo), Abs(v - r.hi))
  }

  /** Partial credit outside the band: 100 minus the distance as a share of the tolerance, floored at 0. */
  function BandCredit(v: real, r: Range, tolerance: real): (p: real)
    requires tolerance > 0.0
    ensures 0.0 <= p <= 100.0
    ensures r.lo <= r.hi && !(r.lo <= v <= r.hi) ==> p < 100.0
  {
    var d := Distance(v, r);
    var share := d / tolerance;
    assert share * tolerance == d;
    assert d > 0.0 ==> share > 0.0;
    Max(0.0, 100.0 - share * 100.0)
  }

  /**
   * One check. A threshold that passes on a missing metric raises KeyError, because the source
   * reads the value with `[]` after testing it with `.get`; a running total or ratio with a zero
   * target raises ZeroDivisionError where it divides.
   */
  function ApplyCheck(s: Step, c: Check): (r: Result<Step, string>)
    ensures r.Ok? ==> r.value.rec.claimed == s.rec.claimed
    ensures r.Ok? ==> (s.rec.completed ==> r.value.rec.completed) && (s.updated ==> r.value.updated)
    ensures r.Ok? && !r.value.updated ==> r.value == s
    ensures r.Err? ==> r.error in {"KeyError", "ZeroDivisionError"}
  {
    match c
    case Threshold(req, value, default, atLeast) =>
      if req.None? || !Passes(req.value, value.GetOr(default), atLeast) then Ok(s)
      else if value.None? then Err("KeyError")
      else Ok(Step(Complete(s.rec, value.value, Value(req.value)), true))
    case Accumulate(goal, inc) =>
      if goal.None? then Ok(s)
      else if goal.value == 0.0 then Err("ZeroDivisionError")
      else
        var cum := s.rec.currentValue + inc;
        Ok(Step(s.rec.(currentValue := cum, targetValue := Value(goal.value),
                       progress := Min(100.0, cum / goal.value * 100.0),
                       completed := s.rec.completed || cum >= goal.value), true))
    case Ratio(minimum, v) =>
      if minimum.None? then Ok(s)
      else if v >= minimum.value then Ok(Step(Complete(s.rec, v, Value(minimum.value)), true))
      else if minimum.value == 0.0 then Err("ZeroDivisionError")
      else Ok(Step(s.rec.(currentValue := v, targetValue := Value(minimum.value),
                          progress := Min(100.0, v / minimum.value * 100.0)), true))
    case Band(band, v, tolerance) =>
      if band.None? then Ok(s)
      else if tolerance <= 0.0 then Ok(s)
      else if band.value.lo <= v <= band.value.hi then Ok(Step(Complete(s.rec, v, Between(band.value)), true))
      else Ok(Step(s.rec.(currentValue := v, targetValue := Between(band.value),
                          progress := BandCredit(v, band.value, tolerance)), true))
  }

  /** The checks in order; the first exception ends the run. */
  function ApplyChecks(s: Step, cs: seq<Check>): (r: Result<Step, string>)
    ensures r.Ok? ==> r.value.rec.claimed == s.rec.claimed
    ensures r.Ok? ==> (s.rec.completed ==> r.value.rec.completed) && (s.updated ==> r.value.updated)
    ensures r.Ok? && !r.value.updated ==> r.value == s
    decreases |cs|
  {
    if cs == [] then Ok(s)
    else
      match ApplyCheck(s, cs[0])
      case Err(e) => Err(e)
      case Ok(next) => ApplyChecks(next, cs[1..])
  }

  // ---------------------------------------------------------------- properties of single checks

  /** A running total with a positive goal reaches 100 % exactly when it reaches the goal, and then completes. */
  lemma AccumulateReachesGoal(rec: Record, u: bool, goal: real, inc: real)
    requires goal > 0.0
    ensures var r := ApplyCheck(Step(rec, u), Accumulate(Some(goal), inc));
      && r.Ok? && r.value.updated
      && r.value.rec.currentValue == rec.currentValue + inc
      && (r.value.rec.progress == 100.0 <==> rec.currentValue + inc >= goal)
      && (r.value.rec.completed <==> rec.completed || rec.currentValue + inc >= goal)
  {
    var cum := rec.currentValue + inc;
    var q := cum / goal;
    assert q * goal == cum;
    if cum >= goal {
      assert q >= 1.0;
    } else {
      assert q < 1.0;
    }
  }

  /** A ratio check with a positive minimum gives 100 % exactly when the minimum is met, and only then completes. */
  lemma RatioFullIffMet(rec: Record, u: bool, minimum: real, v: real)
    requires minimum > 0.0
    ensures var r := ApplyCheck(Step(rec, u), Ratio(Some(minimum), v));
      && r.Ok? && r.value.updated && r.value.rec.currentValue == v
      && (r.value.rec.progress == 100.0 <==> v >= minimum)
      && (r.value.rec.completed <==> rec.completed || v >= minimum)
  {
    if v < minimum {
      var q := v / minimum;
      assert q * minimum == v;
      assert q < 1.0;
    }
  }

  /** Inside the band the check completes at 100 %; outside a well-formed band it stays below 100 % and decides nothing. */
  lemma BandCredit100OnlyInside(rec: Record, u: bool, band: Range, v: real, tolerance: real)
    requires tolerance > 0.0
    ensures var r := ApplyCheck(Step(rec, u), Band(Some(band), v, tolerance));
      && r.Ok? && r.value.updated && r.value.rec.currentValue == v && r.value.rec.targetValue == Between(band)
      && (band.lo <= v <= band.hi ==> r.value.rec.progress == 100.0 && r.value.rec.completed)
      && (band.lo <= band.hi && !(band.lo <= v <= band.hi) ==>
            0.0 <= r.value.rec.progress < 100.0 && r.value.rec.completed == rec.completed)
  {
  }

  /** A session-count check always adds exactly one session. */
  lemma SessionCountAddsOne(rec: Record, u: bool, m: SessionMetrics, goal: real)
    requires goal != 0.0
    ensures var r := ApplyCheck(Step(rec, u), Checks(NoRequirements.(targetSessionCount := Some(goal)), m)[12]);
      r.Ok? && r.value.rec.currentValue == rec.currentValue + 1.0
  {
  }

  /** A threshold passed on a present metric completes at 100 %; a failed one leaves the record alone. */
  lemma ThresholdDecides(rec: Record, u: bool, req: real, value: real, default: real, atLeast: bool)
    ensures var r := ApplyCheck(Step(rec, u), Threshold(Some(req), Some(value), default, atLeast));
      && r.Ok?
      && (Passes(req, value, atLeast) ==> r.value.rec.completed && r.value.rec.progress == 100.0 && r.value.updated)
      && (!Passes(req, value, atLeast) ==> r.value == Step(rec, u))
  {
  }

  // ---------------------------------------------------------------- one challenge

  datatype Outcome = Skipped | Untouched | Written(rec: Record)

  /**
   * The loop body for one challenge: the user's record, or a fresh one, is skipped when completed;
   * otherwise the checks run and the record is written when any of them touched it.
   */
  function UpdateOne(record: Option<Record>, q: Requirements, m: SessionMetrics): (r: Result<Outcome, string>)
    ensures r == Ok(Skipped) <==> record.Some? && record.value.completed
    ensures r.Ok? && r.value.Written? ==> r.value.rec.claimed == record.GetOr(Fresh).claimed
    ensures record.None? && r.Ok? && r.value.Written? ==> !r.value.rec.claimed
  {
    var rec := record.GetOr(Fresh);
    if rec.completed then Ok(Skipped)
    else
      match ApplyChecks(Step(rec, false), Checks(q, m))
      case Err(e) => Err(e)
      case Ok(st) => if st.updated then Ok(Written(st.rec)) else Ok(Untouched)
  }

  /** A challenge without requirements is never written. */
  lemma NoRequirementsNoWrite(record: Option<Record>, m: SessionMetrics)
    ensures UpdateOne(record, NoRequirements, m) == if record.Some? && record.value.completed then Ok(Skipped) else Ok(Untouched)
  {
    var cs := Checks(NoRequirements, m);
    var s := Step(record.GetOr(Fresh), false);
    assert ApplyChecks(s, cs[12..]) == Ok(s);
    assert ApplyChecks(s, cs[11..]) == Ok(s);
    assert ApplyChecks(s, cs[10..]) == Ok(s);
    assert ApplyChecks(s, cs[9..]) == Ok(s);
    assert ApplyChecks(s, cs[8..]) == Ok(s);
    assert ApplyChecks(s, cs[7..]) == Ok(s);
    assert ApplyChecks(s, cs[6..]) == Ok(s);
    assert ApplyChecks(s, cs[5..]) == Ok(s);
    assert ApplyChecks(s, cs[4..]) == Ok(s);
    assert ApplyChecks(s, cs[3..]) == Ok(s);
    assert ApplyChecks(s, cs[2..]) == Ok(s);
    assert ApplyChecks(s, cs[1..]) == Ok(s);
  }

  // ---------------------------------------------------------------- the run

  datatype Challenge = Challenge(id: string, title: string, requirements: Requirements)

  /** An entry of `updated_challenges`, with the record's claimed flag the newly-completed test reads. */
  datatype Item = Item(id: string, title: string, progress: real, completed: bool, claimed: bool)

  /** The reports of a run, the records it wrote, and the exception that ended it, if any. */
  datatype Run = Run(writes: map<string, Record>, updated: seq<Item>, newlyCompleted: seq<Item>, failure: Option<string>)

  /** The reference for `newly_completed`: the updated entries that are completed and not claimed. */
  function Unclaimed(items: seq<Item>): (r: seq<Item>)
    ensures |r| <= |items|
    ensures forall x :: x in r <==> x in items && x.completed && !x.claimed
  {
    if items == [] then []
    else (if items[0].completed && !items[0].claimed then [items[0]] else []) + Unclaimed(items[1..])
  }

  /** The fields an entry of `updated_challenges` copies from the record it reports. */
  predicate Reports(item: Item, rec: Record) {
    item.progress == rec.progress && item.completed == rec.completed && item.claimed == rec.claimed
  }

  /** No later entry has the same id, so entry `i` reports the last write to its challenge. */
  ghost predicate LastFor(items: seq<Item>, i: int)
    requires 0 <= i < |items|
  {
    forall j :: i < j < |items| ==> items[j].id != items[i].id
  }

  /** Every listing of `id` in `cs` carries no requirements. */
  ghost predicate Unrequired(cs: seq<Challenge>, id: string) {
    forall k :: 0 <= k < |cs| && cs[k].id == id ==> cs[k].requirements == NoRequirements
  }

  /** Each reported entry that is the last for its id copies the record written for that id. */
  ghost predicate LastEntriesMatch(items: seq<Item>, writes: map<string, Record>) {
    forall i :: 0 <= i < |items| && LastFor(items, i) ==> items[i].id in writes && Reports(items[i], writes[items[i].id])
  }

  /**
   * The loop over the active challenges. `state` is the user's records as the loop sees them: a
   * stored record is the very dict the checks update in place, so a challenge listed twice continues
   * from what its first pass wrote; a fresh record is not stored, so it starts over each time. A
   * later write to the same id replaces an earlier one.
   */
  function RunAll(cs: seq<Challenge>, state: map<string, Record>, m: SessionMetrics): (r: Run)
    ensures r.newlyCompleted == Unclaimed(r.updated)
    ensures |r.updated| <= |cs|
    ensures r.writes.Keys == Ids(r.updated)
    ensures forall id :: id in state && state[id].completed ==> id !in r.writes
    ensures forall id :: id in r.writes ==> r.writes[id].claimed == (id in state && state[id].claimed)
    ensures LastEntriesMatch(r.updated, r.writes)
    ensures forall id :: Unrequired(cs, id) ==> id !in r.writes
    decreases |cs|
  {
    if cs == [] then Run(map[], [], [], None)
    else
      var c := cs[0];
      var record := Lookup(state, c.id);
      match UpdateOne(record, c.requirements, m)
      case Err(e) => Run(map[], [], [], Some(e))
      case Ok(o) =>
        var next := After(state, c.id, o);
        PassKeeps(state, c.id, record, c.requirements, m, o, next);
        var rest := RunAll(cs[1..], next, m);
        var r := if o.Written? then Extend(c, o.rec, rest) else rest;
        RunStep(cs, state, next, o, rest, r);
        r
  }

  /** Report a written record in front of the later passes' results. */
  function Extend(c: Challenge, rec: Record, rest: Run): (r: Run)
    requires rest.newlyCompleted == Unclaimed(rest.updated)
    ensures r.updated == [ItemOf(c, rec)] + rest.updated
    ensures r.newlyCompleted == Unclaimed(r.updated)
    ensures r.writes == map[c.id := rec] + rest.writes && r.failure == rest.failure
  {
    var item := ItemOf(c, rec);
    assert ([item] + rest.updated)[1..] == rest.updated;
    Run(map[c.id := rec] + rest.writes, [item] + rest.updated, Unclaimed([item] + rest.updated), rest.failure)
  }

  /** One pass of the loop keeps the run's contract, given what the pass left for the later ones. */
  lemma RunStep(cs: seq<Challenge>, state: map<string, Record>, next: map<string, Record>, o: Outcome, rest: Run, r: Run)
    requires cs != []
    requires next == if o.Written? && cs[0].id in state then state[cs[0].id := o.rec] else state
    requires next.Keys == state.Keys
    requires forall k :: k in state && state[k].completed ==> next[k].completed
    requires forall k :: k in state ==> next[k].claimed == state[k].claimed
    requires cs[0].id in state && state[cs[0].id].completed ==> !o.Written?
    requires o.Written? ==> o.rec.claimed == (cs[0].id in state && state[cs[0].id].claimed)
    requires cs[0].requirements == NoRequirements ==> !o.Written?
    requires rest.newlyCompleted == Unclaimed(rest.updated)
    requires |rest.updated| <= |cs| - 1
    requires rest.writes.Keys == Ids(rest.updated)
    requires forall id :: id in next && next[id].completed ==> id !in rest.writes
    requires forall id :: id in rest.writes ==> rest.writes[id].claimed == (id in next && next[id].claimed)
    requires LastEntriesMatch(rest.updated, rest.writes)
    requires forall id :: Unrequired(cs[1..], id) ==> id !in rest.writes
    requires r == if o.Written? then Extend(cs[0], o.rec, rest) else rest
    ensures |r.updated| <= |cs|
    ensures r.writes.Keys == Ids(r.updated)
    ensures forall id :: id in state && state[id].completed ==> id !in r.writes
    ensures forall id :: id in r.writes ==> r.writes[id].claimed == (id in state && state[id].claimed)
    ensures LastEntriesMatch(r.updated, r.writes)
    ensures forall id :: Unrequired(cs, id) ==> id !in r.writes
  {
    var c := cs[0];
    if o.Written? {
      var item := Item(c.id, c.title, o.rec.progress, o.rec.completed, o.rec.claimed);
      KeysCons(item, o.rec, rest.updated, rest.writes);
      LastEntriesCons(item, o.rec, rest.updated, rest.writes);
    }
    StepCompleted(c.id, state, next, o, rest.writes, r.writes);
    StepClaims(c.id, state, next, o, rest.writes, r.writes);
    StepUnrequired(cs, o, rest.writes, r.writes);
  }

  /**
   * A challenge listed twice continues from its first pass rather than from the stored record: a
   * session-count challenge is counted twice, so one session of five already counted becomes three,
   * reported as 40 % and then 60 %.
   */
  lemma DuplicateContinues(c: Challenge, start: Record, goal: real, m: SessionMetrics)
    requires c.requirements == NoRequirements.(count := Some(goal))
    requires !start.completed && goal > 0.0 && start.currentValue + 2.0 < goal
    ensures var r := RunAll([c, c], map[c.id := start], m);
      && r.failure.None?
      && c.id in r.writes && r.writes[c.id].currentValue == start.currentValue + 2.0
      && |r.updated| == 2
      && r.updated[0].progress == (start.currentValue + 1.0) / goal * 100.0
      && r.updated[1].progress == (start.currentValue + 2.0) / goal * 100.0
  {
    var first := CountedOnce(start, goal);
    var second := CountedOnce(first, goal);
    assert first.currentValue + 1.0 == start.currentValue + 2.0;
    assert second.progress == (start.currentValue + 2.0) / goal * 100.0;
    CountPass(start, goal, m);
    CountPass(first, goal, m);
    RunTwice(c, start, first, second, m);
  }

  /** Two passes over the same stored challenge that both write: the second starts from the first's record. */
  lemma RunTwice(c: Challenge, start: Record, first: Record, second: Record, m: SessionMetrics)
    requires UpdateOne(Some(start), c.requirements, m) == Ok(Written(first))
    requires UpdateOne(Some(first), c.requirements, m) == Ok(Written(second))
    ensures var r := RunAll([c, c], map[c.id := start], m);
      && r.failure.None?
      && r.writes == map[c.id := second]
      && r.updated == [Item(c.id, c.title, first.progress, first.completed, first.claimed),
                       Item(c.id, c.title, second.progress, second.completed, second.claimed)]
  {
    RunOnce(c, first, second, m);
    RunFirstPass(c, start, first, m);
    ExtendSame(c, first, second, RunAll([c], map[c.id := first], m));
  }

  /** The first pass over a stored challenge listed twice writes, and the second pass starts from that write. */
  lemma RunFirstPass(c: Challenge, start: Record, first: Record, m: SessionMetrics)
    requires UpdateOne(Some(start), c.requirements, m) == Ok(Written(first))
    ensures RunAll([c, c], map[c.id := start], m) == Extend(c, first, RunAll([c], map[c.id := first], m))
  {
    assert [c, c][1..] == [c] && map[c.id := start][c.id := first] == map[c.id := first];
    RunAllWritten([c, c], map[c.id := start], m, first, [c], map[c.id := first]);
  }

  /** Reporting a write in front of a later write to the same id keeps only the later one. */
  lemma ExtendSame(c: Challenge, first: Record, second: Record, rest: Run)
    requires rest.newlyCompleted == Unclaimed(rest.updated)
    requires rest.failure.None? && rest.writes == map[c.id := second]
    requires rest.updated == [Item(c.id, c.title, second.progress, second.completed, second.claimed)]
    ensures var r := Extend(c, first, rest);
      && r.failure.None?
      && r.writes == map[c.id := second]
      && r.updated == [Item(c.id, c.title, first.progress, first.completed, first.claimed),
                       Item(c.id, c.title, second.progress, second.completed, second.claimed)]
  {
    assert map[c.id := first] + map[c.id := second] == map[c.id := second];
  }

  /** One pass over a stored challenge that writes. */
  lemma RunOnce(c: Challenge, first: Record, second: Record, m: SessionMetrics)
    requires UpdateOne(Some(first), c.requirements, m) == Ok(Written(second))
    ensures var r := RunAll([c], map[c.id := first], m);
      && r.failure.None?
      && r.writes == map[c.id := second]
      && r.updated == [Item(c.id, c.title, second.progress, second.completed, second.claimed)]
  {
    assert [c][1..] == [];
    RunAllWritten([c], map[c.id := first], m, second, [], map[c.id := second]);
  }

  /** The record after one more session towards `goal`, short of it. */
  function CountedOnce(rec: Record, goal: real): (after: Record)
    requires goal > 0.0
    ensures after.currentValue == rec.currentValue + 1.0 && after.completed == rec.completed
  {
    rec.(currentValue := rec.currentValue + 1.0, targetValue := Value(goal), progress := (rec.currentValue + 1.0) / goal * 100.0)
  }

  /** Below the goal, the session-count check adds one session and records the share of the goal reached. */
  lemma CountCheck(rec: Record, goal: real)
    requires !rec.completed && goal > 0.0 && rec.currentValue + 1.0 < goal
    ensures ApplyCheck(Step(rec, false), Accumulate(Some(goal), 1.0)) == Ok(Step(CountedOnce(rec, goal), true))
  {
    var q := (rec.currentValue + 1.0) / goal;
    assert q * goal == rec.currentValue + 1.0;
    assert q >= 1.0 ==> q * goal >= goal;
    assert Min(100.0, q * 100.0) == q * 100.0;
  }

  /** A pass over a challenge that only counts sessions adds one session while the goal is not reached. */
  lemma CountPass(rec: Record, goal: real, m: SessionMetrics)
    requires !rec.completed && goal > 0.0 && rec.currentValue + 1.0 < goal
    ensures UpdateOne(Some(rec), NoRequirements.(count := Some(goal)), m) == Ok(Written(CountedOnce(rec, goal)))
  {
    var cs := Checks(NoRequirements.(count := Some(goal)), m);
    var s := Step(rec, false);
    var t := Step(CountedOnce(rec, goal), true);
    CountCheck(rec, goal);
    assert ApplyChecks(t, cs[12..]) == Ok(t);
    assert ApplyChecks(t, cs[11..]) == Ok(t);
    assert ApplyChecks(t, cs[10..]) == Ok(t);
    assert ApplyChecks(t, cs[9..]) == Ok(t);
    assert ApplyChecks(t, cs[8..]) == Ok(t);
    assert ApplyChecks(t, cs[7..]) == Ok(t);
    assert ApplyChecks(t, cs[6..]) == Ok(t);
    assert ApplyChecks(t, cs[5..]) == Ok(t);
    assert ApplyChecks(t, cs[4..]) == Ok(t);
    assert ApplyChecks(t, cs[3..]) == Ok(t);
    assert ApplyCheck(s, cs[2]) == Ok(t);
    assert ApplyChecks(s, cs[2..]) == Ok(t);
    assert ApplyChecks(s, cs[1..]) == Ok(t);
  }

  /** A pass that writes a stored record hands the later passes the record it wrote. */
  lemma RunAllWritten(cs: seq<Challenge>, state: map<string, Record>, m: SessionMetrics, rec: Record,
                      later: seq<Challenge>, next: map<string, Record>)
    requires cs != [] && cs[0].id in state
    requires UpdateOne(Some(state[cs[0].id]), cs[0].requirements, m) == Ok(Written(rec))
    requires later == cs[1..] && next == state[cs[0].id := rec]
    ensures RunAll(cs, state, m) == Extend(cs[0], rec, RunAll(later, next, m))
  {
  }

  /** Writing one more record in front keeps the written ids equal to the reported ones. */
  lemma KeysCons(item: Item, rec: Record, items: seq<Item>, writes: map<string, Record>)
    requires writes.Keys == Ids(items)
    ensures (map[item.id := rec] + writes).Keys == Ids([item] + items)
  {
    assert ([item] + items)[1..] == items;
  }

  /** A record completed before the pass is completed after it, so neither this pass nor a later one writes it. */
  lemma StepCompleted(id: string, state: map<string, Record>, next: map<string, Record>, o: Outcome,
                      later: map<string, Record>, writes: map<string, Record>)
    requires forall k :: k in state && state[k].completed ==> k in next && next[k].completed
    requires id in state && state[id].completed ==> !o.Written?
    requires forall k :: k in next && next[k].completed ==> k !in later
    requires writes == if o.Written? then map[id := o.rec] + later else later
    ensures forall k :: k in state && state[k].completed ==> k !in writes
  {
  }

  /** The claimed flag of every write is the one stored before the run. */
  lemma StepClaims(id: string, state: map<string, Record>, next: map<string, Record>, o: Outcome,
                   later: map<string, Record>, writes: map<string, Record>)
    requires next == if o.Written? && id in state then state[id := o.rec] else state
    requires o.Written? ==> o.rec.claimed == (id in state && state[id].claimed)
    requires forall k :: k in later ==> later[k].claimed == (k in next && next[k].claimed)
    requires writes == if o.Written? then map[id := o.rec] + later else later
    ensures forall k :: k in writes ==> writes[k].claimed == (k in state && state[k].claimed)
  {
  }

  /** A challenge listed only without requirements is written by no pass. */
  lemma StepUnrequired(cs: seq<Challenge>, o: Outcome, later: map<string, Record>, writes: map<string, Record>)
    requires cs != []
    requires cs[0].requirements == NoRequirements ==> !o.Written?
    requires forall k :: Unrequired(cs[1..], k) ==> k !in later
    requires writes == if o.Written? then map[cs[0].id := o.rec] + later else later
    ensures forall k :: Unrequired(cs, k) ==> k !in writes
  {
    UnrequiredTail(cs);
  }

  /**
   * What one pass leaves for the passes after it: completed records stay completed, claimed flags
   * stay as they were, and a challenge without requirements is not written.
   */
  lemma PassKeeps(state: map<string, Record>, id: string, record: Option<Record>, q: Requirements, m: SessionMetrics,
                  o: Outcome, next: map<string, Record>)
    requires record == if id in state then Some(state[id]) else None
    requires UpdateOne(record, q, m) == Ok(o)
    requires next == if o.Written? && id in state then state[id := o.rec] else state
    ensures next.Keys == state.Keys
    ensures forall k :: k in state && state[k].completed ==> next[k].completed
    ensures forall k :: k in state ==> next[k].claimed == state[k].claimed
    ensures id in state && state[id].completed ==> !o.Written?
    ensures o.Written? ==> o.rec.claimed == (id in state && state[id].claimed)
    ensures q == NoRequirements ==> !o.Written?
  {
    NoRequirementsNoWrite(record, m);
  }

  /** Dropping the first challenge keeps every id that was unrequired. */
  lemma UnrequiredTail(cs: seq<Challenge>)
    requires cs != []
    ensures forall id :: Unrequired(cs, id) ==> Unrequired(cs[1..], id)
  {
    forall id | Unrequired(cs, id) ensures Unrequired(cs[1..], id) {
      forall k | 0 <= k < |cs[1..]| && cs[1..][k].id == id ensures cs[1..][k].requirements == NoRequirements {
        assert cs[1..][k] == cs[k + 1];
      }
    }
  }

  /** Reporting one more entry in front, and writing its record under the later writes, keeps the last entries matched. */
  lemma LastEntriesCons(item: Item, rec: Record, items: seq<Item>, writes: map<string, Record>)
    requires Reports(item, rec)
    requires writes.Keys == Ids(items)
    requires LastEntriesMatch(items, writes)
    ensures LastEntriesMatch([item] + items, map[item.id := rec] + writes)
  {
    var all := [item] + items;
    var w := map[item.id := rec] + writes;
    forall i | 0 <= i < |all| && LastFor(all, i) ensures all[i].id in w && Reports(all[i], w[all[i].id]) {
      if i == 0 {
        HeadMatch(item, rec, items, writes);
      } else {
        TailMatch(item, rec, items, writes, i);
      }
    }
  }

  /** A matched entry behind the front one keeps its write, which the later writes override the front's with. */
  lemma TailMatch(item: Item, rec: Record, items: seq<Item>, writes: map<string, Record>, i: nat)
    requires 0 < i < |[item] + items| && LastFor([item] + items, i)
    requires LastEntriesMatch(items, writes)
    ensures var w := map[item.id := rec] + writes;
      ([item] + items)[i].id in w && Reports(([item] + items)[i], w[([item] + items)[i].id])
  {
    TailLast(item, items, i - 1);
    assert ([item] + items)[i] == items[i - 1];
    assert items[i - 1].id in writes && Reports(items[i - 1], writes[items[i - 1].id]);
  }

  /** The front entry, when no later entry shares its id, reports the record written for it. */
  lemma HeadMatch(item: Item, rec: Record, items: seq<Item>, writes: map<string, Record>)
    requires Reports(item, rec)
    requires writes.Keys == Ids(items)
    requires LastFor([item] + items, 0)
    ensures var w := map[item.id := rec] + writes;
      ([item] + items)[0].id in w && Reports(([item] + items)[0], w[([item] + items)[0].id])
  {
    HeadLast(item, items, writes);
    assert ([item] + items)[0] == item;
  }

  /** The front entry, when no later entry shares its id, has no later write either. */
  lemma HeadLast(item: Item, items: seq<Item>, writes: map<string, Record>)
    requires writes.Keys == Ids(items)
    requires LastFor([item] + items, 0)
    ensures item.id !in writes
  {
    forall j | 0 <= j < |items| ensures items[j].id != item.id {
      assert ([item] + items)[j + 1] == items[j];
    }
  }

  /** An entry behind the front one that is last in the longer list is last in its own list. */
  lemma TailLast(item: Item, items: seq<Item>, i: nat)
    requires i < |items| && LastFor([item] + items, i + 1)
    ensures LastFor(items, i)
  {
    var all := [item] + items;
    forall j | i < j < |items| ensures items[j].id != items[i].id {
      assert all[j + 1] == items[j] && all[i + 1] == items[i];
    }
  }

  /** The ids of the reported entries. */
  function Ids(items: seq<Item>): (ids: set<string>)
    ensures forall k :: k in ids <==> exists i :: 0 <= i < |items| && items[i].id == k
  {
    if items == [] then {}
    else
      assert forall i :: 1 <= i < |items| ==> items[1..][i - 1] == items[i];
      {items[0].id} + Ids(items[1..])
  }

  /** Build the snapshot map; a later record for the same challenge replaces an earlier one. */
  function ToMap(rs: seq<(string, Record)>): (mp: map<string, Record>)
    ensures forall k :: k in mp <==> exists i :: 0 <= i < |rs| && rs[i].0 == k
    ensures |rs| > 0 ==> mp[rs[|rs| - 1].0] == rs[|rs| - 1].1
  {
    if rs == [] then map[]
    else
      var front := ToMap(rs[..|rs| - 1]);
      assert forall i :: 0 <= i < |rs| - 1 ==> rs[..|rs| - 1][i] == rs[i];
      front[rs[|rs| - 1].0 := rs[|rs| - 1].1]
  }

  // ---------------------------------------------------------------- the run against its trace

  /** The record a pass reads: the stored one, or none, in which case the pass starts from a fresh one. */
  function Lookup(state: map<string, Record>, id: string): (record: Option<Record>)
    ensures record.Some? <==> id in state
  {
    if id in state then Some(state[id]) else None
  }

  /** The records the later passes see: a write to a stored record updates it in place, a fresh one is not kept. */
  function After(state: map<string, Record>, id: string, o: Outcome): (next: map<string, Record>)
    ensures next.Keys == state.Keys
  {
    if o.Written? && id in state then state[id := o.rec] else state
  }

  /** A pass that wrote a record. */
  predicate Wrote(p: Result<Outcome, string>) {
    p.Ok? && p.value.Written?
  }

  /** The entry of `updated_challenges` reporting a record written for challenge `c`. */
  function ItemOf(c: Challenge, rec: Record): (item: Item)
    ensures item.id == c.id && item.title == c.title && Reports(item, rec)
  {
    Item(c.id, c.title, rec.progress, rec.completed, rec.claimed)
  }

  /**
   * The reference trace of the loop: the outcome of each pass in turn, the records threaded from
   * pass to pass, ending with the pass whose checks raised, if one did.
   */
  ghost function Trace(cs: seq<Challenge>, state: map<string, Record>, m: SessionMetrics): (ps: seq<Result<Outcome, string>>)
    ensures |ps| <= |cs|
    ensures cs != [] ==> ps != [] && ps[0] == UpdateOne(Lookup(state, cs[0].id), cs[0].requirements, m)
    ensures forall i :: 0 <= i < |ps| - 1 ==> ps[i].Ok?
    ensures |ps| < |cs| ==> ps != [] && ps[|ps| - 1].Err?
    decreases |cs|
  {
    if cs == [] then []
    else
      var p := UpdateOne(Lookup(state, cs[0].id), cs[0].requirements, m);
      if p.Err? then [p]
      else
        var later := Trace(cs[1..], After(state, cs[0].id, p.value), m);
        assert forall i :: 1 <= i < |later| + 1 ==> ([p] + later)[i] == later[i - 1];
        [p] + later
  }

  /** A pass is a record written at `i` of the trace. */
  ghost predicate WroteAt(ps: seq<Result<Outcome, string>>, i: int) {
    0 <= i < |ps| && Wrote(ps[i])
  }

  /** The entry of `x` at pass `i` of the trace over `cs`. */
  ghost predicate ReportedAt(cs: seq<Challenge>, ps: seq<Result<Outcome, string>>, x: Item, i: int) {
    WroteAt(ps, i) && i < |cs| && x == ItemOf(cs[i], ps[i].value.rec)
  }

  /** The entries a trace reports: one for every pass that wrote, in the order of the passes. */
  ghost function Reported(cs: seq<Challenge>, ps: seq<Result<Outcome, string>>): (items: seq<Item>)
    requires |ps| <= |cs|
    ensures |items| <= |ps|
    ensures forall i :: WroteAt(ps, i) ==> ItemOf(cs[i], ps[i].value.rec) in items
    ensures forall x :: x in items ==> exists i :: ReportedAt(cs, ps, x, i)
    decreases |ps|
  {
    if ps == [] then []
    else
      var rest := Reported(cs[1..], ps[1..]);
      var items := (if Wrote(ps[0]) then [ItemOf(cs[0], ps[0].value.rec)] else []) + rest;
      forall i | WroteAt(ps, i) ensures ItemOf(cs[i], ps[i].value.rec) in items {
        if i > 0 {
          assert WroteAt(ps[1..], i - 1);
          assert cs[1..][i - 1] == cs[i];
        }
      }
      forall x | x in items ensures exists i :: ReportedAt(cs, ps, x, i) {
        if x in rest {
          var j :| ReportedAt(cs[1..], ps[1..], x, j);
          assert ReportedAt(cs, ps, x, j + 1);
        } else {
          assert ReportedAt(cs, ps, x, 0);
        }
      }
      items
  }

  /** The trace over `cs` is the first pass followed by the trace of the later passes, when that pass did not raise. */
  lemma TraceStep(cs: seq<Challenge>, state: map<string, Record>, m: SessionMetrics, o: Outcome,
                   later: seq<Challenge>, next: map<string, Record>)
    requires cs != [] && UpdateOne(Lookup(state, cs[0].id), cs[0].requirements, m) == Ok(o)
    requires later == cs[1..] && next == After(state, cs[0].id, o)
    ensures Trace(cs, state, m) == [Ok(o)] + Trace(later, next, m)
  {
  }

  /** The run over `cs` is the first pass's report, if it wrote, in front of the later passes' run. */
  lemma RunAllStep(cs: seq<Challenge>, state: map<string, Record>, m: SessionMetrics, o: Outcome,
                   later: seq<Challenge>, next: map<string, Record>)
    requires cs != [] && UpdateOne(Lookup(state, cs[0].id), cs[0].requirements, m) == Ok(o)
    requires later == cs[1..] && next == After(state, cs[0].id, o)
    ensures RunAll(cs, state, m) == if o.Written? then Extend(cs[0], o.rec, RunAll(later, next, m)) else RunAll(later, next, m)
  {
  }

  /** Reporting in front of a trace's entries the entry of a first pass. */
  lemma ReportedCons(cs: seq<Challenge>, p: Result<Outcome, string>, later: seq<Result<Outcome, string>>)
    requires cs != [] && |later| <= |cs| - 1
    ensures Reported(cs, [p] + later) == (if Wrote(p) then [ItemOf(cs[0], p.value.rec)] else []) + Reported(cs[1..], later)
  {
    assert ([p] + later)[1..] == later;
  }

  /**
   * A run follows a trace: it reports exactly the passes that wrote, in order; it ends with an
   * exception exactly when a pass raised, and that exception is the one the last pass raised.
   */
  ghost predicate Follows(cs: seq<Challenge>, ps: seq<Result<Outcome, string>>, r: Run)
    requires |ps| <= |cs|
  {
    && r.updated == Reported(cs, ps)
    && (r.failure.None? <==> forall i :: 0 <= i < |ps| ==> ps[i].Ok?)
    && (r.failure.Some? ==> ps != [] && ps[|ps| - 1] == Err(r.failure.value))
  }

  /** A pass that did not raise, put in front of a run that follows the later trace, gives a run that follows the whole one. */
  lemma FollowsCons(cs: seq<Challenge>, p: Result<Outcome, string>, later: seq<Result<Outcome, string>>, rest: Run, r: Run)
    requires cs != [] && |later| <= |cs| - 1 && p.Ok?
    requires rest.newlyCompleted == Unclaimed(rest.updated)
    requires Follows(cs[1..], later, rest)
    requires r == if Wrote(p) then Extend(cs[0], p.value.rec, rest) else rest
    ensures Follows(cs, [p] + later, r)
  {
    ReportedCons(cs, p, later);
    var ps := [p] + later;
    assert forall i :: 1 <= i < |ps| ==> ps[i] == later[i - 1];
  }

  /** The run follows its trace. */
  lemma {:induction false} RunAllFollowsTrace(cs: seq<Challenge>, state: map<string, Record>, m: SessionMetrics)
    ensures Follows(cs, Trace(cs, state, m), RunAll(cs, state, m))
    decreases |cs|
  {
    if cs != [] {
      var c := cs[0];
      var p := UpdateOne(Lookup(state, c.id), c.requirements, m);
      if p.Ok? {
        var later := cs[1..];
        var next := After(state, c.id, p.value);
        RunAllFollowsTrace(later, next, m);
        TraceStep(cs, state, m, p.value, later, next);
        RunAllStep(cs, state, m, p.value, later, next);
        FollowsCons(cs, p, Trace(later, next, m), RunAll(later, next, m), RunAll(cs, state, m));
      }
    }
  }

  /** The report of `update_challenge_progress`; its `total_updated` is the length of `updated`. */
  datatype Report = Report(updated: seq<Item>, newlyCompleted: seq<Item>, totalUpdated: nat)

  /**
   * `update_challenge_progress`: both queries read at most 100 documents. The result is the report,
   * or the exception, and in both cases the records written before it ended.
   */
  function UpdateChallengeProgress(active: seq<Challenge>, records: seq<(string, Record)>, m: SessionMetrics):
    (r: (map<string, Record>, Result<Report, string>))
    ensures r.1.Ok? ==> r.1.value.totalUpdated == |r.1.value.updated| <= 100
    ensures r.1.Ok? ==> r.1.value.newlyCompleted == Unclaimed(r.1.value.updated)
    ensures r.1.Ok? ==> forall x :: x in r.1.value.newlyCompleted <==> x in r.1.value.updated && x.completed && !x.claimed
    ensures r.1.Ok? ==> r.0.Keys == Ids(r.1.value.updated)
    ensures r.1.Ok? ==> LastEntriesMatch(r.1.value.updated, r.0)
    ensures var stored := ToMap(Take(records, 100));
      forall id :: id in stored && stored[id].completed ==> id !in r.0
    ensures var stored := ToMap(Take(records, 100));
      forall id :: id in r.0 ==> r.0[id].claimed == (id in stored && stored[id].claimed)
    ensures forall id :: Unrequired(active, id) ==> id !in r.0
    ensures ResultFollows(Take(active, 100), Trace(Take(active, 100), ToMap(Take(records, 100)), m), r.1)
  {
    UnrequiredPrefix(active, 100);
    var cs := Take(active, 100);
    var state := ToMap(Take(records, 100));
    RunAllFollowsTrace(cs, state, m);
    var run := RunAll(cs, state, m);
    var res := if run.failure.Some? then Err(run.failure.value) else Ok(Report(run.updated, run.newlyCompleted, |run.updated|));
    ReportFollows(cs, Trace(cs, state, m), run, res);
    (run.writes, res)
  }

  /**
   * The result of `update_challenge_progress` follows the trace of its loop: it is the report exactly
   * when no pass raised, the exception of the last pass otherwise, and the report lists exactly the
   * passes that wrote, in order.
   */
  ghost predicate ResultFollows(cs: seq<Challenge>, ps: seq<Result<Outcome, string>>, res: Result<Report, string>)
    requires |ps| <= |cs|
  {
    && (res.Ok? <==> forall i :: 0 <= i < |ps| ==> ps[i].Ok?)
    && (res.Err? ==> ps != [] && ps[|ps| - 1] == Err(res.error))
    && (res.Ok? ==> res.value.updated == Reported(cs, ps))
  }

  /** The report of a run that follows its trace follows it too. */
  lemma ReportFollows(cs: seq<Challenge>, ps: seq<Result<Outcome, string>>, run: Run, res: Result<Report, string>)
    requires |ps| <= |cs| && Follows(cs, ps, run)
    requires res == if run.failure.Some? then Err(run.failure.value) else Ok(Report(run.updated, run.newlyCompleted, |run.updated|))
    ensures ResultFollows(cs, ps, res)
  {
  }

  /** An id unrequired in every listing is unrequired in the first `n` listings. */
  lemma UnrequiredPrefix(cs: seq<Challenge>, n: nat)
    ensures forall id :: Unrequired(cs, id) ==> Unrequired(Take(cs, n), id)
  {
    var t := Take(cs, n);
    forall id | Unrequired(cs, id) ensures Unrequired(t, id) {
      forall k | 0 <= k < |t| && t[k].id == id ensures t[k].requirements == NoRequirements {
        assert t[k] == cs[k];
      }
    }
  }

  /** A completed record is never reopened: what the run writes for it, if anything, is still completed. */
  lemma NeverReopens(c: Challenge, snapshot: map<string, Record>, m: SessionMetrics)
    ensures var r := UpdateOne(if c.id in snapshot then Some(snapshot[c.id]) else None, c.requirements, m);
      c.id in snapshot && snapshot[c.id].completed ==> r == Ok(Skipped)
  {
  }

  // ---------------------------------------------------------------- summary

  datatype Summary = Summary(total: nat, completed: nat, claimed: nat, inProgress: nat, completionRate: real)

  function CompletedFlags(rs: seq<Record>): (bs: seq<bool>)
    ensures |bs| == |rs| && forall i :: 0 <= i < |rs| ==> bs[i] == rs[i].completed
  {
    seq(|rs|, i requires 0 <= i < |rs| => rs[i].completed)
  }

  function ClaimedFlags(rs: seq<Record>): (bs: seq<bool>)
    ensures |bs| == |rs| && forall i :: 0 <= i < |rs| ==> bs[i] == rs[i].claimed
  {
    seq(|rs|, i requires 0 <= i < |rs| => rs[i].claimed)
  }

  /** The number of true flags is at most their number, and equals it only when all are true. */
  lemma {:induction false} CountTrueAll(bs: seq<bool>)
    ensures CountTrue(bs) <= |bs|
    ensures CountTrue(bs) == |bs| <==> forall i :: 0 <= i < |bs| ==> bs[i]
  {
    if bs != [] {
      CountTrueAll(bs[1..]);
      assert forall i :: 1 <= i < |bs| ==> bs[i] == bs[1..][i - 1];
    }
  }

  /**
   * `get_user_challenge_summary` over the user's records (the query reads at most 1000): the
   * records not completed are in progress, and the completion rate is a percentage, 0 without records.
   */
  function GetUserChallengeSummary(records: seq<Record>): (s: Summary)
    ensures s.total == |Take(records, 1000)|
    ensures s.completed <= s.total && s.claimed <= s.total
    ensures s.completed == |set i | 0 <= i < s.total && records[i].completed|
    ensures s.claimed == |set i | 0 <= i < s.total && records[i].claimed|
    ensures s.inProgress == s.total - s.completed
    ensures 0.0 <= s.completionRate <= 100.0
    ensures s.total == 0 ==> s.completionRate == 0.0
    ensures s.total > 0 ==> (s.completionRate == 100.0 <==> forall i :: 0 <= i < s.total ==> records[i].completed)
    ensures s.completionRate == Rate(s.completed, s.total)
  {
    var rs := Take(records, 1000);
    var done := CountTrue(CompletedFlags(rs));
    var claimed := CountTrue(ClaimedFlags(rs));
    CountTrueAll(CompletedFlags(rs));
    CountTrueAll(ClaimedFlags(rs));
    FlagsCount(records, rs);
    Summary(|rs|, done, claimed, |rs| - done, Rate(done, |rs|))
  }

  /** The flags of the first records count the records that carry them. */
  lemma FlagsCount(records: seq<Record>, rs: seq<Record>)
    requires |rs| <= |records| && rs == records[..|rs|]
    ensures CountTrue(CompletedFlags(rs)) == |set i | 0 <= i < |rs| && records[i].completed|
    ensures CountTrue(ClaimedFlags(rs)) == |set i | 0 <= i < |rs| && records[i].claimed|
  {
    CountTrueIsSize(CompletedFlags(rs));
    CountTrueIsSize(ClaimedFlags(rs));
    assert forall i :: 0 <= i < |rs| ==> rs[i] == records[i];
    assert TrueAt(CompletedFlags(rs)) == set i | 0 <= i < |rs| && records[i].completed;
    assert TrueAt(ClaimedFlags(rs)) == set i | 0 <= i < |rs| && records[i].claimed;
  }

  /** `completed / total * 100`, or 0 without records. */
  function Rate(part: nat, whole: nat): (p: real)
    requires part <= whole
    ensures 0.0 <= p <= 100.0
    ensures whole == 0 ==> p == 0.0
    ensures whole > 0 ==> (p == 100.0 <==> part == whole)
    ensures p * (whole as real) == 100.0 * (part as real)
  {
    if whole == 0 then 0.0
    else
      var q := (part as real) / (whole as real);
      assert q * (whole as real) == part as real;
      DivBounds(part as real, whole as real, 0.0, 1.0);
      assert part < whole ==> q < 1.0;
      assert part == whole ==> q == 1.0;
      q * 100.0
  }
}

=== FILE: client_challenges.dfy ===
/**
 * The live challenge progress the practice page shows between backend updates
 * (frontend-next/src/hooks/useActiveSessionChallenges.ts, `updateChallengeProgress`). Each tracked
 * challenge is re-scored from the latest metrics; the range challenges measure the distance to the
 * middle of the range, where the backend measures it to the nearer bound.
 */
module ClientChallenges {
  import opened Wrappers
  import opened Stats
  import ChallengeTracker

  /** A requirement as JavaScript reads it: a missing key and a zero are both falsy. */
  predicate Set(x: Option<real>) {
    x.Some? && x.value != 0.0
  }

  datatype Requirements = Requirements(
    minEyeContact: Option<real>, wpmMin: Option<real>, wpmMax: Option<real>,
    minFacialConfidence: Option<real>, minContentClarity: Option<real>,
    volumeMin: Option<real>, volumeMax: Option<real>, minEngagement: Option<real>)

  /** A challenge as the backend listed it; `requirements` may be missing. */
  datatype Listed = Listed(challengeId: string, requirements: Option<Requirements>)

  /** The metrics of one update; a metric left out is None. */
  datatype Metrics = Metrics(
    eyeContact: Option<real>, speechRateWpm: Option<real>, facialConfidence: Option<real>,
    contentClarity: Option<real>, volumeDb: Option<real>, engagement: Option<real>)

  datatype Tracked = Tracked(
    challengeId: string, title: string, skillCategory: string, progress: real,
    targetValue: string, currentValue: real, completed: bool)

  /** `Math.min(100, value / target * 100)`. */
  function RatioCredit(v: real, target: real): (p: real)
    requires target != 0.0
    ensures p <= 100.0
    ensures target > 0.0 ==> (p == 100.0 <==> v >= target)
    ensures target < 0.0 ==> (p == 100.0 <==> v <= target)
    ensures p < 100.0 ==> p * target == 100.0 * v
    ensures target > 0.0 && v >= 0.0 ==> p >= 0.0
  {
    var q := v / target;
    assert q * target == v;
    Min(100.0, q * 100.0)
  }

  /** Full credit inside the inclusive range, otherwise 100 minus the distance to its middle as a share of the tolerance, floored at 0. */
  function MidpointCredit(v: real, lo: real, hi: real, tolerance: real): (p: real)
    requires tolerance > 0.0
    ensures 0.0 <= p <= 100.0
    ensures lo <= v <= hi ==> p == 100.0
    ensures lo <= hi && !(lo <= v <= hi) ==> p < 100.0
    ensures !(lo <= v <= hi) && p > 0.0 ==> (100.0 - p) * tolerance == 100.0 * Abs(v - (lo + hi) / 2.0)
    ensures !(lo <= v <= hi) && p == 0.0 ==> Abs(v - (lo + hi) / 2.0) >= tolerance
  {
    if lo <= v <= hi then 100.0
    else
      var d := Abs(v - (lo + hi) / 2.0);
      var share := d / tolerance;
      assert share * tolerance == d;
      assert lo <= hi ==> d > 0.0;
      AtLeastOneShare(d, tolerance);
      assert 100.0 - share * 100.0 <= 0.0 ==> share >= 1.0;
      Max(0.0, 100.0 - share * 100.0)
  }

  /** A distance of at least one whole tolerance, as a share of it, is at least the tolerance. */
  lemma AtLeastOneShare(d: real, tolerance: real)
    requires tolerance > 0.0
    ensures d / tolerance >= 1.0 ==> d >= tolerance
  {
    var q := d / tolerance;
    assert q * tolerance == d;
    assert q >= 1.0 ==> q * tolerance - tolerance == (q - 1.0) * tolerance;
  }

  /** The progress and current value one update leaves: each check that applies overwrites both, in code order. */
  datatype Reading = Reading(progress: real, currentValue: real)

  /**
   * A "reach at least the target" check: it applies when the target is set and the metric reported,
   * and then reads the metric as a share of the target, capped at 100.
   */
  function Ratio(r: Reading, target: Option<real>, metric: Option<real>): (s: Reading)
    ensures !(Set(target) && metric.Some?) ==> s == r
    ensures Set(target) && metric.Some? ==> s.currentValue == metric.value && s.progress <= 100.0
    ensures Set(target) && metric.Some? && target.value > 0.0 ==> (s.progress == 100.0 <==> metric.value >= target.value)
    ensures Set(target) && metric.Some? && s.progress < 100.0 ==> s.progress * target.value == 100.0 * metric.value
    ensures Set(target) && metric.Some? && target.value > 0.0 && metric.value >= 0.0 ==> s.progress >= 0.0
  {
    if Set(target) && metric.Some? then Reading(RatioCredit(metric.value, target.value), metric.value) else r
  }

  /**
   * A "stay inside the range" check: it applies when both bounds are set and the metric reported;
   * full credit inside, otherwise credit falls with the distance to the middle of the range.
   */
  function Range(r: Reading, lo: Option<real>, hi: Option<real>, metric: Option<real>, tolerance: real): (s: Reading)
    requires tolerance > 0.0
    ensures !(Set(lo) && Set(hi) && metric.Some?) ==> s == r
    ensures Set(lo) && Set(hi) && metric.Some? ==> s.currentValue == metric.value && 0.0 <= s.progress <= 100.0
    ensures Set(lo) && Set(hi) && metric.Some? && lo.value <= hi.value ==>
      (s.progress == 100.0 <==> lo.value <= metric.value <= hi.value)
    ensures Set(lo) && Set(hi) && metric.Some? && !(lo.value <= metric.value <= hi.value) && s.progress > 0.0 ==>
      (100.0 - s.progress) * tolerance == 100.0 * Abs(metric.value - (lo.value + hi.value) / 2.0)
    ensures Set(lo) && Set(hi) && metric.Some? && !(lo.value <= metric.value <= hi.value) && s.progress == 0.0 ==>
      Abs(metric.value - (lo.value + hi.value) / 2.0) >= tolerance
  {
    if Set(lo) && Set(hi) && metric.Some? then
      Reading(MidpointCredit(metric.value, lo.value, hi.value, tolerance), metric.value)
    else r
  }

  /** One of the hook's checks, with the requirement and metric it reads. */
  datatype Check =
    | AtLeast(target: Option<real>, metric: Option<real>)
    | Within(lo: Option<real>, hi: Option<real>, metric: Option<real>, tolerance: real)

  /** A check applies when its requirement is set and its metric reported. */
  predicate Applies(c: Check) {
    match c
    case AtLeast(target, metric) => Set(target) && metric.Some?
    case Within(lo, hi, metric, _) => Set(lo) && Set(hi) && metric.Some?
  }

  /** What an applying check reads: its credit and the metric itself. */
  function Verdict(c: Check): (s: Reading)
    requires Applies(c) && (c.Within? ==> c.tolerance > 0.0)
    ensures s.currentValue == c.metric.value
  {
    match c
    case AtLeast(target, metric) => Reading(RatioCredit(metric.value, target.value), metric.value)
    case Within(lo, hi, metric, tolerance) => Reading(MidpointCredit(metric.value, lo.value, hi.value, tolerance), metric.value)
  }

  /** Every range check has a positive tolerance. */
  predicate Tolerant(cs: seq<Check>) {
    forall k :: 0 <= k < |cs| && cs[k].Within? ==> cs[k].tolerance > 0.0
  }

  /** The hook's six checks in its order: eye contact, pace, facial confidence, clarity, volume, engagement. */
  function HookChecks(q: Requirements, m: Metrics): (cs: seq<Check>)
    ensures |cs| == 6 && Tolerant(cs)
  {
    [AtLeast(q.minEyeContact, m.eyeContact), Within(q.wpmMin, q.wpmMax, m.speechRateWpm, 50.0),
     AtLeast(q.minFacialConfidence, m.facialConfidence), AtLeast(q.minContentClarity, m.contentClarity),
     Within(q.volumeMin, q.volumeMax, m.volumeDb, 20.0), AtLeast(q.minEngagement, m.engagement)]
  }

  /** One check run on the reading: an applying check overwrites it with its verdict, any other leaves it. */
  function Apply(r: Reading, c: Check): (s: Reading)
    requires c.Within? ==> c.tolerance > 0.0
    ensures Applies(c) ==> s == Verdict(c)
    ensures !Applies(c) ==> s == r
  {
    match c
    case AtLeast(target, metric) => Ratio(r, target, metric)
    case Within(lo, hi, metric, tolerance) => Range(r, lo, hi, metric, tolerance)
  }

  /** The checks run one after the other, each on the reading the previous one left. */
  function RunChecks(r: Reading, cs: seq<Check>): Reading
    requires Tolerant(cs)
    decreases |cs|
  {
    if cs == [] then r else RunChecks(Apply(r, cs[0]), cs[1..])
  }

  /** Check `k` is the last of `cs` that applies. */
  predicate LastApplying(cs: seq<Check>, k: int) {
    0 <= k < |cs| && Applies(cs[k]) && forall j :: k < j < |cs| ==> !Applies(cs[j])
  }

  /** Running checks leaves the reading when none applies, and otherwise gives the last applying one's verdict. */
  lemma {:induction false} LastDecides(r: Reading, cs: seq<Check>)
    requires Tolerant(cs)
    ensures (forall k :: 0 <= k < |cs| ==> !Applies(cs[k])) ==> RunChecks(r, cs) == r
    ensures forall k :: LastApplying(cs, k) ==> RunChecks(r, cs) == Verdict(cs[k])
    decreases |cs|
  {
    if cs != [] {
      var rest := cs[1..];
      assert Tolerant(rest) by {
        forall k | 0 <= k < |rest| && rest[k].Within? ensures rest[k].tolerance > 0.0 {
          assert rest[k] == cs[k + 1];
        }
      }
      LastDecides(Apply(r, cs[0]), rest);
      forall k | LastApplying(cs, k) ensures RunChecks(r, cs) == Verdict(cs[k]) {
        if k > 0 {
          assert LastApplying(rest, k - 1) by {
            forall j | k - 1 < j < |rest| ensures !Applies(rest[j]) {
              assert rest[j] == cs[j + 1];
            }
          }
        } else {
          assert forall j :: 0 <= j < |rest| ==> rest[j] == cs[j + 1];
        }
      }
      if forall k :: 0 <= k < |cs| ==> !Applies(cs[k]) {
        assert forall j :: 0 <= j < |rest| ==> rest[j] == cs[j + 1];
      }
    }
  }

  /**
   * The six checks in the order the hook runs them. With none applying, the reading stays as it
   * was; otherwise the last one that applies decides it, whatever the earlier ones read.
   */
  function Rescore(r: Reading, q: Requirements, m: Metrics): (s: Reading)
    ensures var cs := HookChecks(q, m); (forall k :: 0 <= k < |cs| ==> !Applies(cs[k])) ==> s == r
    ensures var cs := HookChecks(q, m); forall k :: LastApplying(cs, k) ==> s == Verdict(cs[k])
  {
    LastDecides(r, HookChecks(q, m));
    RunChecks(r, HookChecks(q, m))
  }

  /** The requirements of the first listed challenge with this id, if it has any. */
  function FindRequirements(listed: seq<Listed>, id: string): (q: Option<Requirements>)
    ensures (forall i :: 0 <= i < |listed| ==> listed[i].challengeId != id) ==> q.None?
    ensures q.Some? ==> exists i :: 0 <= i < |listed| && listed[i].challengeId == id && listed[i].requirements == q
                                    && forall j :: 0 <= j < i ==> listed[j].challengeId != id
    ensures forall i :: 0 <= i < |listed| && listed[i].challengeId == id && (forall j :: 0 <= j < i ==> listed[j].challengeId != id)
              ==> q == listed[i].requirements
  {
    if listed == [] then None
    else if listed[0].challengeId == id then listed[0].requirements
    else
      var q := FindRequirements(listed[1..], id);
      assert forall i :: 1 <= i < |listed| ==> listed[i] == listed[1..][i - 1];
      q
  }

  /** One challenge: unchanged without requirements, otherwise re-scored and `completed` recomputed. */
  function UpdateOne(c: Tracked, listed: seq<Listed>, m: Metrics): (r: Tracked)
    ensures r.challengeId == c.challengeId && r.title == c.title && r.skillCategory == c.skillCategory
    ensures r.targetValue == c.targetValue
    ensures FindRequirements(listed, c.challengeId).None? ==> r == c
    ensures FindRequirements(listed, c.challengeId).Some? ==> r.completed == (r.progress >= 100.0)
    ensures FindRequirements(listed, c.challengeId).Some? ==>
      var q := FindRequirements(listed, c.challengeId).value;
      (Set(q.minEngagement) && m.engagement.Some? ==>
         r.progress == RatioCredit(m.engagement.value, q.minEngagement.value) && r.currentValue == m.engagement.value)
    ensures FindRequirements(listed, c.challengeId).Some? ==>
      var s := Rescore(Reading(c.progress, c.currentValue), FindRequirements(listed, c.challengeId).value, m);
      r.progress == s.progress && r.currentValue == s.currentValue
  {
    match FindRequirements(listed, c.challengeId)
    case None => c
    case Some(q) =>
      var s := Rescore(Reading(c.progress, c.currentValue), q, m);
      assert Set(q.minEngagement) && m.engagement.Some? ==> LastApplying(HookChecks(q, m), 5);
      c.(progress := s.progress, currentValue := s.currentValue, completed := s.progress >= 100.0)
  }

  /** `prev.map(...)`: every tracked challenge, in order. */
  function UpdateChallengeProgress(prev: seq<Tracked>, listed: seq<Listed>, m: Metrics): (r: seq<Tracked>)
    ensures |r| == |prev|
    ensures forall i :: 0 <= i < |prev| ==> r[i] == UpdateOne(prev[i], listed, m)
  {
    seq(|prev|, i requires 0 <= i < |prev| => UpdateOne(prev[i], listed, m))
  }

  /** The updated list keeps every challenge's identity and order. */
  lemma KeepsOrder(prev: seq<Tracked>, listed: seq<Listed>, m: Metrics)
    ensures var r := UpdateChallengeProgress(prev, listed, m);
      forall i :: 0 <= i < |prev| ==> r[i].challengeId == prev[i].challengeId && r[i].title == prev[i].title
  {
  }

  /** An update without any of the six metrics leaves progress and current value as they were. */
  lemma NoMetricsNoChange(c: Tracked, listed: seq<Listed>)
    ensures var r := UpdateOne(c, listed, Metrics(None, None, None, None, None, None));
      r.progress == c.progress && r.currentValue == c.currentValue
  {
  }

  /** Unlike the backend, a challenge the client saw completed is reopened when the next reading falls short. */
  lemma CompletionCanRevert()
    ensures var q := Requirements(Some(80.0), None, None, None, None, None, None, None);
      var c := Tracked("eye", "Eye contact", "presence", 100.0, "80", 90.0, true);
      var r := UpdateOne(c, [Listed("eye", Some(q))], Metrics(Some(40.0), None, None, None, None, None));
      c.completed && !r.completed && r.progress == 50.0
  {
    var q := Requirements(Some(80.0), None, None, None, None, None, None, None);
    assert FindRequirements([Listed("eye", Some(q))], "eye") == Some(q);
    assert RatioCredit(40.0, 80.0) == 50.0;
  }

  /** The midpoint distance is the nearer-bound distance plus half the width of the range. */
  lemma MidpointFartherThanBound(v: real, band: ChallengeTracker.Range)
    requires band.lo <= band.hi && !(band.lo <= v <= band.hi)
    ensures Abs(v - (band.lo + band.hi) / 2.0) == ChallengeTracker.Distance(v, band) + (band.hi - band.lo) / 2.0
  {
  }

  /**
   * Outside the range (inside it both give 100) the client never credits more than the backend for
   * the same reading, and gives strictly less wherever the range has width and the backend gives
   * partial credit.
   */
  lemma MidpointNeverMoreGenerous(v: real, band: ChallengeTracker.Range, tolerance: real)
    requires tolerance > 0.0 && band.lo <= band.hi && !(band.lo <= v <= band.hi)
    ensures MidpointCredit(v, band.lo, band.hi, tolerance) <= ChallengeTracker.BandCredit(v, band, tolerance)
    ensures band.lo < band.hi && ChallengeTracker.BandCredit(v, band, tolerance) > 0.0 ==>
      MidpointCredit(v, band.lo, band.hi, tolerance) < ChallengeTracker.BandCredit(v, band, tolerance)
  {
    MidpointFartherThanBound(v, band);
    var d := ChallengeTracker.Distance(v, band);
    var e := Abs(v - (band.lo + band.hi) / 2.0);
    assert ChallengeTracker.BandCredit(v, band, tolerance) == Max(0.0, 100.0 - (d / tolerance) * 100.0);
    assert MidpointCredit(v, band.lo, band.hi, tolerance) == Max(0.0, 100.0 - (e / tolerance) * 100.0);
    CreditMonotone(d, e, tolerance);
  }

  /** Partial credit falls as the distance grows, strictly while it is still above 0. */
  lemma CreditMonotone(d: real, e: real, t: real)
    requires t > 0.0 && d <= e
    ensures Max(0.0, 100.0 - (e / t) * 100.0) <= Max(0.0, 100.0 - (d / t) * 100.0)
    ensures d < e && Max(0.0, 100.0 - (d / t) * 100.0) > 0.0 ==>
      Max(0.0, 100.0 - (e / t) * 100.0) < Max(0.0, 100.0 - (d / t) * 100.0)
  {
    DivideMonotone(d, e, t);
  }

  lemma DivideMonotone(a: real, b: real, t: real)
    requires t > 0.0 && a <= b
    ensures a / t <= b / t
    ensures a < b ==> a / t < b / t
  {
    var x := a / t;
    var y := b / t;
    assert x * t == a && y * t == b;
  }

  /** A speaking pace of 170 against 120-160: the backend credits 80, the client 40. */
  lemma PaceExample()
    ensures ChallengeTracker.BandCredit(170.0, ChallengeTracker.Range(120.0, 160.0), 50.0) == 80.0
    ensures MidpointCredit(170.0, 120.0, 160.0, 50.0) == 40.0
  {
  }
}

=== FILE: coach_engine.dfy ===
/**
 * The deterministic part of the AI coach engine (backend/app/core/gemini_coach_engine.py): the
 * snapshot it builds from the metric dictionaries it is handed, the strengths and weaknesses it
 * picks, the three-second rate limit of the asynchronous path, and the ten-entry feedback history.
 * The language model is a function parameter that may fail; the clock is a parameter too.
 */
module CoachEngine {
  import opened Wrappers
  import opened Stats
  import opened Sorting
  import opened Text

  /** A dictionary value the callers pass: a number, a string, or a list of strings. */
  datatype Value = Num(n: real) | Str(s: string) | Strs(items: seq<string>)

  /** A metric dictionary, keyed as the caller chose. */
  type Metrics = map<string, Value>

  /** `d.get(k, default)`. */
  function Get(m: Metrics, k: string, default: Value): (v: Value)
    ensures k in m ==> v == m[k]
    ensures k !in m ==> v == default
  {
    if k in m then m[k] else default
  }

  /** Python truthiness of a value. */
  predicate Truthy(v: Value) {
    match v
    case Num(n) => n != 0.0
    case Str(s) => s != []
    case Strs(items) => items != []
  }

  /** The numeric reading of a value; any other value makes the prompt's number formatting raise. */
  function AsNumber(v: Value): Option<real> {
    if v.Num? then Some(v.n) else None
  }

  /** The performance snapshot, with every formatted number present as a number. */
  datatype Snapshot = Snapshot(
    speechRateWpm: real, speechRateQuality: Value, pitchVariation: real, pitchQuality: Value,
    clarity: real, volumeConsistency: real, fillerWords: Value, voiceScore: real,
    primaryEmotion: Value, primaryConfidence: real, engagement: real, eyeContact: real, smile: real,
    transcript: string, wordCount: nat)

  /** `word_count`: 0 for an empty transcript, otherwise the number of whitespace-separated tokens. */
  function WordCount(transcript: string): (n: nat)
    ensures transcript == [] ==> n == 0
    ensures n == |Words(transcript)|
    ensures n == 0 <==> Blank(transcript)
  {
    if transcript == [] then 0 else |Words(transcript)|
  }

  /**
   * `_build_performance_snapshot`, followed by the formatting `_construct_feedback_prompt` applies:
   * the snapshot reads the keys "pitch_variation_semitones", "overall_voice_score", "primary_emotion"
   * and "primary_confidence", among others. It is None exactly when a field the prompt formats as a
   * number holds something else, or when a truthy filler-word value is a non-zero number, which
   * `', '.join` rejects; in both cases the source raises before the model is called.
   */
  function BuildSnapshot(voice: Metrics, facial: Metrics, transcript: string): (r: Option<Snapshot>)
    ensures r.Some? ==>
      && Get(voice, "speech_rate_wpm", Num(0.0)) == Num(r.value.speechRateWpm)
      && Get(voice, "speech_rate_quality", Str("normal")) == r.value.speechRateQuality
      && Get(voice, "pitch_variation_semitones", Num(0.0)) == Num(r.value.pitchVariation)
      && Get(voice, "pitch_quality", Str("monotone")) == r.value.pitchQuality
      && Get(voice, "clarity_score", Num(0.0)) == Num(r.value.clarity)
      && Get(voice, "volume_consistency", Num(0.0)) == Num(r.value.volumeConsistency)
      && Get(voice, "filler_words", Strs([])) == r.value.fillerWords
      && Get(voice, "overall_voice_score", Num(0.0)) == Num(r.value.voiceScore)
    ensures r.Some? ==>
      && Get(facial, "primary_emotion", Str("neutral")) == r.value.primaryEmotion
      && Get(facial, "primary_confidence", Num(0.0)) == Num(r.value.primaryConfidence)
      && Get(facial, "engagement_score", Num(0.0)) == Num(r.value.engagement)
      && Get(facial, "eye_contact_score", Num(0.0)) == Num(r.value.eyeContact)
      && Get(facial, "smile_score", Num(0.0)) == Num(r.value.smile)
      && r.value.transcript == transcript
      && r.value.wordCount == WordCount(transcript)
    ensures r.None? <==>
      || AsNumber(Get(voice, "speech_rate_wpm", Num(0.0))).None?
      || AsNumber(Get(voice, "pitch_variation_semitones", Num(0.0))).None?
      || AsNumber(Get(voice, "clarity_score", Num(0.0))).None?
      || AsNumber(Get(voice, "volume_consistency", Num(0.0))).None?
      || AsNumber(Get(voice, "overall_voice_score", Num(0.0))).None?
      || AsNumber(Get(facial, "primary_confidence", Num(0.0))).None?
      || AsNumber(Get(facial, "engagement_score", Num(0.0))).None?
      || AsNumber(Get(facial, "eye_contact_score", Num(0.0))).None?
      || AsNumber(Get(facial, "smile_score", Num(0.0))).None?
      || (Get(voice, "filler_words", Strs([])).Num? && Truthy(Get(voice, "filler_words", Strs([]))))
  {
    var wpm := AsNumber(Get(voice, "speech_rate_wpm", Num(0.0)));
    var pitch := AsNumber(Get(voice, "pitch_variation_semitones", Num(0.0)));
    var clarity := AsNumber(Get(voice, "clarity_score", Num(0.0)));
    var volume := AsNumber(Get(voice, "volume_consistency", Num(0.0)));
    var score := AsNumber(Get(voice, "overall_voice_score", Num(0.0)));
    var conf := AsNumber(Get(facial, "primary_confidence", Num(0.0)));
    var engagement := AsNumber(Get(facial, "engagement_score", Num(0.0)));
    var eye := AsNumber(Get(facial, "eye_contact_score", Num(0.0)));
    var smile := AsNumber(Get(facial, "smile_score", Num(0.0)));
    var fillers := Get(voice, "filler_words", Strs([]));
    if wpm.None? || pitch.None? || clarity.None? || volume.None? || score.None? || conf.None?
       || engagement.None? || eye.None? || smile.None? || (fillers.Num? && Truthy(fillers))
    then None
    else Some(Snapshot(
      wpm.value, Get(voice, "speech_rate_quality", Str("normal")), pitch.value,
      Get(voice, "pitch_quality", Str("monotone")), clarity.value, volume.value, fillers, score.value,
      Get(facial, "primary_emotion", Str("neutral")), conf.value, engagement.value, eye.value, smile.value,
      transcript, WordCount(transcript)))
  }

  /**
   * The session hands over its pitch variation under "pitch_variation" and its emotion under
   * "emotion"; the snapshot looks for other keys, so it always reports 0 semitones and "neutral".
   */
  lemma SessionKeysIgnored(voice: Metrics, facial: Metrics, transcript: string)
    requires "pitch_variation_semitones" !in voice && "primary_emotion" !in facial
    requires BuildSnapshot(voice, facial, transcript).Some?
    ensures BuildSnapshot(voice, facial, transcript).value.pitchVariation == 0.0
    ensures BuildSnapshot(voice, facial, transcript).value.primaryEmotion == Str("neutral")
  {
  }

  // ---------------------------------------------------------------- strengths and weaknesses

  /** The elements of `xs` whose flag is set, in order. */
  function Pick<T>(xs: seq<T>, flags: seq<bool>): (r: seq<T>)
    requires |xs| == |flags|
    ensures |r| <= |xs|
    ensures forall i :: 0 <= i < |xs| && flags[i] ==> xs[i] in r
    ensures forall x :: x in r ==> exists i :: 0 <= i < |xs| && flags[i] && xs[i] == x
  {
    if xs == [] then []
    else
      var rest := Pick(xs[1..], flags[1..]);
      assert forall i :: 1 <= i < |xs| ==> xs[i] == xs[1..][i - 1] && flags[i] == flags[1..][i - 1];
      if flags[0] then [xs[0]] + rest else rest
  }

  /** The first picked element is the first flagged one. */
  lemma {:induction false} PickHead<T>(xs: seq<T>, flags: seq<bool>, i: nat)
    requires |xs| == |flags| && i < |xs| && flags[i]
    requires forall j :: 0 <= j < i ==> !flags[j]
    ensures Pick(xs, flags) != [] && Pick(xs, flags)[0] == xs[i]
    decreases i
  {
    if i > 0 {
      PickHead(xs[1..], flags[1..], i - 1);
    }
  }

  const StrengthNames: seq<string> := [
    "Strong voice quality", "Excellent clarity", "Good pitch variation", "High engagement", "Good smile frequency"]

  const WeaknessNames: seq<string> := [
    "Speaking too fast", "Speaking too slowly", "Clarity needs work", "Improve volume consistency",
    "Add pitch variety", "Reduce filler words", "Low engagement", "Increase eye contact"]

  /** Which strength checks pass, in check order. */
  function StrengthFlags(s: Snapshot): (f: seq<bool>)
    ensures |f| == |StrengthNames|
  {
    [s.voiceScore > 75.0, s.clarity > 0.8, s.pitchQuality == Str("expressive"), s.engagement > 0.7, s.smile > 0.6]
  }

  /** Which weakness checks pass, in check order; the two rate checks form an if/elif on one label. */
  function WeaknessFlags(s: Snapshot): (f: seq<bool>)
    ensures |f| == |WeaknessNames|
  {
    var fast := s.speechRateQuality == Str("too_fast");
    [fast, !fast && s.speechRateQuality == Str("too_slow"), s.clarity < 0.6, s.volumeConsistency < 0.6,
     s.pitchQuality == Str("monotone"), Truthy(s.fillerWords), s.engagement < 0.5, s.eyeContact < 0.5]
  }

  /** `_identify_performance_areas`: the first two passing strength checks and the first two weakness checks. */
  function PerformanceAreas(s: Snapshot): (r: (seq<string>, seq<string>))
    ensures |r.0| <= 2 && |r.1| <= 2
    ensures r.0 == Take(Pick(StrengthNames, StrengthFlags(s)), 2)
    ensures r.1 == Take(Pick(WeaknessNames, WeaknessFlags(s)), 2)
    ensures forall x :: x in r.0 ==> exists i :: 0 <= i < |StrengthNames| && StrengthFlags(s)[i] && StrengthNames[i] == x
    ensures forall x :: x in r.1 ==> exists i :: 0 <= i < |WeaknessNames| && WeaknessFlags(s)[i] && WeaknessNames[i] == x
  {
    var strengths := Pick(StrengthNames, StrengthFlags(s));
    var weaknesses := Pick(WeaknessNames, WeaknessFlags(s));
    assert forall x :: x in Take(strengths, 2) ==> x in strengths;
    assert forall x :: x in Take(weaknesses, 2) ==> x in weaknesses;
    (Take(strengths, 2), Take(weaknesses, 2))
  }

  /** "Speaking too fast" and "Speaking too slowly" are never reported together. */
  lemma NeverFastAndSlow(s: Snapshot)
    ensures !("Speaking too fast" in PerformanceAreas(s).1 && "Speaking too slowly" in PerformanceAreas(s).1)
  {
    var r := PerformanceAreas(s).1;
    var flags := WeaknessFlags(s);
    if "Speaking too fast" in r {
      var i :| 0 <= i < |WeaknessNames| && flags[i] && WeaknessNames[i] == "Speaking too fast";
      RateLabelsAtTheirChecks(i);
    }
    if "Speaking too slowly" in r {
      var i :| 0 <= i < |WeaknessNames| && flags[i] && WeaknessNames[i] == "Speaking too slowly";
      RateLabelsAtTheirChecks(i);
    }
  }

  /** The two rate labels sit at the first two weakness checks and nowhere else. */
  lemma RateLabelsAtTheirChecks(i: nat)
    requires i < |WeaknessNames|
    ensures WeaknessNames[i] == "Speaking too fast" ==> i == 0
    ensures WeaknessNames[i] == "Speaking too slowly" ==> i == 1
  {
    if i >= 2 {
      assert WeaknessNames[i][0] != 'S';
    }
  }

  /** A voice score above 75 always leads the strengths. */
  lemma StrongVoiceLeads(s: Snapshot)
    requires s.voiceScore > 75.0
    ensures PerformanceAreas(s).0 != [] && PerformanceAreas(s).0[0] == "Strong voice quality"
  {
    PickHead(StrengthNames, StrengthFlags(s), 0);
  }

  // ---------------------------------------------------------------- the engine

  /** What the model is asked about: the snapshot, the picked areas and the caller's context. */
  datatype Prompt = Prompt(snapshot: Snapshot, strengths: seq<string>, weaknesses: seq<string>, context: string)

  function PromptFor(s: Snapshot, context: string): (p: Prompt)
    ensures p.snapshot == s && p.context == context
    ensures (p.strengths, p.weaknesses) == PerformanceAreas(s)
  {
    var areas := PerformanceAreas(s);
    Prompt(s, areas.0, areas.1, context)
  }

  datatype HistoryEntry = HistoryEntry(feedback: string, voiceScore: real, engagement: real)

  /** The engine's state: the feedback history, the session metrics and the last successful time. */
  datatype Engine = Engine(
    history: seq<HistoryEntry>, totalFeedback: nat, avgVoiceScore: real, avgEngagement: real,
    lastFeedbackTime: real)

  const MaxHistory: nat := 10

  /** The minimum number of seconds between two answers of the asynchronous path. */
  const MinFeedbackInterval: real := 3.0

  /** The history holds at most ten entries and the feedback total is its length. */
  predicate Valid(e: Engine) {
    |e.history| <= MaxHistory && e.totalFeedback == |e.history|
  }

  function NewEngine(): (e: Engine)
    ensures Valid(e) && e.history == [] && e.lastFeedbackTime == 0.0
  {
    Engine([], 0, 0.0, 0.0, 0.0)
  }

  function VoiceScoreOf(e: HistoryEntry): real { e.voiceScore }

  function EngagementOf(e: HistoryEntry): real { e.engagement }

  /**
   * `_update_feedback_history`: append, drop the oldest beyond ten, and recompute the total and the
   * averages over what is left.
   */
  function UpdateFeedbackHistory(e: Engine, feedback: string, s: Snapshot): (r: Engine)
    ensures Valid(r)
    ensures r.history == PushBounded(e.history, HistoryEntry(feedback, s.voiceScore, s.engagement), MaxHistory)
    ensures r.avgVoiceScore == Mean(Column(r.history, VoiceScoreOf)) && r.avgEngagement == Mean(Column(r.history, EngagementOf))
    ensures r.lastFeedbackTime == e.lastFeedbackTime
  {
    var h := PushBounded(e.history, HistoryEntry(feedback, s.voiceScore, s.engagement), MaxHistory);
    e.(history := h, totalFeedback := |h|, avgVoiceScore := Mean(Column(h, VoiceScoreOf)), avgEngagement := Mean(Column(h, EngagementOf)))
  }

  /**
   * `generate_real_time_feedback` at time `now`, with `model` standing for the language model (None
   * when the call raises). Inside the interval, or when the prompt cannot be built or the model
   * fails, the answer is "" and nothing changes; otherwise the history records the raw answer, the
   * time is stored and the stripped answer is returned.
   */
  function GenerateRealTimeFeedback(e: Engine, now: real, voice: Metrics, facial: Metrics, transcript: string,
                                    context: string, model: Prompt -> Option<string>): (r: (Engine, string))
    ensures now - e.lastFeedbackTime < MinFeedbackInterval ==> r == (e, "")
    ensures var snap := BuildSnapshot(voice, facial, transcript);
      now - e.lastFeedbackTime >= MinFeedbackInterval && snap.Some? && model(PromptFor(snap.value, context)).Some? ==>
        var fb := model(PromptFor(snap.value, context)).value;
        r == (UpdateFeedbackHistory(e, fb, snap.value).(lastFeedbackTime := now), StripSpace(fb))
    ensures var snap := BuildSnapshot(voice, facial, transcript);
      snap.None? || model(PromptFor(snap.value, context)).None? ==> r == (e, "")
  {
    if now - e.lastFeedbackTime < MinFeedbackInterval then (e, "")
    else
      match BuildSnapshot(voice, facial, transcript)
      case None => (e, "")
      case Some(snap) =>
        match model(PromptFor(snap, context))
        case None => (e, "")
        case Some(fb) => (UpdateFeedbackHistory(e, fb, snap).(lastFeedbackTime := now), StripSpace(fb))
  }

  /** Inside the interval the model's answer cannot matter: any two models give the same result. */
  lemma RateLimitSkipsModel(e: Engine, now: real, voice: Metrics, facial: Metrics, transcript: string,
                            context: string, m1: Prompt -> Option<string>, m2: Prompt -> Option<string>)
    requires now - e.lastFeedbackTime < MinFeedbackInterval
    ensures GenerateRealTimeFeedback(e, now, voice, facial, transcript, context, m1)
         == GenerateRealTimeFeedback(e, now, voice, facial, transcript, context, m2)
  {
  }

  /**
   * `generate_feedback_sync`: the same without any interval check. A falsy model response counts as
   * the empty answer, which is still recorded.
   */
  function GenerateFeedbackSync(e: Engine, now: real, voice: Metrics, facial: Metrics, transcript: string,
                                context: string, model: Prompt -> Option<string>): (r: (Engine, string))
    ensures var snap := BuildSnapshot(voice, facial, transcript);
      snap.Some? && model(PromptFor(snap.value, context)).Some? ==>
        var fb := model(PromptFor(snap.value, context)).value;
        r == (UpdateFeedbackHistory(e, fb, snap.value).(lastFeedbackTime := now), StripSpace(fb))
    ensures var snap := BuildSnapshot(voice, facial, transcript);
      snap.None? || model(PromptFor(snap.value, context)).None? ==> r == (e, "")
  {
    match BuildSnapshot(voice, facial, transcript)
    case None => (e, "")
    case Some(snap) =>
      match model(PromptFor(snap, context))
      case None => (e, "")
      case Some(fb) => (UpdateFeedbackHistory(e, fb, snap).(lastFeedbackTime := now), StripSpace(fb))
  }

  /**
   * Once past the interval the two paths agree; inside it only the synchronous one answers, so a
   * successful synchronous call right after another one still records its answer.
   */
  lemma SyncIgnoresInterval(e: Engine, now: real, voice: Metrics, facial: Metrics, transcript: string,
                            context: string, model: Prompt -> Option<string>)
    ensures now - e.lastFeedbackTime >= MinFeedbackInterval ==>
      GenerateFeedbackSync(e, now, voice, facial, transcript, context, model)
        == GenerateRealTimeFeedback(e, now, voice, facial, transcript, context, model)
    ensures var snap := BuildSnapshot(voice, facial, transcript);
      snap.Some? && model(PromptFor(snap.value, context)).Some? ==>
        GenerateFeedbackSync(e, now, voice, facial, transcript, context, model).0.lastFeedbackTime == now
  {
  }

  /** Both paths keep the history bounded and the total equal to its length. */
  lemma GenerateKeepsValid(e: Engine, now: real, voice: Metrics, facial: Metrics, transcript: string,
                           context: string, model: Prompt -> Option<string>)
    requires Valid(e)
    ensures Valid(GenerateRealTimeFeedback(e, now, voice, facial, transcript, context, model).0)
    ensures Valid(GenerateFeedbackSync(e, now, voice, facial, transcript, context, model).0)
  {
  }

  /** The stored time only moves on a successful answer, and then to `now`. */
  lemma TimeMovesOnlyOnSuccess(e: Engine, now: real, voice: Metrics, facial: Metrics, transcript: string,
                               context: string, model: Prompt -> Option<string>)
    ensures var r := GenerateRealTimeFeedback(e, now, voice, facial, transcript, context, model);
      r.0.lastFeedbackTime == e.lastFeedbackTime || r.0.lastFeedbackTime == now
    ensures var r := GenerateRealTimeFeedback(e, now, voice, facial, transcript, context, model);
      r.0.lastFeedbackTime != e.lastFeedbackTime ==>
        && |r.0.history| >= 1
        && r.0.history[|r.0.history| - 1].feedback ==
           model(PromptFor(BuildSnapshot(voice, facial, transcript).value, context)).value
  {
  }
}

=== FILE: coach_session.dfy ===
/**
 * The real-time coaching session (backend/app/core/ai_coach_session.py): it feeds video frames to the
 * facial agent and audio chunks to the voice-quality analyser, keeps the transcript, asks the coach
 * engine for feedback on the latest analyses, scores the latest analyses with the scoring system, and
 * summarises the session. Frame and audio decoding are inputs: a frame or chunk that cannot be
 * decoded arrives as None; the clock and the language model are parameters.
 */
module CoachSession {
  import opened Wrappers
  import opened Stats
  import opened Sorting
  import opened Text
  import Scoring
  import CoachEngine
  import FacialAgent
  import VoiceAgent
  import VoiceQuality

  /** The analyser's default sample rate; the session never passes another. */
  const SampleRate: nat := 16000

  /** How many of the latest transcript words go with a feedback request. */
  const SegmentWords: nat := 20

  /** How many feedback entries the summary repeats. */
  const RecentFeedback: nat := 5

  // ---------------------------------------------------------------- state

  datatype FeedbackEntry = FeedbackEntry(feedback: string, voiceScore: real, engagement: real, time: real)

  datatype Session = Session(
    difficulty: string,
    scoring: Scoring.ScoringSystem, coach: CoachEngine.Engine,
    facialAgent: FacialAgent.Agent, voiceAgent: VoiceAgent.Agent,
    metricsHistory: seq<Scoring.ScoreResult>, feedbackHistory: seq<FeedbackEntry>,
    frameCount: nat, transcriptBuffer: string,
    lastVoice: Option<VoiceQuality.VoiceMetrics>, lastFacial: Option<FacialAgent.FrameAnalysis>,
    lastScore: Option<Scoring.ScoreResult>)

  /** `b` ends with `a`. */
  predicate IsSuffix<T(==)>(a: seq<T>, b: seq<T>) {
    |a| <= |b| && a == b[|b| - |a|..]
  }

  /**
   * The session invariant: the agents and the engine are valid, the session's own score list is the
   * tail of the scoring system's history, and the last score is its last entry.
   */
  ghost predicate Valid(s: Session) {
    && FacialAgent.Valid(s.facialAgent) && VoiceAgent.Valid(s.voiceAgent) && CoachEngine.Valid(s.coach)
    && IsSuffix(s.metricsHistory, s.scoring.history)
    && (s.lastScore.None? <==> s.metricsHistory == [])
    && (s.metricsHistory != [] ==> s.lastScore == Some(s.metricsHistory[|s.metricsHistory| - 1]))
  }

  /** `__init__`: building the scoring system raises KeyError for an unknown difficulty. */
  function NewSession(difficulty: string): (r: Result<Session, string>)
    ensures r.Ok? <==> Scoring.NewScoringSystem(difficulty).Ok?
    ensures r.Err? ==> r.error == "KeyError"
    ensures r.Ok? ==>
      && Valid(r.value)
      && r.value.difficulty == difficulty && r.value.scoring.history == []
      && r.value.frameCount == 0 && r.value.transcriptBuffer == []
      && r.value.feedbackHistory == [] && r.value.metricsHistory == []
      && r.value.lastVoice.None? && r.value.lastFacial.None? && r.value.lastScore.None?
  {
    match Scoring.NewScoringSystem(difficulty)
    case Err(e) => Err(e)
    case Ok(sys) =>
      Ok(Session(difficulty, sys, CoachEngine.NewEngine(), FacialAgent.NewAgent(), VoiceAgent.NewAgent(),
                 [], [], 0, "", None, None, None))
  }

  // ---------------------------------------------------------------- video and audio

  datatype VideoReply = FrameProcessed(frame: nat, analysis: FacialAgent.FrameAnalysis) | InvalidFrame

  /**
   * `process_video_frame`. `frame` is None when the data does not decode to an image; the session
   * then answers with an error and nothing changes. Otherwise the facial agent analyses the frame,
   * the analysis becomes the latest one and the frame counter moves on.
   */
  function ProcessVideoFrame(s: Session, frame: Option<FacialAgent.FrameSource>, elapsedMs: real): (r: (Session, VideoReply))
    ensures frame.None? ==> r == (s, InvalidFrame)
    ensures frame.Some? ==>
      var step := FacialAgent.AnalyzeFrame(s.facialAgent, frame.value, elapsedMs);
      && r.1 == FrameProcessed(s.frameCount + 1, step.1)
      && r.0.frameCount == s.frameCount + 1
      && r.0.facialAgent == step.0 && r.0.lastFacial == Some(step.1)
      && r.0.(facialAgent := s.facialAgent, lastFacial := s.lastFacial, frameCount := s.frameCount) == s
  {
    match frame
    case None => (s, InvalidFrame)
    case Some(src) =>
      var step := FacialAgent.AnalyzeFrame(s.facialAgent, src, elapsedMs);
      (s.(facialAgent := step.0, lastFacial := Some(step.1), frameCount := s.frameCount + 1),
       FrameProcessed(s.frameCount + 1, step.1))
  }

  datatype AudioReply = AudioProcessed(analysis: VoiceQuality.VoiceMetrics) | AudioError

  /** A chunk as it arrives: the number of 16-bit samples it decodes to, or undecodable. */
  datatype Chunk = Undecodable | Samples(count: nat)

  /**
   * `process_audio_chunk`. `signals` are the analyser's measurements. A chunk that does not decode
   * gets an error and changes nothing. A non-empty transcript is added to the buffer after a space,
   * so the buffer's words are the earlier words followed by the new ones.
   */
  function ProcessAudioChunk(s: Session, chunk: Chunk, transcript: string, signals: VoiceQuality.Signals): (r: (Session, AudioReply))
    ensures chunk.Undecodable? ==> r == (s, AudioError)
    ensures chunk.Samples? ==>
      var m := VoiceQuality.AnalyzeAudioChunk(chunk.count, SampleRate, Some(transcript), signals);
      && r.1 == AudioProcessed(m) && r.0.lastVoice == Some(m)
      && Words(r.0.transcriptBuffer) == Words(s.transcriptBuffer) + Words(transcript)
      && (transcript == [] ==> r.0.transcriptBuffer == s.transcriptBuffer)
      && r.0.(lastVoice := s.lastVoice, transcriptBuffer := s.transcriptBuffer) == s
  {
    match chunk
    case Undecodable => (s, AudioError)
    case Samples(n) =>
      var m := VoiceQuality.AnalyzeAudioChunk(n, SampleRate, Some(transcript), signals);
      var buffer := if transcript != [] then s.transcriptBuffer + " " + transcript else s.transcriptBuffer;
      WordsOfSpaced(s.transcriptBuffer, transcript);
      assert transcript == [] ==> Words(transcript) == [];
      (s.(lastVoice := Some(m), transcriptBuffer := buffer), AudioProcessed(m))
  }

  // ---------------------------------------------------------------- feedback

  function RateName(q: VoiceQuality.RateQuality): string {
    match q
    case Normal => "normal"
    case TooSlow => "too_slow"
    case TooFast => "too_fast"
    case Optimal => "optimal"
  }

  function PitchName(q: VoiceQuality.PitchQuality): string {
    match q
    case Monotone => "monotone"
    case Adequate => "adequate"
    case Expressive => "expressive"
  }

  /** The filler vocabulary in one fixed order; the analyser lists a set, whose order Python leaves open. */
  const FillerOrder: seq<string> := [
    "um", "uh", "like", "you know", "so", "actually", "basically", "literally", "kind of",
    "sort of", "i mean", "ah", "er", "hmm", "well", "okay", "you see", "right"]

  /** The members of `ws` in the order of `order`. */
  function Listed(order: seq<string>, ws: set<string>): (xs: seq<string>)
    ensures forall i :: 0 <= i < |xs| ==> xs[i] in ws && xs[i] in order
    ensures forall w :: w in order && w in ws ==> w in xs
  {
    if order == [] then []
    else (if order[0] in ws then [order[0]] else []) + Listed(order[1..], ws)
  }

  /** Listing a set of fillers loses none of them. */
  lemma ListedFillers(ws: set<string>)
    requires ws <= VoiceQuality.FillerWords
    ensures forall w :: w in ws <==> w in Listed(FillerOrder, ws)
  {
    forall w | w in ws ensures w in FillerOrder {
      assert w in VoiceQuality.FillerWords;
    }
  }

  /** The voice dictionary the session hands the coach engine; it names the pitch variation "pitch_variation". */
  function VoiceMap(v: VoiceQuality.VoiceMetrics): CoachEngine.Metrics {
    map[
      "speech_rate_wpm" := CoachEngine.Num(v.speechRateWpm),
      "speech_rate_quality" := CoachEngine.Str(RateName(v.speechRateQuality)),
      "clarity_score" := CoachEngine.Num(v.clarity),
      "volume_consistency" := CoachEngine.Num(v.volumeConsistency),
      "pitch_quality" := CoachEngine.Str(PitchName(v.pitchQuality)),
      "pitch_variation" := CoachEngine.Num(v.pitchVariation),
      "filler_words" := CoachEngine.Strs(Listed(FillerOrder, v.fillerWords)),
      "overall_voice_score" := CoachEngine.Num(v.overall)]
  }

  /** The facial dictionary the session hands the coach engine; it names the emotion "emotion". */
  function FacialMap(f: FacialAgent.FrameAnalysis): CoachEngine.Metrics {
    map[
      "emotion" := CoachEngine.Str(f.emotion),
      "emotion_confidence" := CoachEngine.Num(f.emotionConfidence),
      "engagement_score" := CoachEngine.Num(f.engagement),
      "engagement_level" := CoachEngine.Str(f.engagementLevel),
      "eye_contact_score" := CoachEngine.Num(f.eyeContact),
      "smile_score" := CoachEngine.Num(f.smile)]
  }

  /** The context line sent with every feedback request. */
  function Context(difficulty: string): string {
    "User is practicing " + difficulty + " level presentation"
  }

  /** The transcript segment: the buffer's last twenty words, joined by single spaces. */
  function Segment(buffer: string): (t: string)
    ensures Words(t) == TakeLast(Words(buffer), SegmentWords)
    ensures buffer == [] ==> t == []
  {
    if buffer == [] then ""
    else
      var ws := Words(buffer);
      var last := TakeLast(ws, SegmentWords);
      assert forall i :: 0 <= i < |last| ==> last[i] == ws[|ws| - |last| + i];
      WordsOfJoin(last);
      JoinSpace(last)
  }

  datatype FeedbackReply = InsufficientData | Feedback(text: string, highConfidence: bool)

  /**
   * `generate_real_time_feedback` at time `now`, with `model` standing for the language model.
   * Without both a voice and a facial analysis nothing happens. Otherwise the engine's synchronous
   * path answers (with "" when it fails) and the answer is recorded whatever it is.
   */
  function GenerateRealTimeFeedback(s: Session, now: real, model: CoachEngine.Prompt -> Option<string>):
    (r: (Session, FeedbackReply))
    ensures s.lastVoice.None? || s.lastFacial.None? ==> r == (s, InsufficientData)
    ensures s.lastVoice.Some? && s.lastFacial.Some? ==>
      var v, f := s.lastVoice.value, s.lastFacial.value;
      var step := CoachEngine.GenerateFeedbackSync(s.coach, now, VoiceMap(v), FacialMap(f),
                                                   Segment(s.transcriptBuffer), Context(s.difficulty), model);
      && r.1 == Feedback(step.1, step.1 != [])
      && r.0.coach == step.0
      && r.0.feedbackHistory == s.feedbackHistory + [FeedbackEntry(step.1, v.overall, f.engagement, now)]
      && r.0.(coach := s.coach, feedbackHistory := s.feedbackHistory) == s
  {
    if s.lastVoice.None? || s.lastFacial.None? then (s, InsufficientData)
    else
      var v, f := s.lastVoice.value, s.lastFacial.value;
      var step := CoachEngine.GenerateFeedbackSync(s.coach, now, VoiceMap(v), FacialMap(f),
                                                   Segment(s.transcriptBuffer), Context(s.difficulty), model);
      (s.(coach := step.0, feedbackHistory := s.feedbackHistory + [FeedbackEntry(step.1, v.overall, f.engagement, now)]),
       Feedback(step.1, step.1 != []))
  }

  /**
   * The engine reads "pitch_variation_semitones", "primary_emotion" and "primary_confidence", which
   * the session's dictionaries do not hold: the prompt always carries 0 semitones, a neutral emotion
   * and confidence 0, whatever was measured. The snapshot never fails, and the voice score and
   * engagement do get through.
   */
  lemma SessionKeysMissed(v: VoiceQuality.VoiceMetrics, f: FacialAgent.FrameAnalysis, t: string)
    ensures var snap := CoachEngine.BuildSnapshot(VoiceMap(v), FacialMap(f), t);
      && snap.Some?
      && snap.value.pitchVariation == 0.0
      && snap.value.primaryEmotion == CoachEngine.Str("neutral")
      && snap.value.primaryConfidence == 0.0
      && snap.value.voiceScore == v.overall && snap.value.engagement == f.engagement
  {
    var vm, fm := VoiceMap(v), FacialMap(f);
    assert "pitch_variation_semitones" !in vm && "primary_emotion" !in fm && "primary_confidence" !in fm;
    assert vm["filler_words"].Strs?;
    CoachEngine.SessionKeysIgnored(vm, fm, t);
  }

  /** The voice dictionary with the pitch variation under the key the engine reads. */
  function IntendedVoiceMap(v: VoiceQuality.VoiceMetrics): CoachEngine.Metrics {
    VoiceMap(v)["pitch_variation_semitones" := CoachEngine.Num(v.pitchVariation)]
  }

  /** The facial dictionary with the emotion and its confidence under the keys the engine reads. */
  function IntendedFacialMap(f: FacialAgent.FrameAnalysis): CoachEngine.Metrics {
    FacialMap(f)["primary_emotion" := CoachEngine.Str(f.emotion)]["primary_confidence" := CoachEngine.Num(f.emotionConfidence)]
  }

  /** With the engine's key names the measured pitch variation and emotion reach the prompt. */
  lemma IntendedKeysReachPrompt(v: VoiceQuality.VoiceMetrics, f: FacialAgent.FrameAnalysis, t: string)
    ensures var snap := CoachEngine.BuildSnapshot(IntendedVoiceMap(v), IntendedFacialMap(f), t);
      && snap.Some?
      && snap.value.pitchVariation == v.pitchVariation
      && snap.value.primaryEmotion == CoachEngine.Str(f.emotion)
      && snap.value.primaryConfidence == f.emotionConfidence
  {
    var vm, fm := IntendedVoiceMap(v), IntendedFacialMap(f);
    assert vm["filler_words"].Strs?;
    assert fm["primary_confidence"] == CoachEngine.Num(f.emotionConfidence);
  }

  // ---------------------------------------------------------------- frame score

  function VoiceFields(v: VoiceQuality.VoiceMetrics): Scoring.VoiceFields {
    Scoring.VoiceFields(v.clarity, v.volumeConsistency, PitchName(v.pitchQuality), v.fillerDensity,
                        RateName(v.speechRateQuality))
  }

  /** The facial fields as the session passes them: the agent's engagement is already on a 0-100 scale. */
  function FacialFields(f: FacialAgent.FrameAnalysis): Scoring.FacialFields {
    Scoring.FacialFields(f.engagement, f.eyeContact, f.smile, f.emotion, f.emotionConfidence)
  }

  /** The content fields: the buffer's word count and three fixed 75s; the rate is left at its default. */
  function ContentFields(buffer: string): Scoring.ContentFields {
    Scoring.ContentFields(|Words(buffer)| as real, 2.0, 75.0, 75.0, 75.0)
  }

  const Pacing := Scoring.PacingFields(0.3, 0.8, 0.7)

  /**
   * `calculate_frame_score`. Without both analyses the answer is empty and nothing changes.
   * Otherwise the scoring system scores the latest analyses, with fixed content and pacing inputs,
   * and the result is appended to both histories. The content input never varies where it counts,
   * so every frame's content score is 82.5 and its pacing score 91, whatever was said.
   */
  function CalculateFrameScore(s: Session): (r: (Session, Option<Scoring.ScoreResult>))
    ensures s.lastVoice.None? || s.lastFacial.None? ==> r == (s, None)
    ensures s.lastVoice.Some? && s.lastFacial.Some? ==>
      && r.1.Some?
      && r.0.scoring.history == s.scoring.history + [r.1.value]
      && r.0.metricsHistory == s.metricsHistory + [r.1.value]
      && r.0.lastScore == r.1
      && r.1.value.voice == Scoring.VoiceScore(Some(VoiceFields(s.lastVoice.value)))
      && r.1.value.facial == Scoring.FacialScore(Some(FacialFields(s.lastFacial.value)))
      && r.1.value.content == 82.5 && r.1.value.pacing == 91.0
      && Scoring.WellFormed(r.1.value, s.scoring.level)
      && r.0.(scoring := s.scoring, metricsHistory := s.metricsHistory, lastScore := s.lastScore) == s
  {
    if s.lastVoice.None? || s.lastFacial.None? then (s, None)
    else
      var step := Scoring.CalculateScore(s.scoring, Some(VoiceFields(s.lastVoice.value)),
                                         Some(FacialFields(s.lastFacial.value)),
                                         Some(ContentFields(s.transcriptBuffer)), Some(Pacing));
      (s.(scoring := step.0, metricsHistory := s.metricsHistory + [step.1], lastScore := Some(step.1)),
       Some(step.1))
  }

  /** The transcript never changes a frame's score: two sessions that differ only in it score alike. */
  lemma ScoreIgnoresTranscript(s: Session, buffer: string)
    ensures CalculateFrameScore(s).1 == CalculateFrameScore(s.(transcriptBuffer := buffer)).1
  {
    if s.lastVoice.Some? && s.lastFacial.Some? {
      assert Scoring.ContentScore(Some(ContentFields(s.transcriptBuffer)))
          == Scoring.ContentScore(Some(ContentFields(buffer)));
    }
  }

  /**
   * The landmark and cascade paths write the emotion's confidence under "confidence", so the
   * "emotion_confidence" the session scores with stays 0 and the emotion never adds to the facial score.
   */
  lemma EmotionNeverScored(a: FacialAgent.Agent, src: FacialAgent.FrameSource, elapsedMs: real)
    requires !FacialAgent.Analyse(src).raised
    ensures FacialFields(FacialAgent.AnalyzeFrame(a, src, elapsedMs).1).emotionConfidence == 0.0
  {
  }

  /**
   * As written, the facial score saturates: the engagement the agent reports on a 0-100 scale is
   * multiplied by 100 again, so any engagement of 3 or more already scores a full 100.
   */
  lemma EngagementSaturates(f: FacialAgent.FrameAnalysis)
    requires FacialAgent.InRange(f) && f.emotionConfidence >= 0.0 && f.engagement >= 3.0
    ensures Scoring.FacialScore(Some(FacialFields(f))) == 100.0
  {
    assert Scoring.EmotionPoints(f.emotion) >= 0.0;
    assert Scoring.EmotionPoints(f.emotion) * f.emotionConfidence * 0.15 >= 0.0;
  }

  /** A cascade face with no eyes and no smile found still scores a full 100 on the facial component. */
  lemma BlankCascadeFaceScoresFull()
    ensures Scoring.FacialScore(Some(FacialFields(FacialAgent.FromCascades(FacialAgent.CascadeHits(0, 0))))) == 100.0
  {
    var f := FacialAgent.FromCascades(FacialAgent.CascadeHits(0, 0));
    EngagementSaturates(f);
  }

  /** The facial fields with the engagement brought back to the 0-1 scale the scorer expects. */
  function IntendedFacialFields(f: FacialAgent.FrameAnalysis): Scoring.FacialFields {
    Scoring.FacialFields(f.engagement / 100.0, f.eyeContact, f.smile, f.emotion, f.emotionConfidence)
  }

  /**
   * On the 0-1 scale the weighted sum of an in-range frame stays below 100, so the clamp never binds
   * and the facial score moves with every input; the blank cascade face scores 3.5.
   */
  lemma IntendedFacialUnclamped(f: FacialAgent.FrameAnalysis)
    requires FacialAgent.InRange(f) && 0.0 <= f.emotionConfidence <= 1.0
    ensures Scoring.FacialScore(Some(IntendedFacialFields(f))) == Scoring.FacialRaw(IntendedFacialFields(f))
    ensures Scoring.FacialRaw(IntendedFacialFields(f)) <= 99.25
    ensures f == FacialAgent.FromCascades(FacialAgent.CascadeHits(0, 0)) ==>
              Scoring.FacialScore(Some(IntendedFacialFields(f))) == 3.5
  {
    var g := IntendedFacialFields(f);
    var e := f.engagement / 100.0;
    assert e * 100.0 == f.engagement;
    assert g.engagementScore == e && 0.0 <= e <= 1.0;
    var p := Scoring.EmotionPoints(f.emotion);
    assert 0.0 <= p <= 95.0;
    ProductBounds(p, f.emotionConfidence, 95.0, 1.0);
    assert Scoring.FacialRaw(g) == e * 100.0 * 0.35 + f.eyeContact * 100.0 * 0.30
      + f.smile * 100.0 * 0.20 + p * f.emotionConfidence * 0.15;
  }

  lemma ProductBounds(a: real, b: real, x: real, y: real)
    requires 0.0 <= a <= x && 0.0 <= b <= y
    ensures 0.0 <= a * b <= x * y
  {
    assert a * b <= x * b;
    assert x * b <= x * y;
  }

  // ---------------------------------------------------------------- summary and reset

  datatype Report = Report(
    difficulty: string, totalFrames: nat, totalFeedback: nat,
    averageScore: real, maxScore: real, minScore: real,
    bestComponent: Option<Scoring.Area>, worstComponent: Option<Scoring.Area>, trend: Scoring.Trend,
    goodFramesPercentage: real, recentFeedback: seq<FeedbackEntry>, finalMetrics: Option<Scoring.ScoreResult>)

  /** The good-frame count over the processed-frame count, in percent, or 0 before any frame. */
  function GoodPercentage(good: nat, frames: nat): (p: real)
    ensures frames == 0 ==> p == 0.0
    ensures frames > 0 ==> p * (frames as real) == (good as real) * 100.0
  {
    if frames > 0 then
      var q := (good as real) / (frames as real);
      assert q * (frames as real) == good as real;
      q * 100.0
    else 0.0
  }

  /**
   * `get_session_summary`: the scoring system's statistics, the good frames as a share of the
   * processed frames, and the last five feedback entries. The duration is left out.
   */
  function GetSessionSummary(s: Session): (r: Report)
    ensures var sum := Scoring.GetSessionSummary(s.scoring);
      && r.averageScore == sum.avgScore && r.maxScore == sum.maxScore && r.minScore == sum.minScore
      && r.bestComponent == sum.best && r.worstComponent == sum.worst && r.trend == sum.trend
    ensures r.totalFrames == s.frameCount && r.totalFeedback == |s.feedbackHistory|
    ensures r.goodFramesPercentage == GoodPercentage(Scoring.GoodFrames(s.scoring.history), s.frameCount)
    ensures |r.recentFeedback| <= RecentFeedback && IsSuffix(r.recentFeedback, s.feedbackHistory)
    ensures |s.feedbackHistory| >= RecentFeedback ==> |r.recentFeedback| == RecentFeedback
    ensures |s.feedbackHistory| < RecentFeedback ==> r.recentFeedback == s.feedbackHistory
    ensures r.finalMetrics == s.lastScore
  {
    var sum := Scoring.GetSessionSummary(s.scoring);
    var good := if sum.goodFramesCount.Some? then sum.goodFramesCount.value else 0;
    assert s.scoring.history == [] ==> Scoring.GoodFrames(s.scoring.history) == 0;
    Report(s.difficulty, s.frameCount, |s.feedbackHistory|, sum.avgScore, sum.maxScore, sum.minScore,
           sum.best, sum.worst, sum.trend, GoodPercentage(good, s.frameCount),
           TakeLast(s.feedbackHistory, RecentFeedback), s.lastScore)
  }

  /**
   * `reset`: both agents and every session field start over, but the scoring system and the coach
   * engine keep their histories.
   */
  function Reset(s: Session): (r: Session)
    ensures r.scoring == s.scoring && r.coach == s.coach && r.difficulty == s.difficulty
    ensures r.frameCount == 0 && r.transcriptBuffer == [] && r.feedbackHistory == [] && r.metricsHistory == []
    ensures r.lastVoice.None? && r.lastFacial.None? && r.lastScore.None?
    ensures r.facialAgent.history == [] && r.voiceAgent == VoiceAgent.NewAgent()
  {
    s.(facialAgent := FacialAgent.Reset(s.facialAgent), voiceAgent := VoiceAgent.Reset(s.voiceAgent),
       metricsHistory := [], feedbackHistory := [], frameCount := 0, transcriptBuffer := "",
       lastVoice := None, lastFacial := None, lastScore := None)
  }

  /** Resetting twice is resetting once. */
  lemma ResetIdempotent(s: Session)
    ensures Reset(Reset(s)) == Reset(s)
  {
  }

  /**
   * As written the percentage can pass 100: the frame counter restarts on reset and does not move
   * when a frame is scored, while the good frames are counted over the scoring system's whole history.
   */
  lemma PercentageCanPass100(s: Session)
    requires 0 < s.frameCount < Scoring.GoodFrames(s.scoring.history)
    ensures GetSessionSummary(s).goodFramesPercentage > 100.0
  {
    PercentAbove(Scoring.GoodFrames(s.scoring.history), s.frameCount);
  }

  /** More good frames than frames gives more than 100 %. */
  lemma PercentAbove(good: nat, frames: nat)
    requires 0 < frames < good
    ensures GoodPercentage(good, frames) > 100.0
  {
    var p := GoodPercentage(good, frames);
    var f, g := frames as real, good as real;
    assert p * f == g * 100.0;
    assert g * 100.0 > f * 100.0;
    if p <= 100.0 {
      assert false;
    }
  }

  /** Scoring never counts a frame and reset keeps the good frames, so the counts drift apart. */
  lemma CountsDriftApart(s: Session)
    ensures CalculateFrameScore(s).0.frameCount == s.frameCount
    ensures Reset(s).frameCount == 0 && Reset(s).scoring.history == s.scoring.history
  {
  }

  /** The good frames as a share of the scored frames, which is what the percentage evidently means. */
  function IntendedGoodPercentage(s: Session): (p: real)
    ensures 0.0 <= p <= 100.0
    ensures s.scoring.history == [] ==> p == 0.0
    ensures s.scoring.history != [] && Scoring.GoodFrames(s.scoring.history) == |s.scoring.history| ==> p == 100.0
  {
    VoiceQuality.Percent(Scoring.GoodFrames(s.scoring.history), |s.scoring.history|)
  }

  // ---------------------------------------------------------------- the invariant

  lemma NewSessionValid(difficulty: string)
    ensures NewSession(difficulty).Ok? ==> Valid(NewSession(difficulty).value)
  {
  }

  lemma VideoKeepsValid(s: Session, frame: Option<FacialAgent.FrameSource>, elapsedMs: real)
    requires Valid(s)
    ensures Valid(ProcessVideoFrame(s, frame, elapsedMs).0)
  {
    if frame.Some? {
      FacialAgent.AnalyzeKeepsValid(s.facialAgent, frame.value, elapsedMs);
    }
  }

  lemma AudioKeepsValid(s: Session, chunk: Chunk, transcript: string, signals: VoiceQuality.Signals)
    requires Valid(s)
    ensures Valid(ProcessAudioChunk(s, chunk, transcript, signals).0)
  {
  }

  lemma FeedbackKeepsValid(s: Session, now: real, model: CoachEngine.Prompt -> Option<string>)
    requires Valid(s)
    ensures Valid(GenerateRealTimeFeedback(s, now, model).0)
  {
    if s.lastVoice.Some? && s.lastFacial.Some? {
      CoachEngine.GenerateKeepsValid(s.coach, now, VoiceMap(s.lastVoice.value), FacialMap(s.lastFacial.value),
                                     Segment(s.transcriptBuffer), Context(s.difficulty), model);
    }
  }

  /** Appending the same element to both keeps a suffix a suffix. */
  lemma SuffixAppend<T>(a: seq<T>, b: seq<T>, x: T)
    requires IsSuffix(a, b)
    ensures IsSuffix(a + [x], b + [x])
  {
    assert (b + [x])[|b| - |a|..] == b[|b| - |a|..] + [x];
  }

  /** Scoring appends the same result to both histories, so the session's list stays their common tail. */
  lemma ScoreKeepsValid(s: Session)
    requires Valid(s)
    ensures Valid(CalculateFrameScore(s).0)
  {
    if s.lastVoice.Some? && s.lastFacial.Some? {
      var r := CalculateFrameScore(s);
      var x := r.1.value;
      assert r.0.facialAgent == s.facialAgent && r.0.voiceAgent == s.voiceAgent && r.0.coach == s.coach;
      SuffixAppend(s.metricsHistory, s.scoring.history, x);
    }
  }

  lemma ResetKeepsValid(s: Session)
    ensures Valid(Reset(s)) <==> CoachEngine.Valid(s.coach)
  {
  }
}

=== FILE: combo.dfy ===
/**
 * The real-time feedback agent (backend/app/agents/realtime/realtime_feedback_agent.py): a per-session
 * state machine that blends the facial and voice scores, keeps a combo counter with a 20-point
 * hysteresis band, multiplies the frame score by a combo tier, picks at most three feedback
 * messages in a fixed priority order and unlocks each achievement at most once.
 */
module ComboEngine {
  import opened Wrappers
  import opened Stats
  import opened Sorting
  import Difficulty

  // ---------------------------------------------------------------- thresholds and tiers

  /** A frame scoring at least `goodScore` is good; the combo rises on every `increment`-th good frame in a row. */
  datatype Thresholds = Thresholds(goodScore: real, increment: nat)

  function ThresholdsOf(l: Difficulty.Level): (t: Thresholds)
    ensures t.increment >= 1
  {
    match l
    case Beginner => Thresholds(50.0, 3)
    case Intermediate => Thresholds(65.0, 2)
    case Expert => Thresholds(80.0, 1)
  }

  datatype ComboStatus = Start | GoodStart | OnFire | Unstoppable | Legendary | ComboBroken | KeepTrying

  /** The status of a running combo: START at 0, then tiers breaking at 10, 30 and 60. */
  function StatusOf(combo: nat): (s: ComboStatus)
    ensures s != ComboBroken && s != KeepTrying
    ensures s == Start <==> combo == 0
  {
    if combo == 0 then Start
    else if combo < 10 then GoodStart
    else if combo < 30 then OnFire
    else if combo < 60 then Unstoppable
    else Legendary
  }

  /** The score multiplier of a combo: 1.0, 1.5, 2.0 or 3.0 with breaks at 10, 30 and 60. */
  function MultiplierOf(combo: nat): (m: real)
    ensures 1.0 <= m <= 3.0
  {
    if combo < 10 then 1.0
    else if combo < 30 then 1.5
    else if combo < 60 then 2.0
    else 3.0
  }

  /** The multiplier each running status pays. */
  function TierMultiplier(s: ComboStatus): real {
    match s
    case Start => 1.0
    case GoodStart => 1.0
    case OnFire => 1.5
    case Unstoppable => 2.0
    case Legendary => 3.0
    case ComboBroken => 1.0
    case KeepTrying => 1.0
  }

  /** The status and the multiplier change at the same combo values; a longer combo never pays less. */
  lemma TiersAgree(c: nat, d: nat)
    ensures MultiplierOf(c) == TierMultiplier(StatusOf(c))
    ensures c <= d ==> MultiplierOf(c) <= MultiplierOf(d)
  {
  }

  // ---------------------------------------------------------------- combo update

  datatype ComboUpdate = ComboUpdate(combo: nat, maxCombo: nat, consecutive: nat, status: ComboStatus, multiplier: real)

  /** `_update_combo`: good frames count up, a frame more than 20 points below the bar breaks the combo, the band between holds it. */
  function UpdateCombo(combo: nat, maxCombo: nat, consecutive: nat, score: real, t: Thresholds): (u: ComboUpdate)
    requires t.increment >= 1
    ensures score >= t.goodScore ==>
      && u.consecutive == consecutive + 1
      && u.combo == combo + (if u.consecutive % t.increment == 0 then 1 else 0)
      && u.status == StatusOf(u.combo)
    ensures score < t.goodScore - 20.0 ==>
      && u.combo == 0 && u.consecutive == 0
      && u.status == (if combo > 0 then ComboBroken else KeepTrying)
    ensures t.goodScore - 20.0 <= score < t.goodScore ==>
      u.combo == combo && u.consecutive == consecutive && u.status == StatusOf(combo)
    ensures u.combo == combo + 1 ==> u.maxCombo == (if u.combo > maxCombo then u.combo else maxCombo)
    ensures u.combo != combo + 1 ==> u.maxCombo == maxCombo
    ensures u.multiplier == MultiplierOf(u.combo)
  {
    if score >= t.goodScore then
      var n := consecutive + 1;
      if n % t.increment == 0 then
        var c := combo + 1;
        ComboUpdate(c, if c > maxCombo then c else maxCombo, n, StatusOf(c), MultiplierOf(c))
      else
        ComboUpdate(combo, maxCombo, n, StatusOf(combo), MultiplierOf(combo))
    else if score < t.goodScore - 20.0 then
      ComboUpdate(0, maxCombo, 0, if combo > 0 then ComboBroken else KeepTrying, MultiplierOf(0))
    else
      ComboUpdate(combo, maxCombo, consecutive, StatusOf(combo), MultiplierOf(combo))
  }

  lemma {:induction false} MulSign(d: int, k: int)
    requires k >= 1
    ensures d >= 1 ==> d * k >= k
    ensures d <= -1 ==> d * k <= -k
    decreases if d < 0 then -d else d
  {
    if d > 1 {
      MulSign(d - 1, k);
      assert d * k == (d - 1) * k + k;
    } else if d < -1 {
      MulSign(d + 1, k);
      assert d * k == (d + 1) * k - k;
    }
  }

  /** Euclidean division is unique: a quotient and remainder in range are the ones `/` and `%` give. */
  lemma DivUnique(a: nat, k: nat, q: int, r: int)
    requires k >= 1 && 0 <= r < k && a == q * k + r
    ensures a / k == q && a % k == r
  {
    var q0, r0 := a / k, a % k;
    assert a == q0 * k + r0;
    assert (q - q0) * k == r0 - r;
    MulSign(q - q0, k);
  }

  /** One more step of a counter raises its quotient by one exactly when the new value is a multiple. */
  lemma DivStep(n: nat, k: nat)
    requires k >= 1
    ensures (n + 1) / k == n / k + (if (n + 1) % k == 0 then 1 else 0)
  {
    var q, r := n / k, n % k;
    if r + 1 == k {
      DivUnique(n + 1, k, q + 1, 0);
    } else {
      DivUnique(n + 1, k, q, r + 1);
    }
  }

  /** The combo is always the number of completed increments in the current good run, and never above its maximum. */
  ghost predicate ComboInvariant(combo: nat, maxCombo: nat, consecutive: nat, t: Thresholds) {
    t.increment >= 1 && combo == consecutive / t.increment && combo <= maxCombo
  }

  lemma UpdatePreservesInvariant(combo: nat, maxCombo: nat, consecutive: nat, score: real, t: Thresholds)
    requires ComboInvariant(combo, maxCombo, consecutive, t)
    ensures var u := UpdateCombo(combo, maxCombo, consecutive, score, t);
      ComboInvariant(u.combo, u.maxCombo, u.consecutive, t) && u.maxCombo >= maxCombo
  {
    if score >= t.goodScore {
      DivStep(consecutive, t.increment);
    }
  }

  /** Run `UpdateCombo` over a sequence of frame scores. */
  function RunCombo(combo: nat, maxCombo: nat, consecutive: nat, scores: seq<real>, t: Thresholds): (u: ComboUpdate)
    requires t.increment >= 1
    decreases |scores|
  {
    if scores == [] then ComboUpdate(combo, maxCombo, consecutive, StatusOf(combo), MultiplierOf(combo))
    else
      var u := UpdateCombo(combo, maxCombo, consecutive, scores[0], t);
      RunCombo(u.combo, u.maxCombo, u.consecutive, scores[1..], t)
  }

  /** From a fresh start, `n` good frames in a row give a combo of `n div increment`. */
  lemma {:induction false} GoodRun(combo: nat, maxCombo: nat, consecutive: nat, scores: seq<real>, t: Thresholds)
    requires ComboInvariant(combo, maxCombo, consecutive, t)
    requires forall i :: 0 <= i < |scores| ==> scores[i] >= t.goodScore
    ensures var u := RunCombo(combo, maxCombo, consecutive, scores, t);
      u.consecutive == consecutive + |scores| && u.combo == (consecutive + |scores|) / t.increment
      && u.maxCombo >= u.combo && u.maxCombo >= maxCombo
    decreases |scores|
  {
    if scores != [] {
      var u := UpdateCombo(combo, maxCombo, consecutive, scores[0], t);
      UpdatePreservesInvariant(combo, maxCombo, consecutive, scores[0], t);
      GoodRun(u.combo, u.maxCombo, u.consecutive, scores[1..], t);
    }
  }

  // ---------------------------------------------------------------- feedback messages

  /** The keys of the facial and voice analysis dicts this agent reads, holding their `.get` defaults when absent. */
  datatype FacialInput = FacialInput(engagementScore: real, eyeContactScore: real, smileScore: real, faceDetected: bool)

  datatype VoiceInput = VoiceInput(
    voiceScore: real, pitchVariation: real, speechRateWpm: real, volumeDb: real,
    fillerWordDetected: Option<string>, speakingTooFast: bool, speakingTooSlow: bool)

  /** A Python string is truthy when it is present and non-empty. */
  predicate FillerTruthy(v: VoiceInput) {
    v.fillerWordDetected.Some? && v.fillerWordDetected.value != ""
  }

  datatype TipKind = Positive | Warning | Failure

  /** The feedback rules, in the order the agent checks them. */
  datatype Rule =
    | GreatEyeContact | ConfidentSmile | VocalVariety | PerfectPace
    | LookAtCamera | SmileMore | SpeakLouder | VaryTone
    | FillerWord | SlowDown | SpeedUp | FaceNotDetected

  const RuleOrder: seq<Rule> := [
    GreatEyeContact, ConfidentSmile, VocalVariety, PerfectPace,
    LookAtCamera, SmileMore, SpeakLouder, VaryTone,
    FillerWord, SlowDown, SpeedUp, FaceNotDetected]

  function RuleRank(r: Rule): nat {
    match r
    case GreatEyeContact => 0
    case ConfidentSmile => 1
    case VocalVariety => 2
    case PerfectPace => 3
    case LookAtCamera => 4
    case SmileMore => 5
    case SpeakLouder => 6
    case VaryTone => 7
    case FillerWord => 8
    case SlowDown => 9
    case SpeedUp => 10
    case FaceNotDetected => 11
  }

  /** Positive messages come first, then warnings, then errors. */
  function KindOf(r: Rule): (k: TipKind)
    ensures k == Positive <==> RuleRank(r) < 4
    ensures k == Failure <==> RuleRank(r) >= 8
  {
    if RuleRank(r) < 4 then Positive else if RuleRank(r) < 8 then Warning else Failure
  }

  predicate Fires(r: Rule, f: FacialInput, v: VoiceInput) {
    match r
    case GreatEyeContact => f.eyeContactScore > 0.8
    case ConfidentSmile => f.smileScore > 0.6
    case VocalVariety => v.pitchVariation > 15.0
    case PerfectPace => 120.0 <= v.speechRateWpm <= 160.0
    case LookAtCamera => f.eyeContactScore < 0.4
    case SmileMore => f.smileScore < 0.2
    case SpeakLouder => v.volumeDb < -40.0
    case VaryTone => v.pitchVariation < 5.0
    case FillerWord => FillerTruthy(v)
    case SlowDown => v.speakingTooFast
    case SpeedUp => v.speakingTooSlow
    case FaceNotDetected => !f.faceDetected
  }

  /** One feedback message; only the filler-word message quotes the detected word. */
  datatype Message = Message(kind: TipKind, rule: Rule, filler: Option<string>)

  function MessageFor(r: Rule, v: VoiceInput): Message {
    Message(KindOf(r), r, if r == FillerWord then v.fillerWordDetected else None)
  }

  /** The rules among `rs` that fire, in order. */
  function FiredRules(rs: seq<Rule>, f: FacialInput, v: VoiceInput): (out: seq<Rule>)
    ensures |out| <= |rs|
    ensures forall i :: 0 <= i < |out| ==> out[i] in rs && Fires(out[i], f, v)
    ensures forall r :: r in rs && Fires(r, f, v) ==> r in out
  {
    if rs == [] then []
    else
      var rest := FiredRules(rs[1..], f, v);
      assert forall r :: r in rs ==> r == rs[0] || r in rs[1..];
      (if Fires(rs[0], f, v) then [rs[0]] else []) + rest
  }

  ghost predicate RanksIncrease(rs: seq<Rule>) {
    forall i, j :: 0 <= i < j < |rs| ==> RuleRank(rs[i]) < RuleRank(rs[j])
  }

  lemma RanksIncreaseTail(rs: seq<Rule>)
    requires RanksIncrease(rs) && rs != []
    ensures RanksIncrease(rs[1..])
    ensures forall x :: x in rs[1..] ==> RuleRank(rs[0]) < RuleRank(x)
  {
    forall i, j | 0 <= i < j < |rs[1..]| ensures RuleRank(rs[1..][i]) < RuleRank(rs[1..][j]) {
      assert rs[1..][i] == rs[i + 1] && rs[1..][j] == rs[j + 1];
    }
    forall x | x in rs[1..] ensures RuleRank(rs[0]) < RuleRank(x) {
      var k :| 0 <= k < |rs[1..]| && rs[1..][k] == x;
      assert rs[k + 1] == x;
    }
  }

  lemma ConsIncreasing(x: Rule, rest: seq<Rule>)
    requires RanksIncrease(rest)
    requires forall y :: y in rest ==> RuleRank(x) < RuleRank(y)
    ensures RanksIncrease([x] + rest)
  {
    var out := [x] + rest;
    forall i, j | 0 <= i < j < |out| ensures RuleRank(out[i]) < RuleRank(out[j]) {
      assert out[j] == rest[j - 1] && out[j] in rest;
      if i > 0 {
        assert out[i] == rest[i - 1];
      }
    }
  }

  /** Filtering keeps the check order. */
  lemma {:induction false} FiredRulesOrdered(rs: seq<Rule>, f: FacialInput, v: VoiceInput)
    requires RanksIncrease(rs)
    ensures RanksIncrease(FiredRules(rs, f, v))
    decreases |rs|
  {
    if rs != [] {
      var rest := FiredRules(rs[1..], f, v);
      RanksIncreaseTail(rs);
      FiredRulesOrdered(rs[1..], f, v);
      if Fires(rs[0], f, v) {
        forall y | y in rest ensures RuleRank(rs[0]) < RuleRank(y) {
          var k :| 0 <= k < |rest| && rest[k] == y;
          assert y in rs[1..];
        }
        ConsIncreasing(rs[0], rest);
        assert FiredRules(rs, f, v) == [rs[0]] + rest;
      } else {
        assert FiredRules(rs, f, v) == [] + rest;
      }
    }
  }

  function Messages(rs: seq<Rule>, v: VoiceInput): (ms: seq<Message>)
    ensures |ms| == |rs|
    ensures forall i :: 0 <= i < |rs| ==> ms[i] == MessageFor(rs[i], v) && ms[i].rule == rs[i]
  {
    if rs == [] then [] else [MessageFor(rs[0], v)] + Messages(rs[1..], v)
  }

  /** `_generate_feedback`: the messages of the first three rules that fire. */
  function GenerateFeedback(f: FacialInput, v: VoiceInput): (ms: seq<Message>)
    ensures |ms| <= 3
  {
    Messages(Take(FiredRules(RuleOrder, f, v), 3), v)
  }

  lemma RuleOrderIncreases()
    ensures RanksIncrease(RuleOrder)
    ensures forall i :: 0 <= i < |RuleOrder| ==> RuleRank(RuleOrder[i]) == i
  {
  }

  lemma RuleInOrder(r: Rule)
    ensures r in RuleOrder
  {
    RuleOrderIncreases();
    assert RuleOrder[RuleRank(r)] == r;
  }

  /** Every message comes from a firing rule, and the messages follow the check order (positive, warning, error). */
  lemma FeedbackFiresInOrder(f: FacialInput, v: VoiceInput)
    ensures var ms := GenerateFeedback(f, v);
      && (forall i :: 0 <= i < |ms| ==> Fires(ms[i].rule, f, v) && ms[i] == MessageFor(ms[i].rule, v))
      && (forall i, j :: 0 <= i < j < |ms| ==> RuleRank(ms[i].rule) < RuleRank(ms[j].rule))
  {
    RuleOrderIncreases();
    FiredRulesOrdered(RuleOrder, f, v);
  }

  /** In an increasing list, an element beyond the first three ranks above each of them. */
  lemma TakeMissesOnlyLater(all: seq<Rule>, r: Rule)
    requires RanksIncrease(all) && r in all && r !in Take(all, 3)
    ensures |all| > 3 && forall i :: 0 <= i < 3 ==> RuleRank(all[i]) < RuleRank(r)
  {
    var k :| 0 <= k < |all| && all[k] == r;
    assert k >= 3 by {
      if k < 3 {
        assert false;
      }
    }
  }

  /** A firing rule is left out only when three earlier rules already filled the list. */
  lemma FeedbackSkipsOnlyWhenFull(f: FacialInput, v: VoiceInput, r: Rule)
    requires Fires(r, f, v)
    requires forall i :: 0 <= i < |GenerateFeedback(f, v)| ==> GenerateFeedback(f, v)[i].rule != r
    ensures |GenerateFeedback(f, v)| == 3
    ensures forall i :: 0 <= i < 3 ==> RuleRank(GenerateFeedback(f, v)[i].rule) < RuleRank(r)
  {
    var all := FiredRules(RuleOrder, f, v);
    var top := Take(all, 3);
    RuleOrderIncreases();
    FiredRulesOrdered(RuleOrder, f, v);
    RuleInOrder(r);
    var ms := GenerateFeedback(f, v);
    assert ms == Messages(top, v);
    assert r !in top by {
      if r in top {
        assert false;
      }
    }
    TakeMissesOnlyLater(all, r);
  }

  // ---------------------------------------------------------------- achievements

  datatype AchievementId = FirstCombo | ComboMaster | LegendaryCombo | PerfectMinute | NoFillers | EyeContactPro

  /** The achievement definitions, in their dict order. */
  const Catalogue: seq<AchievementId> := [FirstCombo, ComboMaster, LegendaryCombo, PerfectMinute, NoFillers, EyeContactPro]

  function Xp(a: AchievementId): nat {
    match a
    case FirstCombo => 100
    case ComboMaster => 300
    case LegendaryCombo => 500
    case PerfectMinute => 250
    case NoFillers => 200
    case EyeContactPro => 300
  }

  /** The state dict handed to the achievement conditions. */
  datatype CheckState = CheckState(combo: int, perfectFrames: int, fillerFreeFrames: int, eyeContactFrames: int)

  predicate Condition(a: AchievementId, st: CheckState) {
    match a
    case FirstCombo => st.combo >= 10
    case ComboMaster => st.combo >= 30
    case LegendaryCombo => st.combo >= 60
    case PerfectMinute => st.perfectFrames >= 60
    case NoFillers => st.fillerFreeFrames >= 120
    case EyeContactPro => st.eyeContactFrames >= 180
  }

  ghost predicate Distinct(xs: seq<AchievementId>) {
    forall i, j :: 0 <= i < j < |xs| ==> xs[i] != xs[j]
  }

  /** Walk the definitions `defs`, collecting those not yet unlocked whose condition holds. */
  function NewlyUnlocked(defs: seq<AchievementId>, unlocked: seq<AchievementId>, st: CheckState): (r: seq<AchievementId>)
    ensures forall a :: a in r <==> a in defs && a !in unlocked && Condition(a, st)
    ensures Distinct(defs) ==> Distinct(r)
  {
    if defs == [] then []
    else
      var rest := NewlyUnlocked(defs[1..], unlocked, st);
      assert forall a :: a in defs <==> a == defs[0] || a in defs[1..];
      assert Distinct(defs) ==> defs[0] !in defs[1..] && Distinct(defs[1..]);
      (if defs[0] !in unlocked && Condition(defs[0], st) then [defs[0]] else []) + rest
  }

  /** `_check_achievements`: returns the new unlocked list and the newly unlocked ids. */
  function CheckAchievements(unlocked: seq<AchievementId>, st: CheckState): (r: (seq<AchievementId>, seq<AchievementId>))
    ensures r.0 == unlocked + r.1
    ensures forall a :: a in r.1 <==> a !in unlocked && Condition(a, st)
    ensures Distinct(r.1)
  {
    var newIds := NewlyUnlocked(Catalogue, unlocked, st);
    CatalogueComplete();
    (unlocked + newIds, newIds)
  }

  /** The position of each achievement in the catalogue. */
  function CatalogueIndex(a: AchievementId): (i: nat)
    ensures i < |Catalogue| && Catalogue[i] == a
  {
    match a
    case FirstCombo => 0
    case ComboMaster => 1
    case LegendaryCombo => 2
    case PerfectMinute => 3
    case NoFillers => 4
    case EyeContactPro => 5
  }

  /** The catalogue lists every achievement exactly once. */
  lemma CatalogueComplete()
    ensures forall a: AchievementId :: a in Catalogue
    ensures Distinct(Catalogue)
  {
    forall a: AchievementId
      ensures a in Catalogue
    {
      var i := CatalogueIndex(a);
      assert Catalogue[i] == a;
    }
    forall i, j | 0 <= i < j < |Catalogue|
      ensures Catalogue[i] != Catalogue[j]
    {
      assert CatalogueIndex(Catalogue[i]) == i && CatalogueIndex(Catalogue[j]) == j;
    }
  }

  lemma DistinctAppend(a: seq<AchievementId>, b: seq<AchievementId>)
    requires Distinct(a) && Distinct(b)
    requires forall x :: x in b ==> x !in a
    ensures Distinct(a + b)
  {
    forall i, j | 0 <= i < j < |a + b| ensures (a + b)[i] != (a + b)[j] {
      if j >= |a| && i < |a| {
        assert (a + b)[j] == b[j - |a|] && (a + b)[j] in b;
      } else if i >= |a| {
        assert (a + b)[i] == b[i - |a|] && (a + b)[j] == b[j - |a|];
      }
    }
  }

  /** Each achievement is unlocked at most once over a session. */
  lemma CheckKeepsDistinct(unlocked: seq<AchievementId>, st: CheckState)
    requires Distinct(unlocked)
    ensures Distinct(CheckAchievements(unlocked, st).0)
  {
    var r := CheckAchievements(unlocked, st);
    DistinctAppend(unlocked, r.1);
  }

  /** Checking the same state again unlocks nothing new. */
  lemma CheckIdempotent(unlocked: seq<AchievementId>, st: CheckState)
    ensures CheckAchievements(CheckAchievements(unlocked, st).0, st).1 == []
  {
    var first := CheckAchievements(unlocked, st);
    var again := CheckAchievements(first.0, st).1;
    if |again| > 0 {
      HeadIsMember(again);
      assert false;
    }
  }

  lemma HeadIsMember<T>(xs: seq<T>)
    requires |xs| > 0
    ensures xs[0] in xs
  {
  }

  function TotalXp(xs: seq<AchievementId>): nat {
    if xs == [] then 0 else Xp(xs[0]) + TotalXp(xs[1..])
  }

  lemma {:induction false} TotalXpAppend(a: seq<AchievementId>, b: seq<AchievementId>)
    ensures TotalXp(a + b) == TotalXp(a) + TotalXp(b)
    decreases |a|
  {
    if a == [] {
      assert a + b == b;
    } else {
      assert (a + b)[1..] == a[1..] + b;
      TotalXpAppend(a[1..], b);
    }
  }

  // ---------------------------------------------------------------- the agent

  datatype Response = Response(
    facialScore: real, voiceScore: real, baseScore: real, finalScore: int,
    combo: nat, maxCombo: nat, multiplier: real, status: ComboStatus,
    feedback: seq<Message>, newAchievements: seq<AchievementId>, totalScore: int, averageScore: real)

  datatype Agent = Agent(
    difficulty: string, combo: nat, maxCombo: nat, consecutive: nat,
    totalScore: int, totalFrames: nat, history: seq<Response>, unlocked: seq<AchievementId>)

  /** The invariant every reachable agent keeps; under an unknown difficulty the combo never moves. */
  ghost predicate Valid(a: Agent) {
    && (match Difficulty.ParseLevel(a.difficulty)
        case Some(l) => ComboInvariant(a.combo, a.maxCombo, a.consecutive, ThresholdsOf(l))
        case None => a.combo == 0 && a.maxCombo == 0 && a.consecutive == 0)
    && |a.history| <= 100
    && Distinct(a.unlocked)
  }

  function NewAgent(difficulty: string): (a: Agent)
    ensures Valid(a)
    ensures a.totalFrames == 0 && a.totalScore == 0 && a.history == [] && a.unlocked == []
  {
    Agent(difficulty, 0, 0, 0, 0, 0, [], [])
  }

  /** `reset`: zero every counter and clear history and achievements; the difficulty stays. */
  function Reset(a: Agent): (r: Agent)
    ensures Valid(r)
    ensures r == NewAgent(a.difficulty)
  {
    Agent(a.difficulty, 0, 0, 0, 0, 0, [], [])
  }

  /** The state handed to the achievement check: perfect and eye-contact frames count only while the condition holds. */
  function CheckStateOf(u: ComboUpdate, base: real, frames: nat, f: FacialInput, v: VoiceInput): (st: CheckState)
    ensures st.combo == u.combo
    ensures st.perfectFrames == (if base >= 90.0 then u.consecutive else 0)
    ensures st.fillerFreeFrames == (if FillerTruthy(v) then 0 else frames)
    ensures st.eyeContactFrames == (if f.eyeContactScore >= 0.9 then frames else 0)
  {
    CheckState(
      u.combo,
      if base >= 90.0 then u.consecutive else 0,
      if !FillerTruthy(v) then frames else 0,
      if f.eyeContactScore >= 0.9 then frames else 0)
  }

  /** Python's `int(base * multiplier)`. */
  function FrameScore(base: real, multiplier: real): int {
    Trunc(base * multiplier)
  }

  /** One analysed frame under known thresholds. */
  function Step(a: Agent, t: Thresholds, f: FacialInput, v: VoiceInput): (r: (Agent, Response))
    requires t.increment >= 1
    ensures r.0.difficulty == a.difficulty && r.0.totalFrames == a.totalFrames + 1
    ensures r.1.baseScore == 0.6 * f.engagementScore + 0.4 * v.voiceScore
    ensures r.0.combo == r.1.combo && r.0.maxCombo == r.1.maxCombo
    ensures var u := UpdateCombo(a.combo, a.maxCombo, a.consecutive, r.1.baseScore, t);
      && r.0.combo == u.combo && r.0.maxCombo == u.maxCombo && r.0.consecutive == u.consecutive
      && r.1.status == u.status
      && r.1.newAchievements == CheckAchievements(a.unlocked, CheckStateOf(u, r.1.baseScore, a.totalFrames + 1, f, v)).1
    ensures r.1.multiplier == MultiplierOf(r.1.combo)
    ensures r.1.finalScore == FrameScore(r.1.baseScore, r.1.multiplier)
    ensures r.1.averageScore == RunningAverage(r.0.totalScore, r.0.totalFrames)
    ensures r.0.totalScore == a.totalScore + r.1.finalScore && r.1.totalScore == r.0.totalScore
    ensures r.1.feedback == GenerateFeedback(f, v)
    ensures r.0.unlocked == a.unlocked + r.1.newAchievements
    ensures r.0.history == PushBounded(a.history, r.1, 100)
  {
    var frames := a.totalFrames + 1;
    var base := 0.6 * f.engagementScore + 0.4 * v.voiceScore;
    var u := UpdateCombo(a.combo, a.maxCombo, a.consecutive, base, t);
    var final := FrameScore(base, u.multiplier);
    var total := a.totalScore + final;
    var checked := CheckAchievements(a.unlocked, CheckStateOf(u, base, frames, f, v));
    var resp := Response(
      f.engagementScore, v.voiceScore, base, final, u.combo, u.maxCombo, u.multiplier, u.status,
      GenerateFeedback(f, v), checked.1, total, RunningAverage(total, frames));
    var next := Agent(a.difficulty, u.combo, u.maxCombo, u.consecutive, total, frames,
                      PushBounded(a.history, resp, 100), checked.0);
    (next, resp)
  }

  /** `total_score / total_frames` after at least one frame. */
  function RunningAverage(total: int, frames: nat): (avg: real)
    requires frames > 0
    ensures avg * (frames as real) == total as real
  {
    var q := (total as real) / (frames as real);
    assert q * (frames as real) == total as real;
    q
  }

  /** `analyze_performance`. An unknown difficulty raises KeyError after the frame was counted. */
  function AnalyzePerformance(a: Agent, f: FacialInput, v: VoiceInput): (r: (Agent, Result<Response, string>))
    ensures r.0.totalFrames == a.totalFrames + 1 && r.0.difficulty == a.difficulty
    ensures r.1.Err? <==> Difficulty.ParseLevel(a.difficulty).None?
    ensures r.1.Err? ==> r.0 == a.(totalFrames := a.totalFrames + 1)
    ensures r.1.Ok? ==> |r.0.history| >= 1 && r.0.history[|r.0.history| - 1] == r.1.value && |r.1.value.feedback| <= 3
  {
    match Difficulty.ParseLevel(a.difficulty)
    case None => (a.(totalFrames := a.totalFrames + 1), Err("KeyError"))
    case Some(l) =>
      var (next, resp) := Step(a, ThresholdsOf(l), f, v);
      (next, Ok(resp))
  }

  /** Every frame keeps the agent's invariant, never lowers the best combo and unlocks the first combo badge once the combo reaches 10. */
  lemma AnalyzeKeepsValid(a: Agent, f: FacialInput, v: VoiceInput)
    requires Valid(a)
    ensures var (next, resp) := AnalyzePerformance(a, f, v);
      && Valid(next)
      && next.maxCombo >= a.maxCombo
      && (next.combo >= 10 ==> FirstCombo in next.unlocked)
  {
    var (next, resp) := AnalyzePerformance(a, f, v);
    match Difficulty.ParseLevel(a.difficulty)
    case None =>
    case Some(l) =>
      var t := ThresholdsOf(l);
      var base := 0.6 * f.engagementScore + 0.4 * v.voiceScore;
      var u := UpdateCombo(a.combo, a.maxCombo, a.consecutive, base, t);
      UpdatePreservesInvariant(a.combo, a.maxCombo, a.consecutive, base, t);
      var st := CheckStateOf(u, base, a.totalFrames + 1, f, v);
      CheckKeepsDistinct(a.unlocked, st);
      assert next.unlocked == CheckAchievements(a.unlocked, st).0;
      assert next.combo == u.combo && next.consecutive == u.consecutive && next.maxCombo == u.maxCombo;
  }

  datatype AgentSummary = AgentSummary(
    totalFrames: nat, totalScore: int, averageScore: real, maxCombo: nat, achievementsUnlocked: nat, totalXpEarned: nat)

  /** `get_session_summary`; the average divides by at least one frame. */
  function GetSessionSummary(a: Agent): (s: AgentSummary)
    ensures s.totalFrames == a.totalFrames && s.totalScore == a.totalScore && s.maxCombo == a.maxCombo
    ensures s.achievementsUnlocked == |a.unlocked|
    ensures a.totalFrames == 0 ==> s.averageScore == a.totalScore as real
    ensures a.totalFrames > 0 ==> s.averageScore * (a.totalFrames as real) == a.totalScore as real
    ensures s.totalXpEarned == TotalXp(a.unlocked)
  {
    var denominator := if a.totalFrames >= 1 then a.totalFrames as real else 1.0;
    AgentSummary(a.totalFrames, a.totalScore, (a.totalScore as real) / denominator, a.maxCombo,
                 |a.unlocked|, TotalXp(a.unlocked))
  }

  /** A frame's XP gain in the summary is the XP of exactly the achievements that frame unlocked. */
  lemma XpGrowsByNewAchievements(a: Agent, f: FacialInput, v: VoiceInput)
    requires Valid(a)
    requires Difficulty.ParseLevel(a.difficulty).Some?
    ensures var (next, resp) := AnalyzePerformance(a, f, v);
      GetSessionSummary(next).totalXpEarned == GetSessionSummary(a).totalXpEarned + TotalXp(resp.value.newAchievements)
  {
    var (next, resp) := AnalyzePerformance(a, f, v);
    var l := Difficulty.ParseLevel(a.difficulty).value;
    assert (next, resp.value) == Step(a, ThresholdsOf(l), f, v);
    TotalXpAppend(a.unlocked, resp.value.newAchievements);
  }
}

=== FILE: difficulty.dfy ===
/**
 * Difficulty rules of the game: the three level configurations, the lookup that silently falls
 * back to "intermediate", the capped bonus multiplier, and the penalty calculator
 * (backend/app/core/difficulty.py).
 */
module Difficulty {
  import opened Wrappers
  import opened Stats

  datatype Level = Beginner | Intermediate | Expert

  function LevelName(l: Level): string {
    match l
    case Beginner => "beginner"
    case Intermediate => "intermediate"
    case Expert => "expert"
  }

  /** The level whose name is exactly `name`, if any. */
  function ParseLevel(name: string): (l: Option<Level>)
    ensures l.Some? ==> LevelName(l.value) == name
    ensures l.None? ==> forall v: Level :: LevelName(v) != name
  {
    if name == "beginner" then Some(Beginner)
    else if name == "intermediate" then Some(Intermediate)
    else if name == "expert" then Some(Expert)
    else None
  }

  /** One entry of the configuration table. Every target score key (facial, voice, content, overall) holds the same value. */
  datatype Config = Config(
    level: Level,
    targetScore: nat,
    timeLimitSeconds: Option<nat>,
    fillerWordTolerance: nat,
    paceMin: nat,
    paceMax: nat,
    multiplierBase: real,
    xpMultiplier: real,
    unlockLevel: nat)

  function ConfigOf(l: Level): (c: Config)
    ensures c.level == l
  {
    match l
    case Beginner => Config(Beginner, 60, None, 15, 100, 180, 1.0, 1.0, 1)
    case Intermediate => Config(Intermediate, 75, Some(300), 8, 120, 160, 1.5, 1.5, 3)
    case Expert => Config(Expert, 85, Some(180), 3, 130, 150, 2.0, 2.5, 7)
  }

  function Rank(l: Level): nat {
    match l
    case Beginner => 0
    case Intermediate => 1
    case Expert => 2
  }

  /** Harder levels are stricter everywhere and pay more. */
  lemma ConfigsTighten(a: Level, b: Level)
    requires Rank(a) < Rank(b)
    ensures ConfigOf(a).targetScore < ConfigOf(b).targetScore
    ensures ConfigOf(a).fillerWordTolerance > ConfigOf(b).fillerWordTolerance
    ensures ConfigOf(a).paceMin < ConfigOf(b).paceMin && ConfigOf(b).paceMax < ConfigOf(a).paceMax
    ensures ConfigOf(a).multiplierBase < ConfigOf(b).multiplierBase
    ensures ConfigOf(a).xpMultiplier < ConfigOf(b).xpMultiplier
    ensures ConfigOf(a).unlockLevel < ConfigOf(b).unlockLevel
  {
    match a
    case Beginner =>
    case Intermediate =>
    case Expert =>
  }

  /** `DIFFICULTY_CONFIGS.get(name, DIFFICULTY_CONFIGS["intermediate"])`. */
  function GetDifficultyConfig(name: string): (c: Config)
    ensures LevelName(c.level) == name || c.level == Intermediate
    ensures c == ConfigOf(c.level)
    ensures c.paceMin < c.paceMax && 1.0 <= c.multiplierBase <= 2.0
  {
    match ParseLevel(name)
    case Some(l) => ConfigOf(l)
    case None => ConfigOf(Intermediate)
  }

  lemma UnknownFallsBack(name: string)
    requires forall v: Level :: LevelName(v) != name
    ensures GetDifficultyConfig(name) == ConfigOf(Intermediate)
  {
  }

  lemma KnownIsFound(l: Level)
    ensures GetDifficultyConfig(LevelName(l)) == ConfigOf(l)
  {
    match l
    case Beginner =>
    case Intermediate =>
    case Expert =>
  }

  // ---------------------------------------------------------------- score multiplier

  /** The keys of the metrics dict; an absent key holds the `.get` default (0, 0, {}). */
  datatype MultiplierMetrics = MultiplierMetrics(comboCount: int, streakDays: int, categoryScores: seq<real>)

  /** The breakdown dict: "base" is always present, every other key only when its bonus applied. */
  datatype Breakdown = Breakdown(base: real, combo: Option<real>, streak: Option<real>, perfect: Option<real>)

  datatype MultipliedScore = MultipliedScore(baseScore: real, multiplier: real, finalScore: real, breakdown: Breakdown)

  function BreakdownSum(b: Breakdown): real {
    b.base + b.combo.GetOr(0.0) + b.streak.GetOr(0.0) + b.perfect.GetOr(0.0)
  }

  ghost predicate AllAbove90(scores: seq<real>) {
    forall i :: 0 <= i < |scores| ==> scores[i] > 90.0
  }

  /** The breakdown dict: the level's base and the bonuses that applied. */
  function BreakdownOf(m: MultiplierMetrics, difficulty: string): (b: Breakdown)
    ensures b.base == GetDifficultyConfig(difficulty).multiplierBase
    ensures b.combo.Some? <==> m.comboCount > 5
    ensures b.combo.Some? ==> b.combo.value == 0.1 * ((m.comboCount / 5) as real)
    ensures b.streak.Some? <==> m.streakDays > 3
    ensures b.streak.Some? ==> b.streak.value == 0.05 * (m.streakDays as real)
    ensures b.perfect.Some? <==> AllAbove90(m.categoryScores)
    ensures b.perfect.Some? ==> b.perfect.value == 0.5
    ensures BreakdownSum(b) >= 1.0
  {
    var combo := if m.comboCount > 5 then Some(0.1 * ((m.comboCount / 5) as real)) else None;
    var streak := if m.streakDays > 3 then Some(0.05 * (m.streakDays as real)) else None;
    var perfect := if forall i :: 0 <= i < |m.categoryScores| ==> m.categoryScores[i] > 90.0 then Some(0.5) else None;
    Breakdown(GetDifficultyConfig(difficulty).multiplierBase, combo, streak, perfect)
  }

  /** The breakdown's sum, capped at 5. */
  function MultiplierOf(b: Breakdown): (k: real)
    requires BreakdownSum(b) >= 1.0
    ensures 1.0 <= k <= 5.0
    ensures k == 5.0 <==> BreakdownSum(b) >= 5.0
    ensures k < 5.0 ==> k == BreakdownSum(b)
  {
    Min(BreakdownSum(b), 5.0)
  }

  /** `calculate_score_with_multiplier`: the breakdown's sum, capped at 5, scales the base score. */
  function CalculateScoreWithMultiplier(baseScore: real, m: MultiplierMetrics, difficulty: string): (r: MultipliedScore)
    ensures r.baseScore == baseScore
    ensures r.breakdown == BreakdownOf(m, difficulty)
    ensures r.multiplier == MultiplierOf(r.breakdown)
    ensures r.finalScore == Scale(r.baseScore, r.multiplier)
  {
    var breakdown := BreakdownOf(m, difficulty);
    var multiplier := MultiplierOf(breakdown);
    MultipliedScore(baseScore, multiplier, Scale(baseScore, multiplier), breakdown)
  }

  /** The base score times the multiplier. */
  function Scale(score: real, multiplier: real): (r: real)
    requires multiplier >= 1.0
    ensures score >= 0.0 ==> r >= score
  {
    score * multiplier
  }

  /** A longer combo never lowers the multiplier. */
  lemma {:induction false} MultiplierMonotoneInCombo(baseScore: real, m: MultiplierMetrics, c: int, difficulty: string)
    requires m.comboCount <= c
    ensures CalculateScoreWithMultiplier(baseScore, m, difficulty).multiplier
         <= CalculateScoreWithMultiplier(baseScore, m.(comboCount := c), difficulty).multiplier
  {
    var lo := CalculateScoreWithMultiplier(baseScore, m, difficulty);
    var hi := CalculateScoreWithMultiplier(baseScore, m.(comboCount := c), difficulty);
    if m.comboCount > 5 {
      assert m.comboCount / 5 <= c / 5;
      assert lo.breakdown.combo.GetOr(0.0) <= hi.breakdown.combo.GetOr(0.0);
    }
    assert BreakdownSum(lo.breakdown) <= BreakdownSum(hi.breakdown);
  }

  // ---------------------------------------------------------------- penalties

  datatype PenaltyKind =
    | ExcessiveFillerWords | PoorEyeContact | MonotoneVoice | TooFast | TooSlow
    | LowVolume | IncompleteSession | PoorEngagement

  /** PENALTY_RULES: the amount of one occurrence (per excess word for filler words). */
  function PenaltyRule(k: PenaltyKind): (amount: int)
    ensures amount < 0
  {
    match k
    case ExcessiveFillerWords => -10
    case PoorEyeContact => -5
    case MonotoneVoice => -15
    case TooFast => -10
    case TooSlow => -10
    case LowVolume => -5
    case IncompleteSession => -50
    case PoorEngagement => -8
  }

  /** One entry of the penalties list; `count` is present only for the filler-word penalty. */
  datatype Penalty = Penalty(kind: PenaltyKind, count: Option<int>, amount: int)

  /** The keys `apply_penalties` reads, each holding its `.get` default when absent (0, 0, 100, 100, 100, 0). */
  datatype PenaltyMetrics = PenaltyMetrics(
    fillerCount: int, speechRate: real, pitchVariation: real,
    eyeContactScore: real, engagementScore: real, baseScore: real)

  function DefaultPenaltyMetrics(): PenaltyMetrics {
    PenaltyMetrics(0, 0.0, 100.0, 100.0, 100.0, 0.0)
  }

  datatype PenaltyReport = PenaltyReport(penalties: seq<Penalty>, totalPenalty: int, baseScore: real, adjustedScore: real)

  /** The checks of `apply_penalties`, in the order they run. */
  const CheckOrder: seq<PenaltyKind> :=
    [ExcessiveFillerWords, TooFast, TooSlow, MonotoneVoice, PoorEyeContact, PoorEngagement]

  /** The position of `k`'s check in `CheckOrder`; the kinds no check produces come after all six. */
  function OrderOf(k: PenaltyKind): (n: nat)
    ensures k in CheckOrder <==> n < |CheckOrder|
    ensures k in CheckOrder ==> CheckOrder[n] == k
  {
    match k
    case ExcessiveFillerWords => 0
    case TooFast => 1
    case TooSlow => 2
    case MonotoneVoice => 3
    case PoorEyeContact => 4
    case PoorEngagement => 5
    case LowVolume => 6
    case IncompleteSession => 6
  }

  /** The entries come in the order of their checks. */
  ghost predicate InCheckOrder(ps: seq<Penalty>) {
    forall i, j :: 0 <= i < j < |ps| ==> OrderOf(ps[i].kind) < OrderOf(ps[j].kind)
  }

  /** Whether the check for `k` fires; too_slow is the `elif` of too_fast. */
  predicate Fires(m: PenaltyMetrics, c: Config, k: PenaltyKind) {
    match k
    case ExcessiveFillerWords => m.fillerCount > c.fillerWordTolerance
    case TooFast => m.speechRate > c.paceMax as real
    case TooSlow => !(m.speechRate > c.paceMax as real) && m.speechRate < c.paceMin as real && m.speechRate > 0.0
    case MonotoneVoice => m.pitchVariation < 20.0
    case PoorEyeContact => m.eyeContactScore < 60.0
    case PoorEngagement => m.engagementScore < 50.0
    case LowVolume => false
    case IncompleteSession => false
  }

  /** The entry a fired check appends. */
  function PenaltyFor(m: PenaltyMetrics, c: Config, k: PenaltyKind): Penalty {
    if k == ExcessiveFillerWords then
      var excess := m.fillerCount - c.fillerWordTolerance;
      Penalty(k, Some(excess), excess * PenaltyRule(k))
    else Penalty(k, None, PenaltyRule(k))
  }

  /** Run the checks `ks` in order, keeping the entry of every one that fires. */
  function Collect(m: PenaltyMetrics, c: Config, ks: seq<PenaltyKind>): (ps: seq<Penalty>)
    ensures |ps| <= |ks|
  {
    if ks == [] then []
    else (if Fires(m, c, ks[0]) then [PenaltyFor(m, c, ks[0])] else []) + Collect(m, c, ks[1..])
  }

  function TotalOf(ps: seq<Penalty>): int {
    if ps == [] then 0 else ps[0].amount + TotalOf(ps[1..])
  }

  predicate Has(ps: seq<Penalty>, k: PenaltyKind) {
    exists i :: 0 <= i < |ps| && ps[i].kind == k
  }

  /** Every collected entry is the entry of a check that fired. */
  lemma {:induction false} CollectEntries(m: PenaltyMetrics, c: Config, ks: seq<PenaltyKind>)
    ensures forall i :: 0 <= i < |Collect(m, c, ks)| ==>
      var p := Collect(m, c, ks)[i]; p.kind in ks && Fires(m, c, p.kind) && p == PenaltyFor(m, c, p.kind)
    decreases |ks|
  {
    if ks != [] {
      CollectEntries(m, c, ks[1..]);
      var head := if Fires(m, c, ks[0]) then [PenaltyFor(m, c, ks[0])] else [];
      var ps := Collect(m, c, ks);
      assert ps == head + Collect(m, c, ks[1..]);
      forall i | 0 <= i < |ps|
        ensures ps[i].kind in ks && Fires(m, c, ps[i].kind) && ps[i] == PenaltyFor(m, c, ps[i].kind)
      {
        if i >= |head| {
          assert ps[i] == Collect(m, c, ks[1..])[i - |head|];
          assert ps[i].kind in ks[1..];
        }
      }
    }
  }

  /** A check that fires contributes an entry. */
  lemma {:induction false} CollectComplete(m: PenaltyMetrics, c: Config, ks: seq<PenaltyKind>, k: PenaltyKind)
    requires k in ks && Fires(m, c, k)
    ensures Has(Collect(m, c, ks), k)
    decreases |ks|
  {
    var ps := Collect(m, c, ks);
    if ks[0] == k {
      assert ps[0].kind == k;
    } else {
      CollectComplete(m, c, ks[1..], k);
      var i :| 0 <= i < |Collect(m, c, ks[1..])| && Collect(m, c, ks[1..])[i].kind == k;
      var head := if Fires(m, c, ks[0]) then [PenaltyFor(m, c, ks[0])] else [];
      assert ps == head + Collect(m, c, ks[1..]);
      assert ps[|head| + i].kind == k;
    }
  }

  /** Distinct checks give distinct entries. */
  lemma {:induction false} CollectDistinct(m: PenaltyMetrics, c: Config, ks: seq<PenaltyKind>)
    requires forall i, j :: 0 <= i < j < |ks| ==> ks[i] != ks[j]
    ensures forall i, j :: 0 <= i < j < |Collect(m, c, ks)| ==> Collect(m, c, ks)[i].kind != Collect(m, c, ks)[j].kind
    decreases |ks|
  {
    if ks != [] {
      var rest := Collect(m, c, ks[1..]);
      CollectDistinct(m, c, ks[1..]);
      CollectEntries(m, c, ks[1..]);
      var head := if Fires(m, c, ks[0]) then [PenaltyFor(m, c, ks[0])] else [];
      var ps := Collect(m, c, ks);
      assert ps == head + rest;
      forall i, j | 0 <= i < j < |ps| ensures ps[i].kind != ps[j].kind {
        if i < |head| {
          assert ps[j] == rest[j - 1];
          assert ps[j].kind in ks[1..];
        } else {
          assert ps[i] == rest[i - |head|] && ps[j] == rest[j - |head|];
        }
      }
    }
  }

  /** Checks that all come after position `lo` give entries that all come after it. */
  lemma {:induction false} CollectAfter(m: PenaltyMetrics, c: Config, ks: seq<PenaltyKind>, lo: int)
    requires forall a :: 0 <= a < |ks| ==> lo < OrderOf(ks[a])
    ensures forall i :: 0 <= i < |Collect(m, c, ks)| ==> lo < OrderOf(Collect(m, c, ks)[i].kind)
    decreases |ks|
  {
    if ks != [] {
      var rest := Collect(m, c, ks[1..]);
      assert forall a :: 0 <= a < |ks[1..]| ==> ks[1..][a] == ks[a + 1];
      CollectAfter(m, c, ks[1..], lo);
      var head := if Fires(m, c, ks[0]) then [PenaltyFor(m, c, ks[0])] else [];
      assert Collect(m, c, ks) == head + rest;
    }
  }

  /** Checks run in check order give entries in check order. */
  lemma {:induction false} CollectOrdered(m: PenaltyMetrics, c: Config, ks: seq<PenaltyKind>)
    requires forall i, j :: 0 <= i < j < |ks| ==> OrderOf(ks[i]) < OrderOf(ks[j])
    ensures InCheckOrder(Collect(m, c, ks))
    decreases |ks|
  {
    if ks != [] {
      var rest := Collect(m, c, ks[1..]);
      assert forall a :: 0 <= a < |ks[1..]| ==> ks[1..][a] == ks[a + 1];
      CollectOrdered(m, c, ks[1..]);
      if Fires(m, c, ks[0]) {
        CollectAfter(m, c, ks[1..], OrderOf(ks[0]));
        var ps := [PenaltyFor(m, c, ks[0])] + rest;
        assert Collect(m, c, ks) == ps;
        assert forall j :: 1 <= j < |ps| ==> ps[j] == rest[j - 1];
      }
    }
  }

  lemma {:induction false} TotalOfNonPositive(ps: seq<Penalty>)
    requires forall i :: 0 <= i < |ps| ==> ps[i].amount < 0
    ensures TotalOf(ps) <= 0
    ensures ps != [] ==> TotalOf(ps) < 0
    decreases |ps|
  {
    if ps != [] {
      TotalOfNonPositive(ps[1..]);
    }
  }

  /** The list `apply_penalties` builds: one entry per check that fires, in check order. */
  function PenaltyList(m: PenaltyMetrics, c: Config): (ps: seq<Penalty>)
    ensures forall k :: Has(ps, k) <==> k in CheckOrder && Fires(m, c, k)
    ensures forall i :: 0 <= i < |ps| ==> ps[i] == PenaltyFor(m, c, ps[i].kind) && Fires(m, c, ps[i].kind)
    ensures forall i, j :: 0 <= i < j < |ps| ==> ps[i].kind != ps[j].kind
    ensures InCheckOrder(ps)
  {
    var ps := Collect(m, c, CheckOrder);
    CollectEntries(m, c, CheckOrder);
    CollectDistinct(m, c, CheckOrder);
    CollectOrdered(m, c, CheckOrder);
    forall k | k in CheckOrder && Fires(m, c, k) ensures Has(ps, k) {
      CollectComplete(m, c, CheckOrder, k);
    }
    ps
  }

  /** Every entry is negative, and so is the total whenever some check fired. */
  lemma PenaltiesNegative(m: PenaltyMetrics, c: Config)
    ensures forall i :: 0 <= i < |PenaltyList(m, c)| ==> PenaltyList(m, c)[i].amount < 0
    ensures TotalOf(PenaltyList(m, c)) <= 0
    ensures PenaltyList(m, c) != [] ==> TotalOf(PenaltyList(m, c)) < 0
  {
    var ps := PenaltyList(m, c);
    forall i | 0 <= i < |ps| ensures ps[i].amount < 0 {
      assert ps[i] == PenaltyFor(m, c, ps[i].kind) && Fires(m, c, ps[i].kind);
    }
    TotalOfNonPositive(ps);
  }

  /** Which penalties a report lists, in terms of the metrics and the level's configuration. */
  lemma PenaltyTriggers(m: PenaltyMetrics, difficulty: string)
    ensures var c := GetDifficultyConfig(difficulty); var ps := PenaltyList(m, c);
      && (Has(ps, ExcessiveFillerWords) <==> m.fillerCount > c.fillerWordTolerance)
      && (Has(ps, TooFast) <==> m.speechRate > c.paceMax as real)
      && (Has(ps, TooSlow) <==> 0.0 < m.speechRate < c.paceMin as real)
      && !(Has(ps, TooFast) && Has(ps, TooSlow))
      && (Has(ps, MonotoneVoice) <==> m.pitchVariation < 20.0)
      && (Has(ps, PoorEyeContact) <==> m.eyeContactScore < 60.0)
      && (Has(ps, PoorEngagement) <==> m.engagementScore < 50.0)
      && !Has(ps, LowVolume) && !Has(ps, IncompleteSession)
  {
    PaceTriggers(m, GetDifficultyConfig(difficulty));
    OtherTriggers(m, GetDifficultyConfig(difficulty));
  }

  lemma PaceTriggers(m: PenaltyMetrics, c: Config)
    requires c.paceMin < c.paceMax
    ensures var ps := PenaltyList(m, c);
      && (Has(ps, TooFast) <==> m.speechRate > c.paceMax as real)
      && (Has(ps, TooSlow) <==> 0.0 < m.speechRate < c.paceMin as real)
      && !(Has(ps, TooFast) && Has(ps, TooSlow))
  {
    assert CheckOrder[1] == TooFast && CheckOrder[2] == TooSlow;
  }

  lemma OtherTriggers(m: PenaltyMetrics, c: Config)
    ensures var ps := PenaltyList(m, c);
      && (Has(ps, ExcessiveFillerWords) <==> m.fillerCount > c.fillerWordTolerance)
      && (Has(ps, MonotoneVoice) <==> m.pitchVariation < 20.0)
      && (Has(ps, PoorEyeContact) <==> m.eyeContactScore < 60.0)
      && (Has(ps, PoorEngagement) <==> m.engagementScore < 50.0)
      && !Has(ps, LowVolume) && !Has(ps, IncompleteSession)
  {
    assert CheckOrder[0] == ExcessiveFillerWords && CheckOrder[3] == MonotoneVoice;
    assert CheckOrder[4] == PoorEyeContact && CheckOrder[5] == PoorEngagement;
    assert LowVolume !in CheckOrder && IncompleteSession !in CheckOrder;
  }

  /** The filler-word entry charges −10 per word over the level's tolerance; every other entry is its table amount. */
  lemma PenaltyAmounts(m: PenaltyMetrics, c: Config, i: nat)
    requires i < |PenaltyList(m, c)|
    ensures var p := PenaltyList(m, c)[i];
      && (p.kind == ExcessiveFillerWords ==>
            p.count == Some(m.fillerCount - c.fillerWordTolerance)
            && p.amount == -10 * (m.fillerCount - c.fillerWordTolerance))
      && (p.kind != ExcessiveFillerWords ==> p.count.None? && p.amount == PenaltyRule(p.kind))
  {
    var p := PenaltyList(m, c)[i];
    assert p == PenaltyFor(m, c, p.kind);
  }

  /**
   * `apply_penalties` as written: the amounts are negative and the total is then SUBTRACTED,
   * so every penalty raises the adjusted score.
   */
  function ApplyPenalties(m: PenaltyMetrics, difficulty: string): (r: PenaltyReport)
    ensures r.penalties == PenaltyList(m, GetDifficultyConfig(difficulty))
    ensures r.totalPenalty == TotalOf(r.penalties) && r.totalPenalty <= 0
    ensures r.baseScore == m.baseScore
    ensures r.adjustedScore >= 0.0 && r.adjustedScore >= m.baseScore
    ensures r.penalties != [] && m.baseScore >= 0.0 ==> r.adjustedScore > m.baseScore
  {
    var ps := PenaltyList(m, GetDifficultyConfig(difficulty));
    PenaltiesNegative(m, GetDifficultyConfig(difficulty));
    var total := TotalOf(ps);
    PenaltyReport(ps, total, m.baseScore, Max(0.0, m.baseScore - total as real))
  }

  /** The evidently intended calculator: the negative total is added, so penalties only lower the score. */
  function ApplyPenaltiesIntended(m: PenaltyMetrics, difficulty: string): (r: PenaltyReport)
    ensures r.penalties == PenaltyList(m, GetDifficultyConfig(difficulty))
    ensures r.totalPenalty == TotalOf(r.penalties) && r.totalPenalty <= 0
    ensures r.baseScore == m.baseScore
    ensures r.adjustedScore >= 0.0
    ensures m.baseScore >= 0.0 ==> r.adjustedScore <= m.baseScore
    ensures r.penalties != [] && m.baseScore > 0.0 ==> r.adjustedScore < m.baseScore
    ensures r.penalties == [] ==> r.adjustedScore == Max(0.0, m.baseScore)
  {
    var ps := PenaltyList(m, GetDifficultyConfig(difficulty));
    PenaltiesNegative(m, GetDifficultyConfig(difficulty));
    var total := TotalOf(ps);
    PenaltyReport(ps, total, m.baseScore, Max(0.0, m.baseScore + total as real))
  }

  /** With no metrics at all, no penalty applies. */
  lemma DefaultsIncurNothing(difficulty: string)
    ensures ApplyPenalties(DefaultPenaltyMetrics(), difficulty).penalties == []
    ensures ApplyPenalties(DefaultPenaltyMetrics(), difficulty).adjustedScore == 0.0
  {
  }

  /** Twenty filler words at beginner level (tolerance 15) turn a base of 50 into 100 as written, and into 0 as intended. */
  lemma PenaltyRaisesScore()
    ensures ApplyPenalties(DefaultPenaltyMetrics().(fillerCount := 20, baseScore := 50.0), "beginner").adjustedScore == 100.0
    ensures ApplyPenaltiesIntended(DefaultPenaltyMetrics().(fillerCount := 20, baseScore := 50.0), "beginner").adjustedScore == 0.0
  {
    var m := DefaultPenaltyMetrics().(fillerCount := 20, baseScore := 50.0);
    var c := ConfigOf(Beginner);
    var ps := PenaltyList(m, c);
    assert Fires(m, c, ExcessiveFillerWords) && ExcessiveFillerWords == CheckOrder[0];
    assert Has(ps, ExcessiveFillerWords);
    assert |ps| == 1;
    assert ps[0] == PenaltyFor(m, c, ExcessiveFillerWords);
    assert TotalOf(ps) == ps[0].amount + TotalOf(ps[1..]);
  }
}

=== FILE: emotion.dfy ===
/**
 * The emotion detector (backend/app/core/emotion_detector.py) with its classifier abstracted: each
 * detected face either yields the classifier's seven class scores or nothing (preprocessing failed,
 * or no model was loaded). Modelled: the per-frame aggregation, the timeline over several frames
 * and the moving-average smoothing of the engagement trend.
 */
module EmotionDetector {
  import opened Wrappers
  import opened Stats
  import opened Sorting

  /** The classifier's class names, in output order. */
  const ClassNames: seq<string> := ["Angry", "Disgust", "Fear", "Happy", "Neutral", "Sad", "Surprise"]

  /** The names the detector reports for each class. */
  const EmotionMap: map<string, string> := map[
    "Angry" := "anger", "Disgust" := "disgust", "Fear" := "fear", "Happy" := "happiness",
    "Neutral" := "neutral", "Sad" := "sadness", "Surprise" := "surprise"]

  /** The reported name of class `i`. */
  function Label(i: nat): (e: string)
    requires i < |ClassNames|
    ensures e in EmotionMap.Values
  {
    EmotionMap[ClassNames[i]]
  }

  /**
   * The detector reports sadness as "sadness", never as "sad", so a table keyed by "sad" never
   * matches what it emits.
   */
  lemma NeverReportsSad(i: nat)
    requires i < |ClassNames|
    ensures Label(i) != "sad"
    ensures i == 5 ==> Label(i) == "sadness"
  {
  }

  /** Seven class scores, one per entry of `ClassNames`. */
  type Scores = p: seq<real> | |p| == 7 witness [0.0, 0.0, 0.0, 0.0, 0.0, 0.0, 0.0]

  /** A frame: absent or empty, one the colour conversion rejects, or its faces' classifier outputs. */
  datatype Frame = NoFrame | Unreadable | Faces(faces: seq<Option<Scores>>)

  datatype Entry = Entry(emotion: string, confidence: real)

  function ConfidenceOf(e: Entry): real {
    e.confidence
  }

  datatype Detection = Detection(
    facesDetected: nat, emotions: seq<Entry>, primaryEmotion: string, primaryConfidence: real, engagement: real)

  const NoDetection := Detection(0, [], "neutral", 0.0, 0.0)

  /** `np.argmax` over the class scores: the first highest class and its score. */
  function Classify(p: Scores): (e: Entry)
    ensures exists i :: 0 <= i < 7 && e == Entry(Label(i), p[i]) && forall j :: 0 <= j < 7 ==> p[j] <= p[i]
  {
    var i := ArgMaxFirst(p);
    Entry(Label(i), p[i])
  }

  /** One entry per face the classifier scored, in face order. */
  function Entries(fs: seq<Option<Scores>>): (es: seq<Entry>)
    ensures |es| <= |fs|
    ensures forall k :: 0 <= k < |es| ==> es[k].emotion in EmotionMap.Values
  {
    if fs == [] then []
    else (if fs[0].Some? then [Classify(fs[0].value)] else []) + Entries(fs[1..])
  }

  function Confidences(es: seq<Entry>): (xs: seq<real>)
    ensures |xs| == |es| && forall k :: 0 <= k < |es| ==> xs[k] == es[k].confidence
  {
    if es == [] then [] else [es[0].confidence] + Confidences(es[1..])
  }

  predicate Engaging(e: Entry) {
    e.emotion == "happiness" || e.emotion == "surprise"
  }

  /** The confidences of the happiness and surprise entries. */
  function EngagingConfidences(es: seq<Entry>): (xs: seq<real>)
    ensures |xs| <= |es|
  {
    if es == [] then []
    else (if Engaging(es[0]) then [es[0].confidence] else []) + EngagingConfidences(es[1..])
  }

  /** The first entry of highest confidence, as the head of the stable descending sort. */
  function PrimaryIndex(es: seq<Entry>): (k: nat)
    requires |es| > 0
    ensures k < |es|
    ensures forall j :: 0 <= j < |es| ==> es[j].confidence <= es[k].confidence
    ensures forall j :: 0 <= j < k ==> es[j].confidence < es[k].confidence
  {
    ArgMaxFirst(Confidences(es))
  }

  /**
   * `detect_emotion_in_frame`: no frame or no face gives 0 faces, "neutral" and zeros; otherwise the
   * primary emotion is a highest-confidence entry and the engagement is the happiness and surprise
   * confidence per scored face, capped at 1.
   */
  function DetectEmotion(f: Frame): (d: Detection)
    ensures f.NoFrame? || f.Unreadable? ==> d == NoDetection
    ensures f.Faces? ==> d.facesDetected == |f.faces| && d.emotions == Entries(f.faces)
    ensures d.emotions == [] ==> d.primaryEmotion == "neutral" && d.primaryConfidence == 0.0 && d.engagement == 0.0
    ensures d.emotions != [] ==>
      && d.primaryEmotion == d.emotions[PrimaryIndex(d.emotions)].emotion
      && d.primaryConfidence == d.emotions[PrimaryIndex(d.emotions)].confidence
      && (forall j :: 0 <= j < |d.emotions| ==> d.emotions[j].confidence <= d.primaryConfidence)
      && d.engagement == Min(Sum(EngagingConfidences(d.emotions)) / (|d.emotions| as real), 1.0)
    ensures d.engagement <= 1.0
  {
    match f
    case NoFrame => NoDetection
    case Unreadable => NoDetection
    case Faces(fs) =>
      var es := Entries(fs);
      if es == [] then NoDetection.(facesDetected := |fs|)
      else
        var p := es[PrimaryIndex(es)];
        Detection(|fs|, es, p.emotion, p.confidence,
          Min(Sum(EngagingConfidences(es)) / (|es| as real), 1.0))
  }

  /** The primary entry is exactly the head of `sorted(emotions, key=confidence, reverse=True)`. */
  lemma PrimaryIsSortedHead(es: seq<Entry>)
    requires |es| > 0
    ensures SortDesc(es, ConfidenceOf)[0] == es[PrimaryIndex(es)]
  {
    var k := PrimaryIndex(es);
    var top := es[k].confidence;
    var sorted := SortDesc(es, ConfidenceOf);
    SortedHeadIsMax(es, k);
    SortDescStable(es, ConfidenceOf, top);
    FirstWithKey(es, k);
    WithKeyHead(sorted, ConfidenceOf, top);
  }

  /** The head of the descending sort carries the highest confidence. */
  lemma SortedHeadIsMax(es: seq<Entry>, k: nat)
    requires k < |es|
    requires forall j :: 0 <= j < |es| ==> es[j].confidence <= es[k].confidence
    ensures ConfidenceOf(SortDesc(es, ConfidenceOf)[0]) == es[k].confidence
  {
    var sorted := SortDesc(es, ConfidenceOf);
    assert sorted[0] in multiset(es);
    assert es[k] in multiset(sorted);
    var j :| 0 <= j < |sorted| && sorted[j] == es[k];
    assert ConfidenceOf(sorted[0]) >= ConfidenceOf(sorted[j]);
  }

  /** `es[k]` is the first element carrying its confidence when every earlier one is lower. */
  lemma FirstWithKey(es: seq<Entry>, k: nat)
    requires k < |es|
    requires forall j :: 0 <= j < k ==> es[j].confidence < es[k].confidence
    ensures WithKey(es, ConfidenceOf, es[k].confidence) != []
    ensures WithKey(es, ConfidenceOf, es[k].confidence)[0] == es[k]
  {
    var top := es[k].confidence;
    var before := es[..k];
    var from := [es[k]] + es[k + 1..];
    assert es == before + from;
    forall i | 0 <= i < |before|
      ensures ConfidenceOf(before[i]) != top
    {
      assert before[i] == es[i];
    }
    WithKeyNone(before, ConfidenceOf, top);
    WithKeyAppend(before, from, ConfidenceOf, top);
    WithKeyCons(es[k], es[k + 1..], ConfidenceOf, top);
    assert ConfidenceOf(es[k]) == top;
    assert WithKey(es, ConfidenceOf, top) == [es[k]] + WithKey(es[k + 1..], ConfidenceOf, top);
  }

  /** Every class score of every scored face is non-negative, as a softmax output is. */
  predicate NonNegativeScores(fs: seq<Option<Scores>>) {
    forall k :: 0 <= k < |fs| && fs[k].Some? ==> forall c :: 0 <= c < 7 ==> 0.0 <= fs[k].value[c]
  }

  /** With non-negative class scores, the engagement lies in [0,1]. */
  lemma EngagementIsProbability(f: Frame)
    requires f.Faces? && NonNegativeScores(f.faces)
    ensures 0.0 <= DetectEmotion(f).engagement <= 1.0
  {
    var d := DetectEmotion(f);
    EntriesNonNegative(f.faces);
    if d.emotions != [] {
      ShareNonNegative(d.emotions);
    }
  }

  lemma {:induction false} ShareNonNegative(es: seq<Entry>)
    requires |es| > 0
    requires forall k :: 0 <= k < |es| ==> 0.0 <= es[k].confidence
    ensures 0.0 <= Sum(EngagingConfidences(es)) / (|es| as real)
  {
    var xs := EngagingConfidences(es);
    EngagingNonNegative(es);
    assert forall i :: 0 <= i < |xs| ==> 0.0 <= xs[i];
    SumLowerBound(xs, 0.0);
    assert 0.0 <= Sum(xs);
    DivNonNegative(Sum(xs), |es| as real);
  }

  lemma DivNonNegative(s: real, n: real)
    requires s >= 0.0 && n > 0.0
    ensures s / n >= 0.0
  {
    var q := s / n;
    assert q * n == s;
  }

  lemma {:induction false} EntriesNonNegative(fs: seq<Option<Scores>>)
    requires NonNegativeScores(fs)
    ensures forall k :: 0 <= k < |Entries(fs)| ==> 0.0 <= Entries(fs)[k].confidence
    decreases |fs|
  {
    if fs != [] {
      EntriesNonNegative(fs[1..]);
      if fs[0].Some? {
        var p := fs[0].value;
        var e := Classify(p);
        var i :| 0 <= i < 7 && e == Entry(Label(i), p[i]) && forall j :: 0 <= j < 7 ==> p[j] <= p[i];
        assert 0.0 <= p[i];
      }
    }
  }

  lemma {:induction false} EngagingNonNegative(es: seq<Entry>)
    requires forall k :: 0 <= k < |es| ==> 0.0 <= es[k].confidence
    ensures forall k :: 0 <= k < |EngagingConfidences(es)| ==> 0.0 <= EngagingConfidences(es)[k]
    decreases |es|
  {
    if es != [] {
      EngagingNonNegative(es[1..]);
    }
  }

  // ---------------------------------------------------------------- emotion counts

  /** One `emotion_counts` item; the dict's items keep first-insertion order. */
  datatype Tally = Tally(emotion: string, count: nat)

  function CountKey(t: Tally): real {
    t.count as real
  }

  predicate HasKey(ts: seq<Tally>, e: string) {
    ts != [] && (ts[0].emotion == e || HasKey(ts[1..], e))
  }

  /** No emotion is counted twice. */
  predicate DistinctKeys(ts: seq<Tally>) {
    ts == [] || (!HasKey(ts[1..], ts[0].emotion) && DistinctKeys(ts[1..]))
  }

  /** The count held for `e`, or 0 when it has none. */
  function CountOf(ts: seq<Tally>, e: string): nat {
    if ts == [] then 0 else if ts[0].emotion == e then ts[0].count else CountOf(ts[1..], e)
  }

  function TallySum(ts: seq<Tally>): nat {
    if ts == [] then 0 else ts[0].count + TallySum(ts[1..])
  }

  /** `emotion_counts[e] = emotion_counts.get(e, 0) + 1`. */
  function AddCount(ts: seq<Tally>, e: string): (r: seq<Tally>)
    ensures TallySum(r) == TallySum(ts) + 1
    ensures forall k :: CountOf(r, k) == CountOf(ts, k) + (if k == e then 1 else 0)
    ensures forall k :: HasKey(r, k) <==> HasKey(ts, k) || k == e
    ensures DistinctKeys(ts) ==> DistinctKeys(r)
  {
    if ts == [] then [Tally(e, 1)]
    else if ts[0].emotion == e then
      var r := [ts[0].(count := ts[0].count + 1)] + ts[1..];
      assert r[1..] == ts[1..];
      r
    else
      var r := [ts[0]] + AddCount(ts[1..], e);
      assert r[1..] == AddCount(ts[1..], e);
      r
  }

  /** The counts of `es`, built left to right as the source's loop does. */
  function Tallies(es: seq<string>): (ts: seq<Tally>)
    ensures DistinctKeys(ts)
    ensures TallySum(ts) == |es|
  {
    if es == [] then [] else AddCount(Tallies(es[..|es| - 1]), es[|es| - 1])
  }

  lemma {:induction false} OccurrencesSnoc<T>(s: seq<T>, x: T, k: T)
    ensures Occurrences(s + [x], k) == Occurrences(s, k) + (if x == k then 1 else 0)
    decreases |s|
  {
    if s == [] {
      assert [] + [x] == [x];
      assert [x][1..] == [];
    } else {
      assert (s + [x])[1..] == s[1..] + [x];
      OccurrencesSnoc(s[1..], x, k);
    }
  }

  /** Each emotion's count is the number of times it was seen. */
  lemma {:induction false} TalliesCount(es: seq<string>, k: string)
    ensures CountOf(Tallies(es), k) == Occurrences(es, k)
    decreases |es|
  {
    if es != [] {
      var init := es[..|es| - 1];
      TalliesCount(init, k);
      assert es == init + [es[|es| - 1]];
      OccurrencesSnoc(init, es[|es| - 1], k);
    }
  }

  // ---------------------------------------------------------------- distribution

  datatype Share = Share(emotion: string, percent: real)

  /** `(count / total) * 100` for each emotion, in the counts' order. */
  function Distribution(ts: seq<Tally>, total: real): (ds: seq<Share>)
    requires total > 0.0
    ensures |ds| == |ts|
    ensures forall i :: 0 <= i < |ts| ==> ds[i].emotion == ts[i].emotion
  {
    if ts == [] then [] else [Share(ts[0].emotion, (ts[0].count as real) / total * 100.0)] + Distribution(ts[1..], total)
  }

  function ShareSum(ds: seq<Share>): real {
    if ds == [] then 0.0 else ds[0].percent + ShareSum(ds[1..])
  }

  lemma {:induction false} ShareSumScaled(ts: seq<Tally>, total: real)
    requires total > 0.0
    ensures ShareSum(Distribution(ts, total)) * total == (TallySum(ts) as real) * 100.0
    decreases |ts|
  {
    if ts != [] {
      ShareSumScaled(ts[1..], total);
      var c := ts[0].count as real;
      var q := c / total;
      assert q * total == c;
      var rest := ShareSum(Distribution(ts[1..], total));
      assert ShareSum(Distribution(ts, total)) == q * 100.0 + rest;
      assert (q * 100.0 + rest) * total == q * total * 100.0 + rest * total;
    }
  }

  // ---------------------------------------------------------------- smoothing

  /** The window of `_smooth_trend` (width 5) around position `i` of a series of length `n`. */
  function WindowStart(i: nat): nat {
    if i >= 2 then i - 2 else 0
  }

  function WindowEnd(i: nat, n: nat): nat {
    if i + 3 <= n then i + 3 else n
  }

  /** `_smooth_trend`: element `i` is the mean of the values within two places of it. */
  function SmoothTrend(values: seq<real>): (r: seq<real>)
    ensures |r| == |values|
    ensures forall i :: 0 <= i < |values| ==> r[i] == Mean(values[WindowStart(i)..WindowEnd(i, |values|)])
  {
    seq(|values|, i requires 0 <= i < |values| => Mean(values[WindowStart(i)..WindowEnd(i, |values|)]))
  }

  /** Smoothing keeps every bound of the series: each average lies between them. */
  lemma SmoothWithin(values: seq<real>, lo: real, hi: real)
    requires forall i :: 0 <= i < |values| ==> lo <= values[i] <= hi
    ensures forall i :: 0 <= i < |values| ==> lo <= SmoothTrend(values)[i] <= hi
  {
    forall i | 0 <= i < |values|
      ensures lo <= SmoothTrend(values)[i] <= hi
    {
      var w := values[WindowStart(i)..WindowEnd(i, |values|)];
      assert values[i] == w[i - WindowStart(i)];
      MeanWithin(w, lo, hi);
    }
  }

  /** A constant series is its own smoothing. */
  lemma SmoothConstant(values: seq<real>, c: real)
    requires forall i :: 0 <= i < |values| ==> values[i] == c
    ensures SmoothTrend(values) == values
  {
    SmoothWithin(values, c, c);
  }

  // ---------------------------------------------------------------- timeline

  datatype Moment = Moment(frame: nat, emotion: string, confidence: real)

  datatype Timeline = Timeline(
    emotionsDetected: seq<Moment>, distribution: seq<Share>, engagementTrend: seq<real>, dominantEmotions: seq<Tally>)

  /** `detect_emotion_in_frame` on each frame, in order. */
  function Detections(frames: seq<Frame>): (ds: seq<Detection>)
    ensures |ds| == |frames| && forall i :: 0 <= i < |frames| ==> ds[i] == DetectEmotion(frames[i])
  {
    if frames == [] then [] else [DetectEmotion(frames[0])] + Detections(frames[1..])
  }

  /** How many detections have a primary emotion other than "neutral". */
  function NonNeutralCount(ds: seq<Detection>): (n: nat)
    ensures n <= |ds|
  {
    if ds == [] then 0
    else NonNeutralCount(ds[..|ds| - 1]) + (if ds[|ds| - 1].primaryEmotion != "neutral" then 1 else 0)
  }

  /**
   * The detections whose primary emotion is not "neutral", with their frame positions, in order:
   * every listed frame is non-neutral, positions strictly increase, and there are as many entries
   * as non-neutral frames, so every non-neutral frame is listed exactly once.
   */
  function Notable(ds: seq<Detection>): (ms: seq<Moment>)
    ensures |ms| <= |ds|
    ensures forall j :: 0 <= j < |ms| ==> ms[j].frame < |ds|
    ensures forall j :: 0 <= j < |ms| ==>
      && ds[ms[j].frame].primaryEmotion != "neutral"
      && ms[j].emotion == ds[ms[j].frame].primaryEmotion
      && ms[j].confidence == ds[ms[j].frame].primaryConfidence
    ensures forall j, k :: 0 <= j < k < |ms| ==> ms[j].frame < ms[k].frame
    ensures |ms| == NonNeutralCount(ds)
  {
    if ds == [] then []
    else
      var init := ds[..|ds| - 1];
      var i := |ds| - 1;
      var ms := Notable(init);
      assert forall j :: 0 <= j < |ms| ==> ds[ms[j].frame] == init[ms[j].frame];
      if ds[i].primaryEmotion != "neutral" then
        var r := ms + [Moment(i, ds[i].primaryEmotion, ds[i].primaryConfidence)];
        r
      else ms
  }

  function MomentEmotions(ms: seq<Moment>): (es: seq<string>)
    ensures |es| == |ms| && forall j :: 0 <= j < |ms| ==> es[j] == ms[j].emotion
  {
    if ms == [] then [] else [ms[0].emotion] + MomentEmotions(ms[1..])
  }

  /** The engagement of each notable detection, in order. */
  function NotableEngagement(ds: seq<Detection>, ms: seq<Moment>): (xs: seq<real>)
    requires forall j :: 0 <= j < |ms| ==> ms[j].frame < |ds|
    ensures |xs| == |ms| && forall j :: 0 <= j < |ms| ==> xs[j] == ds[ms[j].frame].engagement
  {
    if ms == [] then [] else [ds[ms[0].frame].engagement] + NotableEngagement(ds, ms[1..])
  }

  /** The three most frequent emotions: the head of the stable descending sort of the counts. */
  function Dominant(ts: seq<Tally>): (top: seq<Tally>)
    ensures |top| == if |ts| < 3 then |ts| else 3
    ensures top == SortDesc(ts, CountKey)[..|top|]
    ensures NonIncreasing(top, CountKey)
  {
    var sorted := SortDesc(ts, CountKey);
    var top := Take(sorted, 3);
    assert forall i :: 0 <= i < |top| ==> top[i] == sorted[i];
    top
  }

  function Percentages(ts: seq<Tally>): (ds: seq<Share>)
    ensures |ds| == |ts|
    ensures forall i :: 0 <= i < |ts| ==> ds[i].emotion == ts[i].emotion
  {
    Distribution(ts, if TallySum(ts) == 0 then 1.0 else TallySum(ts) as real)
  }

  /** The first of the dominant emotions has the highest count of all. */
  lemma DominantHeadIsMost(ts: seq<Tally>)
    requires ts != []
    ensures forall k :: 0 <= k < |ts| ==> ts[k].count <= Dominant(ts)[0].count
  {
    var sorted := SortDesc(ts, CountKey);
    forall k | 0 <= k < |ts| ensures ts[k].count <= Dominant(ts)[0].count {
      assert ts[k] in multiset(sorted);
      var i :| 0 <= i < |sorted| && sorted[i] == ts[k];
      assert CountKey(sorted[i]) <= CountKey(sorted[0]);
    }
  }

  /** Every frame whose faces are scored has non-negative class scores. */
  ghost predicate ScoresNonNegative(frames: seq<Frame>) {
    forall i :: 0 <= i < |frames| && frames[i].Faces? ==> NonNegativeScores(frames[i].faces)
  }

  /** With non-negative scores, the engagement of every recorded moment lies in [0,1]. */
  lemma NotableEngagementBounded(frames: seq<Frame>)
    requires ScoresNonNegative(frames)
    ensures var ds := Detections(frames);
      forall k :: 0 <= k < |Notable(ds)| ==> 0.0 <= NotableEngagement(ds, Notable(ds))[k] <= 1.0
  {
    var ds := Detections(frames);
    var ms := Notable(ds);
    forall k | 0 <= k < |ms| ensures 0.0 <= NotableEngagement(ds, ms)[k] <= 1.0 {
      var f := frames[ms[k].frame];
      if f.Faces? {
        EngagementIsProbability(f);
      }
    }
  }

  /**
   * `get_emotion_timeline`: the non-neutral frames, each emotion's share of them in percent (the
   * total is taken as 1 when there are none), the smoothed engagement of those frames, and the
   * three most frequent emotions.
   */
  function GetEmotionTimeline(frames: seq<Frame>): (t: Timeline)
    ensures |t.emotionsDetected| == NonNeutralCount(Detections(frames))
    ensures NonNeutralMoments(t.emotionsDetected, frames)
    ensures forall j, k :: 0 <= j < k < |t.emotionsDetected| ==> t.emotionsDetected[j].frame < t.emotionsDetected[k].frame
    ensures CountsOf(MomentEmotions(t.emotionsDetected), t.distribution, t.dominantEmotions)
    ensures t.dominantEmotions == Dominant(Tallies(MomentEmotions(t.emotionsDetected)))
    ensures |t.engagementTrend| == |t.emotionsDetected|
    ensures t.engagementTrend == SmoothTrend(NotableEngagement(Detections(frames), t.emotionsDetected))
    ensures ScoresNonNegative(frames) ==> UnitValues(t.engagementTrend)
  {
    var ds := Detections(frames);
    var ms := Notable(ds);
    var es := MomentEmotions(ms);
    var ts := Tallies(es);
    var engagement := NotableEngagement(ds, ms);
    TalliesCounts(es);
    SmoothedEngagementBounded(frames);
    NotableMoments(frames);
    Timeline(ms, Percentages(ts), SmoothTrend(engagement), Dominant(ts))
  }

  /**
   * What the distribution and the dominant emotions say about the recorded emotions `es`: each share
   * is its emotion's frequency in percent and they add up to 100; at most three dominant emotions,
   * distinct, in falling count, each carrying its number of occurrences, the first counted most.
   */
  ghost predicate CountsOf(es: seq<string>, dist: seq<Share>, dom: seq<Tally>) {
    && (es != [] ==> ShareSum(dist) == 100.0)
    && (es != [] ==> forall i :: 0 <= i < |dist| ==>
          dist[i].percent == (Occurrences(es, dist[i].emotion) as real) / (|es| as real) * 100.0)
    && |dom| <= 3 && NonIncreasing(dom, CountKey)
    && (forall k :: 0 <= k < |dom| ==> dom[k].count == Occurrences(es, dom[k].emotion))
    && (forall j, k :: 0 <= j < k < |dom| ==> dom[j].emotion != dom[k].emotion)
    && (es != [] ==> dom != [] && forall k :: 0 <= k < |Tallies(es)| ==> Tallies(es)[k].count <= dom[0].count)
  }

  /** The timeline's distribution and dominant emotions, computed from the tallies, meet `CountsOf`. */
  lemma TalliesCounts(es: seq<string>)
    ensures CountsOf(es, Percentages(Tallies(es)), Dominant(Tallies(es)))
  {
    CountedShares(es);
    PercentagesAreFrequencies(es);
    DominantCounts(es);
    DominantDistinct(es);
  }

  /** Each share is its emotion's frequency among the recorded emotions, in percent. */
  lemma PercentagesAreFrequencies(es: seq<string>)
    ensures var ds := Percentages(Tallies(es));
      es != [] ==> forall i :: 0 <= i < |ds| ==> ds[i].percent == (Occurrences(es, ds[i].emotion) as real) / (|es| as real) * 100.0
  {
    var ts := Tallies(es);
    var ds := Percentages(ts);
    if es != [] {
      forall i | 0 <= i < |ds| ensures ds[i].percent == (Occurrences(es, ds[i].emotion) as real) / (|es| as real) * 100.0 {
        DistributionAt(ts, TallySum(ts) as real, i);
        TalliesCount(es, ts[i].emotion);
        CountOfDistinct(ts, i);
      }
    }
  }

  /** Each dominant emotion carries its number of occurrences. */
  lemma DominantCounts(es: seq<string>)
    ensures var dom := Dominant(Tallies(es));
      forall k :: 0 <= k < |dom| ==> dom[k].count == Occurrences(es, dom[k].emotion)
  {
    forall k | 0 <= k < |Dominant(Tallies(es))| ensures Dominant(Tallies(es))[k].count == Occurrences(es, Dominant(Tallies(es))[k].emotion) {
      DominantCountAt(es, k);
    }
  }

  lemma DominantCountAt(es: seq<string>, k: nat)
    requires k < |Dominant(Tallies(es))|
    ensures Dominant(Tallies(es))[k].count == Occurrences(es, Dominant(Tallies(es))[k].emotion)
  {
    var ts := Tallies(es);
    var dom := Dominant(ts);
    var sorted := SortDesc(ts, CountKey);
    assert dom[k] == sorted[k];
    assert sorted[k] in multiset(ts);
    var i :| 0 <= i < |ts| && ts[i] == dom[k];
    CountOfDistinct(ts, i);
    TalliesCount(es, ts[i].emotion);
  }

  /** No emotion is dominant twice: the counts have distinct keys and the sort only reorders them. */
  lemma DominantDistinct(es: seq<string>)
    ensures var dom := Dominant(Tallies(es));
      forall j, k :: 0 <= j < k < |dom| ==> dom[j].emotion != dom[k].emotion
  {
    var ts := Tallies(es);
    var dom := Dominant(ts);
    var sorted := SortDesc(ts, CountKey);
    DistinctOnce(ts);
    forall j, k | 0 <= j < k < |dom| ensures dom[j].emotion != dom[k].emotion {
      assert dom[j] == sorted[j] && dom[k] == sorted[k];
      NoRepeat(ts, sorted, j, k);
      DominantCountAt(es, j);
      DominantCountAt(es, k);
      assert dom[j] == Tally(dom[j].emotion, dom[j].count) && dom[k] == Tally(dom[k].emotion, dom[k].count);
    }
  }

  /** A reordering of a list holding nothing twice holds nothing twice either. */
  lemma NoRepeat(ts: seq<Tally>, sorted: seq<Tally>, j: nat, k: nat)
    requires multiset(sorted) == multiset(ts) && forall x :: multiset(ts)[x] <= 1
    requires j < k < |sorted|
    ensures sorted[j] != sorted[k]
  {
    if sorted[j] == sorted[k] {
      DuplicateCount(sorted, j, k);
    }
  }

  /** Counts with distinct keys hold no tally twice. */
  lemma {:induction false} DistinctOnce(ts: seq<Tally>)
    requires DistinctKeys(ts)
    ensures forall x :: multiset(ts)[x] <= 1
    decreases |ts|
  {
    if ts != [] {
      DistinctOnce(ts[1..]);
      assert ts == [ts[0]] + ts[1..];
      if ts[0] in multiset(ts[1..]) {
        var i :| 0 <= i < |ts[1..]| && ts[1..][i] == ts[0];
        HasKeyAt(ts[1..], i);
      }
    }
  }

  /** When some emotion was recorded, the shares add up to 100 and the first dominant emotion is the most counted. */
  lemma CountedShares(es: seq<string>)
    ensures var ts := Tallies(es);
      es != [] ==>
        && ts != []
        && ShareSum(Percentages(ts)) == 100.0
        && forall k :: 0 <= k < |ts| ==> ts[k].count <= Dominant(ts)[0].count
  {
    var ts := Tallies(es);
    if es != [] {
      assert ts != [];
      PercentagesSumTo100(ts);
      DominantHeadIsMost(ts);
    }
  }

  /** Every value lies in [0,1]. */
  ghost predicate UnitValues(xs: seq<real>) {
    forall k :: 0 <= k < |xs| ==> 0.0 <= xs[k] <= 1.0
  }

  /** With non-negative scores, the smoothed engagement of the recorded moments lies in [0,1]. */
  lemma SmoothedEngagementBounded(frames: seq<Frame>)
    ensures var ds := Detections(frames);
      ScoresNonNegative(frames) ==> UnitValues(SmoothTrend(NotableEngagement(ds, Notable(ds))))
  {
    if ScoresNonNegative(frames) {
      var ds := Detections(frames);
      NotableEngagementBounded(frames);
      SmoothWithin(NotableEngagement(ds, Notable(ds)), 0.0, 1.0);
    }
  }

  /** Each moment names a frame of `frames` whose primary emotion is not neutral, and reports that emotion. */
  ghost predicate NonNeutralMoments(ms: seq<Moment>, frames: seq<Frame>) {
    forall j :: 0 <= j < |ms| ==>
      && ms[j].frame < |frames|
      && DetectEmotion(frames[ms[j].frame]).primaryEmotion != "neutral"
      && ms[j].emotion == DetectEmotion(frames[ms[j].frame]).primaryEmotion
      && ms[j].confidence == DetectEmotion(frames[ms[j].frame]).primaryConfidence
  }

  /** The recorded moments are non-neutral frames. */
  lemma NotableMoments(frames: seq<Frame>)
    ensures NonNeutralMoments(Notable(Detections(frames)), frames)
  {
    var ds := Detections(frames);
    var ms := Notable(ds);
    forall j | 0 <= j < |ms|
      ensures ms[j].frame < |frames| && DetectEmotion(frames[ms[j].frame]).primaryEmotion != "neutral"
      ensures ms[j].emotion == DetectEmotion(frames[ms[j].frame]).primaryEmotion
      ensures ms[j].confidence == DetectEmotion(frames[ms[j].frame]).primaryConfidence
    {
      assert ds[ms[j].frame] == DetectEmotion(frames[ms[j].frame]);
    }
  }

  /** With anything counted, the percentages add up to 100. */
  lemma PercentagesSumTo100(ts: seq<Tally>)
    requires TallySum(ts) > 0
    ensures ShareSum(Percentages(ts)) == 100.0
  {
    var n := TallySum(ts) as real;
    ShareSumScaled(ts, n);
    var s := ShareSum(Distribution(ts, n));
    assert s * n == n * 100.0;
    assert (s - 100.0) * n == 0.0;
  }

  /** Each emotion's percentage is its share of the notable frames. */
  lemma {:induction false} ShareIsFrequency(frames: seq<Frame>, i: nat)
    ensures var es := MomentEmotions(Notable(Detections(frames)));
      var ts := Tallies(es);
      i < |ts| ==>
        GetEmotionTimeline(frames).distribution[i].percent ==
          (Occurrences(es, ts[i].emotion) as real) / (|es| as real) * 100.0
  {
    var es := MomentEmotions(Notable(Detections(frames)));
    var ts := Tallies(es);
    if i < |ts| {
      DistributionAt(ts, TallySum(ts) as real, i);
      TalliesCount(es, ts[i].emotion);
      CountOfDistinct(ts, i);
    }
  }

  lemma {:induction false} DistributionAt(ts: seq<Tally>, total: real, i: nat)
    requires total > 0.0 && i < |ts|
    ensures Distribution(ts, total)[i].percent == (ts[i].count as real) / total * 100.0
    decreases i
  {
    if i > 0 {
      DistributionAt(ts[1..], total, i - 1);
    }
  }

  lemma {:induction false} HasKeyAt(ts: seq<Tally>, i: nat)
    requires i < |ts|
    ensures HasKey(ts, ts[i].emotion)
    decreases i
  {
    if i > 0 {
      HasKeyAt(ts[1..], i - 1);
    }
  }

  lemma {:induction false} CountOfDistinct(ts: seq<Tally>, i: nat)
    requires DistinctKeys(ts) && i < |ts|
    ensures CountOf(ts, ts[i].emotion) == ts[i].count
    decreases i
  {
    if i > 0 {
      HasKeyAt(ts[1..], i - 1);
      CountOfDistinct(ts[1..], i - 1);
    }
  }
}

=== FILE: facial_agent.dfy ===
/**
 * The real-time facial agent (backend/app/agents/realtime/realtime_facial_agent.py): landmark-based
 * eye-contact and smile scores, a rule-based emotion, a 30-frame history and its averages.
 * The file defines its helpers twice; the later definitions are the ones Python keeps, and they
 * are the ones modelled here. Landmarks, cascade hits and the emotion detector's output are inputs.
 */
module FacialAgent {
  import opened Wrappers
  import opened Stats
  import opened Sorting

  /** The history keeps the last 30 analyses. */
  const MaxHistory: nat := 30

  /** The normalised landmark coordinates the formulas read (mesh points 33, 263, 1, 61, 291, 13, 14). */
  datatype Landmarks = Landmarks(
    leftEyeY: real, rightEyeY: real, noseX: real,
    mouthLeftX: real, mouthRightX: real, mouthTopY: real, mouthBottomY: real)

  /**
   * `_calculate_eye_contact`: the mean of an eye-level score and a nose-centring score, each
   * clamped below at 0. Any landmark coordinates give a value in [0,1], and the value is 1 exactly
   * for level eyes and a centred nose.
   */
  function EyeContact(l: Landmarks): (r: real)
    ensures 0.0 <= r <= 1.0
    ensures r == 1.0 <==> l.leftEyeY == l.rightEyeY && l.noseX == 0.5
  {
    var level := Max(0.0, 1.0 - Abs(l.leftEyeY - l.rightEyeY) * 10.0);
    var center := Max(0.0, 1.0 - Abs(l.noseX - 0.5) * 2.0);
    (level + center) / 2.0
  }

  /**
   * `_calculate_smile`: three times how far the mouth's height-to-width ratio falls below 0.5,
   * clamped to [0,1]; a mouth of zero width scores 0. A mouth at least half as high as wide scores
   * 0, and one at most a sixth as high as wide scores the full 1.
   */
  function SmileScore(l: Landmarks): (r: real)
    ensures 0.0 <= r <= 1.0
    ensures Abs(l.mouthRightX - l.mouthLeftX) == 0.0 ==> r == 0.0
    ensures var w := Abs(l.mouthRightX - l.mouthLeftX); var h := Abs(l.mouthBottomY - l.mouthTopY);
      w > 0.0 ==> (r == 0.0 <==> h * 2.0 >= w) && (r == 1.0 <==> h * 6.0 <= w)
  {
    var width := Abs(l.mouthRightX - l.mouthLeftX);
    var height := Abs(l.mouthBottomY - l.mouthTopY);
    if width > 0.0 then
      var ratio := height / width;
      RatioFacts(height, width);
      Max(0.0, Min(1.0, (0.5 - ratio) * 3.0))
    else 0.0
  }

  lemma RatioFacts(h: real, w: real)
    requires w > 0.0
    ensures h / w >= 0.5 <==> h * 2.0 >= w
    ensures h / w * 6.0 <= 1.0 <==> h * 6.0 <= w
  {
    var q := h / w;
    assert q * w == h;
    if q >= 0.5 { assert q * w >= 0.5 * w; }
    if q < 0.5 { assert q * w < 0.5 * w; }
    assert q * 6.0 * w == h * 6.0;
    if q * 6.0 <= 1.0 { assert q * 6.0 * w <= w; }
    if q * 6.0 > 1.0 { assert q * 6.0 * w > w; assert h * 6.0 > w; }
  }

  /** An emotion name with the confidence the rule attaches to it. */
  datatype Estimate = Estimate(emotion: string, confidence: real)

  /** `_estimate_emotion`: happy above smile 0.6, confident above 0.3, else nervous when eye contact is below 0.3. */
  function EstimateEmotion(smile: real, eyeContact: real): (e: Estimate)
    ensures e.emotion == "happy" <==> smile > 0.6
    ensures e.emotion == "confident" <==> 0.3 < smile <= 0.6
    ensures e.emotion == "nervous" <==> smile <= 0.3 && eyeContact < 0.3
    ensures e.emotion == "neutral" <==> smile <= 0.3 && eyeContact >= 0.3
    ensures 0.5 <= e.confidence <= 0.8
  {
    if smile > 0.6 then Estimate("happy", 0.8)
    else if smile > 0.3 then Estimate("confident", 0.7)
    else if eyeContact < 0.3 then Estimate("nervous", 0.6)
    else Estimate("neutral", 0.5)
  }

  /** A broader smile never lowers the rule's confidence, whatever the eye contact. */
  lemma ConfidenceRisesWithSmile(s1: real, s2: real, eye: real)
    requires s1 <= s2
    ensures EstimateEmotion(s1, eye).confidence <= EstimateEmotion(s2, eye).confidence
  {
  }

  // ---------------------------------------------------------------- one frame

  /**
   * The analysis record. `emotionConfidence` is the key the detector path fills; the landmark and
   * cascade paths write a separate `confidence` key instead, absent until then.
   */
  datatype FrameAnalysis = FrameAnalysis(
    faceDetected: bool, eyeContact: real, smile: real, engagement: real,
    emotion: string, emotionConfidence: real, confidence: Option<real>,
    engagementLevel: string, processingTimeMs: real)

  const DefaultAnalysis := FrameAnalysis(false, 0.0, 0.0, 0.0, "neutral", 0.0, None, "low", 0.0)

  /** What the cascades found inside the first detected face. */
  datatype CascadeHits = CascadeHits(eyes: nat, smiles: nat)

  /**
   * Which analyser the agent was built with, and what it reported for this frame: the emotion
   * detector's aggregate, the face mesh's landmarks (present when both the mesh and the face
   * detector found a face), the cascades' hits (present when a face was found), or no analyser
   * at all because the cascade file was missing.
   */
  datatype FrameSource =
    | Detector(faces: nat, primary: string, primaryConfidence: real, detectorEngagement: real)
    | Mesh(face: Option<Landmarks>)
    | Cascade(hits: Option<CascadeHits>)
    | NoCascade

  /** The analysis built before any exception, and whether one was raised. */
  datatype Outcome = Outcome(analysis: FrameAnalysis, raised: bool)

  /** `_analyze_with_mediapipe` for a detected face. */
  function FromLandmarks(l: Landmarks): (r: FrameAnalysis)
    ensures r.faceDetected && r.eyeContact == EyeContact(l) && r.smile == SmileScore(l)
    ensures var e := EstimateEmotion(r.smile, r.eyeContact); r.emotion == e.emotion && r.confidence == Some(e.confidence)
    ensures r.engagement == Min(100.0, (r.eyeContact * 0.6 + r.smile * 0.2 + r.confidence.value * 0.2) * 100.0)
    ensures 0.0 <= r.engagement <= 96.0
  {
    var eye := EyeContact(l);
    var smile := SmileScore(l);
    var e := EstimateEmotion(smile, eye);
    DefaultAnalysis.(faceDetected := true, eyeContact := eye, smile := smile, emotion := e.emotion,
      confidence := Some(e.confidence),
      engagement := Min(100.0, (eye * 0.6 + smile * 0.2 + e.confidence * 0.2) * 100.0))
  }

  /** `_analyze_with_opencv` for a detected face: fixed scores from the eye and smile cascade counts. */
  function FromCascades(h: CascadeHits): (r: FrameAnalysis)
    ensures r.faceDetected
    ensures r.eyeContact == (if h.eyes >= 2 then 0.8 else if h.eyes == 1 then 0.4 else 0.0)
    ensures r.smile == (if h.smiles > 0 then 0.9 else 0.0)
    ensures r.emotion == (if h.smiles > 0 then "happy" else "neutral")
    ensures r.confidence == Some(if h.smiles > 0 then 0.8 else 0.6)
    ensures 10.0 <= r.engagement <= 76.0
  {
    var eye := if h.eyes >= 2 then 0.8 else if h.eyes == 1 then 0.4 else 0.0;
    var smiled := h.smiles > 0;
    var smile := if smiled then 0.9 else 0.0;
    DefaultAnalysis.(faceDetected := true, eyeContact := eye, smile := smile,
      emotion := if smiled then "happy" else "neutral",
      confidence := Some(if smiled then 0.8 else 0.6),
      engagement := Min(100.0, (eye * 0.6 + smile * 0.2 + 0.1) * 100.0))
  }

  /**
   * The body of `analyze_frame`'s `try`. On the detector path a detected face fills four fields and
   * then calls `_classify_engagement`, which the class never defines: that raises, so such a frame
   * always ends in the handler. Without a cascade file `face_cascade` is never set and raises too.
   */
  function Analyse(src: FrameSource): (o: Outcome)
    ensures o.raised <==> (src.Detector? && src.faces > 0) || src.NoCascade?
    ensures src.Detector? && src.faces > 0 ==>
      o.analysis == DefaultAnalysis.(faceDetected := true, emotion := src.primary,
        emotionConfidence := src.primaryConfidence, engagement := src.detectorEngagement)
    ensures (src.Detector? && src.faces == 0) || src.NoCascade? || src == Mesh(None) || src == Cascade(None) ==>
      o.analysis == DefaultAnalysis
    ensures src.Mesh? && src.face.Some? ==> o.analysis == FromLandmarks(src.face.value)
    ensures src.Cascade? && src.hits.Some? ==> o.analysis == FromCascades(src.hits.value)
  {
    match src
    case Detector(faces, primary, conf, engagement) =>
      if faces > 0 then
        Outcome(DefaultAnalysis.(faceDetected := true, emotion := primary,
          emotionConfidence := conf, engagement := engagement), true)
      else Outcome(DefaultAnalysis, false)
    case Mesh(face) =>
      Outcome(if face.Some? then FromLandmarks(face.value) else DefaultAnalysis, false)
    case Cascade(hits) =>
      Outcome(if hits.Some? then FromCascades(hits.value) else DefaultAnalysis, false)
    case NoCascade => Outcome(DefaultAnalysis, true)
  }

  // ---------------------------------------------------------------- the agent

  datatype Agent = Agent(history: seq<FrameAnalysis>)

  /** A recorded frame's scores: eye contact and smile in [0,1], engagement in [0,100]. */
  predicate InRange(f: FrameAnalysis) {
    0.0 <= f.eyeContact <= 1.0 && 0.0 <= f.smile <= 1.0 && 0.0 <= f.engagement <= 100.0
  }

  predicate Valid(a: Agent) {
    |a.history| <= MaxHistory && forall i :: 0 <= i < |a.history| ==> InRange(a.history[i])
  }

  function NewAgent(): (a: Agent)
    ensures Valid(a) && a.history == []
  {
    Agent([])
  }

  /** `update_history`: append, then drop the oldest entry once there are more than 30. */
  function UpdateHistory(a: Agent, f: FrameAnalysis): (b: Agent)
    ensures |b.history| == if |a.history| < MaxHistory then |a.history| + 1 else MaxHistory
    ensures b.history[|b.history| - 1] == f
    ensures b.history[..|b.history| - 1] == a.history[|a.history| + 1 - |b.history|..]
  {
    Agent(PushBounded(a.history, f, MaxHistory))
  }

  /** Appending an in-range frame keeps the agent valid. */
  lemma UpdateKeepsValid(a: Agent, f: FrameAnalysis)
    requires Valid(a) && InRange(f)
    ensures Valid(UpdateHistory(a, f))
  {
    var b := UpdateHistory(a, f);
    var n := |b.history|;
    var k := |a.history| + 1 - n;
    var kept := b.history[..n - 1];
    assert kept == a.history[k..];
    forall i | 0 <= i < n
      ensures InRange(b.history[i])
    {
      if i < n - 1 {
        assert b.history[i] == kept[i];
        assert kept[i] == a.history[k + i];
      } else {
        assert b.history[i] == f;
      }
    }
  }

  /**
   * `analyze_frame`. `elapsedMs` is the measured processing time. A frame whose analysis raised
   * leaves the history alone; otherwise a copy taken before the time is filled in (so with time 0)
   * goes into the history. Either way the caller gets the record with the time set.
   */
  function AnalyzeFrame(a: Agent, src: FrameSource, elapsedMs: real): (r: (Agent, FrameAnalysis))
    ensures r.1 == Analyse(src).analysis.(processingTimeMs := elapsedMs)
    ensures Analyse(src).raised ==> r.0 == a
    ensures !Analyse(src).raised ==> r.0 == UpdateHistory(a, r.1.(processingTimeMs := 0.0))
  {
    var o := Analyse(src);
    if o.raised then (a, o.analysis.(processingTimeMs := elapsedMs))
    else (UpdateHistory(a, o.analysis), o.analysis.(processingTimeMs := elapsedMs))
  }

  /** Every record a non-raising analysis produces is in range, so the agent stays valid. */
  lemma AnalyzeKeepsValid(a: Agent, src: FrameSource, elapsedMs: real)
    requires Valid(a)
    ensures Valid(AnalyzeFrame(a, src, elapsedMs).0)
  {
    var o := Analyse(src);
    if !o.raised {
      assert InRange(o.analysis);
      UpdateKeepsValid(a, o.analysis);
    }
  }

  /** A face found by the emotion detector is never recorded: the history is the same after the frame. */
  lemma DetectedFaceNeverRecorded(a: Agent, faces: nat, primary: string, conf: real, engagement: real, elapsedMs: real)
    requires faces > 0
    ensures var r := AnalyzeFrame(a, Detector(faces, primary, conf, engagement), elapsedMs);
      r.0 == a && r.1.faceDetected && r.1.emotion == primary && r.1.engagementLevel == "low"
  {
  }

  // ---------------------------------------------------------------- averages

  datatype Averages = Averages(avgEyeContact: real, avgSmile: real, avgEngagement: real, dominantEmotion: string)

  function EyeContactOf(f: FrameAnalysis): real { f.eyeContact }

  function SmileOf(f: FrameAnalysis): real { f.smile }

  function EngagementOf(f: FrameAnalysis): real { f.engagement }

  function EmotionColumn(h: seq<FrameAnalysis>): (es: seq<string>)
    ensures |es| == |h| && forall i :: 0 <= i < |h| ==> es[i] == h[i].emotion
  {
    if h == [] then [] else [h[0].emotion] + EmotionColumn(h[1..])
  }

  /**
   * `get_average_metrics`: zeros and "neutral" for an empty history; otherwise the means (eye
   * contact and smile as percentages) and an emotion occurring at least as often as any other.
   */
  function GetAverageMetrics(a: Agent): (m: Averages)
    ensures a.history == [] ==> m == Averages(0.0, 0.0, 0.0, "neutral")
    ensures a.history != [] ==>
      && m.avgEyeContact == Mean(Column(a.history, EyeContactOf)) * 100.0
      && m.avgSmile == Mean(Column(a.history, SmileOf)) * 100.0
      && m.avgEngagement == Mean(Column(a.history, EngagementOf))
    ensures a.history != [] ==>
      var es := EmotionColumn(a.history);
      m.dominantEmotion in es && forall i :: 0 <= i < |es| ==> Occurrences(es, es[i]) <= Occurrences(es, m.dominantEmotion)
  {
    if a.history == [] then Averages(0.0, 0.0, 0.0, "neutral")
    else
      var es := EmotionColumn(a.history);
      Averages(Mean(Column(a.history, EyeContactOf)) * 100.0, Mean(Column(a.history, SmileOf)) * 100.0,
        Mean(Column(a.history, EngagementOf)), MostFrequent(es, es))
  }

  /** For a valid agent every average is a percentage. */
  lemma AveragesArePercentages(a: Agent)
    requires Valid(a)
    ensures var m := GetAverageMetrics(a);
      0.0 <= m.avgEyeContact <= 100.0 && 0.0 <= m.avgSmile <= 100.0 && 0.0 <= m.avgEngagement <= 100.0
  {
    if a.history != [] {
      MeanWithin(Column(a.history, EyeContactOf), 0.0, 1.0);
      MeanWithin(Column(a.history, SmileOf), 0.0, 1.0);
      MeanWithin(Column(a.history, EngagementOf), 0.0, 100.0);
    }
  }

  /** `reset`: the history is emptied. */
  function Reset(a: Agent): (b: Agent)
    ensures Valid(b) && b.history == [] && GetAverageMetrics(b).dominantEmotion == "neutral"
  {
    NewAgent()
  }
}

=== FILE: game_api.dfy ===
/**
 * The game endpoints (backend/app/api/game.py): the leaderboard and its ranks, a user's rank and
 * percentile, score submission, reward claims and the challenge-progress listing. Each collection
 * is a sequence (leaderboard entries, in insertion order) or a map (user challenge records keyed by
 * user and challenge); an HTTP error is an `Err` carrying its status code. Times are seconds.
 */
module GameApi {
  import opened Wrappers
  import opened Sorting
  import Difficulty
  import ChallengeTracker
  import Stats

  // ---------------------------------------------------------------- difficulty

  /** `get_difficulty_detail`: the lookup falls back to intermediate, so the 404 branch is dead. */
  function GetDifficultyDetail(level: string): (r: Result<Difficulty.Config, int>)
    ensures r.Ok?
    ensures Difficulty.ParseLevel(level).Some? ==> r.value.level == Difficulty.ParseLevel(level).value
    ensures Difficulty.ParseLevel(level).None? ==> r.value.level == Difficulty.Intermediate
  {
    Ok(Difficulty.GetDifficultyConfig(level))
  }

  /** `get_difficulty_configs`: the whole table keyed by level name, and the name of the default level. */
  datatype ConfigTable = ConfigTable(configs: map<string, Difficulty.Config>, default: string)

  function GetDifficultyConfigs(): (t: ConfigTable)
    ensures forall name :: name in t.configs <==> Difficulty.ParseLevel(name).Some?
    ensures forall name :: name in t.configs ==> t.configs[name] == Difficulty.ConfigOf(Difficulty.ParseLevel(name).value)
    ensures Difficulty.ParseLevel(t.default) == Some(Difficulty.Intermediate)
  {
    ConfigTable(map[
      "beginner" := Difficulty.ConfigOf(Difficulty.Beginner),
      "intermediate" := Difficulty.ConfigOf(Difficulty.Intermediate),
      "expert" := Difficulty.ConfigOf(Difficulty.Expert)], "intermediate")
  }

  /** The detail endpoint serves the table's entry for a known level and the default level's entry otherwise. */
  lemma DetailMatchesTable(level: string)
    ensures var t := GetDifficultyConfigs();
      GetDifficultyDetail(level).value == if level in t.configs then t.configs[level] else t.configs[t.default]
  {
  }

  // ---------------------------------------------------------------- leaderboard

  datatype Entry = Entry(
    userId: string, username: string, score: real, difficulty: string, sessionId: string,
    category: string, timestamp: real)

  function Score(e: Entry): real { e.score }

  /** The three categories a submission goes to and the leaderboard accepts. */
  const Categories: seq<string> := ["daily", "weekly", "all_time"]

  /** The filter of a leaderboard query: category, an optional earliest time, and a difficulty unless "all". */
  datatype Query = Query(category: string, cutoff: Option<real>, difficulty: string)

  predicate Matches(e: Entry, q: Query) {
    && e.category == q.category
    && (q.cutoff.Some? ==> e.timestamp >= q.cutoff.value)
    && (q.difficulty != "all" ==> e.difficulty == q.difficulty)
  }

  /** The entries a query finds, in collection order. */
  function Matching(db: seq<Entry>, q: Query): (r: seq<Entry>)
    ensures |r| <= |db|
    ensures forall x :: x in r <==> x in db && Matches(x, q)
  {
    if db == [] then []
    else (if Matches(db[0], q) then [db[0]] else []) + Matching(db[1..], q)
  }

  const Day: real := 86400.0
  const Week: real := 604800.0

  datatype RankedEntry = RankedEntry(entry: Entry, rank: nat)

  /** Number the entries 1, 2, ... in order. */
  function WithRanks(es: seq<Entry>): (r: seq<RankedEntry>)
    ensures |r| == |es|
    ensures forall i :: 0 <= i < |es| ==> r[i] == RankedEntry(es[i], i + 1)
    ensures EntriesOf(r) == es
  {
    seq(|es|, i requires 0 <= i < |es| => RankedEntry(es[i], i + 1))
  }

  function EntriesOf(board: seq<RankedEntry>): (es: seq<Entry>)
    ensures |es| == |board| && forall i :: 0 <= i < |board| ==> es[i] == board[i].entry
  {
    seq(|board|, i requires 0 <= i < |board| => board[i].entry)
  }

  /** The filter behind `get_leaderboard`: "daily" and "weekly" only reach back one day and one week. */
  function LeaderboardQuery(category: string, difficulty: string, now: real): (q: Query)
    ensures q.category == category && q.difficulty == difficulty
    ensures q.cutoff.Some? <==> category == "daily" || category == "weekly"
    ensures category == "daily" ==> q.cutoff == Some(now - Day)
    ensures category == "weekly" ==> q.cutoff == Some(now - Week)
  {
    Query(category, if category == "daily" then Some(now - Day) else if category == "weekly" then Some(now - Week) else None, difficulty)
  }

  /**
   * The top `limit` of `found` by score, ranked 1, 2, ... in score order: no entry left off scores
   * above the last one on the board. The query is `.limit(limit).to_list(limit)`: the database
   * reads everything for a limit of 0, but the client stops after `limit` documents, so a limit of 0
   * gives an empty board.
   */
  function Top(found: seq<Entry>, limit: nat): (board: seq<RankedEntry>)
    ensures |board| == if limit < |found| then limit else |found|
    ensures limit == 0 ==> board == []
    ensures forall i :: 0 <= i < |board| ==> board[i].rank == i + 1
    ensures NonIncreasing(EntriesOf(board), Score)
    ensures multiset(EntriesOf(board)) <= multiset(found)
    ensures |board| > 0 ==> forall x :: x in multiset(found) - multiset(EntriesOf(board)) ==>
              x.score <= board[|board| - 1].entry.score
  {
    var k := if limit < |found| then limit else |found|;
    TopFacts(found, k);
    WithRanks(SortDesc(found, Score)[..k])
  }

  /** The first `k` of `found` in score order keep that order, and nothing left off scores higher. */
  lemma TopFacts(found: seq<Entry>, k: nat)
    requires k <= |found|
    ensures var top := SortDesc(found, Score)[..k];
      && NonIncreasing(top, Score)
      && multiset(top) <= multiset(found)
      && (k > 0 ==> forall x :: x in multiset(found) - multiset(top) ==> x.score <= top[k - 1].score)
  {
    TopOfSorted(SortDesc(found, Score), k);
  }

  /** `get_leaderboard` at time `now`: any category but the three is rejected with 400. */
  function GetLeaderboard(db: seq<Entry>, category: string, difficulty: string, limit: nat, now: real):
    (r: Result<seq<RankedEntry>, int>)
    ensures r.Err? <==> category !in Categories
    ensures r.Err? ==> r.error == 400
    ensures r.Ok? ==> forall i :: 0 <= i < |r.value| ==> Matches(r.value[i].entry, LeaderboardQuery(category, difficulty, now))
    ensures r.Ok? ==> r.value == Top(Matching(db, LeaderboardQuery(category, difficulty, now)), limit)
    ensures r.Ok? ==> |r.value| <= limit
    ensures r.Ok? && limit == 0 ==> r.value == []
  {
    if category !in Categories then Err(400)
    else Ok(Top(Matching(db, LeaderboardQuery(category, difficulty, now)), limit))
  }

  /** A prefix of a sorted sequence: everything after it scores no more than its last element. */
  lemma TopOfSorted(s: seq<Entry>, k: nat)
    requires NonIncreasing(s, Score) && k <= |s|
    ensures NonIncreasing(s[..k], Score)
    ensures multiset(s[..k]) <= multiset(s)
    ensures k > 0 ==> forall x :: x in multiset(s) - multiset(s[..k]) ==> x.score <= s[k - 1].score
  {
    assert s == s[..k] + s[k..];
    assert multiset(s) == multiset(s[..k]) + multiset(s[k..]);
    if k > 0 {
      forall x | x in multiset(s) - multiset(s[..k])
        ensures x.score <= s[k - 1].score
      {
        assert x in multiset(s[k..]);
        var j :| 0 <= j < |s[k..]| && s[k..][j] == x;
        assert s[k + j] == x;
      }
    }
  }

  /** `submit_leaderboard_entry`: one entry per category, appended in category order. */
  function SubmitLeaderboardEntry(db: seq<Entry>, userId: string, username: string, score: real,
                                  difficulty: string, sessionId: string, now: real): (r: seq<Entry>)
    ensures |r| == |db| + 3 && r[..|db|] == db
    ensures forall i :: 0 <= i < 3 ==>
      r[|db| + i] == Entry(userId, username, score, difficulty, sessionId, Categories[i], now)
  {
    db + seq(3, i requires 0 <= i < 3 => Entry(userId, username, score, difficulty, sessionId, Categories[i], now))
  }

  // ---------------------------------------------------------------- user rank

  /** The first position holding an entry of `userId`. */
  function FirstOf(es: seq<Entry>, userId: string): (r: Option<nat>)
    ensures r.None? <==> forall i :: 0 <= i < |es| ==> es[i].userId != userId
    ensures r.Some? ==> r.value < |es| && es[r.value].userId == userId
    ensures r.Some? ==> forall i :: 0 <= i < r.value ==> es[i].userId != userId
  {
    if es == [] then None
    else if es[0].userId == userId then Some(0)
    else
      var rest := FirstOf(es[1..], userId);
      assert forall i :: 1 <= i < |es| ==> es[i] == es[1..][i - 1];
      if rest.None? then None else Some(rest.value + 1)
  }

  datatype RankReply = Unranked | Ranked(rank: nat, score: real, total: nat, percentile: real)

  /** `(1 - rank/total) * 100`, before the two-decimal rounding. */
  function Percentile(rank: nat, total: nat): (p: real)
    requires 1 <= rank <= total
    ensures 0.0 <= p < 100.0
    ensures rank == total ==> p == 0.0
    ensures p * (total as real) == 100.0 * ((total - rank) as real)
  {
    var q := (rank as real) / (total as real);
    assert q * (total as real) == rank as real;
    assert q > 0.0 && q <= 1.0;
    assert (1.0 - q) * 100.0 * (total as real) == 100.0 * (total as real) - 100.0 * (q * (total as real));
    (1.0 - q) * 100.0
  }

  /**
   * `get_user_rank`: the user's best position among at most 10000 entries of the category, sorted
   * by score. No time cutoff applies, even to "daily" and "weekly". Fewer entries than the rank score
   * strictly higher, and the percentile is the share of the board below the user.
   */
  function GetUserRank(db: seq<Entry>, userId: string, category: string, difficulty: string): (r: RankReply)
    ensures var all := Take(SortDesc(Matching(db, Query(category, None, difficulty)), Score), 10000);
      && (r.Unranked? <==> forall i :: 0 <= i < |all| ==> all[i].userId != userId)
      && (r.Ranked? ==>
            && 1 <= r.rank <= r.total && r.total == |all|
            && all[r.rank - 1].userId == userId && r.score == all[r.rank - 1].score
            && (forall i :: 0 <= i < r.rank - 1 ==> all[i].userId != userId)
            && CountAbove(all, Score, r.score) < r.rank
            && 0.0 <= r.percentile < 100.0
            && r.percentile == Percentile(r.rank, r.total))
  {
    var sorted := SortDesc(Matching(db, Query(category, None, difficulty)), Score);
    var all := Take(sorted, 10000);
    match FirstOf(all, userId)
    case None => Unranked
    case Some(i) =>
      TopOfSorted(sorted, |all|);
      PositionBounds(all, Score, i);
      Ranked(i + 1, all[i].score, |all|, Percentile(i + 1, |all|))
  }

  /** After a submission the user is ranked in every category, as long as the board fits the 10000 read. */
  lemma SubmitThenRanked(db: seq<Entry>, userId: string, username: string, score: real, d: string,
                         sessionId: string, now: real, c: nat, difficulty: string)
    requires c < 3 && |db| + 3 <= 10000
    requires difficulty == "all" || difficulty == d
    ensures GetUserRank(SubmitLeaderboardEntry(db, userId, username, score, d, sessionId, now), userId,
                        Categories[c], difficulty).Ranked?
  {
    var db2 := SubmitLeaderboardEntry(db, userId, username, score, d, sessionId, now);
    var q := Query(Categories[c], None, difficulty);
    var e := db2[|db| + c];
    assert e.userId == userId;
    assert e in db2 && Matches(e, q);
    var found := Matching(db2, q);
    assert e in multiset(found);
    var sorted := SortDesc(found, Score);
    assert e in multiset(sorted);
    var j :| 0 <= j < |sorted| && sorted[j] == e;
    RankedWhenPresent(db2, userId, Categories[c], difficulty, j);
  }

  /** A user with an entry among the first 10000 of the sorted category is ranked. */
  lemma RankedWhenPresent(db: seq<Entry>, userId: string, category: string, difficulty: string, j: nat)
    requires var sorted := SortDesc(Matching(db, Query(category, None, difficulty)), Score);
      j < |sorted| && j < 10000 && sorted[j].userId == userId
    ensures GetUserRank(db, userId, category, difficulty).Ranked?
  {
    var sorted := SortDesc(Matching(db, Query(category, None, difficulty)), Score);
    var all := Take(sorted, 10000);
    assert j < |all| && all[j] == sorted[j];
    assert FirstOf(all, userId).Some?;
  }

  // ---------------------------------------------------------------- rewards

  /** A user's challenge records, keyed by (user, challenge). */
  type Store = map<(string, string), ChallengeTracker.Record>

  /** `claim_challenge_reward`: the four checks in order, then the record is marked claimed and the XP returned. */
  function ClaimChallengeReward(store: Store, xp: map<string, Option<int>>, challengeId: string, userId: string):
    (r: Result<(Store, int), int>)
    ensures var k := (userId, challengeId);
      && (k !in store ==> r == Err(404))
      && (k in store && !store[k].completed ==> r == Err(400))
      && (k in store && store[k].completed && store[k].claimed ==> r == Err(400))
      && (k in store && store[k].completed && !store[k].claimed && challengeId !in xp ==> r == Err(404))
      && (r.Ok? <==> k in store && store[k].completed && !store[k].claimed && challengeId in xp)
    ensures r.Ok? ==>
      var k := (userId, challengeId);
      && r.value.0.Keys == store.Keys
      && r.value.0[k] == store[k].(claimed := true)
      && (forall k2 :: k2 in store && k2 != k ==> r.value.0[k2] == store[k2])
      && r.value.1 == xp[challengeId].GetOr(0)
  {
    var k := (userId, challengeId);
    if k !in store then Err(404)
    else if !store[k].completed then Err(400)
    else if store[k].claimed then Err(400)
    else if challengeId !in xp then Err(404)
    else Ok((store[k := store[k].(claimed := true)], xp[challengeId].GetOr(0)))
  }

  /** A reward is paid at most once: claiming again right after a success is refused with 400. */
  lemma ClaimAtMostOnce(store: Store, xp: map<string, Option<int>>, challengeId: string, userId: string)
    requires ClaimChallengeReward(store, xp, challengeId, userId).Ok?
    ensures ClaimChallengeReward(ClaimChallengeReward(store, xp, challengeId, userId).value.0, xp, challengeId, userId) == Err(400)
  {
  }

  // ---------------------------------------------------------------- active challenges

  datatype Challenge = Challenge(challengeId: string, active: bool, expiresAt: Option<real>)

  /** Active, and either without an expiry or expiring strictly after `now`. */
  predicate Live(c: Challenge, now: real) {
    c.active && (c.expiresAt.None? || c.expiresAt.value > now)
  }

  /** The live challenges, in collection order. */
  function LiveChallenges(cs: seq<Challenge>, now: real): (r: seq<Challenge>)
    ensures |r| <= |cs|
    ensures forall c :: c in r <==> c in cs && Live(c, now)
  {
    if cs == [] then []
    else (if Live(cs[0], now) then [cs[0]] else []) + LiveChallenges(cs[1..], now)
  }

  datatype UserProgress = UserProgress(progress: real, completed: bool, claimed: bool)

  /** The user's progress on one challenge; a challenge without a record shows zero progress. */
  function ProgressOf(store: Store, userId: string, challengeId: string): UserProgress {
    var k := (userId, challengeId);
    if k in store then UserProgress(store[k].progress, store[k].completed, store[k].claimed)
    else UserProgress(0.0, false, false)
  }

  datatype ActiveItem = ActiveItem(challenge: Challenge, userProgress: Option<UserProgress>)

  datatype ActiveListing = ActiveListing(items: seq<ActiveItem>, count: nat)

  function ChallengesOf(items: seq<ActiveItem>): (cs: seq<Challenge>)
    ensures |cs| == |items| && forall i :: 0 <= i < |items| ==> cs[i] == items[i].challenge
  {
    seq(|items|, i requires 0 <= i < |items| => items[i].challenge)
  }

  function Attach(cs: seq<Challenge>, store: Store, userId: Option<string>): (items: seq<ActiveItem>)
    ensures ChallengesOf(items) == cs
    ensures userId.None? || userId.value == "" ==> forall i :: 0 <= i < |items| ==> items[i].userProgress.None?
    ensures userId.Some? && userId.value != "" ==>
      forall i :: 0 <= i < |items| ==> items[i].userProgress == Some(ProgressOf(store, userId.value, cs[i].challengeId))
  {
    var items := seq(|cs|, i requires 0 <= i < |cs| =>
      ActiveItem(cs[i], if userId.Some? && userId.value != "" then Some(ProgressOf(store, userId.value, cs[i].challengeId)) else None));
    assert ChallengesOf(items) == cs;
    items
  }

  /**
   * `get_active_challenges`: at most 100 live challenges, each with the user's progress attached when
   * a (non-empty) user id is given.
   */
  function GetActiveChallenges(cs: seq<Challenge>, store: Store, userId: Option<string>, now: real): (r: ActiveListing)
    ensures r.count == |r.items| <= 100
    ensures forall i :: 0 <= i < |r.items| ==> r.items[i].challenge in cs && Live(r.items[i].challenge, now)
    ensures ChallengesOf(r.items) == Take(LiveChallenges(cs, now), 100)
    ensures userId.None? || userId.value == "" ==> forall i :: 0 <= i < |r.items| ==> r.items[i].userProgress.None?
    ensures userId.Some? && userId.value != "" ==> forall i :: 0 <= i < |r.items| ==>
      r.items[i].userProgress == Some(ProgressOf(store, userId.value, r.items[i].challenge.challengeId))
  {
    var live := Take(LiveChallenges(cs, now), 100);
    var items := Attach(live, store, userId);
    assert forall i :: 0 <= i < |items| ==> items[i].challenge == live[i] && live[i] in LiveChallenges(cs, now);
    ActiveListing(items, |items|)
  }

  /** After a successful claim, the active listing shows that challenge completed and claimed for the user. */
  lemma ClaimShowsInListing(store: Store, xp: map<string, Option<int>>, challengeId: string, userId: string,
                            cs: seq<Challenge>, now: real, i: nat)
    requires userId != ""
    requires ClaimChallengeReward(store, xp, challengeId, userId).Ok?
    requires var l := GetActiveChallenges(cs, ClaimChallengeReward(store, xp, challengeId, userId).value.0, Some(userId), now);
      i < |l.items| && l.items[i].challenge.challengeId == challengeId
    ensures var l := GetActiveChallenges(cs, ClaimChallengeReward(store, xp, challengeId, userId).value.0, Some(userId), now);
      l.items[i].userProgress.Some? && l.items[i].userProgress.value.completed && l.items[i].userProgress.value.claimed
  {
  }

  // ---------------------------------------------------------------- progress listing

  datatype ProgressItem = ProgressItem(challengeId: string, progress: real, completed: bool, claimed: bool)

  /** The listing entry for one record: its challenge and the record's progress, completed and claimed fields. */
  function Join(r: (string, ChallengeTracker.Record)): (item: ProgressItem)
    ensures item.challengeId == r.0 && item.progress == r.1.progress
    ensures item.completed == r.1.completed && item.claimed == r.1.claimed
  {
    ProgressItem(r.0, r.1.progress, r.1.completed, r.1.claimed)
  }

  /** The positions of the records whose challenge is known. */
  ghost function KnownAt(recs: seq<(string, ChallengeTracker.Record)>, known: set<string>): set<int> {
    set i | 0 <= i < |recs| && recs[i].0 in known
  }

  /** The records whose challenge still exists, in record order. */
  function Known(recs: seq<(string, ChallengeTracker.Record)>, known: set<string>): (items: seq<ProgressItem>)
    ensures |items| <= |recs|
    ensures |items| == |KnownAt(recs, known)|
    ensures forall i :: 0 <= i < |items| ==> items[i].challengeId in known
    ensures forall i :: 0 <= i < |recs| && recs[i].0 in known ==> Join(recs[i]) in items
    ensures forall j :: 0 <= j < |items| ==> exists i :: 0 <= i < |recs| && items[j] == Join(recs[i])
  {
    if recs == [] then []
    else
      var r := recs[0];
      var rest := Known(recs[1..], known);
      KnownAtCons(recs, known);
      var items := (if r.0 in known then [Join(r)] else []) + rest;
      KnownStep(recs, known, rest, items);
      items
  }

  /**
   * The listing keeps record order: listing two runs of records one after the other lists the first
   * run's entries before the second's. With the one-record case, this fixes the listing entirely.
   */
  lemma {:induction false} KnownAppend(a: seq<(string, ChallengeTracker.Record)>, b: seq<(string, ChallengeTracker.Record)>, known: set<string>)
    ensures Known(a + b, known) == Known(a, known) + Known(b, known)
    decreases |a|
  {
    if a == [] {
      assert a + b == b;
    } else {
      assert (a + b)[0] == a[0] && (a + b)[1..] == a[1..] + b;
      KnownAppend(a[1..], b, known);
    }
  }

  /** One record is listed, as its join, exactly when its challenge is known. */
  lemma KnownSingle(r: (string, ChallengeTracker.Record), known: set<string>)
    ensures Known([r], known) == if r.0 in known then [Join(r)] else []
  {
    assert [r][1..] == [];
  }

  /** The known positions of a non-empty list: the first record, if known, and those of the rest. */
  lemma KnownAtCons(recs: seq<(string, ChallengeTracker.Record)>, known: set<string>)
    requires recs != []
    ensures |KnownAt(recs, known)| == (if recs[0].0 in known then 1 else 0) + |KnownAt(recs[1..], known)|
  {
    var fs := seq(|recs|, i requires 0 <= i < |recs| => recs[i].0 in known);
    var gs := seq(|recs| - 1, i requires 0 <= i < |recs| - 1 => recs[1..][i].0 in known);
    assert fs[1..] == gs;
    assert Stats.TrueAt(fs) == KnownAt(recs, known);
    assert Stats.TrueAt(gs) == KnownAt(recs[1..], known);
    Stats.TrueAtCons(fs);
  }

  /** The inductive step of `Known`: the first record joins the listing exactly when its challenge is known. */
  lemma KnownStep(recs: seq<(string, ChallengeTracker.Record)>, known: set<string>, rest: seq<ProgressItem>, items: seq<ProgressItem>)
    requires recs != []
    requires items == (if recs[0].0 in known then [Join(recs[0])] else []) + rest
    requires forall i :: 0 <= i < |recs[1..]| && recs[1..][i].0 in known ==> Join(recs[1..][i]) in rest
    requires forall j :: 0 <= j < |rest| ==> exists i :: 0 <= i < |recs[1..]| && rest[j] == Join(recs[1..][i])
    ensures forall i :: 0 <= i < |recs| && recs[i].0 in known ==> Join(recs[i]) in items
    ensures forall j :: 0 <= j < |items| ==> exists i :: 0 <= i < |recs| && items[j] == Join(recs[i])
  {
    forall i | 0 <= i < |recs| && recs[i].0 in known ensures Join(recs[i]) in items {
      if i > 0 {
        assert recs[1..][i - 1] == recs[i];
      }
    }
    forall j | 0 <= j < |items| ensures exists i :: 0 <= i < |recs| && items[j] == Join(recs[i]) {
      var k := if recs[0].0 in known then 1 else 0;
      if j >= k {
        assert items[j] == rest[j - k];
        var i :| 0 <= i < |recs[1..]| && rest[j - k] == Join(recs[1..][i]);
        assert recs[1..][i] == recs[i + 1];
      } else {
        assert items[j] == Join(recs[0]);
      }
    }
  }

  /** The positions of the completed entries. */
  ghost function CompletedAt(items: seq<ProgressItem>): set<int> {
    set i | 0 <= i < |items| && items[i].completed
  }

  /** The positions of the claimed entries. */
  ghost function ClaimedAt(items: seq<ProgressItem>): set<int> {
    set i | 0 <= i < |items| && items[i].claimed
  }

  /** `sum(1 for c in result if c["completed"])`. */
  function CompletedCount(items: seq<ProgressItem>): (n: nat)
    ensures n <= |items|
    ensures n == |CompletedAt(items)|
  {
    if items == [] then 0
    else
      FlagsAtCons(items);
      (if items[0].completed then 1 else 0) + CompletedCount(items[1..])
  }

  /** `sum(1 for c in result if c["claimed"])`. */
  function ClaimedCount(items: seq<ProgressItem>): (n: nat)
    ensures n <= |items|
    ensures n == |ClaimedAt(items)|
  {
    if items == [] then 0
    else
      FlagsAtCons(items);
      (if items[0].claimed then 1 else 0) + ClaimedCount(items[1..])
  }

  /** The completed and claimed positions of a non-empty listing: the first entry, if flagged, and those of the rest. */
  lemma FlagsAtCons(items: seq<ProgressItem>)
    requires items != []
    ensures |CompletedAt(items)| == (if items[0].completed then 1 else 0) + |CompletedAt(items[1..])|
    ensures |ClaimedAt(items)| == (if items[0].claimed then 1 else 0) + |ClaimedAt(items[1..])|
  {
    var cs := seq(|items|, i requires 0 <= i < |items| => items[i].completed);
    var ds := seq(|items| - 1, i requires 0 <= i < |items| - 1 => items[1..][i].completed);
    assert cs[1..] == ds;
    assert Stats.TrueAt(cs) == CompletedAt(items);
    assert Stats.TrueAt(ds) == CompletedAt(items[1..]);
    Stats.TrueAtCons(cs);
    var ks := seq(|items|, i requires 0 <= i < |items| => items[i].claimed);
    var ls := seq(|items| - 1, i requires 0 <= i < |items| - 1 => items[1..][i].claimed);
    assert ks[1..] == ls;
    assert Stats.TrueAt(ks) == ClaimedAt(items);
    assert Stats.TrueAt(ls) == ClaimedAt(items[1..]);
    Stats.TrueAtCons(ks);
  }

  datatype Progress = Progress(items: seq<ProgressItem>, total: nat, completed: nat, claimed: nat)

  /**
   * `get_challenge_progress`: at most 100 of the user's records, each joined with its challenge;
   * a record whose challenge is gone is dropped.
   */
  function GetChallengeProgress(recs: seq<(string, ChallengeTracker.Record)>, known: set<string>): (p: Progress)
    ensures p.total == |p.items| <= 100
    ensures p.completed <= p.total && p.claimed <= p.total
    ensures p.completed == |CompletedAt(p.items)| && p.claimed == |ClaimedAt(p.items)|
    ensures forall i :: 0 <= i < |p.items| ==> p.items[i].challengeId in known
    ensures forall i :: 0 <= i < |recs| && i < 100 && recs[i].0 in known ==> Join(recs[i]) in p.items
    ensures forall j :: 0 <= j < |p.items| ==> exists i :: 0 <= i < |recs| && i < 100 && p.items[j] == Join(recs[i])
  {
    var n := if |recs| < 100 then |recs| else 100;
    var items := Known(recs[..n], known);
    KnownOfPrefix(recs, known, n);
    Progress(items, |items|, CompletedCount(items), ClaimedCount(items))
  }

  /** Listing the first `n` records lists exactly the known ones among them. */
  lemma KnownOfPrefix(recs: seq<(string, ChallengeTracker.Record)>, known: set<string>, n: nat)
    requires n <= |recs|
    ensures forall i :: 0 <= i < n && recs[i].0 in known ==> Join(recs[i]) in Known(recs[..n], known)
    ensures forall j :: 0 <= j < |Known(recs[..n], known)| ==>
              exists i :: 0 <= i < n && Known(recs[..n], known)[j] == Join(recs[i])
  {
    var first := recs[..n];
    var items := Known(first, known);
    forall i | 0 <= i < n && recs[i].0 in known ensures Join(recs[i]) in items {
      assert first[i] == recs[i];
    }
    forall j | 0 <= j < |items| ensures exists i :: 0 <= i < n && items[j] == Join(recs[i]) {
      var i :| 0 <= i < |first| && items[j] == Join(first[i]);
      assert first[i] == recs[i];
    }
  }

  /** A claim needs a completed record, so the listing never shows more claimed than completed. */
  lemma {:induction false} ClaimedNeedsCompletedCounts(items: seq<ProgressItem>)
    requires forall i :: 0 <= i < |items| ==> items[i].claimed ==> items[i].completed
    ensures ClaimedCount(items) <= CompletedCount(items)
  {
    if items != [] {
      ClaimedNeedsCompletedCounts(items[1..]);
    }
  }
}

=== FILE: middleware.dfy ===
/**
 * The route guard the web client runs before a page loads (frontend-next/src/middleware.ts): a
 * protected page without a session cookie goes to the login page, the login and signup pages with
 * a cookie go to the studio, and everything else passes through.
 */
module RouteGuard {
  import opened Wrappers

  /** The pages that need a signed-in user; a path is protected when it starts with one of them. */
  const ProtectedPrefixes: seq<string> :=
    ["/studio", "/practice", "/history", "/analysis", "/feedback", "/comparison", "/settings", "/leaderboard", "/challenges"]

  /** The public pages. The guard computes membership in this list but never uses it. */
  const PublicRoutes: seq<string> := ["/", "/login", "/signup"]

  /** The path prefixes the route matcher keeps away from the guard. */
  const SkippedPrefixes: seq<string> := ["/api", "/_next/static", "/_next/image", "/favicon.ico"]

  predicate StartsWith(s: string, prefix: string) {
    |prefix| <= |s| && s[..|prefix|] == prefix
  }

  predicate IsProtected(pathname: string) {
    exists i :: 0 <= i < |ProtectedPrefixes| && StartsWith(pathname, ProtectedPrefixes[i])
  }

  predicate IsAuthPage(pathname: string) {
    pathname == "/login" || pathname == "/signup"
  }

  /** The `auth_token` cookie counts only when it is present and non-empty (an empty string is falsy). */
  predicate HasToken(cookie: Option<string>) {
    cookie.Some? && cookie.value != ""
  }

  datatype Response =
    | RedirectToLogin(redirect: string)  // to /login with `?redirect=` set to the original path
    | RedirectToStudio
    | Next

  /** `middleware(request)`, reduced to the two things it reads: the path and the cookie. */
  function Middleware(pathname: string, cookie: Option<string>): (r: Response)
    ensures r.RedirectToLogin? <==> IsProtected(pathname) && !HasToken(cookie)
    ensures r.RedirectToLogin? ==> r.redirect == pathname
    ensures r.RedirectToStudio? <==> IsAuthPage(pathname) && HasToken(cookie)
    ensures r.Next? <==> (IsProtected(pathname) ==> HasToken(cookie)) && (IsAuthPage(pathname) ==> !HasToken(cookie))
  {
    AuthPagesUnprotected(pathname);
    if IsProtected(pathname) && !HasToken(cookie) then RedirectToLogin(pathname)
    else if IsAuthPage(pathname) && HasToken(cookie) then RedirectToStudio
    else Next
  }

  /** Whether the route matcher sends a path to the guard at all. */
  predicate RunsOn(pathname: string) {
    forall i :: 0 <= i < |SkippedPrefixes| ==> !StartsWith(pathname, SkippedPrefixes[i])
  }

  /** What a request meets: the guard where the matcher runs it, otherwise nothing. */
  function Route(pathname: string, cookie: Option<string>): (r: Response)
    ensures r == Middleware(pathname, cookie)
  {
    if RunsOn(pathname) then Middleware(pathname, cookie)
    else
      SkippedPassAnyway(pathname, cookie);
      Next
  }

  /** A string that starts with `prefix` holds the prefix's characters. */
  lemma CharAt(s: string, prefix: string, k: nat)
    requires StartsWith(s, prefix) && k < |prefix|
    ensures s[k] == prefix[k]
  {
    assert s[k] == s[..|prefix|][k];
  }

  /** No protected prefix is a prefix of the login or the signup page. */
  lemma AuthPagesUnprotected(pathname: string)
    ensures IsAuthPage(pathname) ==> !IsProtected(pathname)
  {
    if IsAuthPage(pathname) {
      forall i | 0 <= i < |ProtectedPrefixes|
        ensures !StartsWith(pathname, ProtectedPrefixes[i])
      {
        if StartsWith(pathname, ProtectedPrefixes[i]) {
          CharAt(pathname, ProtectedPrefixes[i], 1);
          CharAt(pathname, ProtectedPrefixes[i], 2);
          assert false;
        }
      }
    }
  }

  /** The two redirects never apply to the same request. */
  lemma RedirectsExclusive(pathname: string, cookie: Option<string>)
    ensures !(IsProtected(pathname) && !HasToken(cookie) && IsAuthPage(pathname) && HasToken(cookie))
    ensures !(IsProtected(pathname) && IsAuthPage(pathname))
  {
    AuthPagesUnprotected(pathname);
  }

  /** The paths the matcher skips would pass the guard anyway: none of them is protected. */
  lemma SkippedPassAnyway(pathname: string, cookie: Option<string>)
    requires !RunsOn(pathname)
    ensures Middleware(pathname, cookie) == Next
  {
    var j :| 0 <= j < |SkippedPrefixes| && StartsWith(pathname, SkippedPrefixes[j]);
    CharAt(pathname, SkippedPrefixes[j], 1);
    CharAt(pathname, SkippedPrefixes[j], 2);
    forall i | 0 <= i < |ProtectedPrefixes|
      ensures !StartsWith(pathname, ProtectedPrefixes[i])
    {
      if StartsWith(pathname, ProtectedPrefixes[i]) {
        CharAt(pathname, ProtectedPrefixes[i], 1);
        CharAt(pathname, ProtectedPrefixes[i], 2);
        assert false;
      }
    }
  }

  /** Only whether the cookie is set matters, never its value; an empty cookie is no cookie. */
  lemma TokenValueIrrelevant(pathname: string, a: string, b: string)
    requires a != "" && b != ""
    ensures Middleware(pathname, Some(a)) == Middleware(pathname, Some(b))
    ensures Middleware(pathname, Some("")) == Middleware(pathname, None)
  {
  }

  /** Following either redirect with the same cookie lands on a page the guard lets through. */
  lemma NoRedirectLoop(pathname: string, cookie: Option<string>)
    ensures Middleware(pathname, cookie).RedirectToLogin? ==> Middleware("/login", cookie) == Next
    ensures Middleware(pathname, cookie).RedirectToStudio? ==> Middleware("/studio", cookie) == Next
  {
    AuthPagesUnprotected("/login");
  }

  /** The public pages never redirect a visitor without a cookie, the home page never redirects anyone. */
  lemma PublicRoutesOpen(i: nat, cookie: Option<string>)
    requires i < |PublicRoutes|
    ensures Middleware(PublicRoutes[i], None) == Next
    ensures Middleware("/", cookie) == Next
  {
    AuthPagesUnprotected(PublicRoutes[i]);
  }
}

=== FILE: password.dfy ===
/**
 * The password-strength meter on the signup form
 * (frontend-next/src/components/auth/PasswordStrength.tsx): four independent requirements, a
 * strength of 25 points per requirement met, and a label and colours picked by thresholds on it.
 */
module PasswordStrength {
  import opened Wrappers

  predicate HasUpper(p: string) {
    exists i :: 0 <= i < |p| && 'A' <= p[i] <= 'Z'
  }

  predicate HasLower(p: string) {
    exists i :: 0 <= i < |p| && 'a' <= p[i] <= 'z'
  }

  predicate HasDigit(p: string) {
    exists i :: 0 <= i < |p| && '0' <= p[i] <= '9'
  }

  /** The checklist, in display order: at least 6 characters, an upper-case letter, a lower-case letter, a digit. */
  function Requirements(p: string): (checks: seq<bool>)
    ensures |checks| == 4
    ensures checks[0] <==> |p| >= 6
    ensures checks[1] <==> HasUpper(p)
    ensures checks[2] <==> HasLower(p)
    ensures checks[3] <==> HasDigit(p)
  {
    [|p| >= 6, HasUpper(p), HasLower(p), HasDigit(p)]
  }

  function CountMet(checks: seq<bool>): (n: nat)
    ensures n <= |checks|
    ensures n == 0 <==> forall i :: 0 <= i < |checks| ==> !checks[i]
    ensures n == |checks| <==> forall i :: 0 <= i < |checks| ==> checks[i]
  {
    if checks == [] then 0
    else
      var rest := CountMet(checks[1..]);
      assert forall i :: 1 <= i < |checks| ==> checks[i] == checks[1..][i - 1];
      (if checks[0] then 1 else 0) + rest
  }

  /** `metRequirements.length / requirements.length * 100`. */
  function Strength(p: string): (s: real)
    ensures s == 25.0 * (CountMet(Requirements(p)) as real)
    ensures s == 0.0 || s == 25.0 || s == 50.0 || s == 75.0 || s == 100.0
    ensures s == 100.0 <==> |p| >= 6 && HasUpper(p) && HasLower(p) && HasDigit(p)
    ensures s == 0.0 <==> |p| < 6 && !HasUpper(p) && !HasLower(p) && !HasDigit(p)
  {
    var met := CountMet(Requirements(p));
    (met as real / 4.0) * 100.0
  }

  function Label(strength: real): string {
    if strength == 0.0 then ""
    else if strength <= 25.0 then "WEAK"
    else if strength <= 50.0 then "FAIR"
    else if strength <= 75.0 then "GOOD"
    else "STRONG"
  }

  /** The bar colour. */
  function BarColor(strength: real): string {
    if strength == 0.0 then "bg-zinc-700"
    else if strength <= 25.0 then "bg-red-500"
    else if strength <= 50.0 then "bg-orange-500"
    else if strength <= 75.0 then "bg-yellow-500"
    else "bg-green-500"
  }

  /** The colour of the label text, which uses its own thresholds. */
  function LabelColor(strength: real): string {
    if strength >= 75.0 then "text-green-500"
    else if strength >= 50.0 then "text-yellow-500"
    else "text-red-500"
  }

  /** The position of a label on the scale from empty to STRONG. */
  function LabelRank(name: string): nat {
    if name == "" then 0
    else if name == "WEAK" then 1
    else if name == "FAIR" then 2
    else if name == "GOOD" then 3
    else 4
  }

  /** The bar colour each label comes with. */
  function ColorOfLabel(name: string): string {
    if name == "" then "bg-zinc-700"
    else if name == "WEAK" then "bg-red-500"
    else if name == "FAIR" then "bg-orange-500"
    else if name == "GOOD" then "bg-yellow-500"
    else "bg-green-500"
  }

  datatype View = View(strength: real, caption: string, barColor: string, labelColor: string, checklist: seq<bool>)

  /** The component: nothing for an empty password, otherwise the meter and the checklist. */
  function Render(p: string): (v: Option<View>)
    ensures v.None? <==> p == ""
    ensures v.Some? ==> v.value.checklist == Requirements(p) && v.value.strength == Strength(p)
    ensures v.Some? ==> LabelRank(v.value.caption) == CountMet(Requirements(p))
    ensures v.Some? ==> v.value.barColor == ColorOfLabel(v.value.caption)
    ensures v.Some? ==> v.value.caption == ["", "WEAK", "FAIR", "GOOD", "STRONG"][CountMet(Requirements(p))]
    ensures v.Some? ==> v.value.labelColor == LabelColor(v.value.strength)
    ensures v.Some? ==>
      v.value.labelColor == ["text-red-500", "text-red-500", "text-yellow-500", "text-green-500", "text-green-500"][CountMet(Requirements(p))]
  {
    if p == "" then None
    else
      var s := Strength(p);
      LabelCountsRequirements(p);
      LabelAndBarAgree(s);
      Some(View(s, Label(s), BarColor(s), LabelColor(s), Requirements(p)))
  }

  /** The label names the number of requirements met: empty, WEAK, FAIR, GOOD, STRONG for 0 to 4. */
  lemma LabelCountsRequirements(p: string)
    ensures LabelRank(Label(Strength(p))) == CountMet(Requirements(p))
  {
  }

  /** A higher strength never gets a lower label. */
  lemma LabelMonotone(a: real, b: real)
    requires 0.0 <= a <= b
    ensures LabelRank(Label(a)) <= LabelRank(Label(b))
  {
  }

  /** The bar colour thresholds are the label thresholds. */
  lemma LabelAndBarAgree(s: real)
    ensures BarColor(s) == ColorOfLabel(Label(s))
  {
  }

  /** The label text turns green already at GOOD, while the bar is still yellow there. */
  lemma LabelTextGreenFromGood(p: string)
    ensures LabelColor(Strength(p)) == "text-green-500" <==> LabelRank(Label(Strength(p))) >= 3
    ensures Label(Strength(p)) == "GOOD" ==> BarColor(Strength(p)) == "bg-yellow-500"
  {
  }

  /** A character that meets a requirement keeps meeting it inside a longer password. */
  lemma {:induction false} HasAppend(p: string, q: string)
    ensures HasUpper(p) ==> HasUpper(p + q)
    ensures HasLower(p) ==> HasLower(p + q)
    ensures HasDigit(p) ==> HasDigit(p + q)
  {
    if HasUpper(p) {
      var i :| 0 <= i < |p| && 'A' <= p[i] <= 'Z';
      assert (p + q)[i] == p[i];
    }
    if HasLower(p) {
      var i :| 0 <= i < |p| && 'a' <= p[i] <= 'z';
      assert (p + q)[i] == p[i];
    }
    if HasDigit(p) {
      var i :| 0 <= i < |p| && '0' <= p[i] <= '9';
      assert (p + q)[i] == p[i];
    }
  }

  /** Pointwise weaker checklists meet no more requirements. */
  lemma {:induction false} CountMetMonotone(a: seq<bool>, b: seq<bool>)
    requires |a| == |b|
    requires forall i :: 0 <= i < |a| ==> a[i] ==> b[i]
    ensures CountMet(a) <= CountMet(b)
  {
    if a != [] {
      CountMetMonotone(a[1..], b[1..]);
    }
  }

  /** Typing more characters never weakens a password. */
  lemma TypingNeverWeakens(p: string, q: string)
    ensures Strength(p) <= Strength(p + q)
  {
    HasAppend(p, q);
    CountMetMonotone(Requirements(p), Requirements(p + q));
  }
}

=== FILE: scoring.dfy ===
/**
 * The intelligent scoring system (backend/app/core/scoring_system.py): four component scorers, the
 * difficulty-weighted total, the letter grade, strengths and weaknesses, feedback priority and the
 * session summary with its trend classifier.
 *
 * A metrics dict is `None` when it is empty (`if not metrics`) and otherwise a record whose fields
 * hold the value of the key, or the `.get` default when the key is absent.
 */
module Scoring {
  import opened Wrappers
  import opened Stats
  import opened Sorting
  import Difficulty

  datatype Component = Voice | Facial | Content | Pacing

  /** The order in which the source lists the components; ties keep this order. */
  const Components: seq<Component> := [Voice, Facial, Content, Pacing]

  // ---------------------------------------------------------------- weights

  datatype Weights = Weights(voice: real, facial: real, content: real, pacing: real, minScoreThreshold: real)

  function WeightsOf(l: Difficulty.Level): Weights {
    match l
    case Beginner => Weights(0.35, 0.30, 0.20, 0.15, 50.0)
    case Intermediate => Weights(0.30, 0.25, 0.30, 0.15, 65.0)
    case Expert => Weights(0.25, 0.20, 0.40, 0.15, 80.0)
  }

  function WeightOf(w: Weights, c: Component): real {
    match c
    case Voice => w.voice
    case Facial => w.facial
    case Content => w.content
    case Pacing => w.pacing
  }

  /** Every weight table is a convex combination: positive weights summing to one. */
  lemma WeightsConvex(l: Difficulty.Level)
    ensures var w := WeightsOf(l);
      && w.voice > 0.0 && w.facial > 0.0 && w.content > 0.0 && w.pacing > 0.0
      && w.voice + w.facial + w.content + w.pacing == 1.0
    ensures WeightsOf(l).minScoreThreshold == 50.0 + 15.0 * (Difficulty.Rank(l) as real)
  {
    match l
    case Beginner =>
    case Intermediate =>
    case Expert =>
  }

  // ---------------------------------------------------------------- component scorers

  datatype VoiceFields = VoiceFields(
    clarityScore: real, volumeConsistency: real, pitchQuality: string,
    fillerWordDensity: real, speechRateQuality: string)

  const VoiceDefaults := VoiceFields(0.5, 0.5, "adequate", 0.0, "optimal")

  /** Points for a pitch label; an unknown label counts as "adequate". */
  function PitchPoints(tag: string): real {
    if tag == "monotone" then 40.0
    else if tag == "expressive" then 95.0
    else 70.0
  }

  /** Points for a speech-rate label; an unknown label gets 80. */
  function RatePoints(tag: string): real {
    if tag == "too_fast" || tag == "too_slow" then 60.0
    else if tag == "optimal" then 100.0
    else 80.0
  }

  function VoiceRaw(m: VoiceFields): real {
    m.clarityScore * 100.0 * 0.25
    + m.volumeConsistency * 100.0 * 0.20
    + PitchPoints(m.pitchQuality) * 0.25
    + Max(0.0, 100.0 - m.fillerWordDensity * 10.0) * 0.15
    + RatePoints(m.speechRateQuality) * 0.15
  }

  function VoiceScore(m: Option<VoiceFields>): (r: real)
    ensures 0.0 <= r <= 100.0
    ensures m.None? ==> r == 50.0
  {
    match m
    case None => 50.0
    case Some(f) => Clamp(VoiceRaw(f), 0.0, 100.0)
  }

  datatype FacialFields = FacialFields(
    engagementScore: real, eyeContactScore: real, smileScore: real,
    emotion: string, emotionConfidence: real)

  const FacialDefaults := FacialFields(0.5, 0.5, 0.3, "neutral", 0.5)

  /** Points per emotion label; an unlisted label gets the neutral 70. The table keys "sad", not "sadness". */
  function EmotionPoints(e: string): real {
    if e == "happiness" then 95.0
    else if e == "surprise" then 90.0
    else if e == "confident" then 85.0
    else if e == "sad" then 40.0
    else if e == "anger" then 30.0
    else if e == "fear" then 35.0
    else 70.0
  }

  function FacialRaw(m: FacialFields): real {
    m.engagementScore * 100.0 * 0.35
    + m.eyeContactScore * 100.0 * 0.30
    + m.smileScore * 100.0 * 0.20
    + EmotionPoints(m.emotion) * m.emotionConfidence * 0.15
  }

  function FacialScore(m: Option<FacialFields>): (r: real)
    ensures 0.0 <= r <= 100.0
    ensures m.None? ==> r == 50.0
  {
    match m
    case None => 50.0
    case Some(f) => Clamp(FacialRaw(f), 0.0, 100.0)
  }

  datatype ContentFields = ContentFields(
    wordCount: real, wordsPerSecond: real, clarity: real, structureQuality: real, vocabularyQuality: real)

  const ContentDefaults := ContentFields(0.0, 2.0, 75.0, 75.0, 75.0)

  /** Word-density points: 100 inside [1.5, 3.5] words per second, 80 in the margins, 50 beyond, 80 without a positive rate. */
  function DensityPoints(wps: real): (r: real)
    ensures r == 100.0 <==> 1.5 <= wps <= 3.5
    ensures r == 50.0 <==> (0.0 < wps < 1.0 || wps > 4.5)
  {
    if wps > 0.0 then
      if 1.5 <= wps <= 3.5 then 100.0
      else if (1.0 <= wps < 1.5) || (3.5 < wps <= 4.5) then 80.0
      else 50.0
    else 80.0
  }

  function ContentRaw(m: ContentFields): real {
    DensityPoints(m.wordsPerSecond) * 0.30
    + m.clarity * 0.25
    + m.structureQuality * 0.25
    + m.vocabularyQuality * 0.20
  }

  function ContentScore(m: Option<ContentFields>): (r: real)
    ensures 0.0 <= r <= 100.0
    ensures m.None? ==> r == 50.0
  {
    match m
    case None => 50.0
    case Some(f) => Clamp(ContentRaw(f), 0.0, 100.0)
  }

  datatype PacingFields = PacingFields(pauseFrequency: real, avgPauseLength: real, rhythmConsistency: real)

  const PacingDefaults := PacingFields(0.3, 0.8, 0.7)

  /** Pause-frequency points: 100 inside [0.2, 0.6] pauses per second, 60 outside [0.1, 0.7], 80 between. */
  function FrequencyPoints(f: real): (r: real)
    ensures r == 100.0 <==> 0.2 <= f <= 0.6
    ensures r == 60.0 <==> (f < 0.1 || f > 0.7)
  {
    if f < 0.1 || f > 0.7 then 60.0
    else if f < 0.2 || f > 0.6 then 80.0
    else 100.0
  }

  /** Pause-length points: 100 inside [0.5, 1.5] seconds, 60 outside [0.3, 2.0], 80 between. */
  function PauseLengthPoints(l: real): (r: real)
    ensures r == 100.0 <==> 0.5 <= l <= 1.5
    ensures r == 60.0 <==> (l < 0.3 || l > 2.0)
  {
    if l < 0.3 || l > 2.0 then 60.0
    else if l < 0.5 || l > 1.5 then 80.0
    else 100.0
  }

  function PacingRaw(m: PacingFields): real {
    FrequencyPoints(m.pauseFrequency) * 0.35
    + PauseLengthPoints(m.avgPauseLength) * 0.35
    + m.rhythmConsistency * 100.0 * 0.30
  }

  function PacingScore(m: Option<PacingFields>): (r: real)
    ensures 0.0 <= r <= 100.0
    ensures m.None? ==> r == 50.0
  {
    match m
    case None => 50.0
    case Some(f) => Clamp(PacingRaw(f), 0.0, 100.0)
  }

  lemma ClampMonotone(x: real, y: real, lo: real, hi: real)
    requires lo <= hi && x <= y
    ensures Clamp(x, lo, hi) <= Clamp(y, lo, hi)
  {
  }

  /** A clearer voice never scores lower, all else equal. */
  lemma VoiceMonotoneInClarity(m: VoiceFields, clarity: real)
    requires m.clarityScore <= clarity
    ensures VoiceScore(Some(m)) <= VoiceScore(Some(m.(clarityScore := clarity)))
  {
    ClampMonotone(VoiceRaw(m), VoiceRaw(m.(clarityScore := clarity)), 0.0, 100.0);
  }

  /** An unknown pitch label scores exactly like "adequate"; an unknown rate label lies between the off-pace and the optimal scores. */
  lemma VoiceUnknownLabels(m: VoiceFields)
    requires m.pitchQuality !in {"monotone", "adequate", "expressive"}
    requires m.speechRateQuality !in {"too_fast", "too_slow", "optimal"}
    ensures VoiceScore(Some(m)) == VoiceScore(Some(m.(pitchQuality := "adequate")))
    ensures VoiceScore(Some(m.(speechRateQuality := "too_fast"))) <= VoiceScore(Some(m))
    ensures VoiceScore(Some(m)) <= VoiceScore(Some(m.(speechRateQuality := "optimal")))
  {
    ClampMonotone(VoiceRaw(m.(speechRateQuality := "too_fast")), VoiceRaw(m), 0.0, 100.0);
    ClampMonotone(VoiceRaw(m), VoiceRaw(m.(speechRateQuality := "optimal")), 0.0, 100.0);
  }

  /**
   * The emotion detector reports "sadness", which the table does not list: it scores like "neutral",
   * and at least as well as the listed "sad" would.
   */
  lemma SadnessScoresAsNeutral(m: FacialFields)
    requires m.emotionConfidence >= 0.0
    ensures FacialScore(Some(m.(emotion := "sadness"))) == FacialScore(Some(m.(emotion := "neutral")))
    ensures FacialScore(Some(m.(emotion := "sad"))) <= FacialScore(Some(m.(emotion := "sadness")))
  {
    ClampMonotone(FacialRaw(m.(emotion := "sad")), FacialRaw(m.(emotion := "sadness")), 0.0, 100.0);
  }

  /** An all-default dict is not an empty one: it scores from the defaults, not 50. */
  lemma DefaultScores()
    ensures ContentScore(Some(ContentDefaults)) == 82.5
    ensures PacingScore(Some(PacingDefaults)) == 91.0
    ensures VoiceScore(Some(VoiceDefaults)) == 70.0
  {
  }

  // ---------------------------------------------------------------- grade

  datatype Grade = APlus | A | BPlus | B | CPlus | C | D | F

  /** The grade boundaries, lowest first; a grade's rank is the number of boundaries reached. */
  const GradeBounds: seq<real> := [60.0, 65.0, 70.0, 75.0, 80.0, 85.0, 90.0]

  function GradeRank(g: Grade): nat {
    match g
    case F => 0
    case D => 1
    case C => 2
    case CPlus => 3
    case B => 4
    case BPlus => 5
    case A => 6
    case APlus => 7
  }

  function GradeOf(score: real): (g: Grade)
    ensures forall i :: 0 <= i < |GradeBounds| ==> (GradeBounds[i] <= score <==> i < GradeRank(g))
  {
    if score >= 90.0 then APlus
    else if score >= 85.0 then A
    else if score >= 80.0 then BPlus
    else if score >= 75.0 then B
    else if score >= 70.0 then CPlus
    else if score >= 65.0 then C
    else if score >= 60.0 then D
    else F
  }

  /** A higher score never earns a lower grade. */
  lemma GradeMonotone(a: real, b: real)
    requires a <= b
    ensures GradeRank(GradeOf(a)) <= GradeRank(GradeOf(b))
  {
    var ra := GradeRank(GradeOf(a));
    if ra > 0 {
      assert GradeBounds[ra - 1] <= a;
    }
  }

  // ---------------------------------------------------------------- strengths, weaknesses, priority

  type Scored = (Component, real)

  function ScoreKey(x: Scored): real {
    x.1
  }

  /** The `scores` dict's items, in insertion order. */
  function Items(v: real, f: real, c: real, p: real): (items: seq<Scored>)
    ensures |items| == 4
    ensures forall i :: 0 <= i < 4 ==> items[i].0 == Components[i]
  {
    [(Voice, v), (Facial, f), (Content, c), (Pacing, p)]
  }

  /** The components of `xs` whose score is at least `bound` (`atLeast`) or below it (otherwise), in order. */
  function Select(xs: seq<Scored>, bound: real, atLeast: bool): (r: seq<Component>)
    ensures |r| <= |xs|
    ensures forall c :: c in r <==> exists i :: 0 <= i < |xs| && xs[i].0 == c && (if atLeast then xs[i].1 >= bound else xs[i].1 < bound)
  {
    if xs == [] then []
    else
      var keep := if atLeast then xs[0].1 >= bound else xs[0].1 < bound;
      var rest := Select(xs[1..], bound, atLeast);
      assert forall i :: 1 <= i < |xs| ==> xs[i] == xs[1..][i - 1];
      (if keep then [xs[0].0] else []) + rest
  }

  function SortedScores(v: real, f: real, c: real, p: real): (s: seq<Scored>)
    ensures |s| == 4
    ensures NonIncreasing(s, ScoreKey)
    ensures multiset(s) == multiset(Items(v, f, c, p))
  {
    SortDesc(Items(v, f, c, p), ScoreKey)
  }

  /** `_identify_performance_areas`: strengths from the top two scores if ≥ 70, weaknesses from the bottom two if < 75. */
  function PerformanceAreas(v: real, f: real, c: real, p: real): (r: (seq<Component>, seq<Component>))
  {
    var sorted := SortedScores(v, f, c, p);
    (Select(Take(sorted, 2), 70.0, true), Select(TakeLast(sorted, 2), 75.0, false))
  }

  function ScoreOf(v: real, f: real, c: real, p: real, x: Component): real {
    match x
    case Voice => v
    case Facial => f
    case Content => c
    case Pacing => p
  }

  /** Every element of a permutation of the items is the item of its own component. */
  lemma SortedEntries(v: real, f: real, c: real, p: real)
    ensures forall i :: 0 <= i < 4 ==> SortedScores(v, f, c, p)[i] == (SortedScores(v, f, c, p)[i].0, ScoreOf(v, f, c, p, SortedScores(v, f, c, p)[i].0))
  {
    var s := SortedScores(v, f, c, p);
    var items := Items(v, f, c, p);
    forall i | 0 <= i < 4 ensures s[i] == (s[i].0, ScoreOf(v, f, c, p, s[i].0)) {
      assert s[i] in multiset(items);
    }
  }

  /** Every component occurs in the sorted scores. */
  lemma SortedHas(v: real, f: real, c: real, p: real, x: Component)
    ensures exists i :: 0 <= i < 4 && SortedScores(v, f, c, p)[i].0 == x
  {
    var s := SortedScores(v, f, c, p);
    var items := Items(v, f, c, p);
    var k := match x case Voice => 0 case Facial => 1 case Content => 2 case Pacing => 3;
    assert items[k] in multiset(s);
  }

  /**
   * Strengths and weaknesses, stated by rank: a strength scores ≥ 70 and at most one component
   * scores strictly higher; a weakness scores < 75 and at most one scores strictly lower; and any
   * component clearly in the top (bottom) two is reported.
   */
  lemma PerformanceAreasByRank(v: real, f: real, c: real, p: real)
    ensures var (strengths, weaknesses) := PerformanceAreas(v, f, c, p);
      var items := Items(v, f, c, p);
      && |strengths| <= 2 && |weaknesses| <= 2
      && (forall x :: x in strengths ==>
            ScoreOf(v, f, c, p, x) >= 70.0 && CountAbove(items, ScoreKey, ScoreOf(v, f, c, p, x)) < 2)
      && (forall x :: x in weaknesses ==>
            ScoreOf(v, f, c, p, x) < 75.0 && CountBelow(items, ScoreKey, ScoreOf(v, f, c, p, x)) < 2)
      && (forall x :: ScoreOf(v, f, c, p, x) >= 70.0 && CountBelow(items, ScoreKey, ScoreOf(v, f, c, p, x)) >= 2 ==> x in strengths)
      && (forall x :: ScoreOf(v, f, c, p, x) < 75.0 && CountAbove(items, ScoreKey, ScoreOf(v, f, c, p, x)) >= 2 ==> x in weaknesses)
  {
    var s := SortedScores(v, f, c, p);
    var items := Items(v, f, c, p);
    var (strengths, weaknesses) := PerformanceAreas(v, f, c, p);
    SortedEntries(v, f, c, p);
    assert Take(s, 2) == s[..2];
    assert TakeLast(s, 2) == s[2..];
    forall i | 0 <= i < 4
      ensures CountAbove(items, ScoreKey, s[i].1) <= i
      ensures CountBelow(items, ScoreKey, s[i].1) <= 3 - i
    {
      PositionBounds(s, ScoreKey, i);
      CountBeyondPerm(s, items, ScoreKey, s[i].1, true);
      CountBeyondPerm(s, items, ScoreKey, s[i].1, false);
    }
    forall x | x in strengths
      ensures ScoreOf(v, f, c, p, x) >= 70.0 && CountAbove(items, ScoreKey, ScoreOf(v, f, c, p, x)) < 2
    {
      var i :| 0 <= i < 2 && s[..2][i].0 == x && s[..2][i].1 >= 70.0;
      assert s[i] == s[..2][i];
    }
    forall x | x in weaknesses
      ensures ScoreOf(v, f, c, p, x) < 75.0 && CountBelow(items, ScoreKey, ScoreOf(v, f, c, p, x)) < 2
    {
      var i :| 0 <= i < 2 && s[2..][i].0 == x && s[2..][i].1 < 75.0;
      assert s[i + 2] == s[2..][i];
    }
    forall x | ScoreOf(v, f, c, p, x) >= 70.0 && CountBelow(items, ScoreKey, ScoreOf(v, f, c, p, x)) >= 2
      ensures x in strengths
    {
      SortedHas(v, f, c, p, x);
      var i :| 0 <= i < 4 && s[i].0 == x;
      assert i < 2;
      assert s[..2][i] == s[i];
    }
    forall x | ScoreOf(v, f, c, p, x) < 75.0 && CountAbove(items, ScoreKey, ScoreOf(v, f, c, p, x)) >= 2
      ensures x in weaknesses
    {
      SortedHas(v, f, c, p, x);
      var i :| 0 <= i < 4 && s[i].0 == x;
      assert i >= 2;
      assert s[2..][i - 2] == s[i];
    }
  }

  /** With four equal scores the stable sort leaves the items in source order. */
  lemma SortedTies(v: real)
    ensures SortedScores(v, v, v, v) == Items(v, v, v, v)
  {
    var items := Items(v, v, v, v);
    forall i | 0 <= i < |items|
      ensures ScoreKey(items[i]) == v
    {
      assert items[i] == (Components[i], v);
    }
    SortDescAllTied(items, ScoreKey, v);
  }

  /** Ties keep the source order: voice and facial lead, content and pacing trail. */
  lemma TiesKeepSourceOrder(v: real)
    ensures PerformanceAreas(v, v, v, v).0 == (if v >= 70.0 then [Voice, Facial] else [])
    ensures PerformanceAreas(v, v, v, v).1 == (if v < 75.0 then [Content, Pacing] else [])
  {
    SortedTies(v);
    var items := Items(v, v, v, v);
    assert Take(items, 2) == [(Voice, v), (Facial, v)];
    assert TakeLast(items, 2) == [(Content, v), (Pacing, v)];
    SelectTiedPair(Voice, Facial, v, 70.0, true);
    SelectTiedPair(Content, Pacing, v, 75.0, false);
  }

  /** Two items with the same score are both kept, in order, or both dropped. */
  lemma SelectTiedPair(x: Component, y: Component, v: real, bound: real, atLeast: bool)
    ensures Select([(x, v), (y, v)], bound, atLeast) == (if (if atLeast then v >= bound else v < bound) then [x, y] else [])
  {
    var xs := [(x, v), (y, v)];
    assert xs[1..] == [(y, v)] && xs[1..][1..] == [];
    if (if atLeast then v >= bound else v < bound) {
      assert Select(xs, bound, atLeast) == [x] + ([y] + []);
      assert [x] + ([y] + []) == [x, y];
    } else {
      assert Select(xs, bound, atLeast) == [] + ([] + []);
    }
  }

  /** The items hold each (component, score) pair at most once. */
  lemma ItemsCountAtMostOne(v: real, f: real, c: real, p: real, y: Scored)
    ensures multiset(Items(v, f, c, p))[y] <= 1
  {
    var items := Items(v, f, c, p);
    assert items == [(Voice, v)] + [(Facial, f)] + [(Content, c)] + [(Pacing, p)];
    assert multiset(items) == multiset{(Voice, v)} + multiset{(Facial, f)} + multiset{(Content, c)} + multiset{(Pacing, p)};
  }

  /** Sorting puts every component in exactly one position. */
  lemma SortedDistinct(v: real, f: real, c: real, p: real)
    ensures forall i, j :: 0 <= i < j < 4 ==> SortedScores(v, f, c, p)[i].0 != SortedScores(v, f, c, p)[j].0
  {
    var s := SortedScores(v, f, c, p);
    SortedEntries(v, f, c, p);
    forall i, j | 0 <= i < j < 4 ensures s[i].0 != s[j].0 {
      if s[i].0 == s[j].0 {
        assert s[i] == s[j];
        DuplicateCount(s, i, j);
        ItemsCountAtMostOne(v, f, c, p, s[i]);
      }
    }
  }

  /** The first three sorted components are distinct, in non-increasing score order, and the fourth scores lowest. */
  lemma SortedTopThree(a: real, b: real, c: real, d: real)
    ensures var s := SortedScores(a, b, c, d);
      && s[0].0 != s[1].0 && s[0].0 != s[2].0 && s[1].0 != s[2].0
      && ScoreOf(a, b, c, d, s[0].0) >= ScoreOf(a, b, c, d, s[1].0) >= ScoreOf(a, b, c, d, s[2].0)
      && forall x :: x != s[0].0 && x != s[1].0 && x != s[2].0 ==> ScoreOf(a, b, c, d, x) <= ScoreOf(a, b, c, d, s[2].0)
  {
    var s := SortedScores(a, b, c, d);
    SortedEntries(a, b, c, d);
    SortedDistinct(a, b, c, d);
    assert ScoreKey(s[0]) >= ScoreKey(s[1]) >= ScoreKey(s[2]) >= ScoreKey(s[3]);
    TopThreeOfRanking(s, a, b, c, d);
  }

  /** Four distinct components ranked by non-increasing score: the first three lead and the fourth trails. */
  lemma TopThreeOfRanking(s: seq<Scored>, a: real, b: real, c: real, d: real)
    requires |s| == 4
    requires forall i :: 0 <= i < 4 ==> s[i] == (s[i].0, ScoreOf(a, b, c, d, s[i].0))
    requires forall i, j :: 0 <= i < j < 4 ==> s[i].0 != s[j].0
    requires s[0].1 >= s[1].1 >= s[2].1 >= s[3].1
    ensures forall x :: x != s[0].0 && x != s[1].0 && x != s[2].0 ==> ScoreOf(a, b, c, d, x) <= ScoreOf(a, b, c, d, s[2].0)
  {
    assert s[2].1 == ScoreOf(a, b, c, d, s[2].0);
    forall x | x != s[0].0 && x != s[1].0 && x != s[2].0
      ensures ScoreOf(a, b, c, d, x) <= ScoreOf(a, b, c, d, s[2].0)
    {
      assert s[0].0 != s[3].0 && s[1].0 != s[3].0 && s[2].0 != s[3].0;
      assert x == s[3].0;
      assert s[3].1 == ScoreOf(a, b, c, d, x);
    }
  }

  /** How much a component's shortfall matters: its weight times the points it is missing. */
  function Importance(w: Weights, v: real, f: real, c: real, p: real, x: Component): real {
    WeightOf(w, x) * (100.0 - ScoreOf(v, f, c, p, x))
  }

  /** `_prioritize_feedback`: the three components with the largest weighted shortfall, largest first. */
  function FeedbackPriority(w: Weights, v: real, f: real, c: real, p: real): (r: seq<Component>)
    ensures |r| == 3
  {
    var s := SortedScores(Importance(w, v, f, c, p, Voice), Importance(w, v, f, c, p, Facial),
                          Importance(w, v, f, c, p, Content), Importance(w, v, f, c, p, Pacing));
    [s[0].0, s[1].0, s[2].0]
  }

  /** The priority list names three different components in non-increasing importance, and the one left out matters least. */
  lemma PriorityByImportance(w: Weights, v: real, f: real, c: real, p: real)
    ensures var r := FeedbackPriority(w, v, f, c, p);
      && r[0] != r[1] && r[0] != r[2] && r[1] != r[2]
      && Importance(w, v, f, c, p, r[0]) >= Importance(w, v, f, c, p, r[1]) >= Importance(w, v, f, c, p, r[2])
      && forall x :: x !in r ==> Importance(w, v, f, c, p, x) <= Importance(w, v, f, c, p, r[2])
  {
    var iv, ifa, ic, ip := Importance(w, v, f, c, p, Voice), Importance(w, v, f, c, p, Facial),
                           Importance(w, v, f, c, p, Content), Importance(w, v, f, c, p, Pacing);
    SortedTopThree(iv, ifa, ic, ip);
    var s := SortedScores(iv, ifa, ic, ip);
    var r := FeedbackPriority(w, v, f, c, p);
    assert r == [s[0].0, s[1].0, s[2].0];
    ImportanceAsScore(w, v, f, c, p, r[0]);
    ImportanceAsScore(w, v, f, c, p, r[1]);
    ImportanceAsScore(w, v, f, c, p, r[2]);
    forall x | x !in r ensures Importance(w, v, f, c, p, x) <= Importance(w, v, f, c, p, r[2]) {
      ImportanceAsScore(w, v, f, c, p, x);
    }
  }

  lemma ImportanceAsScore(w: Weights, v: real, f: real, c: real, p: real, x: Component)
    ensures ScoreOf(Importance(w, v, f, c, p, Voice), Importance(w, v, f, c, p, Facial),
                    Importance(w, v, f, c, p, Content), Importance(w, v, f, c, p, Pacing), x)
         == Importance(w, v, f, c, p, x)
  {
  }

  // ---------------------------------------------------------------- calculate_score

  datatype ScoreResult = ScoreResult(
    total: real, voice: real, facial: real, content: real, pacing: real,
    grade: Grade, feedbackPriority: seq<Component>, strengths: seq<Component>, weaknesses: seq<Component>,
    isGoodFrame: bool)

  /** The scoring system's state: its difficulty level and every result computed so far. */
  datatype ScoringSystem = ScoringSystem(level: Difficulty.Level, history: seq<ScoreResult>)

  /** The constructor: `difficulty_weights[difficulty]` raises KeyError for any other name. */
  function NewScoringSystem(difficulty: string): (r: Result<ScoringSystem, string>)
    ensures r.Ok? <==> Difficulty.ParseLevel(difficulty).Some?
    ensures r.Ok? ==> r.value.history == [] && Difficulty.LevelName(r.value.level) == difficulty
    ensures r.Err? ==> r.error == "KeyError"
  {
    match Difficulty.ParseLevel(difficulty)
    case Some(l) => Ok(ScoringSystem(l, []))
    case None => Err("KeyError")
  }

  function WeightedSum(w: Weights, v: real, f: real, c: real, p: real): real {
    v * w.voice + f * w.facial + c * w.content + p * w.pacing
  }

  /** The weighted sum is a convex combination, so it lies between the lowest and the highest component. */
  lemma WeightedSumBetween(l: Difficulty.Level, v: real, f: real, c: real, p: real)
    ensures Min(Min(v, f), Min(c, p)) <= WeightedSum(WeightsOf(l), v, f, c, p) <= Max(Max(v, f), Max(c, p))
  {
    var lo := Min(Min(v, f), Min(c, p));
    var hi := Max(Max(v, f), Max(c, p));
    assert lo <= v <= hi && lo <= f <= hi && lo <= c <= hi && lo <= p <= hi;
    match l
    case Beginner =>
    case Intermediate =>
    case Expert =>
  }

  /** A result is well formed: scores in range, grade and good-frame flag consistent with the total. */
  ghost predicate WellFormed(r: ScoreResult, l: Difficulty.Level) {
    && 0.0 <= r.total <= 100.0 && 0.0 <= r.voice <= 100.0 && 0.0 <= r.facial <= 100.0
    && 0.0 <= r.content <= 100.0 && 0.0 <= r.pacing <= 100.0
    && r.grade == GradeOf(r.total)
    && (r.isGoodFrame <==> r.total >= WeightsOf(l).minScoreThreshold)
    && |r.feedbackPriority| == 3 && |r.strengths| <= 2 && |r.weaknesses| <= 2
  }

  /** `calculate_score`: score one frame and append the result to the history. */
  function CalculateScore(sys: ScoringSystem, vm: Option<VoiceFields>, fm: Option<FacialFields>,
                          cm: Option<ContentFields>, pm: Option<PacingFields>): (r: (ScoringSystem, ScoreResult))
    ensures r.0 == sys.(history := sys.history + [r.1])
    ensures r.1.voice == VoiceScore(vm) && r.1.facial == FacialScore(fm)
    ensures r.1.content == ContentScore(cm) && r.1.pacing == PacingScore(pm)
    ensures r.1.total == WeightedSum(WeightsOf(sys.level), r.1.voice, r.1.facial, r.1.content, r.1.pacing)
    ensures Min(Min(r.1.voice, r.1.facial), Min(r.1.content, r.1.pacing)) <= r.1.total
         <= Max(Max(r.1.voice, r.1.facial), Max(r.1.content, r.1.pacing))
    ensures r.1.strengths == PerformanceAreas(r.1.voice, r.1.facial, r.1.content, r.1.pacing).0
    ensures r.1.weaknesses == PerformanceAreas(r.1.voice, r.1.facial, r.1.content, r.1.pacing).1
    ensures r.1.feedbackPriority == FeedbackPriority(WeightsOf(sys.level), r.1.voice, r.1.facial, r.1.content, r.1.pacing)
    ensures WellFormed(r.1, sys.level)
  {
    var w := WeightsOf(sys.level);
    var v, f, c, p := VoiceScore(vm), FacialScore(fm), ContentScore(cm), PacingScore(pm);
    WeightedSumBetween(sys.level, v, f, c, p);
    var total := Clamp(WeightedSum(w, v, f, c, p), 0.0, 100.0);
    var areas := PerformanceAreas(v, f, c, p);
    PerformanceAreasByRank(v, f, c, p);
    var result := ScoreResult(total, v, f, c, p, GradeOf(total), FeedbackPriority(w, v, f, c, p),
                              areas.0, areas.1, total >= w.minScoreThreshold);
    (sys.(history := sys.history + [result]), result)
  }

  // ---------------------------------------------------------------- session summary

  datatype Area = TotalArea | ComponentArea(c: Component)

  /** The keys of `avg_scores`, in insertion order; `max`/`min` return the first extreme key. */
  const Areas: seq<Area> := [TotalArea, ComponentArea(Voice), ComponentArea(Facial), ComponentArea(Content), ComponentArea(Pacing)]

  datatype Averages = Averages(total: real, voice: real, facial: real, content: real, pacing: real)

  function AreaValues(a: Averages): seq<real> {
    [a.total, a.voice, a.facial, a.content, a.pacing]
  }

  datatype Trend = Improving | Declining | Stable | InsufficientData

  datatype SessionSummary = SessionSummary(
    avgScore: real, maxScore: real, minScore: real, componentAverages: Option<Averages>,
    best: Option<Area>, worst: Option<Area>, trend: Trend, totalFrames: nat, goodFramesCount: Option<nat>)

  function Totals(h: seq<ScoreResult>): (xs: seq<real>)
    ensures |xs| == |h| && forall i :: 0 <= i < |h| ==> xs[i] == h[i].total
  {
    seq(|h|, i requires 0 <= i < |h| => h[i].total)
  }

  function Series(h: seq<ScoreResult>, x: Component): (xs: seq<real>)
    ensures |xs| == |h| && forall i :: 0 <= i < |h| ==> xs[i] == ScoreOf(h[i].voice, h[i].facial, h[i].content, h[i].pacing, x)
  {
    seq(|h|, i requires 0 <= i < |h| => ScoreOf(h[i].voice, h[i].facial, h[i].content, h[i].pacing, x))
  }

  function GoodFrames(h: seq<ScoreResult>): (n: nat)
    ensures n <= |h|
  {
    if h == [] then 0 else (if h[0].isGoodFrame then 1 else 0) + GoodFrames(h[1..])
  }

  /** The trend: more than five totals compare the later half's mean with the earlier half's, with a ±5 % band. */
  function TrendOf(scores: seq<real>): (t: Trend)
    ensures t == InsufficientData <==> 1 <= |scores| <= 5
    ensures |scores| == 0 ==> t == Stable
  {
    if |scores| == 0 then Stable
    else if |scores| <= 5 then InsufficientData
    else
      var half := |scores| / 2;
      var first := Mean(scores[..half]);
      var second := Mean(scores[half..]);
      if second > first * 1.05 then Improving
      else if second < first * 0.95 then Declining
      else Stable
  }

  function GetSessionSummary(sys: ScoringSystem): (s: SessionSummary)
    ensures s.totalFrames == |sys.history|
    ensures s.trend == TrendOf(Totals(sys.history))
    ensures sys.history == [] ==> s == SessionSummary(0.0, 0.0, 0.0, None, None, None, Stable, 0, None)
    ensures sys.history != [] ==>
      && s.minScore <= s.avgScore <= s.maxScore
      && (forall i :: 0 <= i < |sys.history| ==> s.minScore <= Totals(sys.history)[i] <= s.maxScore)
      && (exists i :: 0 <= i < |sys.history| && Totals(sys.history)[i] == s.maxScore)
      && (exists i :: 0 <= i < |sys.history| && Totals(sys.history)[i] == s.minScore)
      && s.goodFramesCount == Some(GoodFrames(sys.history))
      && s.componentAverages == Some(AveragesOf(sys.history)) && s.avgScore == s.componentAverages.value.total
      && s.best.Some? && s.worst.Some?
  {
    var h := sys.history;
    if h == [] then SessionSummary(0.0, 0.0, 0.0, None, None, None, Stable, 0, None)
    else
      var scores := Totals(h);
      var avg := AveragesOf(h);
      MeanBetweenMinAndMax(scores);
      SessionSummary(avg.total, MaxOf(scores), MinOf(scores), Some(avg),
                     Some(Areas[ArgMaxFirst(AreaValues(avg))]), Some(Areas[ArgMinFirst(AreaValues(avg))]),
                     TrendOf(scores), |h|, Some(GoodFrames(h)))
  }

  /** The mean total and the mean of each component over the history. */
  function AveragesOf(h: seq<ScoreResult>): (avg: Averages)
    ensures avg.total == Mean(Totals(h))
  {
    Averages(Mean(Totals(h)), Mean(Series(h, Voice)), Mean(Series(h, Facial)),
             Mean(Series(h, Content)), Mean(Series(h, Pacing)))
  }

  /** The best area has the highest average and comes first among equals; the worst likewise with the lowest. */
  lemma BestAndWorstAreas(sys: ScoringSystem)
    requires sys.history != []
    ensures var s := GetSessionSummary(sys); var vals := AreaValues(s.componentAverages.value);
      && (exists i :: 0 <= i < 5 && Areas[i] == s.best.value
            && (forall j :: 0 <= j < 5 ==> vals[j] <= vals[i]) && (forall j :: 0 <= j < i ==> vals[j] < vals[i]))
      && (exists i :: 0 <= i < 5 && Areas[i] == s.worst.value
            && (forall j :: 0 <= j < 5 ==> vals[i] <= vals[j]) && (forall j :: 0 <= j < i ==> vals[i] < vals[j]))
  {
    var s := GetSessionSummary(sys);
    var vals := AreaValues(s.componentAverages.value);
    var bi := ArgMaxFirst(vals);
    var wi := ArgMinFirst(vals);
    assert Areas[bi] == s.best.value;
    assert Areas[wi] == s.worst.value;
  }

  /** Every average lies in [0, 100] when every result does. */
  lemma AveragesInRange(sys: ScoringSystem)
    requires sys.history != []
    requires forall i :: 0 <= i < |sys.history| ==> WellFormed(sys.history[i], sys.level)
    ensures var vals := AreaValues(GetSessionSummary(sys).componentAverages.value);
      forall j :: 0 <= j < 5 ==> 0.0 <= vals[j] <= 100.0
  {
    var h := sys.history;
    var avg := AveragesOf(h);
    assert AreaValues(avg) == [Mean(Totals(h)), Mean(Series(h, Voice)), Mean(Series(h, Facial)),
                               Mean(Series(h, Content)), Mean(Series(h, Pacing))];
    forall i | 0 <= i < |h|
      ensures 0.0 <= Totals(h)[i] <= 100.0
    {
      assert WellFormed(h[i], sys.level);
    }
    MeanWithin(Totals(h), 0.0, 100.0);
    SeriesWithin(h, sys.level, Voice);
    SeriesWithin(h, sys.level, Facial);
    SeriesWithin(h, sys.level, Content);
    SeriesWithin(h, sys.level, Pacing);
  }

  lemma SeriesWithin(h: seq<ScoreResult>, l: Difficulty.Level, x: Component)
    requires h != []
    requires forall i :: 0 <= i < |h| ==> WellFormed(h[i], l)
    ensures 0.0 <= Mean(Series(h, x)) <= 100.0
  {
    var xs := Series(h, x);
    forall i | 0 <= i < |xs|
      ensures 0.0 <= xs[i] <= 100.0
    {
      assert WellFormed(h[i], l);
    }
    MeanWithin(xs, 0.0, 100.0);
  }

  lemma {:induction false} GoodFramesAppend(h: seq<ScoreResult>, r: ScoreResult)
    ensures GoodFrames(h + [r]) == GoodFrames(h) + (if r.isGoodFrame then 1 else 0)
    decreases |h|
  {
    if h == [] {
      assert h + [r] == [r];
      assert [r][1..] == [];
    } else {
      assert (h + [r])[1..] == h[1..] + [r];
      GoodFramesAppend(h[1..], r);
    }
  }

  /** Appending a result adds one frame to the summary, and one good frame exactly when the result is good. */
  lemma SummaryAfterAppend(sys: ScoringSystem, r: ScoreResult)
    ensures GetSessionSummary(sys.(history := sys.history + [r])).totalFrames == |sys.history| + 1
    ensures GetSessionSummary(sys.(history := sys.history + [r])).goodFramesCount ==
      Some(GoodFrames(sys.history) + (if r.isGoodFrame then 1 else 0))
  {
    GoodFramesAfterAppend(sys, r);
  }

  lemma GoodFramesAfterAppend(sys: ScoringSystem, r: ScoreResult)
    ensures GetSessionSummary(sys.(history := sys.history + [r])).goodFramesCount ==
      Some(GoodFrames(sys.history) + (if r.isGoodFrame then 1 else 0))
  {
    GoodFramesAppend(sys.history, r);
    GoodCountOfNonEmpty(sys.(history := sys.history + [r]));
  }

  lemma GoodCountOfNonEmpty(sys: ScoringSystem)
    requires sys.history != []
    ensures GetSessionSummary(sys).goodFramesCount == Some(GoodFrames(sys.history))
  {
  }

  /** A session whose totals never change is stable. */
  lemma ConstantIsStable(scores: seq<real>, c: real)
    requires |scores| > 5 && c >= 0.0
    requires forall i :: 0 <= i < |scores| ==> scores[i] == c
    ensures TrendOf(scores) == Stable
  {
    var half := |scores| / 2;
    MeanWithin(scores[..half], c, c);
    MeanWithin(scores[half..], c, c);
  }

  /** If every later total clears every earlier one by more than 5 %, the session is improving. */
  lemma RisingIsImproving(scores: seq<real>, a: real, b: real)
    requires |scores| > 5 && a >= 0.0 && b > a * 1.05
    requires forall i :: 0 <= i < |scores| / 2 ==> 0.0 <= scores[i] <= a
    requires forall i :: |scores| / 2 <= i < |scores| ==> scores[i] >= b
    ensures TrendOf(scores) == Improving
  {
    var half := |scores| / 2;
    MeanWithin(scores[..half], 0.0, a);
    var second := scores[half..];
    SumLowerBound(second, b);
    DivBounds(Sum(second), |second| as real, b, Sum(second) / (|second| as real));
  }

  /** If every later total falls short of every earlier one by more than 5 %, the session is declining. */
  lemma FallingIsDeclining(scores: seq<real>, a: real, b: real)
    requires |scores| > 5 && a >= 0.0 && b < a * 0.95
    requires forall i :: 0 <= i < |scores| / 2 ==> scores[i] >= a
    requires forall i :: |scores| / 2 <= i < |scores| ==> scores[i] <= b
    ensures TrendOf(scores) == Declining
  {
    var half := |scores| / 2;
    var first := scores[..half];
    var second := scores[half..];
    SumLowerBound(first, a);
    DivBounds(Sum(first), |first| as real, a, Sum(first) / (|first| as real));
    SumUpperBound(second, b);
    DivBounds(Sum(second), |second| as real, Sum(second) / (|second| as real), b);
  }
}

=== FILE: sorting.dfy ===
/**
 * Python's `sorted(items, key=k, reverse=True)`: a stable sort into non-increasing key order.
 * Elements with equal keys keep their input order.
 */
module Sorting {

  ghost predicate NonIncreasing<T>(s: seq<T>, key: T -> real) {
    forall i, j :: 0 <= i < j < |s| ==> key(s[i]) >= key(s[j])
  }

  /** The elements of `s` whose key is exactly `k`, in order. */
  function WithKey<T>(s: seq<T>, key: T -> real, k: real): seq<T> {
    if s == [] then [] else (if key(s[0]) == k then [s[0]] else []) + WithKey(s[1..], key, k)
  }

  lemma {:induction false} WithKeyCons<T>(y: T, t: seq<T>, key: T -> real, k: real)
    ensures WithKey([y] + t, key, k) == (if key(y) == k then [y] else []) + WithKey(t, key, k)
  {
    assert ([y] + t)[1..] == t;
  }

  /** A sequence whose head carries key `k` keeps that head first among its key-`k` elements. */
  lemma WithKeyHead<T>(s: seq<T>, key: T -> real, k: real)
    requires |s| > 0 && key(s[0]) == k
    ensures WithKey(s, key, k) != [] && WithKey(s, key, k)[0] == s[0]
  {
  }

  lemma {:induction false} WithKeyNone<T>(s: seq<T>, key: T -> real, k: real)
    requires forall i :: 0 <= i < |s| ==> key(s[i]) != k
    ensures WithKey(s, key, k) == []
    decreases |s|
  {
    if s != [] {
      WithKeyNone(s[1..], key, k);
    }
  }

  lemma {:induction false} WithKeyAppend<T>(a: seq<T>, b: seq<T>, key: T -> real, k: real)
    ensures WithKey(a + b, key, k) == WithKey(a, key, k) + WithKey(b, key, k)
    decreases |a|
  {
    if a == [] {
      assert a + b == b;
    } else {
      assert a + b == [a[0]] + (a[1..] + b);
      WithKeyCons(a[0], a[1..] + b, key, k);
      WithKeyAppend(a[1..], b, key, k);
      assert a == [a[0]] + a[1..];
      WithKeyCons(a[0], a[1..], key, k);
    }
  }

  /** Insert `x` behind every element whose key is at least `key(x)`. */
  function Insert<T>(s: seq<T>, x: T, key: T -> real): (r: seq<T>)
    ensures |r| == |s| + 1
    ensures multiset(r) == multiset(s) + multiset{x}
    decreases |s|
  {
    if s == [] then [x]
    else if key(s[0]) >= key(x) then
      var r := [s[0]] + Insert(s[1..], x, key);
      assert s == [s[0]] + s[1..];
      r
    else [x] + s
  }

  lemma {:induction false} InsertSorted<T>(s: seq<T>, x: T, key: T -> real)
    requires NonIncreasing(s, key)
    ensures NonIncreasing(Insert(s, x, key), key)
    decreases |s|
  {
    if s != [] && key(s[0]) >= key(x) {
      var tail := Insert(s[1..], x, key);
      var r := [s[0]] + tail;
      InsertSorted(s[1..], x, key);
      forall i, j | 0 <= i < j < |r| ensures key(r[i]) >= key(r[j]) {
        if i == 0 {
          assert r[j] == tail[j - 1];
          InsertedFromBelowHead(s, x, key, tail[j - 1]);
        } else {
          assert r[i] == tail[i - 1] && r[j] == tail[j - 1];
        }
      }
    }
  }

  /** Whatever the insertion into the tail holds is no greater than the head it goes behind. */
  lemma InsertedFromBelowHead<T>(s: seq<T>, x: T, key: T -> real, y: T)
    requires NonIncreasing(s, key)
    requires s != [] && key(s[0]) >= key(x)
    requires y in multiset(Insert(s[1..], x, key))
    ensures key(s[0]) >= key(y)
  {
    var t := s[1..];
    assert y in multiset(t) || y == x;
    if y != x {
      var m :| 0 <= m < |t| && t[m] == y;
      assert s[m + 1] == y;
    }
  }

  /** When `x` goes in front, every element of `s` has a smaller key than `x`. */
  lemma {:induction false} InsertFrontBelow<T>(s: seq<T>, x: T, key: T -> real)
    requires NonIncreasing(s, key)
    requires s != [] && key(s[0]) < key(x)
    ensures forall i :: 0 <= i < |s| ==> key(s[i]) != key(x)
  {
    forall i | 0 <= i < |s| ensures key(s[i]) != key(x) {
      if i > 0 {
        assert key(s[0]) >= key(s[i]);
      }
    }
  }

  lemma {:induction false} InsertStableFront<T>(s: seq<T>, x: T, key: T -> real, k: real)
    requires NonIncreasing(s, key)
    requires s != [] && key(s[0]) < key(x)
    ensures WithKey(Insert(s, x, key), key, k) ==
      (if key(x) == k then WithKey(s, key, k) + [x] else WithKey(s, key, k))
  {
    var r := Insert(s, x, key);
    assert r == [x] + s;
    WithKeyCons(x, s, key, k);
    var w := WithKey(s, key, k);
    if key(x) == k {
      InsertFrontBelow(s, x, key);
      WithKeyNone(s, key, k);
      assert w == [];
      assert WithKey(r, key, k) == [x] + w;
      assert [x] + [] == [] + [x];
    } else {
      assert WithKey(r, key, k) == [] + w;
      assert [] + w == w;
    }
  }

  lemma {:induction false} InsertStable<T>(s: seq<T>, x: T, key: T -> real, k: real)
    requires NonIncreasing(s, key)
    ensures WithKey(Insert(s, x, key), key, k) ==
      (if key(x) == k then WithKey(s, key, k) + [x] else WithKey(s, key, k))
    decreases |s|
  {
    if s == [] {
      var r := Insert(s, x, key);
      assert r == [x] + [];
      WithKeyCons(x, [], key, k);
      assert WithKey(r, key, k) == (if key(x) == k then [x] else []) + [];
    } else if key(s[0]) >= key(x) {
      TailNonIncreasing(s, key);
      InsertStable(s[1..], x, key, k);
      assert Insert(s, x, key) == [s[0]] + Insert(s[1..], x, key);
      assert s == [s[0]] + s[1..];
      WithKeyBehind(s[0], Insert(s[1..], x, key), s[1..], x, key, k);
    } else {
      InsertStableFront(s, x, key, k);
    }
  }

  lemma TailNonIncreasing<T>(s: seq<T>, key: T -> real)
    requires NonIncreasing(s, key) && s != []
    ensures NonIncreasing(s[1..], key)
  {
    var t := s[1..];
    forall i, j | 0 <= i < j < |t|
      ensures key(t[i]) >= key(t[j])
    {
      assert t[i] == s[i + 1] && t[j] == s[j + 1];
    }
  }

  /** Putting the same element in front of both sides keeps "the key-`k` elements of `t` are those of `u`, plus `x` last when it has key `k`". */
  lemma WithKeyBehind<T>(y: T, t: seq<T>, u: seq<T>, x: T, key: T -> real, k: real)
    requires WithKey(t, key, k) == (if key(x) == k then WithKey(u, key, k) + [x] else WithKey(u, key, k))
    ensures WithKey([y] + t, key, k) ==
      (if key(x) == k then WithKey([y] + u, key, k) + [x] else WithKey([y] + u, key, k))
  {
    WithKeyCons(y, t, key, k);
    WithKeyCons(y, u, key, k);
    var head := if key(y) == k then [y] else [];
    if key(x) == k {
      assert head + (WithKey(u, key, k) + [x]) == (head + WithKey(u, key, k)) + [x];
    }
  }

  /** Stable descending sort: insert the elements one by one, left to right. */
  function SortDesc<T>(xs: seq<T>, key: T -> real): (r: seq<T>)
    ensures |r| == |xs|
    ensures multiset(r) == multiset(xs)
    ensures NonIncreasing(r, key)
    decreases |xs|
  {
    if xs == [] then []
    else
      var init := xs[..|xs| - 1];
      var last := xs[|xs| - 1];
      assert xs == init + [last];
      var sorted := SortDesc(init, key);
      InsertSorted(sorted, last, key);
      Insert(sorted, last, key)
  }

  /** Sorting keeps, for every key value, the input order of the elements carrying it. */
  lemma {:induction false} SortDescStable<T>(xs: seq<T>, key: T -> real, k: real)
    ensures WithKey(SortDesc(xs, key), key, k) == WithKey(xs, key, k)
    decreases |xs|
  {
    if xs != [] {
      var init := xs[..|xs| - 1];
      var last := xs[|xs| - 1];
      assert xs == init + [last];
      SortDescStable(init, key, k);
      InsertStable(SortDesc(init, key), last, key, k);
      WithKeyAppend(init, [last], key, k);
      WithKeyCons(last, [], key, k);
      assert [last] + [] == [last];
    }
  }

  /** An element no greater than everything already there goes to the end. */
  lemma {:induction false} InsertAtEnd<T>(s: seq<T>, x: T, key: T -> real)
    requires forall i :: 0 <= i < |s| ==> key(s[i]) >= key(x)
    ensures Insert(s, x, key) == s + [x]
    decreases |s|
  {
    if s != [] {
      var t := s[1..];
      forall i | 0 <= i < |t|
        ensures key(t[i]) >= key(x)
      {
        assert t[i] == s[i + 1];
      }
      InsertAtEnd(t, x, key);
      assert key(s[0]) >= key(x);
      assert Insert(s, x, key) == [s[0]] + (t + [x]);
      assert s == [s[0]] + t;
      assert [s[0]] + (t + [x]) == s + [x];
    }
  }

  /** When every key is equal the sort changes nothing. */
  lemma {:induction false} SortDescAllTied<T>(xs: seq<T>, key: T -> real, k: real)
    requires forall i :: 0 <= i < |xs| ==> key(xs[i]) == k
    ensures SortDesc(xs, key) == xs
    decreases |xs|
  {
    if xs != [] {
      var init := xs[..|xs| - 1];
      var last := xs[|xs| - 1];
      assert xs == init + [last];
      SortDescAllTied(init, key, k);
      InsertAtEnd(init, last, key);
    }
  }

  /** An element at two positions occurs at least twice. */
  lemma DuplicateCount<T>(s: seq<T>, i: nat, j: nat)
    requires i < j < |s| && s[i] == s[j]
    ensures multiset(s)[s[i]] >= 2
  {
    var y := s[i];
    assert s == s[..i] + [y] + s[i + 1..j] + [y] + s[j + 1..];
    assert multiset(s) == multiset(s[..i]) + multiset{y} + multiset(s[i + 1..j]) + multiset{y} + multiset(s[j + 1..]);
  }

  /** Whether `x` lies strictly above `v` (when `up`) or strictly below it (otherwise). */
  predicate Beyond<T>(x: T, key: T -> real, v: real, up: bool) {
    if up then key(x) > v else key(x) < v
  }

  /** How many elements of `s` have a key strictly above (`up`) or strictly below `v`. */
  function CountBeyond<T>(s: seq<T>, key: T -> real, v: real, up: bool): (n: nat)
    ensures n <= |s|
  {
    if s == [] then 0 else (if Beyond(s[0], key, v, up) then 1 else 0) + CountBeyond(s[1..], key, v, up)
  }

  function CountAbove<T>(s: seq<T>, key: T -> real, v: real): nat {
    CountBeyond(s, key, v, true)
  }

  function CountBelow<T>(s: seq<T>, key: T -> real, v: real): nat {
    CountBeyond(s, key, v, false)
  }

  lemma {:induction false} CountBeyondAppend<T>(a: seq<T>, b: seq<T>, key: T -> real, v: real, up: bool)
    ensures CountBeyond(a + b, key, v, up) == CountBeyond(a, key, v, up) + CountBeyond(b, key, v, up)
    decreases |a|
  {
    if a == [] {
      assert a + b == b;
    } else {
      assert (a + b)[1..] == a[1..] + b;
      CountBeyondAppend(a[1..], b, key, v, up);
    }
  }

  lemma {:induction false} CountBeyondNone<T>(s: seq<T>, key: T -> real, v: real, up: bool)
    requires forall i :: 0 <= i < |s| ==> !Beyond(s[i], key, v, up)
    ensures CountBeyond(s, key, v, up) == 0
    decreases |s|
  {
    if s != [] {
      CountBeyondNone(s[1..], key, v, up);
    }
  }

  /** Counting is insensitive to order: a permutation has the same count. */
  lemma {:induction false} CountBeyondPerm<T>(s: seq<T>, t: seq<T>, key: T -> real, v: real, up: bool)
    requires multiset(s) == multiset(t)
    ensures CountBeyond(s, key, v, up) == CountBeyond(t, key, v, up)
    decreases |s|
  {
    if s == [] {
      assert |t| == |multiset(t)| == 0;
    } else {
      var x := s[0];
      assert x in multiset(t);
      var j :| 0 <= j < |t| && t[j] == x;
      var rest := t[..j] + t[j + 1..];
      RemoveMatching(s, t, j);
      CountBeyondPerm(s[1..], rest, key, v, up);
      CountWithout(t, j, key, v, up);
    }
  }

  /** Taking the head off `s` and a copy of it off its permutation `t` leaves permutations. */
  lemma RemoveMatching<T>(s: seq<T>, t: seq<T>, j: nat)
    requires multiset(s) == multiset(t) && s != [] && j < |t| && t[j] == s[0]
    ensures multiset(s[1..]) == multiset(t[..j] + t[j + 1..])
  {
    var x := s[0];
    var rest := t[..j] + t[j + 1..];
    assert t == t[..j] + [x] + t[j + 1..];
    assert s == [x] + s[1..];
    assert multiset(t) == multiset(t[..j]) + multiset([x]) + multiset(t[j + 1..]);
    assert multiset(rest) == multiset(t[..j]) + multiset(t[j + 1..]);
    assert multiset(s) == multiset([x]) + multiset(s[1..]);
    forall y
      ensures multiset(s[1..])[y] == multiset(rest)[y]
    {
      assert (multiset([x]) + multiset(s[1..]))[y] == (multiset([x]) + multiset(rest))[y];
    }
  }

  /** Dropping position `j` lowers the count by one exactly when that element counts. */
  lemma CountWithout<T>(t: seq<T>, j: nat, key: T -> real, v: real, up: bool)
    requires j < |t|
    ensures CountBeyond(t, key, v, up)
         == CountBeyond(t[..j] + t[j + 1..], key, v, up) + (if Beyond(t[j], key, v, up) then 1 else 0)
  {
    assert t == (t[..j] + [t[j]]) + t[j + 1..];
    CountBeyondAppend(t[..j] + [t[j]], t[j + 1..], key, v, up);
    CountBeyondAppend(t[..j], [t[j]], key, v, up);
    CountBeyondAppend(t[..j], t[j + 1..], key, v, up);
    assert [t[j]][1..] == [];
  }

  /**
   * In a non-increasing sequence, the elements strictly above position `i` all sit before it and
   * the elements strictly below it all sit after it.
   */
  lemma PositionBounds<T>(s: seq<T>, key: T -> real, i: nat)
    requires NonIncreasing(s, key)
    requires i < |s|
    ensures CountAbove(s, key, key(s[i])) <= i
    ensures CountBelow(s, key, key(s[i])) <= |s| - 1 - i
  {
    var v := key(s[i]);
    assert s == s[..i] + s[i..];
    CountBeyondAppend(s[..i], s[i..], key, v, true);
    CountBeyondNone(s[i..], key, v, true);
    assert s == s[..i + 1] + s[i + 1..];
    CountBeyondAppend(s[..i + 1], s[i + 1..], key, v, false);
    CountBeyondNone(s[..i + 1], key, v, false);
  }

  /** The first `n` elements, or all of them when there are fewer (Python's `s[:n]`). */
  function Take<T>(s: seq<T>, n: nat): (r: seq<T>)
    ensures |r| <= n && |r| <= |s|
    ensures r == s[..|r|]
    ensures |r| == if n < |s| then n else |s|
  {
    if n < |s| then s[..n] else s
  }

  /** The last `n` elements, or all of them when there are fewer (Python's `s[-n:]`). */
  function TakeLast<T>(s: seq<T>, n: nat): (r: seq<T>)
    ensures |r| <= n && |r| <= |s|
    ensures r == s[|s| - |r|..]
    ensures |r| == if n < |s| then n else |s|
  {
    if n < |s| then s[|s| - n..] else s
  }

  /** Append to a `deque(maxlen=cap)`: the oldest entries drop out once `cap` is exceeded. */
  function PushBounded<T>(h: seq<T>, x: T, cap: nat): (r: seq<T>)
    requires cap >= 1
    ensures |r| == if |h| + 1 <= cap then |h| + 1 else cap
    ensures r[|r| - 1] == x
    ensures r[..|r| - 1] == h[|h| + 1 - |r|..]
  {
    TakeLast(h + [x], cap)
  }

  /** `s.count(x)`: the number of positions holding `x`. */
  function Occurrences<T(==)>(s: seq<T>, x: T): (n: nat)
    ensures n <= |s|
    ensures n > 0 <==> x in s
  {
    if s == [] then 0 else (if s[0] == x then 1 else 0) + Occurrences(s[1..], x)
  }

  /**
   * An element of `cands` that occurs in `all` at least as often as any other candidate:
   * `max(cands, key=all.count)`, resolving ties toward the earlier candidate.
   */
  function MostFrequent<T(==)>(all: seq<T>, cands: seq<T>): (r: T)
    requires |cands| > 0
    ensures r in cands
    ensures forall j :: 0 <= j < |cands| ==> Occurrences(all, cands[j]) <= Occurrences(all, r)
  {
    if |cands| == 1 then cands[0]
    else
      var best := MostFrequent(all, cands[..|cands| - 1]);
      if Occurrences(all, cands[|cands| - 1]) > Occurrences(all, best) then cands[|cands| - 1] else best
  }
}

=== FILE: stats.dfy ===
/** Sums, means and extrema over real-valued series, as numpy and Python builtins compute them. */
module Stats {

  function Sum(xs: seq<real>): real {
    if xs == [] then 0.0 else xs[0] + Sum(xs[1..])
  }

  /** Arithmetic mean; the sources guard every empty series and report 0 for it. */
  function Mean(xs: seq<real>): real {
    if |xs| == 0 then 0.0 else Sum(xs) / (|xs| as real)
  }

  function MinOf(xs: seq<real>): (m: real)
    requires |xs| > 0
    ensures forall i :: 0 <= i < |xs| ==> m <= xs[i]
    ensures exists i :: 0 <= i < |xs| && m == xs[i]
  {
    if |xs| == 1 then xs[0]
    else
      var rest := MinOf(xs[1..]);
      assert forall i :: 1 <= i < |xs| ==> xs[i] == xs[1..][i - 1];
      if xs[0] <= rest then xs[0] else rest
  }

  function MaxOf(xs: seq<real>): (m: real)
    requires |xs| > 0
    ensures forall i :: 0 <= i < |xs| ==> xs[i] <= m
    ensures exists i :: 0 <= i < |xs| && m == xs[i]
  {
    if |xs| == 1 then xs[0]
    else
      var rest := MaxOf(xs[1..]);
      assert forall i :: 1 <= i < |xs| ==> xs[i] == xs[1..][i - 1];
      if xs[0] >= rest then xs[0] else rest
  }

  lemma {:induction false} SumAppend(a: seq<real>, b: seq<real>)
    ensures Sum(a + b) == Sum(a) + Sum(b)
    decreases |a|
  {
    if a != [] {
      assert (a + b)[1..] == a[1..] + b;
      SumAppend(a[1..], b);
    } else {
      assert a + b == b;
    }
  }

  lemma {:induction false} SumLowerBound(xs: seq<real>, lo: real)
    requires forall i :: 0 <= i < |xs| ==> lo <= xs[i]
    ensures (|xs| as real) * lo <= Sum(xs)
    decreases |xs|
  {
    if xs != [] {
      SumLowerBound(xs[1..], lo);
      assert (|xs| as real) * lo == lo + (|xs[1..]| as real) * lo;
    }
  }

  lemma {:induction false} SumUpperBound(xs: seq<real>, hi: real)
    requires forall i :: 0 <= i < |xs| ==> xs[i] <= hi
    ensures Sum(xs) <= (|xs| as real) * hi
    decreases |xs|
  {
    if xs != [] {
      SumUpperBound(xs[1..], hi);
      assert (|xs| as real) * hi == hi + (|xs[1..]| as real) * hi;
    }
  }

  lemma DivBounds(a: real, n: real, lo: real, hi: real)
    requires n > 0.0
    requires n * lo <= a <= n * hi
    ensures lo <= a / n <= hi
  {
    var q := a / n;
    assert q * n == a;
  }

  /** The mean of a non-empty series, times its length, is its sum. */
  lemma MeanTimesCount(xs: seq<real>)
    requires |xs| > 0
    ensures Mean(xs) * (|xs| as real) == Sum(xs)
  {
    DivTimes(Sum(xs), |xs| as real);
  }

  lemma DivTimes(a: real, n: real)
    requires n != 0.0
    ensures (a / n) * n == a
  {
  }

  /** A mean lies between any lower and upper bound of its series. */
  lemma MeanWithin(xs: seq<real>, lo: real, hi: real)
    requires |xs| > 0
    requires forall i :: 0 <= i < |xs| ==> lo <= xs[i] <= hi
    ensures lo <= Mean(xs) <= hi
  {
    SumLowerBound(xs, lo);
    SumUpperBound(xs, hi);
    DivBounds(Sum(xs), |xs| as real, lo, hi);
  }

  /** The mean of a non-empty series lies between its minimum and its maximum. */
  lemma MeanBetweenMinAndMax(xs: seq<real>)
    requires |xs| > 0
    ensures MinOf(xs) <= Mean(xs) <= MaxOf(xs)
  {
    MeanWithin(xs, MinOf(xs), MaxOf(xs));
  }

  /** Number of positions holding `true`. */
  function CountTrue(bs: seq<bool>): (n: nat)
    ensures n <= |bs|
  {
    if bs == [] then 0 else (if bs[0] then 1 else 0) + CountTrue(bs[1..])
  }

  /** The positions of `bs` that hold true. */
  ghost function TrueAt(bs: seq<bool>): set<int> {
    set i | 0 <= i < |bs| && bs[i]
  }

  /** Counting can also peel off the last element. */
  lemma {:induction false} CountTrueSnoc(bs: seq<bool>, b: bool)
    ensures CountTrue(bs + [b]) == CountTrue(bs) + (if b then 1 else 0)
    decreases |bs|
  {
    if bs != [] {
      assert (bs + [b])[1..] == bs[1..] + [b];
      CountTrueSnoc(bs[1..], b);
    }
  }

  /** The true positions of a non-empty sequence: the head, if true, and those of the tail. */
  lemma TrueAtCons(bs: seq<bool>)
    requires bs != []
    ensures |TrueAt(bs)| == (if bs[0] then 1 else 0) + |TrueAt(bs[1..])|
  {
    CountTrueIsSize(bs);
    CountTrueIsSize(bs[1..]);
  }

  /** `CountTrue` is the number of true positions. */
  lemma {:induction false} CountTrueIsSize(bs: seq<bool>)
    ensures CountTrue(bs) == |TrueAt(bs)|
    decreases |bs|
  {
    if bs != [] {
      var n := |bs| - 1;
      var init := bs[..n];
      assert bs == init + [bs[n]];
      CountTrueIsSize(init);
      CountTrueSnoc(init, bs[n]);
      var last: set<int> := if bs[n] then {n} else {};
      forall i | i in TrueAt(bs) ensures i in TrueAt(init) + last {
        if i < n {
          assert init[i] == bs[i];
        }
      }
      forall i | i in TrueAt(init) ensures i in TrueAt(bs) {
        assert init[i] == bs[i];
      }
      assert TrueAt(bs) == TrueAt(init) + last;
      assert n !in TrueAt(init);
    }
  }

  /** `min(hi, max(lo, x))`: the value itself when already in range, otherwise the nearer bound. */
  function Clamp(x: real, lo: real, hi: real): (r: real)
    requires lo <= hi
    ensures lo <= r <= hi
    ensures lo <= x <= hi ==> r == x
    ensures x < lo ==> r == lo
    ensures x > hi ==> r == hi
  {
    if x < lo then lo else if x > hi then hi else x
  }

  /** One numeric field of every record, in record order. */
  function Column<T>(xs: seq<T>, field: T -> real): (ys: seq<real>)
    ensures |ys| == |xs|
    ensures forall i :: 0 <= i < |xs| ==> ys[i] == field(xs[i])
  {
    if xs == [] then [] else [field(xs[0])] + Column(xs[1..], field)
  }

  /** Python's `round(x)` on an exact value: the nearest integer, and the even one of two equally near. */
  function RoundHalfEven(x: real): (n: int)
    ensures x - 0.5 <= n as real <= x + 0.5
    ensures n as real - x == 0.5 || x - n as real == 0.5 ==> n % 2 == 0
  {
    var f := x.Floor;
    var frac := x - f as real;
    if frac < 0.5 then f else if frac > 0.5 then f + 1 else if f % 2 == 0 then f else f + 1
  }

  /** Rounding lands below an even integer exactly when the value is more than half a unit below it. */
  lemma RoundBelowEven(x: real, m: int)
    requires m % 2 == 0
    ensures RoundHalfEven(x) < m <==> x < m as real - 0.5
  {
    var n := RoundHalfEven(x);
    if x == m as real - 0.5 {
      assert n == m - 1 || n == m;
    }
  }

  /** Rounding lands above an even integer exactly when the value is more than half a unit above it. */
  lemma RoundAboveEven(x: real, m: int)
    requires m % 2 == 0
    ensures RoundHalfEven(x) > m <==> x > m as real + 0.5
  {
    var n := RoundHalfEven(x);
    if x == m as real + 0.5 {
      assert n == m || n == m + 1;
    }
  }

  /** Python's `round(x, d)` with `scale` standing for 10^d: the nearest multiple of 1/scale, ties to even. */
  function RoundTo(x: real, scale: real): (r: real)
    requires scale > 0.0
    ensures r * scale == RoundHalfEven(x * scale) as real
  {
    var n := RoundHalfEven(x * scale);
    var r := n as real / scale;
    assert r * scale == n as real;
    r
  }

  function Max(a: real, b: real): (r: real)
    ensures r >= a && r >= b && (r == a || r == b)
  {
    if a >= b then a else b
  }

  function Min(a: real, b: real): (r: real)
    ensures r <= a && r <= b && (r == a || r == b)
  {
    if a <= b then a else b
  }

  /** Index of the first greatest element, as Python's `max` picks it. */
  function ArgMaxFirst(xs: seq<real>): (i: nat)
    requires |xs| > 0
    ensures i < |xs|
    ensures forall j :: 0 <= j < |xs| ==> xs[j] <= xs[i]
    ensures forall j :: 0 <= j < i ==> xs[j] < xs[i]
  {
    if |xs| == 1 then 0
    else
      var k := ArgMaxFirst(xs[..|xs| - 1]);
      if xs[|xs| - 1] > xs[k] then |xs| - 1 else k
  }

  /** Index of the first least element, as Python's `min` picks it. */
  function ArgMinFirst(xs: seq<real>): (i: nat)
    requires |xs| > 0
    ensures i < |xs|
    ensures forall j :: 0 <= j < |xs| ==> xs[i] <= xs[j]
    ensures forall j :: 0 <= j < i ==> xs[i] < xs[j]
  {
    if |xs| == 1 then 0
    else
      var k := ArgMinFirst(xs[..|xs| - 1]);
      if xs[|xs| - 1] < xs[k] then |xs| - 1 else k
  }

  function Abs(x: real): (r: real)
    ensures r >= 0.0 && (r == x || r == -x)
  {
    if x >= 0.0 then x else -x
  }

  /** Python's `int()` on a float: truncation toward zero. */
  function Trunc(x: real): (n: int)
    ensures x >= 0.0 ==> 0 <= n && (n as real) <= x < (n as real) + 1.0
    ensures x < 0.0 ==> n <= 0 && (n as real) - 1.0 < x <= (n as real)
  {
    if x >= 0.0 then x.Floor else -((-x).Floor)
  }
}

=== FILE: text.dfy ===
/** The string operations the Python and TypeScript sources rely on, on `seq<char>`. */
module Text {

  /** Separators of Python's argument-less `str.split()` (the ASCII ones). */
  predicate IsSpace(c: char) {
    c == ' ' || c == '\t' || c == '\n' || c == '\r' || c == '\U{000B}' || c == '\U{000C}'
    || c == '\U{001C}' || c == '\U{001D}' || c == '\U{001E}' || c == '\U{001F}'
  }

  /** A token of `str.split()`: non-empty and free of separators. */
  ghost predicate IsWord(w: string) {
    |w| > 0 && forall i :: 0 <= i < |w| ==> !IsSpace(w[i])
  }

  /** True when the string holds nothing but separators. */
  ghost predicate Blank(s: string) {
    forall i :: 0 <= i < |s| ==> IsSpace(s[i])
  }

  /** Length of the leading run of non-separator characters. */
  function TokenLen(s: string): (n: nat)
    ensures n <= |s|
    ensures forall i :: 0 <= i < n ==> !IsSpace(s[i])
    ensures n < |s| ==> IsSpace(s[n])
    ensures |s| > 0 && !IsSpace(s[0]) ==> n >= 1
  {
    if s == [] || IsSpace(s[0]) then 0 else 1 + TokenLen(s[1..])
  }

  /** Python's `s.split()`: maximal runs of non-separators, in order. */
  function Words(s: string): (ws: seq<string>)
    ensures forall i :: 0 <= i < |ws| ==> IsWord(ws[i])
    ensures |ws| == 0 <==> Blank(s)
    decreases |s|
  {
    if s == [] then []
    else if IsSpace(s[0]) then
      var rest := Words(s[1..]);
      assert Blank(s[1..]) ==> Blank(s) by {
        if Blank(s[1..]) {
          forall i | 0 <= i < |s| ensures IsSpace(s[i]) {
            if i > 0 { assert s[i] == s[1..][i - 1]; }
          }
        }
      }
      rest
    else
      var n := TokenLen(s);
      [s[..n]] + Words(s[n..])
  }

  /** Python's `" ".join(ws)`. */
  function JoinSpace(ws: seq<string>): string {
    if |ws| == 0 then ""
    else if |ws| == 1 then ws[0]
    else ws[0] + " " + JoinSpace(ws[1..])
  }

  lemma TokenLenOfWordPrefix(w: string, t: string)
    requires IsWord(w)
    requires t == [] || IsSpace(t[0])
    ensures TokenLen(w + t) == |w|
    decreases |w|
  {
    if |w| > 1 {
      assert (w + t)[1..] == w[1..] + t;
      TokenLenOfWordPrefix(w[1..], t);
    } else {
      assert (w + t)[1..] == t;
    }
  }

  /** Splitting a word followed by a separated tail yields the word, then the tail's words. */
  lemma WordsOfWordThenTail(w: string, t: string)
    requires IsWord(w)
    requires t == [] || IsSpace(t[0])
    ensures Words(w + t) == [w] + Words(t)
  {
    TokenLenOfWordPrefix(w, t);
    assert (w + t)[..|w|] == w;
    assert (w + t)[|w|..] == t;
  }

  /** A separator right after `a` ends `a`'s leading token where `a` alone would have. */
  lemma {:induction false} TokenLenBeforeSpace(a: string, t: string)
    requires t != [] && IsSpace(t[0])
    ensures TokenLen(a + t) == TokenLen(a)
    decreases |a|
  {
    if a == [] {
      assert a + t == t;
    } else if !IsSpace(a[0]) {
      assert (a + t)[1..] == a[1..] + t;
      TokenLenBeforeSpace(a[1..], t);
    }
  }

  /** Splitting two texts joined by a space gives the first text's words, then the second's. */
  lemma {:induction false} WordsOfSpaced(a: string, b: string)
    ensures Words(a + " " + b) == Words(a) + Words(b)
    decreases |a|
  {
    var s := a + " " + b;
    if a == [] {
      assert s[1..] == b;
    } else if IsSpace(a[0]) {
      assert s[1..] == a[1..] + " " + b;
      WordsOfSpaced(a[1..], b);
    } else {
      var n := TokenLen(a);
      assert s == a + (" " + b);
      TokenLenBeforeSpace(a, " " + b);
      assert s[..n] == a[..n];
      assert s[n..] == a[n..] + " " + b;
      WordsOfSpaced(a[n..], b);
    }
  }

  /** Splitting re-joined words gives the same words back: `split` undoes `" ".join`. */
  lemma {:induction false} WordsOfJoin(ws: seq<string>)
    requires forall i :: 0 <= i < |ws| ==> IsWord(ws[i])
    ensures Words(JoinSpace(ws)) == ws
    decreases |ws|
  {
    if |ws| == 1 {
      WordsOfWordThenTail(ws[0], "");
      assert ws[0] + "" == ws[0];
      assert Words("") == [];
    } else if |ws| > 1 {
      var tail := JoinSpace(ws[1..]);
      WordsOfJoin(ws[1..]);
      assert ws[0] + " " + tail == ws[0] + (" " + tail);
      WordsOfWordThenTail(ws[0], " " + tail);
      assert (" " + tail)[1..] == tail;
      assert ws == [ws[0]] + ws[1..];
    }
  }

  /** ASCII lower-casing, as Python's `str.lower()` acts on ASCII text. */
  function LowerChar(c: char): (d: char)
    ensures IsSpace(d) <==> IsSpace(c)
  {
    if 'A' <= c <= 'Z' then (c as int + 32) as char else c
  }

  function Lower(s: string): (r: string)
    ensures |r| == |s|
    ensures forall i :: 0 <= i < |s| ==> r[i] == LowerChar(s[i])
  {
    if s == [] then [] else [LowerChar(s[0])] + Lower(s[1..])
  }

  /** Drop the leading characters that `drop` accepts. */
  function StripLeft(s: string, drop: char -> bool): (r: string)
    ensures |r| <= |s|
    ensures r == s[|s| - |r|..]
    ensures r == [] || !drop(r[0])
    ensures forall i :: 0 <= i < |s| - |r| ==> drop(s[i])
  {
    if s != [] && drop(s[0]) then StripLeft(s[1..], drop) else s
  }

  /** Drop the trailing characters that `drop` accepts. */
  function StripRight(s: string, drop: char -> bool): (r: string)
    ensures |r| <= |s|
    ensures r == s[..|r|]
    ensures r == [] || !drop(r[|r| - 1])
    ensures forall i :: |r| <= i < |s| ==> drop(s[i])
  {
    if s != [] && drop(s[|s| - 1]) then StripRight(s[..|s| - 1], drop) else s
  }

  /** Python's `s.strip(chars)`: drop the characters `drop` accepts at both ends. */
  function Strip(s: string, drop: char -> bool): string {
    StripRight(StripLeft(s, drop), drop)
  }

  /**
   * Python's argument-less `s.strip()`: the middle slice of `s` left once the separators at both
   * ends are dropped, so it neither starts nor ends with one.
   */
  function StripSpace(s: string): (r: string)
    ensures r == [] || (!IsSpace(r[0]) && !IsSpace(r[|r| - 1]))
    ensures exists i, j :: 0 <= i <= j <= |s| && r == s[i..j] && Blank(s[..i]) && Blank(s[j..])
  {
    var l := StripLeft(s, IsSpace);
    var r := StripRight(l, IsSpace);
    StripEnds(s, l, r);
    r
  }

  /** Dropping separators from the front of `s` to get `l`, then from the back of `l` to get `r`. */
  lemma StripEnds(s: string, l: string, r: string)
    requires |l| <= |s| && l == s[|s| - |l|..] && (l == [] || !IsSpace(l[0]))
    requires forall k :: 0 <= k < |s| - |l| ==> IsSpace(s[k])
    requires |r| <= |l| && r == l[..|r|] && (r == [] || !IsSpace(r[|r| - 1]))
    requires forall k :: |r| <= k < |l| ==> IsSpace(l[k])
    ensures r == [] || (!IsSpace(r[0]) && !IsSpace(r[|r| - 1]))
    ensures exists i, j :: 0 <= i <= j <= |s| && r == s[i..j] && Blank(s[..i]) && Blank(s[j..])
  {
    var i := |s| - |l|;
    var j := i + |r|;
    assert r == s[i..j];
    assert Blank(s[..i]) by {
      forall k | 0 <= k < i ensures IsSpace(s[..i][k]) {
        assert s[..i][k] == s[k];
      }
    }
    assert Blank(s[j..]) by {
      forall k | 0 <= k < |s| - j ensures IsSpace(s[j..][k]) {
        assert s[j..][k] == l[|r| + k];
      }
    }
    if r != [] {
      assert r[0] == l[0];
    }
  }

  /** Stripping twice strips nothing more: a stripped string has no separator left at either end. */
  lemma StripSpaceIdempotent(s: string)
    ensures StripSpace(StripSpace(s)) == StripSpace(s)
  {
    var r := StripSpace(s);
    assert StripLeft(r, IsSpace) == r;
    assert StripRight(r, IsSpace) == r;
  }

  /** Only a blank string strips to nothing. */
  lemma StripSpaceEmpty(s: string)
    ensures StripSpace(s) == [] <==> Blank(s)
  {
    var r := StripSpace(s);
    var i, j :| 0 <= i <= j <= |s| && r == s[i..j] && Blank(s[..i]) && Blank(s[j..]);
    if r == [] {
      forall k | 0 <= k < |s| ensures IsSpace(s[k]) {
        if k < i {
          assert s[..i][k] == s[k];
        } else {
          assert s[j..][k - j] == s[k];
        }
      }
    }
  }

  /** `s.startsWith(p)` / `s.startswith(p)`. */
  predicate StartsWith(s: string, p: string) {
    |p| <= |s| && s[..|p|] == p
  }

  /** Python's `needle in hay` on strings. */
  predicate Contains(hay: string, needle: string)
    decreases |hay|
  {
    StartsWith(hay, needle) || (hay != [] && Contains(hay[1..], needle))
  }

  /** A string containing a needle that starts with a non-separator is not blank. */
  lemma {:induction false} ContainsNotBlank(hay: string, needle: string)
    requires |needle| > 0 && !IsSpace(needle[0])
    requires Contains(hay, needle)
    ensures !Blank(hay)
    decreases |hay|
  {
    if StartsWith(hay, needle) {
      assert hay[0] == needle[0];
    } else {
      ContainsNotBlank(hay[1..], needle);
      var i :| 0 <= i < |hay[1..]| && !IsSpace(hay[1..][i]);
      assert hay[i + 1] == hay[1..][i];
    }
  }

  /** Lower-casing keeps a string blank or non-blank. */
  lemma LowerBlank(s: string)
    ensures Blank(Lower(s)) <==> Blank(s)
  {
    if !Blank(s) {
      var i :| 0 <= i < |s| && !IsSpace(s[i]);
      assert !IsSpace(Lower(s)[i]);
    }
  }
}

=== FILE: voice_agent.dfy ===
/**
 * The real-time voice agent (backend/app/agents/realtime/realtime_voice_agent.py): per audio chunk it
 * records pitch and volume in 50-entry windows, checks the transcript for filler phrases by substring,
 * estimates the pace from the chunk's word count, and scores the chunk from fixed adjustments.
 * Pitch tracking, the RMS-to-decibel conversion and the standard deviation are inputs.
 */
module VoiceAgent {
  import opened Wrappers
  import opened Stats
  import opened Sorting
  import opened Text

  /** The rolling windows hold the last 50 values. */
  const WindowSize: nat := 50

  /** The agent's filler phrases, in one admissible iteration order of the source's set. */
  const FillerPhrases: seq<string> := [
    "um", "uh", "like", "you know", "so", "actually",
    "basically", "literally", "kind of", "sort of", "i mean"]

  /** The first phrase of `phrases` occurring anywhere in `hay`. */
  function FirstContained(hay: string, phrases: seq<string>): (r: Option<string>)
    ensures r.Some? ==> r.value in phrases && Contains(hay, r.value)
    ensures r.None? <==> forall p :: p in phrases ==> !Contains(hay, p)
  {
    if phrases == [] then None
    else if Contains(hay, phrases[0]) then Some(phrases[0])
    else
      assert forall p :: p in phrases ==> p == phrases[0] || p in phrases[1..];
      FirstContained(hay, phrases[1..])
  }

  /** `_detect_filler_words`: some filler phrase occurring as a substring of the lower-cased transcript. */
  function DetectFiller(transcript: string): (r: Option<string>)
    ensures r.Some? ==> r.value in FillerPhrases && Contains(Lower(transcript), r.value)
    ensures r.None? <==> forall p :: p in FillerPhrases ==> !Contains(Lower(transcript), p)
  {
    FirstContained(Lower(transcript), FillerPhrases)
  }

  /** Substring matching reports "so" inside "also", which holds no filler word. */
  lemma SubstringFalsePositive()
    ensures DetectFiller("also").Some?
  {
    assert Lower("also") == "also";
    assert StartsWith("so", "so");
    assert Contains("so", "so");
    assert Contains("lso", "so");
    assert Contains("also", "so");
    assert "so" in FillerPhrases;
  }

  // ---------------------------------------------------------------- volume

  function Squares(xs: seq<real>): (ys: seq<real>)
    ensures |ys| == |xs|
    ensures forall i :: 0 <= i < |xs| ==> ys[i] == xs[i] * xs[i]
  {
    if xs == [] then [] else [xs[0] * xs[0]] + Squares(xs[1..])
  }

  function MeanSquare(xs: seq<real>): real {
    Mean(Squares(xs))
  }

  /**
   * `_calculate_volume`: `decibels` stands for `20 * log10(sqrt(.))` applied to the mean square, and
   * the reading is rounded to 2 digits; a silent chunk (zero energy) is -100 dB.
   */
  function CalculateVolume(samples: seq<real>, decibels: real -> real): (db: real)
    ensures MeanSquare(samples) <= 0.0 ==> db == -100.0
    ensures MeanSquare(samples) > 0.0 ==> db == RoundTo(decibels(MeanSquare(samples)), 100.0)
    ensures MeanSquare(samples) > 0.0 ==> (db < -40.0 <==> decibels(MeanSquare(samples)) < -40.005)
  {
    if MeanSquare(samples) > 0.0 then
      RoundedVolumeThreshold(decibels(MeanSquare(samples)));
      RoundTo(decibels(MeanSquare(samples)), 100.0)
    else -100.0
  }

  /** A reading rounded to 2 digits is under the -40 dB quiet line exactly when it was under -40.005. */
  lemma RoundedVolumeThreshold(db: real)
    ensures RoundTo(db, 100.0) < -40.0 <==> db < -40.005
  {
    RoundBelowEven(db * 100.0, -4000);
  }

  lemma {:induction false} SumOfZeros(xs: seq<real>)
    requires forall i :: 0 <= i < |xs| ==> xs[i] == 0.0
    ensures Sum(xs) == 0.0
    decreases |xs|
  {
    if xs != [] {
      SumOfZeros(xs[1..]);
    }
  }

  /** An all-zero signal reads as -100 dB. */
  lemma SilenceIsMinus100(samples: seq<real>, decibels: real -> real)
    requires forall i :: 0 <= i < |samples| ==> samples[i] == 0.0
    ensures CalculateVolume(samples, decibels) == -100.0
  {
    SumOfZeros(Squares(samples));
  }

  // ---------------------------------------------------------------- voice score

  datatype VoiceAnalysis = VoiceAnalysis(
    pitchHz: real, volumeDb: real, speechRateWpm: real, pitchVariation: real, volumeConsistency: real,
    fillerWordDetected: Option<string>, speakingTooFast: bool, speakingTooSlow: bool, voiceScore: real)

  /** The record returned before anything was measured. */
  const DefaultAnalysis := VoiceAnalysis(0.0, 0.0, 0.0, 0.0, 0.0, None, false, false, 0.0)

  predicate FillerTruthy(a: VoiceAnalysis) {
    a.fillerWordDetected.Some? && a.fillerWordDetected.value != ""
  }

  /** `_calculate_voice_score`: 100 with fixed deductions and bonuses, clamped to [0,100]. */
  function CalculateVoiceScore(a: VoiceAnalysis): (s: real)
    ensures 0.0 <= s <= 100.0
    ensures s >= 40.0
  {
    var s0 := 100.0;
    var s1 := if FillerTruthy(a) then s0 - 15.0 else s0;
    var s2 := if a.speakingTooFast || a.speakingTooSlow then s1 - 10.0 else s1;
    var s3 := if a.pitchVariation < 5.0 then s2 - 10.0 else if a.pitchVariation > 20.0 then s2 + 10.0 else s2;
    var s4 := if a.volumeConsistency > 80.0 then s3 + 10.0 else if a.volumeConsistency < 50.0 then s3 - 10.0 else s3;
    var s5 := if a.volumeDb < -40.0 then s4 - 15.0 else s4;
    Max(0.0, Min(100.0, s5))
  }

  /** The score reads the measurements only, never the score field itself. */
  lemma ScoreIgnoresScoreField(a: VoiceAnalysis, x: real)
    ensures CalculateVoiceScore(a.(voiceScore := x)) == CalculateVoiceScore(a)
  {
  }

  /** Without any deduction the score is the full 100, bonuses or not. */
  lemma NoFaultsScoresFull(a: VoiceAnalysis)
    requires !FillerTruthy(a) && !a.speakingTooFast && !a.speakingTooSlow
    requires a.pitchVariation >= 5.0 && a.volumeConsistency >= 50.0 && a.volumeDb >= -40.0
    ensures CalculateVoiceScore(a) == 100.0
  {
  }

  /** A detected filler never raises the score. */
  lemma FillerNeverHelps(a: VoiceAnalysis, w: string)
    requires a.fillerWordDetected.None?
    ensures CalculateVoiceScore(a.(fillerWordDetected := Some(w))) <= CalculateVoiceScore(a)
  {
  }

  // ---------------------------------------------------------------- the agent

  datatype Agent = Agent(
    pitchHistory: seq<real>, volumeHistory: seq<real>, speechRateHistory: seq<real>,
    fillerWordCount: nat, totalWords: nat)

  ghost predicate Valid(a: Agent) {
    |a.pitchHistory| <= WindowSize && |a.volumeHistory| <= WindowSize && |a.speechRateHistory| <= WindowSize
  }

  function NewAgent(): (a: Agent)
    ensures Valid(a)
  {
    Agent([], [], [], 0, 0)
  }

  /** What the transcript branch of `analyze_audio_chunk` computes from one transcript. */
  datatype Pace = Pace(words: nat, wpm: real, tooFast: bool, tooSlow: bool)

  /** Each chunk is taken as one second long, so the rate is sixty times its word count. */
  function PaceOf(transcript: string): (p: Pace)
    ensures p.words == |Words(transcript)| && p.wpm == (p.words as real) * 60.0
    ensures p.tooFast <==> p.wpm > 180.0
    ensures p.tooSlow <==> p.wpm <= 180.0 && p.wpm < 100.0 && p.words > 0
  {
    var n := |Words(transcript)|;
    var wpm := (n as real) * 60.0;
    Pace(n, wpm, wpm > 180.0, !(wpm > 180.0) && wpm < 100.0 && n > 0)
  }

  /** The pace flags never both hold: too fast means four words or more, too slow exactly one. */
  lemma PaceFlagsByWordCount(transcript: string)
    ensures var p := PaceOf(transcript);
      !(p.tooFast && p.tooSlow) && (p.tooFast <==> p.words >= 4) && (p.tooSlow <==> p.words == 1)
  {
  }

  predicate Truthy(transcript: Option<string>) {
    transcript.Some? && transcript.value != []
  }

  /** The transcript branch: filler check, word count and pace flags; a missing or empty transcript changes nothing. */
  function TranscriptStep(a: Agent, r: VoiceAnalysis, transcript: Option<string>): (out: (Agent, VoiceAnalysis))
    ensures out.0.pitchHistory == a.pitchHistory && out.0.volumeHistory == a.volumeHistory
    ensures |a.speechRateHistory| <= WindowSize ==> |out.0.speechRateHistory| <= WindowSize
    ensures out.1.pitchHz == r.pitchHz && out.1.volumeDb == r.volumeDb
    ensures !Truthy(transcript) ==> out == (a, r)
    ensures Truthy(transcript) ==>
      var p := PaceOf(transcript.value);
      && out.1.fillerWordDetected == DetectFiller(transcript.value)
      && out.0.fillerWordCount == a.fillerWordCount + (if DetectFiller(transcript.value).Some? then 1 else 0)
      && out.0.totalWords == a.totalWords + p.words
      && out.0.speechRateHistory == PushBounded(a.speechRateHistory, p.wpm, WindowSize)
      && out.1.speechRateWpm == p.wpm && out.1.speakingTooFast == p.tooFast && out.1.speakingTooSlow == p.tooSlow
  {
    if Truthy(transcript) then
      var t := transcript.value;
      var filler := DetectFiller(t);
      var p := PaceOf(t);
      (a.(fillerWordCount := a.fillerWordCount + (if filler.Some? then 1 else 0),
          totalWords := a.totalWords + p.words,
          speechRateHistory := PushBounded(a.speechRateHistory, p.wpm, WindowSize)),
       r.(fillerWordDetected := filler, speechRateWpm := p.wpm,
          speakingTooFast := p.tooFast, speakingTooSlow := p.tooSlow))
    else (a, r)
  }

  /**
   * `analyze_audio_chunk`. `pitch` and `volume` are the chunk's measurements and `std` is numpy's
   * population standard deviation; an empty chunk returns the default record and changes nothing.
   */
  function AnalyzeAudioChunk(a: Agent, sampleCount: nat, pitch: real, volume: real, transcript: Option<string>,
                             std: seq<real> -> real): (r: (Agent, VoiceAnalysis))
    requires Valid(a)
    ensures Valid(r.0)
    ensures sampleCount == 0 ==> r.0 == a && r.1 == DefaultAnalysis
    ensures sampleCount > 0 ==>
      var mid := TranscriptStep(
        a.(pitchHistory := PushBounded(a.pitchHistory, pitch, WindowSize),
           volumeHistory := PushBounded(a.volumeHistory, volume, WindowSize)),
        DefaultAnalysis.(pitchHz := pitch, volumeDb := volume), transcript);
      && r.0 == mid.0
      && r.1.pitchHz == pitch && r.1.volumeDb == volume
      && r.1.pitchVariation == (if |r.0.pitchHistory| > 1 then RoundTo(std(r.0.pitchHistory), 100.0) else 0.0)
      && r.1.volumeConsistency == (if |r.0.volumeHistory| > 1 then RoundTo(Consistency(std(r.0.volumeHistory)), 10.0) else 0.0)
      && r.1.fillerWordDetected == mid.1.fillerWordDetected && r.1.speechRateWpm == mid.1.speechRateWpm
      && r.1.speakingTooFast == mid.1.speakingTooFast && r.1.speakingTooSlow == mid.1.speakingTooSlow
      && r.1.voiceScore == CalculateVoiceScore(r.1)
  {
    if sampleCount == 0 then (a, DefaultAnalysis)
    else
      var pitches := PushBounded(a.pitchHistory, pitch, WindowSize);
      var volumes := PushBounded(a.volumeHistory, volume, WindowSize);
      var mid := TranscriptStep(a.(pitchHistory := pitches, volumeHistory := volumes),
                                DefaultAnalysis.(pitchHz := pitch, volumeDb := volume), transcript);
      var r3 := mid.1.(
        pitchVariation := if |pitches| > 1 then RoundTo(std(pitches), 100.0) else 0.0,
        volumeConsistency := if |volumes| > 1 then RoundTo(Consistency(std(volumes)), 10.0) else 0.0);
      ScoreIgnoresScoreField(r3, CalculateVoiceScore(r3));
      (mid.0, r3.(voiceScore := CalculateVoiceScore(r3)))
  }

  /** Volume consistency from the deviation of the volume window: 100 for a steady voice, 10 points off per dB, floored at 0. */
  function Consistency(std: real): (c: real)
    ensures c >= 0.0
    ensures std >= 0.0 ==> c <= 100.0
    ensures c == 0.0 <==> std >= 10.0
    ensures c > 0.0 ==> 100.0 - c == 10.0 * std
  {
    Max(0.0, 100.0 - std * 10.0)
  }

  /**
   * The score compares the rounded readings, so its thresholds sit half a rounding step away from
   * the raw deviations: monotone below 4.995, lively above 20.005, steady above a consistency of
   * 80.05 and unsteady below 49.95.
   */
  lemma RoundedThresholds(pitchStd: real, consistency: real)
    ensures RoundTo(pitchStd, 100.0) < 5.0 <==> pitchStd < 4.995
    ensures RoundTo(pitchStd, 100.0) > 20.0 <==> pitchStd > 20.005
    ensures RoundTo(consistency, 10.0) > 80.0 <==> consistency > 80.05
    ensures RoundTo(consistency, 10.0) < 50.0 <==> consistency < 49.95
  {
    RoundBelowEven(pitchStd * 100.0, 500);
    RoundAboveEven(pitchStd * 100.0, 2000);
    RoundAboveEven(consistency * 10.0, 800);
    RoundBelowEven(consistency * 10.0, 500);
  }

  /**
   * On a chunk with at least two pitch and volume readings, the score's monotone, lively, steady and
   * unsteady adjustments apply exactly when the raw deviations cross the shifted thresholds.
   */
  lemma ScoreSeesRoundedDeviations(a: Agent, sampleCount: nat, pitch: real, volume: real, transcript: Option<string>,
                                   std: seq<real> -> real)
    requires Valid(a) && sampleCount > 0
    requires |a.pitchHistory| >= 1 && |a.volumeHistory| >= 1
    ensures var (b, r) := AnalyzeAudioChunk(a, sampleCount, pitch, volume, transcript, std);
      && (r.pitchVariation < 5.0 <==> std(b.pitchHistory) < 4.995)
      && (r.pitchVariation > 20.0 <==> std(b.pitchHistory) > 20.005)
      && (r.volumeConsistency > 80.0 <==> Consistency(std(b.volumeHistory)) > 80.05)
      && (r.volumeConsistency < 50.0 <==> Consistency(std(b.volumeHistory)) < 49.95)
  {
    var (b, r) := AnalyzeAudioChunk(a, sampleCount, pitch, volume, transcript, std);
    WindowsSlide(a, sampleCount, pitch, volume, transcript, std);
    assert |b.pitchHistory| > 1;
    assert |b.volumeHistory| > 1 by {
      assert b.volumeHistory == PushBounded(a.volumeHistory, volume, WindowSize);
    }
    RoundedThresholds(std(b.pitchHistory), Consistency(std(b.volumeHistory)));
  }

  /** The pitch and volume windows take the new values, keep at most 50 and drop the oldest first. */
  lemma WindowsSlide(a: Agent, sampleCount: nat, pitch: real, volume: real, transcript: Option<string>, std: seq<real> -> real)
    requires Valid(a) && sampleCount > 0
    ensures var b := AnalyzeAudioChunk(a, sampleCount, pitch, volume, transcript, std).0;
      && |b.pitchHistory| == (if |a.pitchHistory| < WindowSize then |a.pitchHistory| + 1 else WindowSize)
      && b.pitchHistory[|b.pitchHistory| - 1] == pitch
      && b.pitchHistory[..|b.pitchHistory| - 1] == a.pitchHistory[|a.pitchHistory| + 1 - |b.pitchHistory|..]
      && b.volumeHistory[|b.volumeHistory| - 1] == volume
  {
    var a1 := a.(pitchHistory := PushBounded(a.pitchHistory, pitch, WindowSize),
                 volumeHistory := PushBounded(a.volumeHistory, volume, WindowSize));
    var mid := TranscriptStep(a1, DefaultAnalysis.(pitchHz := pitch, volumeDb := volume), transcript);
    assert AnalyzeAudioChunk(a, sampleCount, pitch, volume, transcript, std).0 == mid.0;
    assert mid.0.pitchHistory == a1.pitchHistory && mid.0.volumeHistory == a1.volumeHistory;
  }

  /** With a transcript the filler check is substring-based and the pace flags follow the word count. */
  lemma TranscriptEffects(a: Agent, sampleCount: nat, pitch: real, volume: real, t: string, std: seq<real> -> real)
    requires Valid(a) && sampleCount > 0 && t != []
    ensures var (b, r) := AnalyzeAudioChunk(a, sampleCount, pitch, volume, Some(t), std);
      && r.fillerWordDetected == DetectFiller(t)
      && b.fillerWordCount == a.fillerWordCount + (if DetectFiller(t).Some? then 1 else 0)
      && b.totalWords == a.totalWords + |Words(t)|
      && r.speechRateWpm == (|Words(t)| as real) * 60.0
      && r.speakingTooFast == (|Words(t)| >= 4) && r.speakingTooSlow == (|Words(t)| == 1)
  {
    PaceFlagsByWordCount(t);
  }

  /**
   * `avg` is the average of the window `xs`: 0 for an empty window, otherwise its mean, the value
   * that times the number of readings is their sum, lying between the least and greatest reading.
   */
  ghost predicate Averages(xs: seq<real>, avg: real) {
    && (xs == [] ==> avg == 0.0)
    && (xs != [] ==> avg == Mean(xs) && avg * (|xs| as real) == Sum(xs) && MinOf(xs) <= avg <= MaxOf(xs))
  }

  /** The mean of a window is its average. */
  lemma WindowMean(xs: seq<real>)
    ensures Averages(xs, Mean(xs))
  {
    if xs != [] {
      MeanBetweenMinAndMax(xs);
      MeanTimesCount(xs);
    }
  }

  datatype SessionStats = SessionStats(
    avgPitchHz: real, avgVolumeDb: real, avgSpeechRateWpm: real,
    totalFillerWords: nat, totalWords: nat, fillerWordPercentage: real)

  /** `get_session_stats`: window means (0 for an empty window) and the filler share over at least one word. */
  function GetSessionStats(a: Agent): (s: SessionStats)
    ensures Averages(a.pitchHistory, s.avgPitchHz)
    ensures Averages(a.volumeHistory, s.avgVolumeDb)
    ensures Averages(a.speechRateHistory, s.avgSpeechRateWpm)
    ensures s.totalFillerWords == a.fillerWordCount && s.totalWords == a.totalWords
    ensures s.fillerWordPercentage * (if a.totalWords >= 1 then a.totalWords as real else 1.0) == (a.fillerWordCount as real) * 100.0
  {
    WindowMean(a.pitchHistory);
    WindowMean(a.volumeHistory);
    WindowMean(a.speechRateHistory);
    var denominator := if a.totalWords >= 1 then a.totalWords as real else 1.0;
    SessionStats(Mean(a.pitchHistory), Mean(a.volumeHistory), Mean(a.speechRateHistory),
                 a.fillerWordCount, a.totalWords, (a.fillerWordCount as real) / denominator * 100.0)
  }

  /** `reset`: every window and counter is cleared. */
  function Reset(a: Agent): (r: Agent)
    ensures Valid(r)
    ensures r.pitchHistory == [] && r.volumeHistory == [] && r.speechRateHistory == []
    ensures r.fillerWordCount == 0 && r.totalWords == 0
  {
    NewAgent()
  }

  /** After a reset the statistics are all zero. */
  lemma ResetStatsZero(a: Agent)
    ensures GetSessionStats(Reset(a)) == SessionStats(0.0, 0.0, 0.0, 0, 0, 0.0)
  {
  }
}

=== FILE: voice_quality.dfy ===
/**
 * The pure parts of the offline voice-quality analyser (backend/app/core/voice_quality_analyzer.py):
 * filler-word detection on a transcript, the rate and pitch rating bands, the recommendation list,
 * the weighted overall score and the short-chunk guard. The signal measurements themselves (pitch,
 * volume, clarity, energy, pacing) are inputs.
 */
module VoiceQuality {
  import opened Wrappers
  import opened Stats
  import opened Text

  // ---------------------------------------------------------------- filler words

  /** The filler vocabulary; five entries are two-word phrases. */
  const FillerWords: set<string> := {
    "um", "uh", "like", "you know", "so", "actually",
    "basically", "literally", "kind of", "sort of", "i mean",
    "ah", "er", "hmm", "well", "okay", "you see", "right"}

  /** The punctuation `str.strip` removes from each token. */
  predicate IsPunctuation(c: char) {
    c == '.' || c == ',' || c == '!' || c == '?' || c == ';' || c == ':'
  }

  function Clean(w: string): string {
    Strip(w, IsPunctuation)
  }

  ghost predicate SpaceFree(s: string) {
    forall i :: 0 <= i < |s| ==> !IsSpace(s[i])
  }

  /** Stripping punctuation keeps a token free of separators. */
  lemma CleanSpaceFree(w: string)
    ensures SpaceFree(w) ==> SpaceFree(Clean(w))
  {
    var l := StripLeft(w, IsPunctuation);
    var r := StripRight(l, IsPunctuation);
    assert Clean(w) == r;
    var k := |w| - |l|;
    assert l == w[k..] && r == l[..|r|];
    if SpaceFree(w) {
      forall i | 0 <= i < |r| ensures !IsSpace(r[i]) {
        assert r[i] == w[k + i];
      }
    }
  }

  /** The positions of the tokens that are in `vocab` once cleaned. */
  ghost function FillerAt(ws: seq<string>, vocab: set<string>): set<int> {
    set i | 0 <= i < |ws| && Clean(ws[i]) in vocab
  }

  /** The filler positions of a non-empty token list: the first token, if a filler, and those of the rest. */
  lemma FillerAtCons(ws: seq<string>, vocab: set<string>)
    requires ws != []
    ensures |FillerAt(ws, vocab)| == (if Clean(ws[0]) in vocab then 1 else 0) + |FillerAt(ws[1..], vocab)|
  {
    var fs := seq(|ws|, i requires 0 <= i < |ws| => Clean(ws[i]) in vocab);
    var gs := seq(|ws| - 1, i requires 0 <= i < |ws| - 1 => Clean(ws[1..][i]) in vocab);
    assert fs[1..] == gs;
    assert TrueAt(fs) == FillerAt(ws, vocab);
    assert TrueAt(gs) == FillerAt(ws[1..], vocab);
    TrueAtCons(fs);
  }

  /** The cleaned tokens that are in `vocab` (the filler words), in transcript order. */
  function FillerTokens(ws: seq<string>, vocab: set<string>): (d: seq<string>)
    ensures |d| <= |ws|
    ensures |d| == |FillerAt(ws, vocab)|
    ensures forall i :: 0 <= i < |d| ==> d[i] in vocab
    ensures forall i :: 0 <= i < |ws| && Clean(ws[i]) in vocab ==> Clean(ws[i]) in d
    ensures forall w :: multiset(d)[w] == |FillerAt(ws, vocab * {w})|
    ensures forall i :: 0 <= i < |d| ==> Present(ws, d[i])
  {
    if ws == [] then []
    else
      var c := Clean(ws[0]);
      var rest := FillerTokens(ws[1..], vocab);
      var d := (if c in vocab then [c] else []) + rest;
      FillerTokensStep(ws, vocab, c, rest, d);
      FillerAtCons(ws, vocab);
      MultiplicityStep(ws, vocab, c, rest, d);
      FoundArePresent(ws, vocab, d);
      d
  }

  /** Some token of `ws` cleans to `w`. */
  ghost predicate Present(ws: seq<string>, w: string) {
    exists k :: 0 <= k < |ws| && Clean(ws[k]) == w
  }

  /** A word listed at least once has a token that cleans to it. */
  lemma FoundArePresent(ws: seq<string>, vocab: set<string>, d: seq<string>)
    requires forall w :: multiset(d)[w] == |FillerAt(ws, vocab * {w})|
    ensures forall i :: 0 <= i < |d| ==> Present(ws, d[i])
  {
    forall i | 0 <= i < |d| ensures Present(ws, d[i]) {
      assert d[i] in multiset(d);
      PresentAt(ws, vocab * {d[i]}, d[i]);
    }
  }

  /** A filler position for a vocabulary holding only `w` is a token that cleans to `w`. */
  lemma PresentAt(ws: seq<string>, vocab: set<string>, w: string)
    requires vocab <= {w} && |FillerAt(ws, vocab)| > 0
    ensures Present(ws, w)
  {
    var at := FillerAt(ws, vocab);
    var k :| k in at;
    assert Clean(ws[k]) in vocab;
  }

  /** The distinct fillers among the cleaned tokens of `ws`. */
  ghost function FillersIn(ws: seq<string>, vocab: set<string>): set<string> {
    set i | 0 <= i < |ws| && Clean(ws[i]) in vocab :: Clean(ws[i])
  }

  /** Each word occurs in the filler list once per token that cleans to it, when the word is in `vocab`. */
  lemma MultiplicityStep(ws: seq<string>, vocab: set<string>, c: string, rest: seq<string>, d: seq<string>)
    requires ws != [] && c == Clean(ws[0])
    requires d == (if c in vocab then [c] else []) + rest
    requires forall w :: multiset(rest)[w] == |FillerAt(ws[1..], vocab * {w})|
    ensures forall w :: multiset(d)[w] == |FillerAt(ws, vocab * {w})|
  {
    forall w ensures multiset(d)[w] == |FillerAt(ws, vocab * {w})| {
      FillerAtCons(ws, vocab * {w});
      assert multiset(d) == multiset(if c in vocab then [c] else []) + multiset(rest);
    }
  }

  /** The inductive step of `FillerTokens`, for any vocabulary `vocab`, over the cleaned first word `c`. */
  lemma FillerTokensStep(ws: seq<string>, vocab: set<string>, c: string, rest: seq<string>, d: seq<string>)
    requires ws != [] && c == Clean(ws[0])
    requires d == (if c in vocab then [c] else []) + rest
    requires forall i :: 0 <= i < |rest| ==> rest[i] in vocab
    requires forall i :: 0 <= i < |ws[1..]| && Clean(ws[1..][i]) in vocab ==> Clean(ws[1..][i]) in rest
    ensures forall i :: 0 <= i < |d| ==> d[i] in vocab
    ensures forall i :: 0 <= i < |ws| && Clean(ws[i]) in vocab ==> Clean(ws[i]) in d
  {
    KeepInVocab(c, vocab, rest, d);
    forall i | 0 <= i < |ws| && Clean(ws[i]) in vocab
      ensures Clean(ws[i]) in d
    {
      if i > 0 {
        assert ws[i] == ws[1..][i - 1];
      }
    }
  }

  /** Prepending a word only when it is in `vocab` keeps a list of vocabulary words one. */
  lemma KeepInVocab(c: string, vocab: set<string>, rest: seq<string>, d: seq<string>)
    requires d == (if c in vocab then [c] else []) + rest
    requires forall i :: 0 <= i < |rest| ==> rest[i] in vocab
    ensures forall i :: 0 <= i < |d| ==> d[i] in vocab
  {
  }

  /** Tokens without separators give fillers without separators. */
  lemma {:induction false} FillerTokensSpaceFree(ws: seq<string>, vocab: set<string>)
    requires forall k :: 0 <= k < |ws| ==> SpaceFree(ws[k])
    ensures forall i :: 0 <= i < |FillerTokens(ws, vocab)| ==> SpaceFree(FillerTokens(ws, vocab)[i])
  {
    if ws != [] {
      var c := Clean(ws[0]);
      var rest := FillerTokens(ws[1..], vocab);
      forall k | 0 <= k < |ws[1..]| ensures SpaceFree(ws[1..][k]) {
        assert ws[1..][k] == ws[k + 1];
      }
      FillerTokensSpaceFree(ws[1..], vocab);
      assert SpaceFree(ws[0]);
      CleanSpaceFree(ws[0]);
      SpaceFreeCons(c, vocab, rest);
      assert FillerTokens(ws, vocab) == (if c in vocab then [c] else []) + rest;
    }
  }

  lemma SpaceFreeCons(c: string, vocab: set<string>, rest: seq<string>)
    requires SpaceFree(c)
    requires forall i :: 0 <= i < |rest| ==> SpaceFree(rest[i])
    ensures var d := (if c in vocab then [c] else []) + rest; forall i :: 0 <= i < |d| ==> SpaceFree(d[i])
  {
  }

  /** `part / whole * 100`, or 0 for an empty whole. */
  function Percent(part: nat, whole: nat): (p: real)
    requires part <= whole
    ensures 0.0 <= p <= 100.0
    ensures whole == 0 ==> p == 0.0
    ensures part == whole && whole > 0 ==> p == 100.0
  {
    if whole == 0 then 0.0
    else
      DivBounds(part as real, whole as real, 0.0, 1.0);
      (part as real) / (whole as real) * 100.0
  }

  /** The filler report: the distinct fillers found, how many tokens were fillers, and their share in percent. */
  datatype FillerReport = FillerReport(words: set<string>, count: nat, density: real)

  /** `_detect_filler_words`: lower-case, split on whitespace, strip punctuation, match whole tokens. */
  function DetectFillerWords(transcript: string): (r: FillerReport)
    ensures r.words <= FillerWords
    ensures r.count <= |Words(Lower(transcript))|
    ensures r.count == |FillerAt(Words(Lower(transcript)), FillerWords)|
    ensures 0.0 <= r.density <= 100.0
    ensures r.count == 0 <==> r.words == {}
    ensures Blank(transcript) ==> r.count == 0 && r.density == 0.0
    ensures forall i :: 0 <= i < |Words(Lower(transcript))| && Clean(Words(Lower(transcript))[i]) in FillerWords ==>
              Clean(Words(Lower(transcript))[i]) in r.words
    ensures r.words == FillersIn(Words(Lower(transcript)), FillerWords)
  {
    var ws := Words(Lower(transcript));
    LowerBlank(transcript);
    var d := FillerTokens(ws, FillerWords);
    var found := set w | w in d;
    assert d != [] ==> d[0] in found;
    FoundIsFillersIn(ws);
    FillerReport(found, |d|, Min(Percent(|d|, |ws|), 100.0))
  }

  /** The distinct words of the filler list are exactly the fillers among the cleaned tokens. */
  lemma FoundIsFillersIn(ws: seq<string>)
    ensures (set w | w in FillerTokens(ws, FillerWords)) == FillersIn(ws, FillerWords)
  {
    var d := FillerTokens(ws, FillerWords);
    forall w | w in d ensures w in FillersIn(ws, FillerWords) {
      var i :| 0 <= i < |d| && d[i] == w;
      var k :| 0 <= k < |ws| && Clean(ws[k]) == d[i];
    }
  }

  /** Only single tokens can match, so the two-word phrases of the vocabulary are never reported. */
  lemma PhrasesNeverDetected(transcript: string)
    ensures forall w :: w in DetectFillerWords(transcript).words ==> w in FillerWords && ' ' !in w
  {
    var ws := Words(Lower(transcript));
    var d := FillerTokens(ws, FillerWords);
    FillerTokensSpaceFree(ws, FillerWords);
    forall w | w in DetectFillerWords(transcript).words ensures ' ' !in w {
      var i :| 0 <= i < |d| && d[i] == w;
      assert SpaceFree(w);
    }
  }

  /** The filler share is already at most 100 %, so the cap at 100 never binds. */
  lemma DensityIsShare(transcript: string)
    ensures var r := DetectFillerWords(transcript);
      r.count <= |Words(Lower(transcript))| && r.density == Percent(r.count, |Words(Lower(transcript))|)
  {
  }

  // ---------------------------------------------------------------- rating bands

  /** `Normal` is the label of the default record, before any rating ran. */
  datatype RateQuality = Normal | TooSlow | TooFast | Optimal

  datatype PitchQuality = Monotone | Adequate | Expressive

  /** `_rate_speech_rate`: below 100 wpm too slow, above 160 too fast. */
  function RateSpeechRate(wpm: real): (q: RateQuality)
    ensures q != Normal
    ensures q == TooSlow <==> wpm < 100.0
    ensures q == TooFast <==> wpm > 160.0
  {
    if wpm < 100.0 then TooSlow else if wpm > 160.0 then TooFast else Optimal
  }

  /** `_rate_pitch_variation`: below 2 semitones monotone, below 8 adequate. */
  function RatePitchVariation(v: real): (q: PitchQuality)
    ensures q == Monotone <==> v < 2.0
    ensures q == Expressive <==> v >= 8.0
  {
    if v < 2.0 then Monotone else if v < 8.0 then Adequate else Expressive
  }

  function PitchRank(q: PitchQuality): nat {
    match q
    case Monotone => 0
    case Adequate => 1
    case Expressive => 2
  }

  /** More variation never earns a lower pitch rating. */
  lemma PitchRatingMonotone(v: real, w: real)
    requires v <= w
    ensures PitchRank(RatePitchVariation(v)) <= PitchRank(RatePitchVariation(w))
  {
  }

  /** `_calculate_speech_rate`: words per minute, or 0 for a very short chunk or an empty transcript. */
  function CalculateSpeechRate(durationSec: real, transcript: string): (wpm: real)
    ensures wpm >= 0.0
    ensures wpm == 0.0 <==> durationSec < 0.1 || Blank(transcript)
    ensures durationSec >= 0.1 ==> wpm * durationSec == 60.0 * (|Words(transcript)| as real)
  {
    if durationSec < 0.1 || transcript == [] then 0.0
    else
      var n := |Words(transcript)| as real;
      var q := n / durationSec;
      assert q * durationSec == n;
      assert n > 0.0 ==> q > 0.0;
      q * 60.0
  }

  // ---------------------------------------------------------------- metrics, recommendations, overall

  /** The outputs of the signal analysers, which are not modelled. */
  datatype Signals = Signals(
    pitchHz: real, volumeDb: real, clarity: real, energy: real, energyStability: real,
    pitchVariation: real, pauseFrequency: real, avgPauseLength: real, rhythm: real, volumeConsistency: real)

  datatype VoiceMetrics = VoiceMetrics(
    speechRateWpm: real, speechRateQuality: RateQuality,
    pitchHz: real, pitchVariation: real, pitchQuality: PitchQuality,
    volumeDb: real, volumeConsistency: real, clarity: real,
    energy: real, energyStability: real,
    fillerWords: set<string>, fillerDensity: real,
    pauseFrequency: real, avgPauseLength: real, rhythm: real,
    overall: real, recommendations: seq<Recommendation>)

  /** The record `analyze_audio_chunk` starts from. */
  const DefaultMetrics := VoiceMetrics(
    0.0, Normal, 0.0, 0.0, Monotone, 0.0, 0.0, 0.0, 0.0, 0.0, {}, 0.0, 0.0, 0.0, 0.0, 0.0, [])

  datatype Recommendation = SlowDown | SpeedUp | AddPitchVariation | ReduceFillers(density: real) | SteadierVolume | ArticulateClearly

  function RecommendationRank(r: Recommendation): nat {
    match r
    case SlowDown => 0
    case SpeedUp => 1
    case AddPitchVariation => 2
    case ReduceFillers(_) => 3
    case SteadierVolume => 4
    case ArticulateClearly => 5
  }

  /** The possible messages, in the order `_generate_recommendations` checks them. */
  function Candidates(m: VoiceMetrics): seq<Recommendation> {
    [SlowDown, SpeedUp, AddPitchVariation, ReduceFillers(m.fillerDensity), SteadierVolume, ArticulateClearly]
  }

  /** The condition under which each message is given. */
  predicate Wanted(r: Recommendation, m: VoiceMetrics) {
    match r
    case SlowDown => m.speechRateQuality == TooFast
    case SpeedUp => m.speechRateQuality == TooSlow
    case AddPitchVariation => m.pitchQuality == Monotone
    case ReduceFillers(_) => m.fillerDensity > 5.0
    case SteadierVolume => m.volumeConsistency < 0.6
    case ArticulateClearly => m.clarity < 0.6
  }

  /** The candidates among `rs` whose condition holds, in order. */
  function Keep(rs: seq<Recommendation>, m: VoiceMetrics): (out: seq<Recommendation>)
    ensures |out| <= |rs|
    ensures forall r :: r in out <==> r in rs && Wanted(r, m)
  {
    if rs == [] then []
    else
      var rest := Keep(rs[1..], m);
      assert forall r :: r in rs <==> r == rs[0] || r in rs[1..];
      (if Wanted(rs[0], m) then [rs[0]] else []) + rest
  }

  /** Two records that agree on the five rated fields get the same messages. */
  lemma {:induction false} KeepSameRatings(rs: seq<Recommendation>, m: VoiceMetrics, n: VoiceMetrics)
    requires m.speechRateQuality == n.speechRateQuality && m.pitchQuality == n.pitchQuality
    requires m.fillerDensity == n.fillerDensity && m.volumeConsistency == n.volumeConsistency && m.clarity == n.clarity
    ensures Keep(rs, m) == Keep(rs, n)
    decreases |rs|
  {
    if rs != [] {
      KeepSameRatings(rs[1..], m, n);
    }
  }

  /** `_generate_recommendations`: rate, pitch, fillers above 5 %, volume consistency and clarity below 0.6, in that order. */
  function GenerateRecommendations(m: VoiceMetrics): (rs: seq<Recommendation>)
    ensures |rs| <= 6
    ensures forall r :: r in rs <==> r in Candidates(m) && Wanted(r, m)
  {
    Keep(Candidates(m), m)
  }

  /** Each message appears exactly when its metric calls for it, and at most one pace message is given. */
  lemma RecommendationsFollowMetrics(m: VoiceMetrics)
    ensures var rs := GenerateRecommendations(m);
      && (SlowDown in rs <==> m.speechRateQuality == TooFast)
      && (SpeedUp in rs <==> m.speechRateQuality == TooSlow)
      && !(SlowDown in rs && SpeedUp in rs)
      && (AddPitchVariation in rs <==> m.pitchQuality == Monotone)
      && (ReduceFillers(m.fillerDensity) in rs <==> m.fillerDensity > 5.0)
      && (forall x :: x in rs && x.ReduceFillers? ==> x.density == m.fillerDensity)
      && (SteadierVolume in rs <==> m.volumeConsistency < 0.6)
      && (ArticulateClearly in rs <==> m.clarity < 0.6)
  {
    PaceFollowsRating(m);
    OthersFollowMetrics(m);
  }

  lemma PaceFollowsRating(m: VoiceMetrics)
    ensures var rs := GenerateRecommendations(m);
      && (SlowDown in rs <==> m.speechRateQuality == TooFast)
      && (SpeedUp in rs <==> m.speechRateQuality == TooSlow)
  {
    var c := Candidates(m);
    assert c[0] == SlowDown && c[1] == SpeedUp;
  }

  lemma OthersFollowMetrics(m: VoiceMetrics)
    ensures var rs := GenerateRecommendations(m);
      && (AddPitchVariation in rs <==> m.pitchQuality == Monotone)
      && (ReduceFillers(m.fillerDensity) in rs <==> m.fillerDensity > 5.0)
      && (forall x :: x in rs && x.ReduceFillers? ==> x.density == m.fillerDensity)
      && (SteadierVolume in rs <==> m.volumeConsistency < 0.6)
      && (ArticulateClearly in rs <==> m.clarity < 0.6)
  {
    var c := Candidates(m);
    assert c[2] == AddPitchVariation && c[3] == ReduceFillers(m.fillerDensity);
    assert c[4] == SteadierVolume && c[5] == ArticulateClearly;
  }

  ghost predicate RanksIncrease(rs: seq<Recommendation>) {
    forall i, j :: 0 <= i < j < |rs| ==> RecommendationRank(rs[i]) < RecommendationRank(rs[j])
  }

  lemma RanksIncreaseTail(rs: seq<Recommendation>)
    requires RanksIncrease(rs) && rs != []
    ensures RanksIncrease(rs[1..])
    ensures forall x :: x in rs[1..] ==> RecommendationRank(rs[0]) < RecommendationRank(x)
  {
    forall i, j | 0 <= i < j < |rs[1..]| ensures RecommendationRank(rs[1..][i]) < RecommendationRank(rs[1..][j]) {
      assert rs[1..][i] == rs[i + 1] && rs[1..][j] == rs[j + 1];
    }
    forall x | x in rs[1..] ensures RecommendationRank(rs[0]) < RecommendationRank(x) {
      var k :| 0 <= k < |rs[1..]| && rs[1..][k] == x;
      assert rs[k + 1] == x;
    }
  }

  lemma ConsIncreasing(x: Recommendation, rest: seq<Recommendation>)
    requires RanksIncrease(rest)
    requires forall y :: y in rest ==> RecommendationRank(x) < RecommendationRank(y)
    ensures RanksIncrease([x] + rest)
  {
    var out := [x] + rest;
    forall i, j | 0 <= i < j < |out| ensures RecommendationRank(out[i]) < RecommendationRank(out[j]) {
      assert out[j] == rest[j - 1] && out[j] in rest;
      if i > 0 {
        assert out[i] == rest[i - 1];
      }
    }
  }

  lemma {:induction false} KeepOrdered(rs: seq<Recommendation>, m: VoiceMetrics)
    requires RanksIncrease(rs)
    ensures RanksIncrease(Keep(rs, m))
    decreases |rs|
  {
    if rs != [] {
      var rest := Keep(rs[1..], m);
      RanksIncreaseTail(rs);
      KeepOrdered(rs[1..], m);
      if Wanted(rs[0], m) {
        ConsIncreasing(rs[0], rest);
        assert Keep(rs, m) == [rs[0]] + rest;
      } else {
        assert Keep(rs, m) == [] + rest;
      }
    }
  }

  /** The messages keep the fixed order: pace, pitch, fillers, volume, clarity. */
  lemma RecommendationsOrdered(m: VoiceMetrics)
    ensures RanksIncrease(GenerateRecommendations(m))
  {
    KeepOrdered(Candidates(m), m);
  }

  function PitchPoints(q: PitchQuality): real {
    match q
    case Monotone => 0.4
    case Adequate => 0.7
    case Expressive => 1.0
  }

  /** `Normal` is not a key of the rate table and falls back to 0.5. */
  function RatePoints(q: RateQuality): real {
    match q
    case TooFast => 0.6
    case TooSlow => 0.6
    case Optimal => 1.0
    case Normal => 0.5
  }

  /** The filler sub-score: full marks at 0 % density, nothing from 10 % on. */
  function FillerPoints(density: real): (p: real)
    ensures density >= 0.0 ==> 0.0 <= p <= 1.0
    ensures density >= 10.0 ==> p == 0.0
    ensures p == 1.0 - density / 10.0 || p == 0.0
  {
    1.0 - Min(density / 10.0, 1.0)
  }

  function WeightedVoice(m: VoiceMetrics): real {
    m.clarity * 0.20 + m.volumeConsistency * 0.15 + PitchPoints(m.pitchQuality) * 0.20
    + RatePoints(m.speechRateQuality) * 0.20 + m.energyStability * 0.15 + FillerPoints(m.fillerDensity) * 0.10
  }

  /** `_calculate_overall_score`: the weighted sub-scores on a 0-100 scale, clipped. */
  function OverallScore(m: VoiceMetrics): (s: real)
    ensures 0.0 <= s <= 100.0
    ensures 0.0 <= WeightedVoice(m) <= 1.0 ==> s == WeightedVoice(m) * 100.0
  {
    Clamp(WeightedVoice(m) * 100.0, 0.0, 100.0)
  }

  ghost predicate UnitInputs(m: VoiceMetrics) {
    0.0 <= m.clarity <= 1.0 && 0.0 <= m.volumeConsistency <= 1.0 && 0.0 <= m.energyStability <= 1.0 && m.fillerDensity >= 0.0
  }

  /** The six weights sum to 1, so sub-scores in [0,1] never reach the clip. */
  lemma OverallUnclipped(m: VoiceMetrics)
    requires UnitInputs(m)
    ensures 0.0 <= WeightedVoice(m) <= 1.0
    ensures OverallScore(m) == WeightedVoice(m) * 100.0
  {
    assert 0.0 <= FillerPoints(m.fillerDensity) <= 1.0;
    assert 0.4 <= PitchPoints(m.pitchQuality) <= 1.0;
    assert 0.5 <= RatePoints(m.speechRateQuality) <= 1.0;
  }

  /** Perfect sub-scores earn exactly 100. */
  lemma PerfectVoice(m: VoiceMetrics)
    requires m.clarity == 1.0 && m.volumeConsistency == 1.0 && m.energyStability == 1.0 && m.fillerDensity == 0.0
    requires m.pitchQuality == Expressive && m.speechRateQuality == Optimal
    ensures OverallScore(m) == 100.0
  {
  }

  /** Clearer speech never lowers the overall score. */
  lemma OverallMonotoneInClarity(m: VoiceMetrics, c: real)
    requires m.clarity <= c
    ensures OverallScore(m) <= OverallScore(m.(clarity := c))
  {
    assert WeightedVoice(m) <= WeightedVoice(m.(clarity := c));
  }

  // ---------------------------------------------------------------- analyze_audio_chunk

  /** The filler report of the transcript, which counts only when present and non-empty (Python truthiness). */
  function TranscriptFillers(transcript: Option<string>): (r: FillerReport)
    ensures transcript.None? || transcript.value == [] ==> r.words == {} && r.density == 0.0
    ensures 0.0 <= r.density <= 100.0 && r.words <= FillerWords
  {
    if transcript.Some? && transcript.value != [] then DetectFillerWords(transcript.value)
    else FillerReport({}, 0, 0.0)
  }

  /**
   * What an analysed chunk reports: the signal measurements unchanged, the transcript's fillers,
   * both ratings taken from the reported values, the advice those call for and their overall score.
   */
  ghost predicate Analysed(m: VoiceMetrics, transcript: Option<string>, s: Signals) {
    && m.pitchHz == s.pitchHz && m.volumeDb == s.volumeDb && m.clarity == s.clarity
    && m.energy == s.energy && m.energyStability == s.energyStability
    && m.pitchVariation == s.pitchVariation && m.volumeConsistency == s.volumeConsistency
    && m.pauseFrequency == s.pauseFrequency && m.avgPauseLength == s.avgPauseLength && m.rhythm == s.rhythm
    && m.fillerWords == TranscriptFillers(transcript).words && m.fillerDensity == TranscriptFillers(transcript).density
    && m.speechRateQuality == RateSpeechRate(m.speechRateWpm)
    && m.pitchQuality == RatePitchVariation(s.pitchVariation)
    && m.recommendations == GenerateRecommendations(m)
    && 0.0 <= m.overall <= 100.0 && m.overall == OverallScore(m)
  }

  /** Fill the record from the signal measurements, a given speech rate, and the ratings that follow from them. */
  function Complete(wpm: real, transcript: Option<string>, s: Signals): (m: VoiceMetrics)
    ensures m.speechRateWpm == wpm
    ensures Analysed(m, transcript, s)
  {
    var f := TranscriptFillers(transcript);
    var m0 := DefaultMetrics.(
      speechRateWpm := wpm,
      pitchHz := s.pitchHz, volumeDb := s.volumeDb, clarity := s.clarity,
      energy := s.energy, energyStability := s.energyStability);
    var m1 := m0.(fillerWords := f.words, fillerDensity := f.density);
    var m2 := m1.(
      pitchVariation := s.pitchVariation, pauseFrequency := s.pauseFrequency,
      avgPauseLength := s.avgPauseLength, rhythm := s.rhythm,
      speechRateQuality := RateSpeechRate(wpm), pitchQuality := RatePitchVariation(s.pitchVariation),
      volumeConsistency := s.volumeConsistency);
    var m3 := m2.(recommendations := GenerateRecommendations(m2));
    KeepSameRatings(Candidates(m2), m2, m3);
    var m4 := m3.(overall := OverallScore(m3));
    KeepSameRatings(Candidates(m3), m3, m4);
    m4
  }

  /** A chunk shorter than half a second of samples. */
  predicate Short(sampleCount: nat, sampleRate: nat) {
    (sampleCount as real) < (sampleRate as real) * 0.5
  }

  /**
   * `analyze_audio_chunk` as written: a short chunk reports the defaults; any other chunk is analysed,
   * but its speech rate is never computed, so it stays 0 and is rated too slow.
   */
  function AnalyzeAudioChunk(sampleCount: nat, sampleRate: nat, transcript: Option<string>, s: Signals): (m: VoiceMetrics)
    ensures Short(sampleCount, sampleRate) ==> m == DefaultMetrics
    ensures !Short(sampleCount, sampleRate) ==> Analysed(m, transcript, s)
    ensures !Short(sampleCount, sampleRate) ==> m.speechRateWpm == 0.0 && m.speechRateQuality == TooSlow
    ensures 0.0 <= m.overall <= 100.0
  {
    if Short(sampleCount, sampleRate) then DefaultMetrics else Complete(0.0, transcript, s)
  }

  /** As written, every analysed chunk is told to speed up and never to slow down, whatever was said. */
  lemma RateAlwaysTooSlow(sampleCount: nat, sampleRate: nat, transcript: Option<string>, s: Signals)
    requires !Short(sampleCount, sampleRate)
    ensures AnalyzeAudioChunk(sampleCount, sampleRate, transcript, s).speechRateQuality == TooSlow
    ensures SpeedUp in AnalyzeAudioChunk(sampleCount, sampleRate, transcript, s).recommendations
    ensures SlowDown !in AnalyzeAudioChunk(sampleCount, sampleRate, transcript, s).recommendations
  {
    RecommendationsFollowMetrics(AnalyzeAudioChunk(sampleCount, sampleRate, transcript, s));
  }

  /** The chunk's length in seconds. */
  function Duration(sampleCount: nat, sampleRate: nat): (d: real)
    ensures d >= 0.0
    ensures sampleRate > 0 ==> d * (sampleRate as real) == sampleCount as real
    ensures sampleRate > 0 && !Short(sampleCount, sampleRate) ==> d >= 0.5
  {
    if sampleRate == 0 then 0.0
    else
      var d := (sampleCount as real) / (sampleRate as real);
      assert d * (sampleRate as real) == sampleCount as real;
      assert d < 0.5 ==> d * (sampleRate as real) < 0.5 * (sampleRate as real);
      d
  }

  /**
   * `analyze_audio_chunk` with the speech rate taken from the transcript and the chunk length:
   * an analysed chunk reports its words per minute and is rated by it.
   */
  function AnalyzeAudioChunkIntended(sampleCount: nat, sampleRate: nat, transcript: Option<string>, s: Signals): (m: VoiceMetrics)
    ensures Short(sampleCount, sampleRate) ==> m == DefaultMetrics
    ensures !Short(sampleCount, sampleRate) ==> Analysed(m, transcript, s)
    ensures !Short(sampleCount, sampleRate) ==>
      m.speechRateWpm == CalculateSpeechRate(Duration(sampleCount, sampleRate), transcript.GetOr(""))
    ensures !Short(sampleCount, sampleRate) && sampleRate > 0 ==>
      (m.speechRateWpm == 0.0 <==> Blank(transcript.GetOr("")))
    ensures 0.0 <= m.overall <= 100.0
  {
    if Short(sampleCount, sampleRate) then DefaultMetrics
    else
      Complete(CalculateSpeechRate(Duration(sampleCount, sampleRate), transcript.GetOr("")), transcript, s)
  }

  /** With the rate computed, a chunk spoken at 100 to 160 words per minute is rated optimal and gets no pace advice. */
  lemma IntendedRatesThePace(sampleCount: nat, sampleRate: nat, transcript: Option<string>, s: Signals)
    requires !Short(sampleCount, sampleRate)
    requires 100.0 <= AnalyzeAudioChunkIntended(sampleCount, sampleRate, transcript, s).speechRateWpm <= 160.0
    ensures AnalyzeAudioChunkIntended(sampleCount, sampleRate, transcript, s).speechRateQuality == Optimal
    ensures SpeedUp !in AnalyzeAudioChunkIntended(sampleCount, sampleRate, transcript, s).recommendations
    ensures SlowDown !in AnalyzeAudioChunkIntended(sampleCount, sampleRate, transcript, s).recommendations
  {
    RecommendationsFollowMetrics(AnalyzeAudioChunkIntended(sampleCount, sampleRate, transcript, s));
  }
}

=== FILE: wrappers.dfy ===
/** Failure-carrying values shared by every module of the model. */
module Wrappers {

  /** A value that may be absent: Python's `None`, a missing snapshot. */
  datatype Option<+T> = None | Some(value: T) {
    function GetOr(default: T): T {
      match this
      case Some(v) => v
      case None => default
    }
  }

  /** An outcome that is either a value or the error the source would raise or return. */
  datatype Result<+T, +E> = Ok(value: T) | Err(error: E)
}
